=== FILE: README.md ===
# ValveResourceFormat core logic in Dafny

This project models the decision logic at the heart of ValveResourceFormat, a library and viewer for Source 2 game resources, and proves properties about it. Every operation is a pure function or a small method over immutable datatypes; floats become `real`.

- **Particle operators and initializers** (`GUI/Types/ParticleRenderer`). A particle is a record with a `killed` flag. Each operator is a pure step from its configuration, a particle and the control points to a new particle, applied over `seq<Particle>`. The operators are FadeAndKill, ColorInterpolateRandom, RemapSpeed, LerpToOtherAttribute, InterpolateRadius, SetFloat, SetVec, DistanceCull, LerpScalar, ClampScalar, MaxVelocity, FadeOutSimple, Decay and CreateWithinSphere. The helpers these operators call are not part of this model: `MathUtils`, the `RandomBetween*` draws, `ModifyScalarBySetMethod`, `NormalizedAge`, `Vector3.Length`/`Normalize` and `MathF.Pow`. They are fields of a `Particles.Helpers` record of total functions, and each fact a proof relies on is a named predicate over that record. Examples are `Saturate(x)` lying in [0,1] and `Lerp(1, a, b) == b`.
- **Sprite rendering** (`RenderSprites`): the vertex-buffer growth policy, sequence and UV selection, and the per-vertex colour.
- **Model extraction** (`ModelExtract`, `FaceSets`): DMX face-set generation, hull edge walks, phys-mesh face sets per surface, the flattened index buffer, embedded DMX file names and surface-tag combos.
- **Map extraction** (`MapEntities`, `MapDocument`): path suffix tests, `hammeruniqueid` lineage parsing, property stringification, entity destinations and parent groups, world layers and static props.
- **Shader data** (`ShaderDataProvider`): texture-channel tables with fallbacks, suffix matching, non-static map guesses, the shader cache, and the full provider's static-configuration rules.
- **Tree view** (`BetterTreeView`, `ContentSearch`): breadth-first search, query preparation, the icon list, folder insertion, and the byte-pattern content search with its offset attribution.
- **Renderer scene set-up** (`WorldLoader`, `ModelSceneNode`, `ModelMeshes`, `SceneAggregate`, `MaterialLoader`): lightmap validity, entity order and classification, env-map indices, mesh-group and skin selection, aggregate fragments, material texture fallbacks, parameter defaults and caches.
- **Shared .NET semantics** (`Text`, `Paths`, `Seqs`, `Vectors`, `Wrappers`): the parts of string handling, `System.IO.Path`, sequences and `Result`/`Option` that the other modules need.

## Model

| member | source | states |
|---|---|---|
| FadeAndKill.Update | GUI/Types/ParticleRenderer/Operators/FadeAndKill.cs:26-55 | only alpha and the killed flag change; inside the fade-out window alpha is the blend from the initial alpha to endAlpha, which wins over the fade-in where the windows overlap; inside the fade-in only, the blend from startAlpha to the initial alpha; outside both, alpha is kept; the particle is killed exactly when its normalised age reaches endFadeOutTime |
| FadeAndKill.UpdateIdempotent | GUI/Types/ParticleRenderer/Operators/FadeAndKill.cs:30-53 | both blends read the initial alpha and the age, so applying the update twice equals applying it once |
| FadeAndKill.DefaultsOverlapFadeOutWins | GUI/Types/ParticleRenderer/Operators/FadeAndKill.cs:8-14 | with the default windows (0..0.5 and 0.5..1) a particle at normalised age 0.5 gets the fade-out blend and is not killed |
| FadeAndKill.DefaultsKillAtEnd | GUI/Types/ParticleRenderer/Operators/FadeAndKill.cs:11-53 | with the defaults a particle at normalised age 1 or more is killed |
| ColorInterpolateRandom.ColorBound | GUI/Types/ParticleRenderer/Operators/ColorInterpolateRandom.cs:19-29 | a missing bound keeps the default; a 0-255 triple becomes the colour with each component times 255 equal to the integer, inside [0,1] when the integers are; fewer than three values is an error |
| ColorInterpolateRandom.FromDefinition | GUI/Types/ParticleRenderer/Operators/ColorInterpolateRandom.cs:10-35 | with no colour keys both bounds are white; the configuration exists exactly when both colour bounds could be read |
| ColorInterpolateRandom.Operate | GUI/Types/ParticleRenderer/Operators/ColorInterpolateRandom.cs:37-56 | only the output vector field is written; inside the fade window it becomes the blend from the INITIAL colour field to the particle's target colour; outside the window the particle is unchanged |
| ColorInterpolateRandom.TargetDependsOnIdOnly | GUI/Types/ParticleRenderer/Operators/ColorInterpolateRandom.cs:42-44 | two particles with the same ID get the same target colour, whichever draw easeInOut selects |
| ColorInterpolateRandom.OperateIdempotent | GUI/Types/ParticleRenderer/Operators/ColorInterpolateRandom.cs:46-53 | the blend starts from the initial colour, so applying the operator twice equals applying it once |
| RemapSpeed.Operate | GUI/Types/ParticleRenderer/Operators/RemapSpeed.cs:26-46 | only the output scalar field is written, with the set method applied to the speed remapped from the per-particle input range, saturated, and blended into the per-particle output range |
| RemapSpeed.RemappedSpeedBetweenOutputs | GUI/Types/ParticleRenderer/Operators/RemapSpeed.cs:33-40 | because the remapped speed is saturated into [0,1] before the blend, the value handed to the set method lies between the two output bounds |
| RemapSpeed.ReplaceWritesRemappedSpeed | GUI/Types/ParticleRenderer/Operators/RemapSpeed.cs:14-44 | with the replace set method (the default) the output field is the remapped speed itself |
| LerpToOtherAttribute.Update | GUI/Types/ParticleRenderer/Operators/LerpToOtherAttribute.cs:19-46 | fields of different types change nothing; otherwise only the output field is written, with the blend by the interpolation amount from the current output value to the current input value, for vector and scalar fields alike |
| LerpToOtherAttribute.FullInterpolationCopies | GUI/Types/ParticleRenderer/Operators/LerpToOtherAttribute.cs:10-42 | with interpolation 1 (the default) the output field takes the input field's value |
| LerpToOtherAttribute.DefaultsChangeNothing | GUI/Types/ParticleRenderer/Operators/LerpToOtherAttribute.cs:8-10 | the default configuration blends Color into itself and leaves the particle unchanged |
| InterpolateRadius.Update | GUI/Types/ParticleRenderer/Operators/InterpolateRadius.cs:25-43 | only the radius changes; inside the normalised-age window it is the INITIAL radius times the biased blend between the two scales; outside the window the particle is unchanged |
| InterpolateRadius.DefaultsKeepInitialRadius | GUI/Types/ParticleRenderer/Operators/InterpolateRadius.cs:11-40 | with the default scales of 1 the radius inside the window is reset to the initial radius |
| InterpolateRadius.UpdateIdempotent | GUI/Types/ParticleRenderer/Operators/InterpolateRadius.cs:29-40 | the radius derives from the initial radius, so with literal scales and bias a second application in the same frame changes nothing |
| SetFloat.Update | GUI/Types/ParticleRenderer/Operators/SetFloat.cs:24-38 | only the output field is written: the blend by the lerp amount from the field's CURRENT value (the source's "initialValue") to the set-method result of the evaluated input |
| SetFloat.FullLerpWritesSetValue | GUI/Types/ParticleRenderer/Operators/SetFloat.cs:11-34 | with lerp 1 (the default) the field becomes the set-method result |
| SetFloat.ZeroLerpChangesNothing | GUI/Types/ParticleRenderer/Operators/SetFloat.cs:32-36 | with lerp 0 the particle is unchanged |
| SetFloat.DefaultsZeroTheRadius | GUI/Types/ParticleRenderer/Operators/SetFloat.cs:8-11 | the defaults (radius, value 0, replace, lerp 1) set every radius to 0 |
| SetVec.Operate | GUI/Types/ParticleRenderer/Operators/SetVec.cs:23-37 | only the output vector field is written: the blend by the lerp amount from its current value to the set-method result of the evaluated input vector |
| SetVec.FullLerpWritesSetValue | GUI/Types/ParticleRenderer/Operators/SetVec.cs:12-33 | with lerp 1 (the default) the field becomes the set-method result |
| SetVec.DefaultsBlackenColor | GUI/Types/ParticleRenderer/Operators/SetVec.cs:9-12 | the defaults (colour, zero vector, replace, lerp 1) set every colour to black |
| DistanceCull.CulledBySphere | GUI/Types/ParticleRenderer/Operators/DistanceCull.cs:25-34 | with cullInside a position is culled exactly when its distance from the control point plus offset is strictly less than `distance`, otherwise exactly when it is strictly greater; a position on the sphere is never culled |
| DistanceCull.Update | GUI/Types/ParticleRenderer/Operators/DistanceCull.cs:35-44 | only the killed flag changes, and the particle ends up killed exactly when it already was or its position is culled |
| DistanceCull.DefaultsCullAnyDistance | GUI/Types/ParticleRenderer/Operators/DistanceCull.cs:11-14 | with the defaults (radius 0, cull outside) a position is culled exactly when it is not at the control point |
| DistanceCull.CullInsideMirrors | GUI/Types/ParticleRenderer/Operators/DistanceCull.cs:31-33 | off the sphere surface, setting cullInside culls exactly the positions it kept before |
| LerpScalar.Operate | GUI/Types/ParticleRenderer/Operators/LerpScalar.cs:20-32 | every particle's output field is written unconditionally, and only that field: the blend, weighted by the saturated position of the ABSOLUTE age in the window, from the field's initial value to the target |
| LerpScalar.OperateStaysBetween | GUI/Types/ParticleRenderer/Operators/LerpScalar.cs:26-28 | the weight is saturated, so the written value lies between the initial value and the target |
| ClampScalar.Clamp | GUI/Types/ParticleRenderer/Operators/ClampScalar.cs:28 | Math.Clamp: defined exactly when lo <= hi, and then the result lies in [lo, hi], equals the value when it is inside, and the nearer bound otherwise |
| ClampScalar.ClampIdempotent | GUI/Types/ParticleRenderer/Operators/ClampScalar.cs:28 | clamping a clamped value again changes nothing |
| ClampScalar.Update | GUI/Types/ParticleRenderer/Operators/ClampScalar.cs:22-30 | the update throws exactly when the fixed-up bounds are still inverted; otherwise only the output field changes, it lies within the fixed-up bounds, and a value already inside them leaves the particle unchanged |
| ClampScalar.UpdateAll | GUI/Types/ParticleRenderer/Operators/ClampScalar.cs:20-31 | the frame succeeds exactly when every particle's update does, and then particle i is the update of particle i |
| ClampScalar.FixUpPreventsFailure | GUI/Types/ParticleRenderer/Operators/ClampScalar.cs:24-28 | because MinMaxFixUp orders the bounds, a frame never throws |
| ClampScalar.UpdateIdempotent | GUI/Types/ParticleRenderer/Operators/ClampScalar.cs:24-29 | with literal bounds a second application in the same frame changes nothing |
| MaxVelocity.Cap | GUI/Types/ParticleRenderer/Operators/MaxVelocity.cs:20-26 | the cap is the configured maximum, or, when the override control point is above -1, the selected component of that control point's position |
| MaxVelocity.Limit | GUI/Types/ParticleRenderer/Operators/MaxVelocity.cs:30-33 | only the velocity changes; a velocity no longer than the cap is kept, a longer one becomes the normalised velocity times the cap |
| MaxVelocity.Update | GUI/Types/ParticleRenderer/Operators/MaxVelocity.cs:18-35 | the cap is computed once per frame and every particle is limited by it |
| MaxVelocity.LimitedLengthIsCap | GUI/Types/ParticleRenderer/Operators/MaxVelocity.cs:30-33 | a capped velocity ends with length equal to the cap's magnitude, so exactly the cap when the cap is non-negative |
| MaxVelocity.DefaultsStopParticles | GUI/Types/ParticleRenderer/Operators/MaxVelocity.cs:7-8 | with the default cap of 0 every moving particle stops |
| MaxVelocity.OverrideSelectsAxis | GUI/Types/ParticleRenderer/Operators/MaxVelocity.cs:21-26 | with the override, component 0, 1 or 2 caps by the control point's X, Y or Z |
| FadeOutSimple.Update | GUI/Types/ParticleRenderer/Operators/FadeOutSimple.cs:16-28 | only the output field is written, and only when the remaining normalised life is at most fadeOutTime: then the field times fadeOutTime equals the remaining life times the initial alpha; otherwise the particle is unchanged |
| FadeOutSimple.FadeEndpoints | GUI/Types/ParticleRenderer/Operators/FadeOutSimple.cs:20-25 | the output is 0 at the end of life and the initial alpha where the fade begins |
| Decay.Update | GUI/Types/ParticleRenderer/Operators/Decay.cs:9-18 | only the killed flag changes, and the particle ends up killed exactly when it already was or its age exceeds its lifetime |
| Decay.UpdateIdempotent | GUI/Types/ParticleRenderer/Operators/Decay.cs:13-16 | a second application changes nothing, and a killed particle is left as it is |
| CreateWithinSphere.Initialize | GUI/Types/ParticleRenderer/Initializers/CreateWithinSphere.cs:26-52 | only position and velocity change: the position moves by the normalised random direction times the drawn distance, and the velocity is that direction times the drawn speed plus the drawn local-space speed |
| CreateWithinSphere.FixedRadiusLandsOnSphere | GUI/Types/ParticleRenderer/Initializers/CreateWithinSphere.cs:28-48 | with equal radius bounds R >= 0 (and a non-zero random vector) the particle moves exactly distance R |
| CreateWithinSphere.ZeroSpeedKeepsLocalSpeed | GUI/Types/ParticleRenderer/Initializers/CreateWithinSphere.cs:38-49 | with zero speed bounds the velocity is the local-space speed alone |
| CreateWithinSphere.SameSeedForDistanceAndSpeed | GUI/Types/ParticleRenderer/Initializers/CreateWithinSphere.cs:33-41 | distance and speed are drawn with the same particle seed, so equal bounds give equal draws |
| CreateWithinSphere.DefaultsKeepPosition | GUI/Types/ParticleRenderer/Initializers/CreateWithinSphere.cs:9-14 | the all-zero defaults leave the position unchanged and give a zero velocity |
| RenderSprites.TextureName | GUI/Types/ParticleRenderer/Renderers/RenderSprites.cs:50-65 | m_hTexture wins when present; otherwise the first entry of a non-empty m_vecTexturesInput; otherwise no texture |
| RenderSprites.CsRemainder | GUI/Types/ParticleRenderer/Renderers/RenderSprites.cs:214-224 | the C# integer remainder: agrees with the mathematical one for a non-negative dividend, lies strictly between -n and n, is never positive for a negative dividend, and is the dividend itself when that lies strictly between -n and 0 |
| RenderSprites.FrameIndex | GUI/Types/ParticleRenderer/Renderers/RenderSprites.cs:216-224 | the frame index chosen by the animation time lies strictly between minus the frame count and the frame count |
| RenderSprites.QuadUVs | GUI/Types/ParticleRenderer/Renderers/RenderSprites.cs:210-250 | without a sheet whose first sequence has frames the default unit square is used; otherwise the sequence is Sequence % count as a C# remainder, and a negative remainder fails with an index error; a chosen sequence without frames fails with a division by zero; the frame is FrameIndex of the animation time, and a negative index or a frame without images fails; otherwise the UVs are the cropped rectangle of that frame's first image |
| RenderSprites.SequenceWraps | GUI/Types/ParticleRenderer/Renderers/RenderSprites.cs:214 | two non-negative Sequence values that differ by a multiple of the sequence count give the same coordinates |
| RenderSprites.SameSequenceSameUVs | GUI/Types/ParticleRenderer/Renderers/RenderSprites.cs:214-225 | particles that differ only in Sequence and choose the same sequence get the same coordinates |
| RenderSprites.FrameIndexByTime | GUI/Types/ParticleRenderer/Renderers/RenderSprites.cs:216-224 | the frame chosen depends on the particle only through its animation time, not its Sequence |
| RenderSprites.ModuloShift | GUI/Types/ParticleRenderer/Renderers/RenderSprites.cs:214 | adding a multiple of the count to a non-negative Sequence that stays non-negative keeps its remainder |
| RenderSprites.SheetUVsAreFirstImage | GUI/Types/ParticleRenderer/Renderers/RenderSprites.cs:214-238 | a successful lookup in a sheet means the chosen sequence has frames, the chosen frame has images, and the UVs are the rectangle of its first image |
| RenderSprites.RectangleCorners | GUI/Types/ParticleRenderer/Renderers/RenderSprites.cs:227-238 | the four UVs are, in order, (min.u, max.v), the cropped minimum, (max.u, min.v) and the cropped maximum |
| RenderSprites.VertexFloats | GUI/Types/ParticleRenderer/Renderers/RenderSprites.cs:129-135 | every vertex occupies nine floats |
| RenderSprites.FlattenAt | GUI/Types/ParticleRenderer/Renderers/RenderSprites.cs:186-207 | float 9k + off of the buffer layout is attribute off of vertex k |
| RenderSprites.QuadVertices | GUI/Types/ParticleRenderer/Renderers/RenderSprites.cs:181-208 | the four vertices of a particle carry the quad corners, the particle colour, its alpha times alphaScale and the chosen UVs |
| RenderSprites.AllVertices | GUI/Types/ParticleRenderer/Renderers/RenderSprites.cs:172-251 | succeeds exactly when every particle's UV lookup succeeds; then there are four vertices per particle, and vertex 4i+j is vertex j of particle i |
| RenderSprites.EnsureSpace | GUI/Types/ParticleRenderer/Renderers/RenderSprites.cs:146-159 | the buffer holds at least count vertices; a missing buffer gets exactly count; a large-enough buffer is kept; a small one grows to the next multiple of 64 vertices above count, keeping its prefix |
| RenderSprites.EnsureSpaceStable | GUI/Types/ParticleRenderer/Renderers/RenderSprites.cs:146-159 | growing the buffer twice for the same count changes nothing the second time |
| RenderSprites.Render | GUI/Types/ParticleRenderer/Renderers/RenderSprites.cs:257-305 | an empty bag draws nothing and leaves the buffer; otherwise success exactly when every vertex can be built, with six indices per particle and room for four vertices per particle |
| RenderSprites.RenderedColor | GUI/Types/ParticleRenderer/Renderers/RenderSprites.cs:200-208 | in the rendered buffer every vertex of particle i holds the particle's colour at offsets 3-5 and its alpha times alphaScale at offset 6 |
| RenderSprites.RenderedVertexFloat | GUI/Types/ParticleRenderer/Renderers/RenderSprites.cs:186-208 | float off of vertex j of particle i in the rendered buffer is attribute off of that particle's j-th vertex |
| RenderSprites.VertexOfParticle | GUI/Types/ParticleRenderer/Renderers/RenderSprites.cs:181-208 | vertex 4i+j of the vertex list is built from particle i's corner j, colour, scaled alpha and UV j |
| RenderSprites.RenderedFloat | GUI/Types/ParticleRenderer/Renderers/RenderSprites.cs:186-254 | the rendered buffer starts with the vertex layout: float 9k + off is attribute off of vertex k |
| RenderSprites.NoSheetNeverFails | GUI/Types/ParticleRenderer/Renderers/RenderSprites.cs:212-250 | without a usable sprite sheet rendering never fails and every particle gets the default UVs |
| MaterialLoader.FormatTables | GUI/Types/Renderer/MaterialLoader.cs:194-239 | the compressed/direct and pixel-data format tables never both claim a format, exactly the fifteen listed formats are supported, and pixel-data formats are uploaded as red or red-green, 16-bit or float |
| MaterialLoader.GenTexture | GUI/Types/Renderer/MaterialLoader.cs:286-290 | a generated texture is a fresh non-zero handle and nothing else in the loader changes |
| MaterialLoader.ColorTexture | GUI/Types/Renderer/MaterialLoader.cs:288-303 | a generated colour texture is a fresh handle with repeat wrapping on both axes |
| MaterialLoader.ErrorTexture | GUI/Types/Renderer/MaterialLoader.cs:252-283 | the error texture is non-zero; once generated the same handle is returned without change; the first call generates the next handle and records it |
| MaterialLoader.ErrorTextureSingleton | GUI/Types/Renderer/MaterialLoader.cs:252-283 | asking for the error texture a second time returns the same handle and leaves the loader as the first call left it |
| MaterialLoader.LoadTexture | GUI/Types/Renderer/MaterialLoader.cs:121-192 | an unsupported format yields the error texture, never the handle just generated; a supported one yields that handle, clamped on S exactly when SUGGEST_CLAMPS is set and on T exactly when SUGGEST_CLAMPT is set; cached materials are untouched |
| MaterialLoader.LoadTextureByName | GUI/Types/Renderer/MaterialLoader.cs:109-119 | a texture whose compiled file cannot be loaded is the error texture |
| MaterialLoader.ParamKeys | GUI/Types/Renderer/MaterialLoader.cs:56-61 | the keys are exactly the names of the texture parameters |
| MaterialLoader.LoadTextures | GUI/Types/Renderer/MaterialLoader.cs:56-61 | the resulting slots are the existing ones plus every texture parameter's name, and a slot changes only when some parameter names it |
| MaterialLoader.FirstFallback | GUI/Types/Renderer/MaterialLoader.cs:78-87 | no fallback exactly when none of the names is present; otherwise the chosen name is present and every name before it is absent |
| MaterialLoader.WithDefault | GUI/Types/Renderer/MaterialLoader.cs:91-104 | a missing key gets the default; a present key and every other entry are kept |
| MaterialLoader.ErrorMaterial | GUI/Types/Renderer/MaterialLoader.cs:242-249 | the error material uses the vrf.error shader and has only g_tColor, bound to the error texture |
| MaterialLoader.MaterialTextures | GUI/Types/Renderer/MaterialLoader.cs:56-88 | the colour slot always exists; a solid-colour material's colour is never the error texture; a material that declares no colour texture nor fallback slot gets the error texture; a material without a declared colour texture takes the texture of the first present fallback slot |
| MaterialLoader.FirstFallbackByKeys | GUI/Types/Renderer/MaterialLoader.cs:75-87 | the fallback slot chosen depends only on which slots are present |
| MaterialLoader.LoadMaterial | GUI/Types/Renderer/MaterialLoader.cs:47-107 | a missing resource gives the error material; loading fails exactly for a solid-colour material without g_vColorTint; a loaded material has a colour slot, with the solid-colour, no-slot and fallback outcomes above, and the vector parameters with their defaults filled in |
| MaterialLoader.VectorDefaults | GUI/Types/Renderer/MaterialLoader.cs:90-104 | the three parameters are always present, existing values are kept, and the defaults are a unit scale, a zero offset and a white tint |
| MaterialLoader.FallBack | GUI/Types/Renderer/MaterialLoader.cs:75-88 | only the colour slot may change, and only when it holds the error texture and a fallback slot exists; it then takes the first present fallback's texture |
| MaterialLoader.FallbackPrefersOrder | GUI/Types/Renderer/MaterialLoader.cs:78 | with g_tColor2 absent and g_tColor1 present, an error colour texture is replaced by g_tColor1 |
| MaterialLoader.GetMaterial | GUI/Types/Renderer/MaterialLoader.cs:26-45 | no name gives an error material and caches nothing; a cached name returns the cached material unchanged; a loaded material is cached under its name and no other cache entry changes |
| MaterialLoader.GetMaterialCached | GUI/Types/Renderer/MaterialLoader.cs:26-45 | a second request for the same name returns the same material and leaves the loader unchanged |
| WorldLoader.CollectLightmaps | GUI/Types/Renderer/WorldLoader.cs:177-184 | a uniform that some listed file maps to holds loadTexture of the last such file (a later file overwrites an earlier one); every other existing uniform keeps its value; no uniform appears that is neither existing nor named by a file |
| WorldLoader.CollectedUniformsPresent | GUI/Types/Renderer/WorldLoader.cs:177-184 | every file whose name maps to a uniform leaves that uniform bound |
| WorldLoader.HasValidLightmaps | GUI/Types/Renderer/WorldLoader.cs:155-193 | valid exactly for version (8, 1) with all four uniforms of the first set, or (8, 2) with all three of the second; (6, 0) and every other pair are invalid |
| WorldLoader.LoadLighting | GUI/Types/Renderer/WorldLoader.cs:158-194 | without lighting info nothing changes; otherwise the lightmap version is taken, the game version only for version 8, and the validity flag agrees with the collected lightmaps |
| WorldLoader.LightmapSetsReachable | GUI/Types/Renderer/WorldLoader.cs:146-156 | every uniform of both required lightmap sets is produced by some lightmap file name, so both sets can be satisfied |
| WorldLoader.LastFileFor | GUI/Types/Renderer/WorldLoader.cs:177-184 | the position of the last file whose uniform is u, with no later file loaded into u, or -1 when none is |
| WorldLoader.FileUniforms | GUI/Types/Renderer/WorldLoader.cs:179-182 | file i is loaded into the uniform its name without directory and extension selects, for every listed file |
| WorldLoader.LoadUniforms | GUI/Types/Renderer/WorldLoader.cs:177-184 | loading the files in order leaves each uniform with the texture of the last file for it, keeps every other existing uniform, and adds no other key |
| WorldLoader.Reorder | GUI/Types/Renderer/WorldLoader.cs:215-224 | the processing order is the cube maps and probes in lump order followed by the other entities in lump order (a stable sort) |
| WorldLoader.PartitionPermutes | GUI/Types/Renderer/WorldLoader.cs:222-224 | splitting a sequence by a predicate and by its negation keeps every element exactly once |
| WorldLoader.ReorderPermutes | GUI/Types/Renderer/WorldLoader.cs:221-228 | the processing order is a permutation of the lump's entities in which no cube map or probe follows another entity |
| WorldLoader.HandShake | GUI/Types/Renderer/WorldLoader.cs:323-327 | a missing or unparsable handshake is 0; otherwise its parsed value |
| WorldLoader.IntProperty | GUI/Types/Renderer/WorldLoader.cs:358-388 | a boxed Int32 is itself; a string is parsed, fails exactly when it does not parse, and otherwise gives its value; a missing property and every other type, including UInt32, UInt64 and Int64, give 0 |
| WorldLoader.UIntProperty | GUI/Types/Renderer/WorldLoader.cs:237 | a boxed UInt32 is itself; a missing property or any other type reads as 0 |
| WorldLoader.TryAdd | GUI/Types/Renderer/WorldLoader.cs:370-374 | the key is present afterwards; an existing value is never replaced; a new key gets the value and the others are kept |
| WorldLoader.AddEnvMap | GUI/Types/Renderer/WorldLoader.cs:345-408 | layers, cameras and probes are untouched; a legacy cube-map texture consumes the next legacy index, which must be below the maximum, and binds g_tEnvironmentMap[index]; other textures leave the counter and take array_index as IntProperty reads it (only a boxed Int32 or a parsable string counts); a positive handshake registers exactly one new map under it and fails if already used; a non-positive one registers nothing |
| WorldLoader.AddLightProbe | GUI/Types/Renderer/WorldLoader.cs:410-447 | a non-positive handshake changes nothing; a positive one fails exactly when already registered, and otherwise adds exactly that probe |
| WorldLoader.CameraName | GUI/Types/Renderer/WorldLoader.cs:512-515 | a non-empty targetname names the camera; otherwise the class name does |
| WorldLoader.HoldAnimation | GUI/Types/Renderer/WorldLoader.cs:598-612 | accepted exactly for a boolean or the strings "0" and "1"; a boolean is taken as it is and "1" means on |
| WorldLoader.UInt64ToInt32 | GUI/Types/Renderer/WorldLoader.cs:627-630 | the unchecked cast gives a 32-bit signed value congruent to the input modulo 2^32 |
| WorldLoader.BodyGroup | GUI/Types/Renderer/WorldLoader.cs:624-637 | a boxed UInt64 is cast to a 32-bit int, a parsable string gives its value, and an unparsable string or any other type, including Int32, gives -1 |
| WorldLoader.BodyGroupSelection | GUI/Types/Renderer/WorldLoader.cs:639 | at most one mesh group is enabled: the one at the position, the first for a negative position, none past the end |
| WorldLoader.CheckGlobalLight | GUI/Types/Renderer/WorldLoader.cs:519-539 | succeeds exactly when the colour is present as a byte array or a vector and, for light_environment, the brightness is present and converts to a float |
| WorldLoader.ProcessEntity | GUI/Types/Renderer/WorldLoader.cs:228-518 | worldspawn changes nothing; registered maps are never replaced; the legacy counter advances exactly for a legacy cube map; a visible info_world_layer enables its layer and only it touches the layers; only cube maps and probes touch maps and probes; cameras with a transform are recorded under their name without overwriting an earlier one |
| WorldLoader.PlaceEntity | GUI/Types/Renderer/WorldLoader.cs:488-612 | only the cameras may change; earlier cameras are kept; a camera entity with a transform adds its name; anything else leaves the cameras alone; a global light with a transform (not a camera) fails exactly when its colour or brightness cannot be read |
| WorldLoader.ApplyClass | GUI/Types/Renderer/WorldLoader.cs:230-448 | the class-specific rules keep the cameras and every registered map, advance the legacy counter exactly for a legacy cube map, change layers only for info_world_layer and maps only for cube maps and probes; an info_world_layer never fails and enables its layer exactly when bit 0 of spawnflags, read as a UInt32, is set |
| WorldLoader.ProcessAll | GUI/Types/Renderer/WorldLoader.cs:228-670 | processing a list of entities never disables a layer and never drops or replaces a registered environment map |
| WorldLoader.LegacyIndicesConsecutive | GUI/Types/Renderer/WorldLoader.cs:366-380 | after a successful pass the legacy counter has advanced by exactly the number of legacy cube maps, and every index used was below the maximum |
| WorldLoader.LoadLump | GUI/Types/Renderer/WorldLoader.cs:196-228 | loading a lump (children first) never disables a layer |
| WorldLoader.LoadChildren | GUI/Types/Renderer/WorldLoader.cs:198-213 | loading child lumps never disables a layer |
| WorldLoader.LoadLumps | GUI/Types/Renderer/WorldLoader.cs:56-71 | loading the world's lumps, each under the world_layer_base layer, never disables a layer, and no lumps change nothing |
| WorldLoader.Load | GUI/Types/Renderer/WorldLoader.cs:38-71 | the Entities layer is enabled after any successful load; the scene's lighting info is the one LoadWorldLightingInfo produces (versions and validity flag) and its lightmaps are the loader's; the BRDF lookup table, when it loads, is bound under g_tBRDFLookup; every lightmap of the world lighting info, other than a g_tBRDFLookup the table replaced, keeps its texture through the lumps; no lumps leave the lit initial state; a failure loading the first lump under world_layer_base is the failure of the load |
| WorldLoader.LitState | GUI/Types/Renderer/WorldLoader.cs:41-54 | before the lumps the loader state is the initial one except for its lightmaps, which are the world lighting info's plus the BRDF lookup table stored over any earlier g_tBRDFLookup, and nothing else |
| WorldLoader.EntitiesLayerAlwaysEnabled | GUI/Types/Renderer/WorldLoader.cs:38-71 | the Entities layer is enabled after any successful load, whatever the lighting info and the world's lumps under world_layer_base |
| ModelSceneNode.Tint | GUI/Types/Renderer/ModelSceneNode.cs:18-26 | the tint is the first renderer's, or white (all ones) without renderers |
| ModelSceneNode.SetTint | GUI/Types/Renderer/ModelSceneNode.cs:27-33 | every renderer gets the tint and nothing else about the node changes |
| ModelSceneNode.TintRoundTrip | GUI/Types/Renderer/ModelSceneNode.cs:16-34 | with at least one renderer, reading the tint after setting it gives the tint set |
| ModelSceneNode.BuildSkinMap | GUI/Types/Renderer/ModelSceneNode.cs:134-139 | the skin map's keys are exactly the default materials |
| ModelSceneNode.SkinMapLastWins | GUI/Types/Renderer/ModelSceneNode.cs:136-139 | a default material maps to the skin material at its last position in the default list |
| ModelSceneNode.SkinMapLastWinsAll | GUI/Types/Renderer/ModelSceneNode.cs:136-139 | for every default material, the entry written by its last position is the one kept |
| ModelSceneNode.FindGroup | GUI/Types/Renderer/ModelSceneNode.cs:125-142 | no group is found exactly when no group has the skin's name; otherwise it is the first group with that name |
| ModelSceneNode.WithSkin | GUI/Types/Renderer/ModelSceneNode.cs:145-148 | every renderer receives the given skin map and is otherwise unchanged |
| ModelSceneNode.SetSkin | GUI/Types/Renderer/ModelSceneNode.cs:120-149 | an unknown skin keeps the previous map; a known skin fails exactly when its material list is shorter than the defaults, and otherwise maps every default material to the chosen group's material at its (last) position; every renderer receives the resulting map and nothing else changes |
| ModelSceneNode.UnknownSkinKeepsMap | GUI/Types/Renderer/ModelSceneNode.cs:125-148 | choosing an unknown skin after a known one keeps the known skin's map |
| ModelSceneNode.LoadAnimations | GUI/Types/Renderer/ModelSceneNode.cs:151-165 | a second call changes nothing; the first appends the model's animations, marks them loaded and creates the animation texture when there is any animation |
| ModelSceneNode.LoadAnimationsOnce | GUI/Types/Renderer/ModelSceneNode.cs:151-158 | loading animations twice is the same as loading them once |
| ModelSceneNode.LoadMeshes | GUI/Types/Renderer/ModelSceneNode.cs:167-188 | every renderer comes from a LoD-0 embedded mesh or a LoD-0 referenced mesh whose compiled file loads, and carries the node's tint and skin; every LoD-0 embedded mesh, and every LoD-0 referenced mesh whose compiled file loads, gets a renderer |
| ModelSceneNode.EmbeddedRenderers | GUI/Types/Renderer/ModelSceneNode.cs:170-174 | one renderer per embedded mesh, in the meshes' order: the i-th renderer draws the i-th mesh with its index, the node's tint and its skin; no other renderer appears |
| ModelSceneNode.LoadReferenced | GUI/Types/Renderer/ModelSceneNode.cs:177-188 | a referenced mesh gets a renderer exactly when its compiled file loads; a reference that does not load is skipped |
| ModelSceneNode.Marked | GUI/Types/Renderer/ModelSceneNode.cs:253-261 | each renderer position is listed once when the group's mask marks its mesh index, and not otherwise |
| ModelSceneNode.ActiveFor | GUI/Types/Renderer/ModelSceneNode.cs:250-262 | succeeds exactly when every active group's mask covers every renderer's mesh index; then each renderer is listed once per group whose mask marks it |
| ModelSceneNode.AllPositions | GUI/Types/Renderer/ModelSceneNode.cs:264-267 | every renderer position in order, once each |
| ModelSceneNode.IntersectGroups | GUI/Types/Renderer/ModelSceneNode.cs:245 | the active groups are exactly the model's groups that were requested, without repetition |
| ModelSceneNode.SetActiveMeshGroups | GUI/Types/Renderer/ModelSceneNode.cs:243-268 | only the active groups and renderers change; the active groups are the requested model groups; with at most one model group every renderer is active; otherwise it fails exactly when a mask misses a mesh index, and each renderer is active once per active group that marks it |
| ModelSceneNode.ActiveIffMarked | GUI/Types/Renderer/ModelSceneNode.cs:250-262 | a renderer is active at least once exactly when some active group's mask marks its mesh index |
| ModelSceneNode.Construct | GUI/Types/Renderer/ModelSceneNode.cs:50-69 | the animations are loaded exactly when requested; every renderer carries the node's skin map; without a skin there is no skin map |
| ModelMeshes.LoD0References | GUI/Types/Renderer/ModelSceneNode.cs:178 | the kept references are exactly those whose LoD mask has bit 0 set |
| ModelMeshes.LoD0Embedded | GUI/Types/Renderer/ModelSceneNode.cs:170 | the kept embedded meshes are exactly those whose LoD mask has bit 0 set |
| ModelMeshes.CompiledName | GUI/Types/Renderer/ModelSceneNode.cs:180 | the compiled file name is the mesh name followed by "_c" |
| ModelMeshes.LoD0Of | GUI/Types/Renderer/ModelSceneNode.cs:170-178 | the entries kept are exactly those whose LoD mask has bit 0 set, and no more than the input |
| SceneAggregate.Construct | GUI/Types/Renderer/SceneAggregate.cs:39-76 | a single embedded mesh is the render mesh; more than one embedded mesh throws; without embedded meshes, no LoD-0 reference or more than one throws; a single LoD-0 reference always succeeds, leaving no render mesh exactly when its compiled file does not load, and otherwise the render mesh is that file's mesh |
| SceneAggregate.FragmentsPerDrawCall | GUI/Types/Renderer/SceneAggregate.cs:82-101 | succeeds exactly when every opaque draw call's MeshId selects an aggregate mesh with two world-bound corners; then there is one fragment per draw call, in order, bounded by those world bounds, and the fragment's draw call carries the same bounds |
| SceneAggregate.ResolvedPrefix | GUI/Types/Renderer/SceneAggregate.cs:85-89 | the number of leading draw calls that select world bounds: all before it do, and the one at it (if any) does not |
| SceneAggregate.BoundCalls | GUI/Types/Renderer/SceneAggregate.cs:85-89 | the render mesh's own draw calls afterwards: each call before the first one that throws gets its aggregate mesh's world bounds as DrawBounds, and every later call is unchanged |
| SceneAggregate.DrawCallLayoutSucceedsIff | GUI/Types/Renderer/SceneAggregate.cs:82-101 | the draw-call layout succeeds exactly when every draw call selects world bounds |
| SceneAggregate.FragmentsShareDrawCalls | GUI/Types/Renderer/SceneAggregate.cs:89-94 | each fragment holds the same draw call, bounds included, that the render mesh holds after the pass |
| SceneAggregate.MeshAfterFragments | GUI/Types/Renderer/SceneAggregate.cs:78-101 | the render mesh keeps its bounding box and draw-call ids; only the draw-call layout writes bounds into its draw calls, and the mesh layout leaves it unchanged |
| SceneAggregate.TransformCount | GUI/Types/Renderer/SceneAggregate.cs:120-123 | at most one transform is consumed per aggregate mesh |
| SceneAggregate.TransformCountAppend | GUI/Types/Renderer/SceneAggregate.cs:103-123 | the transforms consumed by two runs of meshes add up |
| SceneAggregate.FragmentsPerMesh | GUI/Types/Renderer/SceneAggregate.cs:103-126 | succeeds exactly when every aggregate mesh's draw call index selects an opaque draw call and there are enough fragment transforms for the meshes that have one; then there is exactly one fragment per aggregate mesh |
| SceneAggregate.FragmentsPerMeshAt | GUI/Types/Renderer/SceneAggregate.cs:107-125 | fragment i points at mesh i's draw call, is bounded by the call's bounds or else the mesh bounding box, is tinted with mesh i's tint, carries the parent's name and layer, and takes the next unused transform exactly when mesh i has one |
| SceneAggregate.FragmentsPerMeshNamed | GUI/Types/Renderer/SceneAggregate.cs:27-112 | every fragment of the mesh-to-draw-call layout carries the parent's name and layer |
| SceneAggregate.CreateFragments | GUI/Types/Renderer/SceneAggregate.cs:78-127 | the draw-call layout is used exactly when the first aggregate mesh has no draw call index, the mesh layout otherwise; every fragment carries the parent's name and layer |
| SceneAggregate.TransformsConsumedInOrder | GUI/Types/Renderer/SceneAggregate.cs:103-123 | in the mesh layout the k-th fragment that has a transform receives fragment transform k |
| SceneAggregate.NoMeshesNoFragments | GUI/Types/Renderer/SceneAggregate.cs:83-107 | no aggregate meshes give no fragments |
| ShaderDataProvider.TryFigureOutNonStaticMap | ValveResourceFormat/IO/ShaderDataProvider.cs:530-562 | an open channel is named exactly for g_tColor of vr_complex (always) or of vr_simple (when the metalness or ambient-occlusion flag is set), and the name is never empty |
| ShaderDataProvider.ResolveMappings | ValveResourceFormat/IO/ShaderDataProvider.cs:504-513 | resolving the table entry never adds inputs |
| ShaderDataProvider.ResolveMappingsSound | ValveResourceFormat/IO/ShaderDataProvider.cs:504-513 | every named table input is kept, and no unnamed input survives |
| ShaderDataProvider.ResolveMappingsOrigin | ValveResourceFormat/IO/ShaderDataProvider.cs:504-513 | every resolved input is a table input, or an open table channel named by TryFigureOutNonStaticMap; without that name only table inputs remain |
| ShaderDataProvider.TailMember | ValveResourceFormat/IO/ShaderDataProvider.cs:504 | whatever the rest of the table holds, the table holds |
| ShaderDataProvider.BasicInputsCases | ValveResourceFormat/IO/ShaderDataProvider.cs:494-514 | an unknown shader or texture gives the single RGBA input named with "g_t" replaced by "Texture"; a known one gives at most its table's inputs, all named, keeping every named table input |
| ShaderDataProvider.ExtensionStripped | ValveResourceFormat/IO/ShaderDataProvider.cs:496 | a shader file name with ".vfx" has the same inputs as the bare shader name |
| ShaderDataProvider.ResolveOpenAlpha | ValveResourceFormat/IO/ShaderDataProvider.cs:504-513 | a named input followed by an open alpha keeps the alpha with the resolved name, or drops it when there is none |
| ShaderDataProvider.KnownShaderInputs | ValveResourceFormat/IO/ShaderDataProvider.cs:494-514 | a known shader's file name gives the resolution of its table entry |
| ShaderDataProvider.ResolveFullyNamed | ValveResourceFormat/IO/ShaderDataProvider.cs:504-513 | a table entry without open channels is yielded unchanged, in table order |
| ShaderDataProvider.VrComplexOpenColor | ValveResourceFormat/IO/ShaderDataProvider.cs:400-402 | vr_complex's colour texture is RGB colour plus an open alpha channel |
| ShaderDataProvider.VrSimpleOpenColor | ValveResourceFormat/IO/ShaderDataProvider.cs:427-429 | vr_simple's colour texture is RGB colour plus an open alpha channel |
| ShaderDataProvider.VrComplexAlpha | ValveResourceFormat/IO/ShaderDataProvider.cs:547-558 | vr_complex's open alpha is translucency when F_TRANSLUCENT or F_ALPHA_TEST is set, metalness otherwise |
| ShaderDataProvider.VrSimpleAlpha | ValveResourceFormat/IO/ShaderDataProvider.cs:532-545 | vr_simple's open alpha is metalness when that flag is set, and unnamed when neither flag is set |
| ShaderDataProvider.OpenAlphaColor | ValveResourceFormat/IO/ShaderDataProvider.cs:496-513 | an open-alpha colour entry looked up by file name gives colour alone, or colour plus the resolved alpha |
| ShaderDataProvider.ShaderFileName | ValveResourceFormat/IO/ShaderDataProvider.cs:496 | stripping the extension of "name.vfx" gives the name |
| ShaderDataProvider.VrComplexColor | ValveResourceFormat/IO/ShaderDataProvider.cs:547-558 | vr_complex.vfx's g_tColor always has two inputs, colour and an alpha that is translucency or metalness by the flags |
| ShaderDataProvider.VrSimpleColor | ValveResourceFormat/IO/ShaderDataProvider.cs:532-545 | vr_simple.vfx's g_tColor is colour alone without the metalness or AO flag, and colour plus metalness with the metalness flag |
| ShaderDataProvider.FirstCommonType | ValveResourceFormat/IO/ShaderDataProvider.cs:516-528 | the index found is the first common type that starts the input, ignoring case; -1 when none does |
| ShaderDataProvider.SuffixIn | ValveResourceFormat/IO/ShaderDataProvider.cs:516-528 | a suffix exists exactly when some common type starts the input, ignoring case, and it is the suffix of the first such type |
| ShaderDataProvider.UpperIdempotent | ValveResourceFormat/IO/ShaderDataProvider.cs:521 | upper-casing twice is upper-casing once |
| ShaderDataProvider.SuffixIgnoresCase | ValveResourceFormat/IO/ShaderDataProvider.cs:521 | the suffix of an input name does not depend on its case |
| ShaderDataProvider.ListedTypeHasSuffix | ValveResourceFormat/IO/ShaderDataProvider.cs:469-528 | a name listed in the suffix table has a suffix |
| ShaderDataProvider.ResolvedNamesHaveSuffix | ValveResourceFormat/IO/ShaderDataProvider.cs:469-562 | every name that resolves an open channel has a common suffix |
| ShaderDataProvider.WithFallback | ValveResourceFormat/IO/ShaderDataProvider.cs:71-85 | the provider's own answer wins; any other answer is the basic provider's, and only when falling back; there is no answer exactly when neither gives one |
| ShaderDataProvider.FullInputsAvailability | ValveResourceFormat/IO/ShaderDataProvider.cs:71-80 | a provider that falls back always has inputs; one that does not gives only its own; without its own, a falling-back provider gives the basic inputs |
| ShaderDataProvider.ParamSuffix | ValveResourceFormat/IO/ShaderDataProvider.cs:323-329 | a suffix exists exactly when some parameter of that name has an image suffix, and it is "_" followed by the first such suffix |
| ShaderDataProvider.OwnSuffix | ValveResourceFormat/IO/ShaderDataProvider.cs:318-333 | no features file gives no suffix; a suffix found starts with "_" and is longer than it |
| ShaderDataProvider.FullSuffixChoice | ValveResourceFormat/IO/ShaderDataProvider.cs:318-333 | the shader's own suffix wins; without a features file or a parameter of that name, the basic suffix is used only when falling back |
| ShaderDataProvider.FeatureValue | ValveResourceFormat/IO/ShaderDataProvider.cs:200-239 | a feature has a material value exactly when an F_-prefixed parameter of that name exists, and it is that value |
| ShaderDataProvider.ConditionStep | ValveResourceFormat/IO/ShaderDataProvider.cs:218-249 | S_MODE_FORWARD without a feature, or the forced combo, sets its block to 1; any other combo without a feature is skipped; a set value is the material's in-range feature value; an out-of-range value fails naming its feature |
| ShaderDataProvider.ApplyStep | ValveResourceFormat/IO/ShaderDataProvider.cs:225-245 | a step applies exactly when it does not fail and its block is inside the configuration, and the configuration keeps its size |
| ShaderDataProvider.ApplyConditions | ValveResourceFormat/IO/ShaderDataProvider.cs:215-249 | a built configuration has one block per static combo |
| ShaderDataProvider.ConfigurationSucceedsIff | ValveResourceFormat/IO/ShaderDataProvider.cs:215-249 | the configuration is built exactly when every combo's step can be applied |
| ShaderDataProvider.ConfigurationLastWriteWins | ValveResourceFormat/IO/ShaderDataProvider.cs:215-249 | each block holds what the last combo setting it sets, and 0 when none does |
| ShaderDataProvider.LastWriteAllowed | ValveResourceFormat/IO/ShaderDataProvider.cs:225-245 | the value last written to a block is 0, 1 or inside some feature's range |
| ShaderDataProvider.ConfigurationValuesAllowed | ValveResourceFormat/IO/ShaderDataProvider.cs:215-249 | every block of a built configuration is off, on, or a value some feature admits |
| ShaderDataProvider.OutOfRangeFeatureRejected | ValveResourceFormat/IO/ShaderDataProvider.cs:240-243 | a material value outside its feature's range makes the configuration throw |
| ShaderDataProvider.ForcedBlockOutOfRange | ValveResourceFormat/IO/ShaderDataProvider.cs:222-226 | a forced combo whose block index lies outside the configuration makes it throw |
| ShaderDataProvider.ZframeOrFirst | ValveResourceFormat/IO/ShaderDataProvider.cs:251-260 | the zframe used is the computed one when the file has it, else zframe 0 |
| ShaderDataProvider.GetOrAdd | ValveResourceFormat/IO/ShaderDataProvider.cs:28-41 | a cached shader is returned without calling the factory; an absent one is produced by the factory and stored; no other entry changes |
| ShaderDataProvider.SecondRequestHits | ValveResourceFormat/IO/ShaderDataProvider.cs:28-41 | a second request for the same shader is served from the cache, whatever the factory |
| ShaderDataProvider.RequestsFillCache | ValveResourceFormat/IO/ShaderDataProvider.cs:28-41 | after a run of requests the cache holds exactly the old entries, unchanged, plus every requested name |
| ShaderDataProvider.CacheGrows | ValveResourceFormat/IO/ShaderDataProvider.cs:28-41 | requests never remove a cached shader |
| ShaderDataProvider.LoadsOncePerName | ValveResourceFormat/IO/ShaderDataProvider.cs:28-41 | the factory runs exactly once per requested name that was not cached |
| ShaderDataProvider.NewKeysCount | ValveResourceFormat/IO/ShaderDataProvider.cs:32-38 | the names added over two steps add up when the first adds at most the requested name |
| ShaderDataProvider.ParamNames | ValveResourceFormat/IO/ShaderDataProvider.cs:300 | the names exist exactly when every index is a parameter index, and name k is the name of parameter k |
| ShaderDataProvider.ProcessorInputs | ValveResourceFormat/IO/ShaderDataProvider.cs:299-300 | without a -1 terminator the slice throws; otherwise the inputs are the names of the parameters before the first -1 |
| ShaderDataProvider.ChannelInputs | ValveResourceFormat/IO/ShaderDataProvider.cs:292-315 | with channels left there is at least one input and at most one per channel plus one; without, none; every input names a parameter of the shader |
| ShaderDataProvider.PlainChannelsOneInputEach | ValveResourceFormat/IO/ShaderDataProvider.cs:294-314 | without packed-normal processors every channel yields exactly one input, carrying that channel's mapping |
| ShaderDataProvider.PackedNormalEndsInputs | ValveResourceFormat/IO/ShaderDataProvider.cs:302-311 | a packed-normal processor yields RGB from its first input, A from a second when there are exactly two, and ends the inputs |
| ShaderDataProvider.NamedParams | ValveResourceFormat/IO/ShaderDataProvider.cs:188 | the found blocks all carry the texture's name, and none is found exactly when no block has it |
| ShaderDataProvider.OwnInputs | ValveResourceFormat/IO/ShaderDataProvider.cs:179-197 | no features file gives no answer; a features file without a parameter for the texture throws; an answer implies such a parameter exists |
| ShaderDataProvider.NamedParamsSingle | ValveResourceFormat/IO/ShaderDataProvider.cs:188 | when only block k carries the name, it is the only block found |
| ShaderDataProvider.NamedParamsTwo | ValveResourceFormat/IO/ShaderDataProvider.cs:188-198 | two blocks with the name give more than one candidate |
| ShaderDataProvider.OwnInputsChoice | ValveResourceFormat/IO/ShaderDataProvider.cs:188-199 | the one parameter named after the texture gives its own inputs; with two or more, the outcome of the static-configuration search decides |
| ShaderDataProvider.FullInputsOfOwn | ValveResourceFormat/IO/ShaderDataProvider.cs:77-80 | whenever the compiled shader has its own answer for the texture the full provider returns it, fallback or not; the single parameter named after the texture gives its own inputs through the full provider; without a features file the answer is the basic inputs when falling back and nothing otherwise |
| MapEntities.NormalizePath | ValveResourceFormat/IO/MapExtract.cs:94-95 | every backslash becomes '/', the result never ends in '/', and only trailing separators are removed |
| MapEntities.SubPathReflexive | ValveResourceFormat/IO/MapExtract.cs:92-98 | every path is equal to, or a sub-path of, itself |
| MapEntities.TrailingSeparatorIgnored | ValveResourceFormat/IO/MapExtract.cs:94-95 | a trailing '/' or '\\' does not change the normalised path |
| MapEntities.SubPathOfAnyPrefix | ValveResourceFormat/IO/MapExtract.cs:97 | a path counts as a sub-path of itself with any text in front, even text that does not end in a separator, because the test is a plain suffix test |
| MapEntities.ManifestFlags | ValveResourceFormat/IO/MapExtract.cs:133 | flag i tells whether reference i ends in "world.vrman", in any case |
| MapEntities.FirstWorldManifest | ValveResourceFormat/IO/MapExtract.cs:131-139 | the index of the first world manifest, or -1 exactly when there is none |
| MapEntities.LumpFolderFromReferences | ValveResourceFormat/IO/MapExtract.cs:129-145 | fails exactly when no reference is a world manifest; otherwise gives the directory of the first one |
| MapEntities.CheckVmapLocation | ValveResourceFormat/IO/MapExtract.cs:106-115 | rejects exactly when the vmap has a directory and the lump folder is not a sub-path of that directory joined with the map name |
| MapEntities.VmapDirectory | ValveResourceFormat/IO/MapExtract.cs:107-108 | a map stored as "dir/name.vmap_c", for a directory without doubled or trailing separators, has the directory "dir" |
| MapEntities.VmapMapName | ValveResourceFormat/IO/MapExtract.cs:107 | a map stored as "dir/name.vmap_c" has the map name "name" |
| MapEntities.VmapInOwnFolderPasses | ValveResourceFormat/IO/MapExtract.cs:106-115 | a map stored as "dir/name.vmap_c", for a directory without doubled or trailing separators, with lump folder "dir/name" passes the check |
| MapEntities.EditString | ValveResourceFormat/IO/MapExtract.cs:549-561 | fails only for a colour with fewer than four bytes; strings and other values keep their own text |
| MapEntities.BoolTextParses | ValveResourceFormat/IO/MapExtract.cs:556 | a boolean's text parses back to 1 for true and 0 for false |
| MapEntities.ColorTextParses | ValveResourceFormat/IO/MapExtract.cs:558 | a colour's text splits at spaces into exactly four pieces, each parsing back to its byte |
| MapEntities.VectorTextSplits | ValveResourceFormat/IO/MapExtract.cs:557 | a vector's text splits at spaces into its three component texts |
| MapEntities.ParseAll | ValveResourceFormat/IO/MapExtract.cs:521 | succeeds exactly when every piece parses, giving each piece's value in order; a failure is the first failing piece's error |
| MapEntities.LineageAsWritten | ValveResourceFormat/IO/MapExtract.cs:517-531 | an id list that parses becomes the lineage, a format error keeps the previous lineage, and only an overflow escapes as a failure |
| MapEntities.LineageOverflowEscapes | ValveResourceFormat/IO/MapExtract.cs:519-526 | the decimal text of any id past the 32-bit range aborts the extraction |
| MapEntities.Lineage | ValveResourceFormat/IO/MapExtract.cs:517-531 | the lineage is the parsed ids when all pieces parse, otherwise the previous lineage |
| MapEntities.IdTexts | ValveResourceFormat/IO/MapExtract.cs:521 | one decimal text per id, in order |
| MapEntities.LineageRoundTrip | ValveResourceFormat/IO/MapExtract.cs:521 | writing 32-bit ids joined by ':' and reading them back gives the same ids |
| MapEntities.ParseAllParses | ValveResourceFormat/IO/MapExtract.cs:521 | pieces that each parse to their id parse together to the ids |
| MapEntities.IdTextParses | ValveResourceFormat/IO/MapExtract.cs:521 | a 32-bit id's text has no ':' and parses back to the id |
| MapEntities.LineageIgnoresOverflow | ValveResourceFormat/IO/MapExtract.cs:523-526 | corrected: an out-of-range id keeps the previous lineage, as a malformed one does |
| MapEntities.FixUpNames | ValveResourceFormat/IO/MapExtract.cs:451-457 | every property ends up named; a name already set is kept; a missing one is the string-token name of its hash, or the hash's decimal text |
| MapEntities.VectorOf | ValveResourceFormat/IO/MapExtract.cs:539-547 | a string is parsed and a vector is taken as it is; any other type is rejected |
| MapEntities.ApplyLineage | ValveResourceFormat/IO/MapExtract.cs:517-534 | the lineage is that of the id text under the corrected parse (Lineage, where an id past 32 bits keeps the previous lineage instead of aborting), and the node id becomes its last element when it is not empty; nothing else of the entity changes |
| MapEntities.ApplySpecial | ValveResourceFormat/IO/MapExtract.cs:500-516 | a special property never touches the key-values; only hammeruniqueid changes the lineage; origin is set from the vector value |
| MapEntities.CopyProperty | ValveResourceFormat/IO/MapExtract.cs:465-476 | an unnamed property is skipped; a named ordinary property is added with its edit string; a name already present fails as a duplicate |
| MapEntities.CopyAll | ValveResourceFormat/IO/MapExtract.cs:460-477 | keys already present keep their values, and each new key comes from a named ordinary property carrying its edit string |
| MapEntities.CopyAllNamesPresent | ValveResourceFormat/IO/MapExtract.cs:463-476 | after a successful copy, every named ordinary property's name is a key |
| MapEntities.CopyAllKeepsLineage | ValveResourceFormat/IO/MapExtract.cs:462-534 | without a hammeruniqueid property the lineage is unchanged |
| MapEntities.AddProperties | ValveResourceFormat/IO/MapExtract.cs:460-498 | the target's keys are kept, every new key comes from a property, and without hammeruniqueid the lineage is empty; the hammeruniqueid goes through the corrected lineage parse, so an overflowing id does not abort |
| MapEntities.SpecialNeverCopied | ValveResourceFormat/IO/MapExtract.cs:470-537 | a name carried only by special properties never becomes a key |
| MapEntities.DuplicateNameFails | ValveResourceFormat/IO/MapExtract.cs:475 | two ordinary properties with one name make the copy fail |
| MapEntities.AlreadyPresentFails | ValveResourceFormat/IO/MapExtract.cs:475 | an ordinary property whose name is already a key makes the copy fail |
| MapEntities.CopyPropertyKeepsKeys | ValveResourceFormat/IO/MapExtract.cs:475 | copying one property never removes a key |
| MapDocument.ExtendsKeys | ValveResourceFormat/IO/MapExtract.cs:442 | a document that extends another keeps all its parent ids |
| MapDocument.ExtendsTransitive | ValveResourceFormat/IO/MapExtract.cs:216-261 | extending is transitive, so whole passes only add to the document |
| MapDocument.AddNode | ValveResourceFormat/IO/MapExtract.cs:443-448 | the new node is appended as the last child of its parent, empty and of its kind, and nothing else changes |
| MapDocument.FindLayer | ValveResourceFormat/IO/MapExtract.cs:399 | the first world layer with that name, or -1 exactly when none has it |
| MapDocument.LumpDestination | ValveResourceFormat/IO/MapExtract.cs:397-407 | an unnamed or default_ents lump goes to the world; a lump named like a world layer goes to the first such layer; any other gets a new group under the world; no layer, asset reference or extracted model is added |
| MapDocument.PlaceParent | ValveResourceFormat/IO/MapExtract.cs:435-444 | a known parent id reuses its group; a new id gets a group named by the id under the current destination and is recorded |
| MapDocument.PlaceParents | ValveResourceFormat/IO/MapExtract.cs:433-445 | no parents leaves the destination unchanged; parent ids only add groups, layers and references untouched |
| MapDocument.PlaceParentsIds | ValveResourceFormat/IO/MapExtract.cs:433-445 | afterwards exactly the ids known before and the parent ids have groups |
| MapDocument.PlaceParentsDestination | ValveResourceFormat/IO/MapExtract.cs:433-445 | the destination afterwards is the group of the last parent id |
| MapDocument.GroupsMadeOnce | ValveResourceFormat/IO/MapExtract.cs:435-444 | the groups made are exactly as many as the parent ids that had none before |
| MapDocument.PlaceParentsCount | ValveResourceFormat/IO/MapExtract.cs:435-444 | the node count grows by one per new id, step by step |
| MapDocument.ClassName | ValveResourceFormat/IO/MapExtract.cs:422 | a classname found is the string value of a property with the classname hash |
| MapDocument.MergeWorldspawn | ValveResourceFormat/IO/MapExtract.cs:422-426 | a worldspawn adds no node, sets the world's description, keeps every other world key, and leaves layers, asset references and extracted models alone |
| MapDocument.EntityDestination | ValveResourceFormat/IO/MapExtract.cs:431-446 | a lineage of at most one id keeps the destination; a longer one goes to the group of its innermost parent id; only nodes are added |
| MapDocument.PlaceCopy | ValveResourceFormat/IO/MapExtract.cs:429-448 | the entity becomes the last child of its destination, which carries over to the next entity; the document gains at least that node and nothing else document-wide |
| MapDocument.PlaceEntity | ValveResourceFormat/IO/MapExtract.cs:429-448 | fails exactly when its properties cannot be converted (using the corrected lineage parse, so an overflowing hammeruniqueid is not a failure); otherwise it places the converted entity |
| MapDocument.ProcessEntity | ValveResourceFormat/IO/MapExtract.cs:418-449 | names are fixed up first; a worldspawn merges into the world and keeps the destination; any other entity is placed and adds at least one node; layers, asset references and extracted models are unchanged |
| MapDocument.PlacedEntities | ValveResourceFormat/IO/MapExtract.cs:420-448 | counts the entities that are not a worldspawn, at most all of them and exactly all when none is a worldspawn |
| MapDocument.ProcessEntities | ValveResourceFormat/IO/MapExtract.cs:418-449 | a lump's entities only add to the document: at least one node per entity that is not a worldspawn, with layers, asset references and extracted models unchanged |
| MapDocument.GatherLump | ValveResourceFormat/IO/MapExtract.cs:393-450 | gathering a lump and its children adds at least one node per non-worldspawn entity of the lump and no layer, asset reference or extracted model |
| MapDocument.GatherChildren | ValveResourceFormat/IO/MapExtract.cs:409-416 | child lumps only add nodes: layers, asset references and extracted models are unchanged |
| MapDocument.AddLayer | ValveResourceFormat/IO/MapExtract.cs:265-283 | the base layer is the world; any other name becomes a new world layer among the world's children |
| MapDocument.LayerNodes | ValveResourceFormat/IO/MapExtract.cs:263-284 | one node per layer name: the world for the base layer, otherwise a new world layer recorded and added to the world |
| MapDocument.LayerKept | ValveResourceFormat/IO/MapExtract.cs:274-283 | a world layer made earlier stays recorded and among the world's children |
| MapDocument.KeyGroupsDisjoint | ValveResourceFormat/IO/MapExtract.cs:302-337 | the naming, flag and bake keys of a prop_static are distinct |
| MapDocument.StaticPropNamingKeys | ValveResourceFormat/IO/MapExtract.cs:302-322 | a prop_static names its class and model, and has a skin exactly for a non-aggregate with a non-empty skin |
| MapDocument.StaticPropFlagKeys | ValveResourceFormat/IO/MapExtract.cs:325-326 | the render flags are "1"/"0" by the object's flags, and an aggregate has neither set |
| MapDocument.StaticPropBakeKeys | ValveResourceFormat/IO/MapExtract.cs:328-339 | baketoworld exactly for aggregates and non-model objects; disablemeshmerging exactly when the file name contains "nomerge" |
| MapDocument.GroupFor | ValveResourceFormat/IO/MapExtract.cs:341-357 | a node's group of that name is reused when recorded, and otherwise made as its last child and recorded |
| MapDocument.AddChildMaybeGrouped | ValveResourceFormat/IO/MapExtract.cs:341-357 | without a group name the child goes directly under the node; otherwise under the node's group of that name |
| MapDocument.AddStaticProp | ValveResourceFormat/IO/MapExtract.cs:287-371 | no model adds nothing; a layer index past the layers fails; otherwise one prop_static with those key-values is added, its model referenced and, when embedded, queued |
| MapDocument.PlaceObject | ValveResourceFormat/IO/MapExtract.cs:304-371 | a model-bearing object becomes the last node as a prop_static with its key-values, its model referenced and queued when embedded; on a layer that is not the world it is a direct child of that layer |
| MapDocument.PlaceStaticProp | ValveResourceFormat/IO/MapExtract.cs:359-370 | the prop becomes the last node, referenced and queued when embedded; off the world it is a direct child of its layer |
| MapDocument.AggregatesAreBaked | ValveResourceFormat/IO/MapExtract.cs:290-335 | every aggregate with a model is queued for extraction |
| MapDocument.AddStaticProps | ValveResourceFormat/IO/MapExtract.cs:373-384 | adding a node's scene objects only adds to the document |
| MapDocument.AddStaticPropsStep | ValveResourceFormat/IO/MapExtract.cs:373-378 | a failing first object fails the whole run; a successful one is followed by the rest |
| MapDocument.AssetReferenceOfOne | ValveResourceFormat/IO/MapExtract.cs:299 | the first object contributes exactly its model, if it has one |
| MapDocument.AssetReferencesPerModel | ValveResourceFormat/IO/MapExtract.cs:373-384 | the asset references gain exactly the model names of the objects that have one, in order |
| MapDocument.ModelNames | ValveResourceFormat/IO/MapExtract.cs:293-299 | the objects' model names in order, skipping objects without a model |
| MapDocument.AddWorldNode | ValveResourceFormat/IO/MapExtract.cs:263-384 | the layers, scene objects and aggregates of a world node only add to the document, and the asset references gain the scene objects' models then the aggregates' models, in order |
| MapDocument.AddWorldNodes | ValveResourceFormat/IO/MapExtract.cs:232-242 | the world nodes only add to the document, and the asset references gain every node's models in node order |
| MapDocument.GatherLumps | ValveResourceFormat/IO/MapExtract.cs:244-254 | the entity lumps only add nodes: layers, asset references and extracted models are unchanged |
| MapDocument.InitialDocument | ValveResourceFormat/IO/MapExtract.cs:225-230 | the document starts with the world and, as its only child, the world_physics prop_static whose model is the physics name with extension .vmdl |
| MapDocument.ToValveMap | ValveResourceFormat/IO/MapExtract.cs:216-261 | a built document is well formed and the physics prop stays the world's first child |
| ModelExtract.ToHashSet | ValveResourceFormat/IO/ModelExtract.cs:43 | the set holds each given tag exactly once and nothing else |
| ModelExtract.ComboFromArray | ValveResourceFormat/IO/ModelExtract.cs:42-44 | the combination keeps the surface name, and its tags are exactly the given ones, without repeats |
| ModelExtract.StringMaterialParts | ValveResourceFormat/IO/ModelExtract.cs:46 | for a surface name without '$', the material name splits at its last '$' back into the joined tags and the surface name |
| ModelExtract.AddCombo | ValveResourceFormat/IO/ModelExtract.cs:456-476 | adding to a set free of equal entries keeps it free of them |
| ModelExtract.AddComboSpec | ValveResourceFormat/IO/ModelExtract.cs:47-48 | a combination equal to one present leaves the set unchanged; a new one is appended; afterwards it is present |
| ModelExtract.AddComboIgnoresCase | ValveResourceFormat/IO/ModelExtract.cs:47 | combinations that differ only in the case of the surface name are the same set entry |
| ModelExtract.NumberSuffix | ValveResourceFormat/IO/ModelExtract.cs:382 | number 0 adds nothing, any other number adds its decimal digits |
| ModelExtract.NumberSuffixInjective | ValveResourceFormat/IO/ModelExtract.cs:382 | different numbers give different suffixes |
| ModelExtract.EmbeddedDmxName | ValveResourceFormat/IO/ModelExtract.cs:374-385 | the name is the stem for the sub-string, then the number suffix, then ".dmx" |
| ModelExtract.NameOf | ValveResourceFormat/IO/ModelExtract.cs:374-385 | a name built from a base is the base's stem for the sub-string, then the number suffix, then ".dmx" |
| ModelExtract.EmbeddedDmxNameShape | ValveResourceFormat/IO/ModelExtract.cs:374-385 | an embedded mesh's file name ends in ".dmx" and has no backslash |
| ModelExtract.NameOfShape | ValveResourceFormat/IO/ModelExtract.cs:374-385 | a name built from any base ends in ".dmx" and has no backslash |
| ModelExtract.SplitEqual | ValveResourceFormat/IO/ModelExtract.cs:374-385 | names with a common prefix and middles of one length agree in middle and end |
| ModelExtract.DropSuffix | ValveResourceFormat/IO/ModelExtract.cs:383 | names equal after appending ".dmx" were equal before |
| ModelExtract.EmbeddedNamesInjective | ValveResourceFormat/IO/ModelExtract.cs:374-385 | sub-strings of equal length without backslashes and numbers that differ never give the same file name |
| ModelExtract.NameOfInjective | ValveResourceFormat/IO/ModelExtract.cs:374-385 | from one base, sub-strings of equal length without backslashes and numbers that differ never give the same name |
| ModelExtract.ReferenceDmxName | ValveResourceFormat/IO/ModelExtract.cs:387-388 | a reference mesh's file name is its name with the extension replaced by ".dmx", using '/' only |
| ModelExtract.UnknownSurfaceNameIsHash | ValveResourceFormat/IO/ModelExtract.cs:438-442 | a hash missing from the string table is named by its decimal digits, which read back as the hash |
| ModelExtract.CollisionTags | ValveResourceFormat/IO/ModelExtract.cs:445-447 | m_InteractAsStrings is preferred and m_PhysicsTagStrings used otherwise; with neither the ToHashSet call throws; the result has no repeats |
| ModelExtract.AllCollisionTags | ValveResourceFormat/IO/ModelExtract.cs:445-447 | all tag sets, one per attribute collection in order, exactly when none throws |
| ModelExtract.ComboAt | ValveResourceFormat/IO/ModelExtract.cs:456-459 | the lookup fails exactly when the surface or the attribute index is out of range |
| ModelExtract.AppendNums | ValveResourceFormat/IO/ModelExtract.cs:449-478 | numbers drawn from disjoint ranges, distinct within each range, stay distinct when combined |
| ModelExtract.AppendApart | ValveResourceFormat/IO/ModelExtract.cs:449-478 | numbers above all earlier ones stay apart from them |
| ModelExtract.NumberedFromNums | ValveResourceFormat/IO/ModelExtract.cs:454-464 | numbering from n gives distinct numbers in [n, n + count) |
| ModelExtract.AddMaterialCombos | ValveResourceFormat/IO/ModelExtract.cs:471-477 | fails exactly when a triangle's surface index is out of range, and keeps the set free of equal entries |
| ModelExtract.HullsValidCons | ValveResourceFormat/IO/ModelExtract.cs:452-460 | a hull sequence has valid indices exactly when its first hull and the rest do |
| ModelExtract.MeshesValidCons | ValveResourceFormat/IO/ModelExtract.cs:462-478 | a mesh sequence has valid indices exactly when its first mesh and the rest do |
| ModelExtract.NumberedFromAt | ValveResourceFormat/IO/ModelExtract.cs:454-464 | the k-th item is paired with n + k |
| ModelExtract.NumberedFromCons | ValveResourceFormat/IO/ModelExtract.cs:454-464 | numbering the first item and then the rest from n + 1 is numbering all from n |
| ModelExtract.NumberedStep | ValveResourceFormat/IO/ModelExtract.cs:454-464 | one queued item followed by the rest continues the numbering |
| ModelExtract.EnqueueHull | ValveResourceFormat/IO/ModelExtract.cs:454-459 | succeeds exactly when the hull's indices are valid; the hull is queued with the current number, the counter advances, and the combination set stays free of equal entries |
| ModelExtract.EnqueueHulls | ValveResourceFormat/IO/ModelExtract.cs:452-460 | succeeds exactly when every hull is valid; meshes are untouched and the counter advances by the hull count |
| ModelExtract.MeshCombos | ValveResourceFormat/IO/ModelExtract.cs:466-477 | the mesh's combination, then one per triangle material, exactly when all indices are valid; no equal entries arise |
| ModelExtract.EnqueueMesh | ValveResourceFormat/IO/ModelExtract.cs:464-477 | succeeds exactly when the mesh's indices are valid; the mesh is queued with the current number and the counter advances |
| ModelExtract.EnqueueMeshes | ValveResourceFormat/IO/ModelExtract.cs:462-478 | succeeds exactly when every mesh is valid; hulls are untouched and the counter advances by the mesh count |
| ModelExtract.EnqueueHullsNumbers | ValveResourceFormat/IO/ModelExtract.cs:452-460 | the queued hulls are the part's hulls, numbered consecutively from the counter |
| ModelExtract.EnqueueHullsCombos | ValveResourceFormat/IO/ModelExtract.cs:456-459 | queueing hulls keeps the combination set free of equal entries |
| ModelExtract.EnqueueMeshesNumbers | ValveResourceFormat/IO/ModelExtract.cs:462-478 | the queued meshes are the part's meshes, numbered consecutively from the counter |
| ModelExtract.EnqueueMeshesCombos | ValveResourceFormat/IO/ModelExtract.cs:466-477 | queueing meshes keeps the combination set free of equal entries |
| ModelExtract.NumberedAfterHulls | ValveResourceFormat/IO/ModelExtract.cs:449-460 | hulls numbered from the counter keep every file number unique |
| ModelExtract.NumberedAfterMeshes | ValveResourceFormat/IO/ModelExtract.cs:449-478 | meshes numbered from the counter keep every file number unique |
| ModelExtract.PartsValidCons | ValveResourceFormat/IO/ModelExtract.cs:450-479 | a part sequence is valid exactly when its first part and the rest are |
| ModelExtract.EnqueueParts | ValveResourceFormat/IO/ModelExtract.cs:449-479 | succeeds exactly when every part is valid, and the shared counter advances by the number of shapes |
| ModelExtract.EnqueuePartsValid | ValveResourceFormat/IO/ModelExtract.cs:449-479 | queueing keeps file numbers unique and the combination set free of equal entries |
| ModelExtract.EnqueuePhysMeshes | ValveResourceFormat/IO/ModelExtract.cs:429-480 | succeeds exactly when every attribute has tags and every index is valid; then numbers are unique, combinations distinct, and one number is used per shape |
| ModelExtract.SurfaceNames | ValveResourceFormat/IO/ModelExtract.cs:438-442 | one surface name per hash, in order |
| ModelExtract.PhysicsFileNamesDistinct | ValveResourceFormat/IO/ModelExtract.cs:374-479 | every hull and mesh file of a queue gets its own name |
| ModelExtract.HullFileNamesDistinct | ValveResourceFormat/IO/ModelExtract.cs:454 | distinct hull numbers give distinct hull file names |
| ModelExtract.MeshFileNamesDistinct | ValveResourceFormat/IO/ModelExtract.cs:464 | distinct mesh numbers give distinct mesh file names |
| ModelExtract.HullAndMeshFileNamesDistinct | ValveResourceFormat/IO/ModelExtract.cs:454-464 | a hull file name is never a mesh file name |
| ModelExtract.EdgeWalk | ValveResourceFormat/IO/ModelExtract.cs:633-641 | a walk found starts at the current edge and follows Next until the edge that leads back to the start |
| ModelExtract.EdgeWalkComplete | ValveResourceFormat/IO/ModelExtract.cs:633-641 | any such walk within the step bound is exactly the one found |
| ModelExtract.WalkShift | ValveResourceFormat/IO/ModelExtract.cs:637-639 | two positions of a walk on the same edge stay equal step by step |
| ModelExtract.WalkNoEarlyReturn | ValveResourceFormat/IO/ModelExtract.cs:641 | only the last edge of a walk leads back to its start |
| ModelExtract.WalkEdgesDistinct | ValveResourceFormat/IO/ModelExtract.cs:633-641 | a walk back to its start uses each edge once |
| ModelExtract.Origins | ValveResourceFormat/IO/ModelExtract.cs:638 | one origin per walked edge, in order |
| ModelExtract.FacePolygonWalk | ValveResourceFormat/IO/ModelExtract.cs:631-644 | a face's polygon is the origins of a walk from the face's edge back to it, no longer than the edge count |
| ModelExtract.FacePolygons | ValveResourceFormat/IO/ModelExtract.cs:631-644 | one polygon per face in order, exactly when every face's walk closes |
| ModelExtract.HullFaceSet | ValveResourceFormat/IO/ModelExtract.cs:617-644 | a hull gives one face set named "hull faces" with the uniform combination's material, exactly when every face closes |
| ModelExtract.HullFaceSetDecodes | ValveResourceFormat/IO/ModelExtract.cs:625-644 | decoding the hull's face list gives, for each face in order, the origins around it |
| ModelExtract.FacePolygonIsCycle | ValveResourceFormat/IO/ModelExtract.cs:633-641 | a walk around a face is never longer than the edge count, so the polygon found is its origins |
| ModelExtract.TrianglesWith | ValveResourceFormat/IO/ModelExtract.cs:675-695 | the triangles using a surface, each once and in increasing order |
| ModelExtract.TrianglesWithStep | ValveResourceFormat/IO/ModelExtract.cs:675-695 | one more triangle adds itself exactly when it uses the surface |
| ModelExtract.TriangleList | ValveResourceFormat/IO/ModelExtract.cs:691-693 | one vertex triple per triangle |
| ModelExtract.TriangleInList | ValveResourceFormat/IO/ModelExtract.cs:691-693 | a triangle's vertex triple is listed exactly when the triangle is |
| ModelExtract.TriangleListDecodes | ValveResourceFormat/IO/ModelExtract.cs:691-694 | the face list of non-negative triangles decodes back to their triples |
| ModelExtract.SurfaceSetHolds | ValveResourceFormat/IO/ModelExtract.cs:675-695 | a surface's face set holds a triangle exactly when the triangle uses that surface |
| ModelExtract.SetsFor | ValveResourceFormat/IO/ModelExtract.cs:674-695 | one face set per surface listed, in that order |
| ModelExtract.SurfaceFaceSets | ValveResourceFormat/IO/ModelExtract.cs:670-696 | fails exactly when a material index is out of the surface list; otherwise one set per distinct surface used |
| ModelExtract.MeshFaceSets | ValveResourceFormat/IO/ModelExtract.cs:664-696 | without materials, one set "0-n" of all triangles with the uniform material; otherwise the per-surface sets |
| ModelExtract.TriangleInOneSurfaceSet | ValveResourceFormat/IO/ModelExtract.cs:675-695 | every triangle lies in exactly one face set, its surface's, and that set exists |
| ModelExtract.SurfaceSetsInFirstUseOrder | ValveResourceFormat/IO/ModelExtract.cs:680-689 | the face sets appear in the order the triangles first use their surfaces |
| ModelExtract.AddTriangleStep | ValveResourceFormat/IO/ModelExtract.cs:691-694 | appending triangle t to its surface's set gives the sets of the first t+1 triangles |
| ModelExtract.AddTriangleToOwnSet | ValveResourceFormat/IO/ModelExtract.cs:691-694 | appending a triangle to its surface's set adds exactly that triangle |
| ModelExtract.OtherSetUnchanged | ValveResourceFormat/IO/ModelExtract.cs:691-694 | the sets of other surfaces do not change |
| ModelExtract.NewSurfaceStep | ValveResourceFormat/IO/ModelExtract.cs:680-689 | a surface first used by triangle t starts with an empty set at the end |
| ModelExtract.OrderStep | ValveResourceFormat/IO/ModelExtract.cs:677-689 | a surface already has a slot exactly when it was used before, and the slots stay consistent after the step |
| ModelExtract.AddToSurfaceSet | ValveResourceFormat/IO/ModelExtract.cs:677-694 | one iteration turns the sets of the first t triangles into those of the first t+1 |
| ModelExtract.BuildSurfaceFaceSets | ValveResourceFormat/IO/ModelExtract.cs:670-696 | the loop builds exactly the per-surface sets in first-use order, or fails on an out-of-range index |
| ModelExtract.FlattenIndices | ValveResourceFormat/IO/ModelExtract.cs:698-705 | three indices per triangle, in triangle order; a triangle with fewer than three throws |
| ModelExtract.FlattenTriples | ValveResourceFormat/IO/ModelExtract.cs:698-705 | cutting the flattened buffer into triples gives each triangle's first three indices |
| FaceSets.EncodeAppend | ValveResourceFormat/IO/ModelExtract.cs:643-694 | encoding two polygon lists one after the other is encoding their concatenation |
| FaceSets.FirstTerminator | ValveResourceFormat/IO/ModelExtract.cs:643 | the position of the first -1, with none before it |
| FaceSets.Decode | ValveResourceFormat/IO/ModelExtract.cs:643 | decoded polygons contain no -1 |
| FaceSets.DecodeEncode | ValveResourceFormat/IO/ModelExtract.cs:638-643 | decoding a -1-terminated face list gives back its polygons, when none contains -1 |
| FaceSets.FirstTerminatorAfter | ValveResourceFormat/IO/ModelExtract.cs:643 | the first -1 after a polygon without -1 ends that polygon |
| FaceSets.EncodeTrianglesAt | ValveResourceFormat/IO/ModelExtract.cs:752-755 | the entries of an encoded triangle list are the triangle's vertices and then -1 |
| FaceSets.EncodeQuad | ValveResourceFormat/IO/ModelExtract.cs:752-755 | each group of four entries is one triangle and its terminator |
| FaceSets.EncodeTrianglesLength | ValveResourceFormat/IO/ModelExtract.cs:750-756 | four entries per triangle |
| FaceSets.TriangleRange | ValveResourceFormat/IO/ModelExtract.cs:750 | the triangles start to end-1 in order, none when end <= start |
| FaceSets.TriangleFaceSet | ValveResourceFormat/IO/ModelExtract.cs:745-759 | the face set holds, for each triangle in the range, 3i, 3i+1, 3i+2 and -1, with the given name and material |
| FaceSets.TriangleFaceSetDecodes | ValveResourceFormat/IO/ModelExtract.cs:745-759 | a triangle face set decodes to exactly its triangles |
| FaceSets.Triples | ValveResourceFormat/IO/ModelExtract.cs:766-772 | the index buffer cut into consecutive triples |
| FaceSets.IndexBufferFaceSet | ValveResourceFormat/IO/ModelExtract.cs:761-775 | a buffer whose length is a multiple of three is copied triple by triple, each followed by -1; otherwise the read runs past the end |
| FaceSets.IndexBufferDecodes | ValveResourceFormat/IO/ModelExtract.cs:761-775 | an index buffer without -1 decodes back to its triples |
| BetterTreeView.SizeAllAppend | GUI/Controls/BetterTreeView.cs:131-134 | the size of two node lists one after the other is the sum of their sizes |
| BetterTreeView.Roots | GUI/Controls/BetterTreeView.cs:107-110 | the search starts with every root, in order, each with its own text as full path |
| BetterTreeView.ChildrenOf | GUI/Controls/BetterTreeView.cs:131-134 | every child is queued in order, with its parent's full path, the separator and its own text |
| BetterTreeView.QueueSizeAppend | GUI/Controls/BetterTreeView.cs:115-135 | the nodes left to visit in two queues add up |
| BetterTreeView.QueueSizeOfChildren | GUI/Controls/BetterTreeView.cs:131-134 | the queued children carry exactly the nodes below them |
| BetterTreeView.DequeueShrinks | GUI/Controls/BetterTreeView.cs:115-135 | dequeuing a node and queuing its children leaves fewer nodes to visit, so the search ends |
| BetterTreeView.NextLevelSize | GUI/Controls/BetterTreeView.cs:115-135 | the level below holds exactly the nodes of a level minus the level itself |
| BetterTreeView.VisitsPrefix | GUI/Controls/BetterTreeView.cs:115-135 | a queue starting with a run of nodes visits that run first, then the rest followed by the run's children |
| BetterTreeView.VisitsStep | GUI/Controls/BetterTreeView.cs:117-134 | one step visits the head, then the rest followed by the head's children |
| BetterTreeView.VisitsAreLevelOrder | GUI/Controls/BetterTreeView.cs:102-138 | the queue visits the nodes level by level, each level left to right |
| BetterTreeView.FilterCons | GUI/Controls/BetterTreeView.cs:120-123 | a node is kept exactly when it matches, ahead of the nodes kept after it |
| BetterTreeView.Search | GUI/Controls/BetterTreeView.cs:102-138 | the result is exactly the matching nodes in breadth-first order from the roots |
| BetterTreeView.SearchFindsExactlyMatches | GUI/Controls/BetterTreeView.cs:102-138 | every node returned matches and is in the tree, and every matching node is returned |
| BetterTreeView.LevelOrderHasChildren | GUI/Controls/BetterTreeView.cs:125-134 | every child of a visited node is visited too |
| BetterTreeView.ChildInNextLevel | GUI/Controls/BetterTreeView.cs:131-134 | a child of a node in a level is in the level below |
| BetterTreeView.PrepareQuery | GUI/Controls/BetterTreeView.cs:45-54 | partial and full-path queries are upper-cased with backslash turned into the separator; a partial query holding a separator becomes full-path; other types are untouched |
| BetterTreeView.PrepareQueryIdempotent | GUI/Controls/BetterTreeView.cs:45-54 | preparing a prepared query changes nothing |
| BetterTreeView.SearchText | GUI/Controls/BetterTreeView.cs:41-69 | returns exactly the nodes whose text, or for a full-path query whose full path, contains the prepared query, ignoring case |
| BetterTreeView.StripCompiled | GUI/Controls/BetterTreeView.cs:321-324 | an extension ending in "_c" loses exactly that ending; any other is kept |
| BetterTreeView.IconFor | GUI/Controls/BetterTreeView.cs:319-341 | an icon found is an image in the list |
| BetterTreeView.IconForCases | GUI/Controls/BetterTreeView.cs:326-341 | the extension's own name wins; the name without its leading 'v' is used only otherwise; no icon exactly when neither is an image |
| BetterTreeView.AddIcons | GUI/Controls/BetterTreeView.cs:317-344 | earlier entries are kept; every extension with an icon ends up in the table, and every new key is such an extension mapped to its icon; a failure names an extension that has an icon |
| BetterTreeView.AddIconsSucceedsIff | GUI/Controls/BetterTreeView.cs:317-344 | adding succeeds exactly when no extension with an icon is already a key and none with an icon is listed twice |
| BetterTreeView.ExistingExtensionFails | GUI/Controls/BetterTreeView.cs:343 | an extension with an icon that is already a key makes Dictionary.Add throw |
| BetterTreeView.RepeatedExtensionFails | GUI/Controls/BetterTreeView.cs:313-345 | an extension with an icon listed twice makes building the table throw |
| BetterTreeView.GenerateIconList | GUI/Controls/BetterTreeView.cs:313-345 | succeeds exactly when no extension with an icon is listed twice; the table then holds exactly the extensions with an icon, each mapped to its icon |
| BetterTreeView.AddIconsComplete | GUI/Controls/BetterTreeView.cs:317-344 | distinct new extensions never throw, and every one with an icon is mapped to it |
| BetterTreeView.GenerateIconListComplete | GUI/Controls/BetterTreeView.cs:313-345 | for distinct extensions the table holds exactly those with an icon, each mapped to its icon |
| BetterTreeView.IconKey | GUI/Controls/BetterTreeView.cs:389-392 | a file node takes its type's icon, or "_default" when the type has none |
| BetterTreeView.FindChild | GUI/Controls/BetterTreeView.cs:366 | the first child named like a non-empty key, ignoring case, or none when no child is |
| BetterTreeView.FirstNamed | GUI/Controls/BetterTreeView.cs:366 | the first child from a position on named like the key, or none |
| BetterTreeView.KeptFolders | GUI/Controls/BetterTreeView.cs:359-364 | the folders walked, with the deleted-files folder dropped when it is skipped |
| BetterTreeView.AddUnder | GUI/Controls/BetterTreeView.cs:355-401 | the node keeps its name, icon and count; with no folders left the file is appended; a folder found by the lookup gets its ItemCount raised by one, keeps its icon, and every other child is unchanged; a folder not found is appended with that name, ItemCount 1 and the _folder icon, after the unchanged children |
| BetterTreeView.FileUnderLastFolder | GUI/Controls/BetterTreeView.cs:353-403 | after the insertion, the file is the last child of the folder that the kept path leads to |
| BetterTreeView.SkippedFolder | GUI/Controls/BetterTreeView.cs:361-364 | a skipped deleted-files folder changes neither the insertion nor the kept path |
| BetterTreeView.FileUnderNewFolder | GUI/Controls/BetterTreeView.cs:368-378 | a folder missing from the node is created as its last child and the file ends under it |
| BetterTreeView.FileUnderReusedFolder | GUI/Controls/BetterTreeView.cs:379-383 | an existing folder is reused and the file ends under it |
| BetterTreeView.DescendStep | GUI/Controls/BetterTreeView.cs:366-381 | following a path goes into the child found by its first name |
| BetterTreeView.NewFolderFound | GUI/Controls/BetterTreeView.cs:366-376 | a folder appended where none had its name is the one the lookup finds |
| BetterTreeView.ReusedFolderFound | GUI/Controls/BetterTreeView.cs:366-382 | a folder found and updated in place is still the one the lookup finds |
| BetterTreeView.AddFileNode | GUI/Controls/BetterTreeView.cs:353-403 | the package node keeps its name, icon and count; a directory name that is empty or all Unicode white space puts the file node last among the package node's children; otherwise, for a path of non-empty folder names, the file node is the last child of the folder the kept path leads to |
| ContentSearch.HexDigitValue | GUI/Controls/BetterTreeView.cs:88 | a hex digit's value is below 16 |
| ContentSearch.RemoveSpaces | GUI/Controls/BetterTreeView.cs:84 | the query without spaces has none |
| ContentSearch.HexPairs | GUI/Controls/BetterTreeView.cs:86-89 | succeeds exactly for an even number of hex digits, and gives one byte per pair |
| ContentSearch.HexDigitChar | GUI/Controls/BetterTreeView.cs:88 | the digit written reads back as its value |
| ContentSearch.ToHex | GUI/Controls/BetterTreeView.cs:86-89 | two hex digits per byte, with no spaces |
| ContentSearch.HexRoundTrip | GUI/Controls/BetterTreeView.cs:86-89 | reading back the hex of some bytes gives the bytes |
| ContentSearch.HexQueryIgnoresSpaces | GUI/Controls/BetterTreeView.cs:84 | a space anywhere in a hex query makes no difference |
| ContentSearch.IndexFrom | GUI/Controls/BetterTreeView.cs:277 | the first occurrence at or after a position, or -1 when there is none |
| ContentSearch.IndexOf | GUI/Controls/BetterTreeView.cs:277 | the first occurrence of the pattern, or -1 when there is none |
| ContentSearch.MatchEnds | GUI/Controls/BetterTreeView.cs:275-308 | the match ends strictly increase and each lies within the data, at least a pattern length past where the scan starts |
| ContentSearch.OccursInSuffix | GUI/Controls/BetterTreeView.cs:286 | an occurrence in the rest of the data is one in the whole data, shifted |
| ContentSearch.MatchEndsAreOccurrences | GUI/Controls/BetterTreeView.cs:275-308 | every match end closes an occurrence of the pattern |
| ContentSearch.MatchEndsEmptyIff | GUI/Controls/BetterTreeView.cs:277-282 | the scan finds nothing exactly when the pattern occurs nowhere |
| ContentSearch.LastStarted | GUI/Controls/BetterTreeView.cs:290-299 | the last entry starting at or before the match end, with every later entry starting after it, or -1 |
| ContentSearch.Owner | GUI/Controls/BetterTreeView.cs:290-301 | the entry a match is credited to is one of the archive's entries |
| ContentSearch.OwnerNeverMovesBack | GUI/Controls/BetterTreeView.cs:290 | a later match is never credited to an earlier entry, so the loop may resume where it stopped |
| ContentSearch.WalkToLastStarted | GUI/Controls/BetterTreeView.cs:290-299 | on sorted entries the entry loop stops at the last entry started by the match end |
| ContentSearch.WalkFromCursor | GUI/Controls/BetterTreeView.cs:290-301 | resuming at the previous match's entry finds the entry of the next match |
| ContentSearch.Credit | GUI/Controls/BetterTreeView.cs:301-306 | a match adds at most its entry, and adds it exactly when the match ends within that entry |
| ContentSearch.Credited | GUI/Controls/BetterTreeView.cs:266-310 | every credited entry is an entry of the archive |
| ContentSearch.CreditedMeans | GUI/Controls/BetterTreeView.cs:290-306 | an entry is credited exactly when some match is credited to it and ends within it |
| ContentSearch.MatchBeforeFirstEntryCredited | GUI/Controls/BetterTreeView.cs:290-306 | a match ending before the first entry starts is still credited to that first entry |
| ContentSearch.CreditedSnoc | GUI/Controls/BetterTreeView.cs:303-306 | one more match adds exactly what it is credited with |
| ContentSearch.NextMatch | GUI/Controls/BetterTreeView.cs:277-286 | the next match end lies past the offset, and the rest of the scan continues from it; no match ends the scan |
| ContentSearch.FindEntry | GUI/Controls/BetterTreeView.cs:290-299 | the loop from the previous entry finds the entry the match is credited to |
| ContentSearch.SearchForContentsInFile | GUI/Controls/BetterTreeView.cs:264-311 | the entries found are exactly those credited with the file's matches |
| ContentSearch.MaxArchiveIndex | GUI/Controls/BetterTreeView.cs:162-172 | at least every archive index outside the directory file, and held by such an entry when not -1 |
| ContentSearch.InsertByOffset | GUI/Controls/BetterTreeView.cs:191 | inserting into a list sorted by offset keeps it sorted and adds exactly that entry |
| ContentSearch.SortByOffset | GUI/Controls/BetterTreeView.cs:189-192 | the entries sorted by offset, a permutation of the input |
| ContentSearch.ArchiveEntries | GUI/Controls/BetterTreeView.cs:174-192 | an archive's entries with bytes, exactly those, sorted by offset |
| ContentSearch.ArchivesBelow | GUI/Controls/BetterTreeView.cs:210-212 | the indices 0 to n-1 in order |
| ContentSearch.ArchivesToScan | GUI/Controls/BetterTreeView.cs:206-212 | corrected: every archive from 0 up to and including the highest index |
| ContentSearch.ArchivesScannedAsWritten | GUI/Controls/BetterTreeView.cs:210-212 | as written: the archives 0 to the highest index minus one |
| ContentSearch.LastArchiveSkipped | GUI/Controls/BetterTreeView.cs:162-212 | as written, the archive with the highest index is never opened, though an entry lives there |
| ContentSearch.SingleArchiveNeverSearched | GUI/Controls/BetterTreeView.cs:206-212 | a package with only archive 0 opens no archive as written, and archive 0 when corrected |
| ContentSearch.EveryArchiveScanned | GUI/Controls/BetterTreeView.cs:162-172 | corrected, every entry outside the directory file lies in an archive that is opened |
| ContentSearch.GroupMatches | GUI/Controls/BetterTreeView.cs:202-221 | the entries found in an archive belong to it and have bytes |
| ContentSearch.ArchiveMatches | GUI/Controls/BetterTreeView.cs:217-229 | the entries found in the archives are entries of the package that have bytes |
| ContentSearch.ArchiveMatchesSnoc | GUI/Controls/BetterTreeView.cs:223-228 | one more archive adds exactly its own matches |
| ContentSearch.SearchArchive | GUI/Controls/BetterTreeView.cs:196-221 | an archive with no entries that have bytes cannot be looked up; otherwise gives its matches |
| ContentSearch.ScanNextArchive | GUI/Controls/BetterTreeView.cs:217-229 | scanning the next archive adds its matches to those below it, exactly when it has entries |
| ContentSearch.SearchArchives | GUI/Controls/BetterTreeView.cs:206-235 | succeeds exactly when every archive up to the highest index has entries, with all their matches; otherwise names the first archive without any |
| ContentSearch.SearchFileContents | GUI/Controls/BetterTreeView.cs:140-262 | a pattern shorter than three bytes and an inner package are rejected; otherwise the matches of the directory file and of every archive, failing at the first archive without entries |
| Paths.GetFileName | ValveResourceFormat/IO/ModelExtract.cs:124 | the file name holds no separator, ends the path, and is the whole text after the last separator: it is the whole path or is preceded by a separator |
| Paths.GetDirectoryName | ValveResourceFormat/IO/MapExtract.cs:77-80 | as .NET's Path.GetDirectoryName: empty without a separator; empty (null in .NET) for an empty path or the bare root; never a doubled separator in the result; a rooted path longer than the root gives a rooted directory; for a path without doubled separators whose last separator is past the root, directory, separator and file name make up the path again |
| Paths.CollapseSeparators | ValveResourceFormat/IO/MapExtract.cs:78 | the result has no doubled separator, is no longer than the text, keeps its first and last character and the same non-separator characters, has a separator exactly when the text does, and is the text itself when the text has no doubled separator |
| Paths.RootLength | ValveResourceFormat/IO/MapExtract.cs:78 | the root is one character exactly when the path starts at the separator, otherwise empty |
| Paths.DirectoryEnd | ValveResourceFormat/IO/MapExtract.cs:78 | the end lies between the root and the path's end; it is 0 without a separator; it stops at the root or after a non-separator, with only separators from there to the last one; for a path without doubled separators it is the last separator |
| Paths.TrimSeparatorsBefore | ValveResourceFormat/IO/MapExtract.cs:78 | the new end never passes the root, everything it skips is a separator, and it stops at the root or after a character that is not a separator |
| Paths.DirectoryBeforeSeparatorRun | ValveResourceFormat/IO/MapExtract.cs:78 | a directory without doubled or trailing separators, followed by any run of separators and a file name, is the directory of that path, so "a//b" has the directory "a" |
| Paths.TrimOverRun | ValveResourceFormat/IO/MapExtract.cs:78 | trimming from inside a separator run that follows a non-separator stops at the start of the run |
| Paths.CollapsedDirectoryExample | ValveResourceFormat/IO/MapExtract.cs:107-108 | the directory of "x//y/b" is "x/y": a doubled separator inside the directory is collapsed |
| Paths.GetDirectoryNameExamples | ValveResourceFormat/IO/MapExtract.cs:107-108 | "a//b" has the directory "a", the bare root "/" has none, and "/b" has the directory "/" |
| Paths.RemoveExtension | ValveResourceFormat/IO/ShaderDataProvider.cs:496 | what is left is a prefix of the path; the path is kept exactly when its last dot does not come after its last separator; otherwise the cut is at that last dot, after which there is neither a dot nor a separator |
| Paths.RemoveExtensionWithoutDot | ValveResourceFormat/IO/ShaderDataProvider.cs:496 | a name without a dot is kept whole |
| Paths.RemoveExtensionOf | ValveResourceFormat/IO/ShaderDataProvider.cs:496 | a name with one extension loses exactly the dot and the extension |
| Paths.ChangeExtension | ValveResourceFormat/IO/ModelExtract.cs:97 | the result is the path without its extension (RemoveExtension) followed by the new extension |
| Paths.GetFileNameWithoutExtension | ValveResourceFormat/IO/MapExtract.cs:77 | the result holds no separator and is the file name with its extension removed |
| Paths.FileNameAfterDirectory | ValveResourceFormat/IO/ModelExtract.cs:124 | the file name of dir/name is name when name has no separator |
| Paths.FileNameWithoutExtensionOf | ValveResourceFormat/IO/MapExtract.cs:77 | dir/name.ext, with no dot or separator in name and ext, gives name |
| Text.Upper | GUI/Controls/BetterTreeView.cs:47 | same length, each character upper-cased, ASCII letters only |
| Text.ReplaceChar | ValveResourceFormat/IO/MapExtract.cs:94-95 | same length, every occurrence of one character replaced and nothing else changed |
| Text.TrimEnd | ValveResourceFormat/IO/MapExtract.cs:94-95 | a prefix that does not end with the character, with only that character dropped |
| Text.Split | GUI/Controls/BetterTreeView.cs:357 | there is at least one part and no part holds the separator |
| Text.Unsigned | GUI/Types/Renderer/WorldLoader.cs:362 | the text with one leading sign removed, if it has one |
| Text.JoinSplit | GUI/Controls/BetterTreeView.cs:357 | joining the parts of a split with the separator gives back the text |
| Text.SplitJoin | ValveResourceFormat/IO/MapExtract.cs:521 | splitting parts joined with a separator they do not hold gives back the parts |
| Text.ParseInt | GUI/Types/Renderer/WorldLoader.cs:362 | a result is a 32-bit integer; the text is a format error exactly when, after one optional sign, it is not a non-empty run of decimal digits; otherwise the signed value of the digits is the result when it fits in 32 bits and an overflow error when it does not; a negative result needs a leading minus, and a leading minus gives no positive result |
| Text.ParseIntToString | ValveResourceFormat/IO/MapExtract.cs:521 | every 32-bit integer written in decimal parses back to itself |
| Text.TryParseOrZero | GUI/Types/Renderer/WorldLoader.cs:324 | the parsed value when the text parses, and 0 when it does not |

## Left out

- OpenGL calls, shaders, buffers and texture uploads are left out. Texture, material and buffer handles are opaque values, and the allocations `RenderSprites` and `MaterialLoader` perform are returned as data.
- File and resource loading, VPK package reading, Datamodel/KV3/DMX serialisation and `dmx.Save` are external libraries. Their results are parameters: archive contents are a `read` function of the archive index, and loaded resources are inputs.
- Concurrency is left out. `Parallel.For` over archives is a sequential loop, and the shader cache's `lock` is dropped because the cache is modelled as state passed in and returned.
- Lazy enumeration (`yield return`) becomes a finished sequence. Where the source throws halfway through, the model returns an error and drops the partial output already yielded or written.
- Particles.Helpers: the helper functions the operators call are not part of this model. They are total function values with only the named facts each lemma requires. IEEE float rounding, NaN and infinities are not modelled.
- FadeOutSimple.Update requires `fadeOutTime != 0`. The source would divide by zero and produce an IEEE infinity or NaN, which `real` cannot represent.
- CreateWithinSphere.Initialize does not guard the zero random direction, and neither does the source. Its length is whatever `Normalize` returns for the zero vector.
- `string.ToUpperInvariant` and case-insensitive comparison are modelled on ASCII letters only. No other Unicode case mapping is modelled.
- Paths.GetDirectoryName: .NET returns null for an empty path or the bare root "/"; the model returns "". Every caller reads the two alike: the vmap location check tests `string.IsNullOrEmpty`, the map constructor and the DMX names concatenate it (null concatenates as empty), and a world manifest reference ends in "world.vrman", so it is never empty or the root. Windows-only rules of the .NET method (trailing spaces, UNC and drive roots) are not modelled.
- Paths treats '/' as the only directory separator. Drive letters, UNC paths and `Path.AltDirectorySeparatorChar` are not modelled.
- `Convert.ToByte(s, 16)` is modelled for exactly two hex digits per byte. A non-hex digit is the `InvalidHexDigit` error and a trailing odd digit is `OddHexLength`, in place of the .NET exceptions. An odd-length query throws in the source's `Substring`.
- `int.Parse` accepts an optional sign and decimal digits. Surrounding white space and culture-specific signs are not modelled.
- BetterTreeView: the `Regex` search type is left out; it needs a regular-expression engine.
- BetterTreeView: `FileNameExactMatch` calls `Nodes.Find`, a WinForms lookup that is not part of this model.
- BetterTreeView: the deleted-files folder name and `Package.DirectorySeparatorChar` are parameters.
- BetterTreeView: a file node's item count is taken as 0.
- BetterTreeView.AddFileNode states where the file lands only for directory names whose folder names are all non-empty. A doubled or trailing separator yields an empty folder name, which `FindChild` never matches, so a new folder is made each time; the model inserts it that way, but its contract does not describe the resulting tree.
- ContentSearch.SortByOffset is a stable insertion sort. `List.Sort` is unstable, so two entries at the same offset may come out in another order in the source.
- ContentSearch: the `KeyNotFoundException` for an archive without entries becomes the `MissingArchive` error. The source raises it inside `Parallel.For`, so it reaches the caller as an `AggregateException`.
- ContentSearch.SearchArchives and ContentSearch.SearchFileContents scan the corrected archive range, 0 up to and including the highest index (see Findings). The code as written stops before the highest index (BetterTreeView.cs:210-212); `ArchivesScannedAsWritten` models that range.
- ContentSearch: building the result tree nodes (BetterTreeView.cs:241-257) is left out; the model returns the set of entries found.
- ShaderDataProvider: `ConfigMappingSParams.GetZframeId` is not part of this model; the zframe id is a parameter, falling back to 0 when unknown.
- ShaderDataProvider: the search through write sequences and the retry with `S_MODE_TOOLS_VIS` are given as a `varying` parameter instead of being decoded from the shader file.
- ModelExtract: the `MaterialInputSignatures` table and its lookups (ModelExtract.cs:32,125,418-424) are not modelled.
- MapEntities.ApplyLineage uses the corrected `Lineage` (see Findings). For a `hammeruniqueid` part past the 32-bit range it keeps the previous lineage; the code as written throws an `OverflowException` that aborts the extraction. `LineageAsWritten` models that behaviour on its own.
- MapEntities.AddProperties goes through ApplyLineage, so it does not fail on an overflowing `hammeruniqueid`, unlike the code as written.
- MapDocument.PlaceEntity inherits the corrected lineage parse from AddProperties, so it does not fail on an overflowing `hammeruniqueid`, unlike the code as written.
- MapDocument.ProcessEntity places entities through PlaceEntity, so it too uses the corrected lineage parse and does not fail on an overflowing `hammeruniqueid`, unlike the code as written.
- MapDocument: key-value insertion order is kept as a sequence of pairs. The KV3 writer that consumes it is not modelled.
- MapDocument: entity connections (`DmeConnectionData`) in `AddProperties` are not modelled.
- MapExtract: loading the files listed in `ModelsToExtract` inside `ToContentFile` (MapExtract.cs:25,199-208,336) is left out.
- ModelExtract: DMX vertex streams and Datamodel saving in `ToDmxMesh` are left out, and so is the draw-call iteration of render meshes.
- ModelExtract.EdgeWalk is bounded by fuel equal to the number of edges. The source's do-while loop over `Next` never ends on a cycle that does not return to the face's first edge; the model returns `EndlessLoop` for that case.
- WorldLoader.Load: the `LightmapGameVersionNumber` render attribute (a byte cast of the game version) is not modelled. Texture and file loading are not part of this model: the BRDF lookup table's texture and the lightmap textures are parameters, and `lumps` holds the entity lumps that loaded, so a null lump name or a lump file that does not load (both skipped by the source) is simply absent from it.
- WorldLoader: the `skybox_reference` branch (which loads another world and may read a VPK), the `env_sky` branch (which sets the scene's sky), particle systems and `CreateDefaultEntity` are left out.
- WorldLoader: `sky_camera` sets `SkyboxScale` and `SkyboxOrigin` from float properties and the entity position; these float results are not modelled.
- WorldLoader.CheckGlobalLight: a global light sets the scene's `SunLightPosition` and `SunLightColor`; these float values are not modelled. The throws are modelled: a missing or unsupported colour (`NotImplementedException`) and a missing or unconvertible brightness.
- WorldLoader.UIntProperty: `EntityLump.Entity.GetProperty<T>` is not part of this model. The model reads a value of another runtime type as the default 0; if the source's getter throws there instead, that failure is not modelled.
- WorldLoader.ProcessEntity: an `info_world_layer` without a `layername` adds nothing to the enabled layers. The source adds a null entry to the set, which has no counterpart among strings.
- ModelSceneNode: `Update`, `UpdateBoundingBox` and `SetAnimation` are animation playback and matrix maths, and are left out.
- RenderSprites: the billboard corner positions come from camera matrices and are a `corner` parameter.
- SceneAggregate: a later aggregate mesh missing `m_nDrawCallIndex` when the first one has it is an error in the model. The source throws a `KeyNotFoundException` there.

## Findings

| source | as written | input that shows it | evidently intended | confidence | as-written member | corrected member |
|---|---|---|---|---|---|---|
| ValveResourceFormat/IO/MapExtract.cs:519-526 | `int.Parse` on each `hammeruniqueid` part inside a `try` that catches only `FormatException`, so an `OverflowException` escapes and aborts the whole map extraction | `hammeruniqueid` = "2147483648" | an unparsable id, too large or malformed, leaves the lineage empty and the node id unset | not executed | MapEntities.LineageOverflowEscapes | MapEntities.LineageIgnoresOverflow |
| GUI/Controls/BetterTreeView.cs:210-212 | `Parallel.For(0, maxArchiveIndex, ...)` runs archive indices 0 to `maxArchiveIndex - 1`, so the archive with the highest index is never searched | a package whose only data archive is index 0: nothing is scanned | scan every archive from 0 up to and including `maxArchiveIndex` | not executed | ContentSearch.SingleArchiveNeverSearched | ContentSearch.SearchFileContents |

=== FILE: better_tree_view.dfy ===
/**
 * The package browser's tree: breadth-first search over its nodes with a
 * match rule chosen by the search type, the extension-to-icon table, and
 * the insertion of a package file under its folder nodes.
 */
module BetterTreeView {
  import opened Wrappers
  import opened Text
  import opened Seqs
  import Paths

  /** A tree node: its name (also its text), image key, item count and child nodes. */
  datatype TreeNode = TreeNode(name: String, imageKey: String, itemCount: int, children: seq<TreeNode>)

  function Size(n: TreeNode): nat
    decreases n, 1
  {
    1 + SizeAll(n.children)
  }

  function SizeAll(ns: seq<TreeNode>): nat
    decreases ns, 0
  {
    if |ns| == 0 then 0 else Size(ns[0]) + SizeAll(ns[1..])
  }

  lemma {:induction false} SizeAllAppend(a: seq<TreeNode>, b: seq<TreeNode>)
    ensures SizeAll(a + b) == SizeAll(a) + SizeAll(b)
    decreases |a|
  {
    if |a| > 0 {
      assert (a + b)[0] == a[0];
      assert (a + b)[1..] == a[1..] + b;
      assert SizeAll(a + b) == Size(a[0]) + SizeAll(a[1..] + b);
      SizeAllAppend(a[1..], b);
    } else {
      assert a + b == b;
    }
  }

  // Breadth-first search (Search(Func<BetterTreeNode, bool>))

  /** A node together with its full path: the texts from the root down, joined by the tree's separator. */
  datatype Located = Located(node: TreeNode, fullPath: String)

  function Roots(roots: seq<TreeNode>): (r: seq<Located>)
    ensures |r| == |roots|
    ensures forall i :: 0 <= i < |roots| ==> r[i] == Located(roots[i], roots[i].name)
  {
    seq(|roots|, i requires 0 <= i < |roots| => Located(roots[i], roots[i].name))
  }

  /** The children of a located node, each with its own full path. */
  function ChildrenOf(l: Located, sep: String): (r: seq<Located>)
    ensures |r| == |l.node.children|
    ensures forall i :: 0 <= i < |r| ==>
      r[i] == Located(l.node.children[i], l.fullPath + sep + l.node.children[i].name)
  {
    seq(|l.node.children|, i requires 0 <= i < |l.node.children| =>
      Located(l.node.children[i], l.fullPath + sep + l.node.children[i].name))
  }

  /** The children of every node of a level, level by level. */
  function NextLevel(level: seq<Located>, sep: String): seq<Located>
  {
    if |level| == 0 then [] else ChildrenOf(level[0], sep) + NextLevel(level[1..], sep)
  }

  function QueueSize(q: seq<Located>): nat
  {
    if |q| == 0 then 0 else Size(q[0].node) + QueueSize(q[1..])
  }

  lemma {:induction false} QueueSizeAppend(a: seq<Located>, b: seq<Located>)
    ensures QueueSize(a + b) == QueueSize(a) + QueueSize(b)
    decreases |a|
  {
    if |a| > 0 {
      assert (a + b)[0] == a[0];
      assert (a + b)[1..] == a[1..] + b;
      assert QueueSize(a + b) == Size(a[0].node) + QueueSize(a[1..] + b);
      QueueSizeAppend(a[1..], b);
    } else {
      assert a + b == b;
    }
  }

  lemma {:induction false} QueueSizeOfChildren(l: Located, sep: String, k: nat)
    requires k <= |l.node.children|
    ensures QueueSize(ChildrenOf(l, sep)[k..]) == SizeAll(l.node.children[k..])
    decreases |l.node.children| - k
  {
    if k < |l.node.children| {
      QueueSizeOfChildren(l, sep, k + 1);
      assert ChildrenOf(l, sep)[k..][1..] == ChildrenOf(l, sep)[k + 1..];
      assert l.node.children[k..][1..] == l.node.children[k + 1..];
    }
  }

  /** Dequeuing a node and enqueuing its children makes the queue smaller. */
  lemma DequeueShrinks(q: seq<Located>, sep: String)
    requires |q| > 0
    ensures QueueSize(q[1..] + ChildrenOf(q[0], sep)) < QueueSize(q)
  {
    QueueSizeAppend(q[1..], ChildrenOf(q[0], sep));
    QueueSizeOfChildren(q[0], sep, 0);
    assert ChildrenOf(q[0], sep)[0..] == ChildrenOf(q[0], sep);
    assert q[0].node.children[0..] == q[0].node.children;
  }

  lemma {:induction false} NextLevelSize(level: seq<Located>, sep: String)
    ensures QueueSize(NextLevel(level, sep)) + |level| == QueueSize(level)
    decreases |level|
  {
    if |level| > 0 {
      NextLevelSize(level[1..], sep);
      QueueSizeAppend(ChildrenOf(level[0], sep), NextLevel(level[1..], sep));
      QueueSizeOfChildren(level[0], sep, 0);
      assert ChildrenOf(level[0], sep)[0..] == ChildrenOf(level[0], sep);
      assert level[0].node.children[0..] == level[0].node.children;
    }
  }

  /** The order in which the queue visits nodes: dequeue the head, enqueue its children. */
  function Visits(q: seq<Located>, sep: String): seq<Located>
    decreases QueueSize(q)
  {
    if |q| == 0 then []
    else
      DequeueShrinks(q, sep);
      [q[0]] + Visits(q[1..] + ChildrenOf(q[0], sep), sep)
  }

  /** Reference breadth-first order: a whole level, then the order of the level below it. */
  function LevelOrder(level: seq<Located>, sep: String): seq<Located>
    decreases QueueSize(level)
  {
    if |level| == 0 then []
    else
      NextLevelSize(level, sep);
      level + LevelOrder(NextLevel(level, sep), sep)
  }

  /** Visiting a queue that starts with `a` visits all of `a`, then what `a`'s children add behind `c`. */
  lemma {:induction false} VisitsPrefix(a: seq<Located>, c: seq<Located>, sep: String)
    ensures Visits(a + c, sep) == a + Visits(c + NextLevel(a, sep), sep)
    decreases |a|
  {
    if |a| == 0 {
      assert a + c == c;
      assert c + NextLevel(a, sep) == c;
    } else {
      var ch := ChildrenOf(a[0], sep);
      var q := a + c;
      assert q[0] == a[0];
      assert q[1..] + ch == a[1..] + (c + ch);
      VisitsStep(q, sep);
      VisitsPrefix(a[1..], c + ch, sep);
      assert NextLevel(a, sep) == ch + NextLevel(a[1..], sep);
      assert c + ch + NextLevel(a[1..], sep) == c + NextLevel(a, sep);
      assert [a[0]] + a[1..] == a;
    }
  }

  lemma VisitsStep(q: seq<Located>, sep: String)
    requires |q| > 0
    ensures Visits(q, sep) == [q[0]] + Visits(q[1..] + ChildrenOf(q[0], sep), sep)
  {
  }

  /** The queue visits nodes in breadth-first order: level by level, each level left to right. */
  lemma {:induction false} VisitsAreLevelOrder(level: seq<Located>, sep: String)
    ensures Visits(level, sep) == LevelOrder(level, sep)
    decreases QueueSize(level)
  {
    if |level| > 0 {
      VisitsPrefix(level, [], sep);
      assert level + [] == level;
      assert [] + NextLevel(level, sep) == NextLevel(level, sep);
      NextLevelSize(level, sep);
      VisitsAreLevelOrder(NextLevel(level, sep), sep);
    }
  }

  lemma FilterCons<T>(p: T -> bool, x: T, s: seq<T>)
    ensures Filter(p, [x] + s) == (if p(x) then [x] else []) + Filter(p, s)
  {
    assert ([x] + s)[0] == x;
    assert ([x] + s)[1..] == s;
  }

  /**
   * Search(matchFunction): every node of the tree that satisfies `matches`,
   * in breadth-first order from the roots.
   */
  method Search(roots: seq<TreeNode>, sep: String, matches: Located -> bool) returns (found: seq<Located>)
    ensures found == Filter(matches, LevelOrder(Roots(roots), sep))
  {
    var queue := Roots(roots);
    found := [];
    VisitsAreLevelOrder(queue, sep);
    while |queue| > 0
      invariant found + Filter(matches, Visits(queue, sep)) == Filter(matches, LevelOrder(Roots(roots), sep))
      decreases QueueSize(queue)
    {
      var current := queue[0];
      var rest := queue[1..] + ChildrenOf(current, sep);
      assert Visits(queue, sep) == [current] + Visits(rest, sep);
      FilterCons(matches, current, Visits(rest, sep));
      if matches(current) {
        found := found + [current];
      }
      DequeueShrinks(queue, sep);
      queue := rest;
    }
  }

  /** Every node the search returns matches, and every matching node in breadth-first order is returned. */
  lemma SearchFindsExactlyMatches(roots: seq<TreeNode>, sep: String, matches: Located -> bool, found: seq<Located>)
    requires found == Filter(matches, LevelOrder(Roots(roots), sep))
    ensures forall i :: 0 <= i < |found| ==> matches(found[i]) && found[i] in LevelOrder(Roots(roots), sep)
    ensures forall l :: l in LevelOrder(Roots(roots), sep) && matches(l) ==> l in found
  {
  }

  /** A located node's children are located too: the level order is closed under children. */
  lemma {:induction false} LevelOrderHasChildren(level: seq<Located>, sep: String, l: Located, k: nat)
    requires l in LevelOrder(level, sep) && k < |l.node.children|
    ensures ChildrenOf(l, sep)[k] in LevelOrder(level, sep)
    decreases QueueSize(level)
  {
    NextLevelSize(level, sep);
    var next := NextLevel(level, sep);
    if l in level {
      ChildInNextLevel(level, sep, l, k);
      assert ChildrenOf(l, sep)[k] in LevelOrder(next, sep);
    } else {
      LevelOrderHasChildren(next, sep, l, k);
    }
  }

  lemma {:induction false} ChildInNextLevel(level: seq<Located>, sep: String, l: Located, k: nat)
    requires l in level && k < |l.node.children|
    ensures ChildrenOf(l, sep)[k] in NextLevel(level, sep)
    ensures |NextLevel(level, sep)| > 0
    decreases |level|
  {
    if level[0] != l {
      assert l in level[1..];
      ChildInNextLevel(level[1..], sep, l, k);
    }
  }

  // Query preparation (Search(string, SearchType))

  datatype SearchType = FileNameExactMatch | FileNamePartialMatch | FullPath | Regex | FileContents | FileContentsHex

  /**
   * Partial and full-path queries are upper-cased with '\' turned into the
   * package separator, and a partial query holding a separator becomes a
   * full-path query.
   */
  function PrepareQuery(value: String, searchType: SearchType): (r: (String, SearchType))
    ensures searchType !in {FileNamePartialMatch, FullPath} ==> r == (value, searchType)
    ensures searchType in {FileNamePartialMatch, FullPath} ==>
      |r.0| == |value| && '\\' !in r.0 &&
      (forall i :: 0 <= i < |value| ==> r.0[i] == (if value[i] == '\\' then Paths.Separator else UpperChar(value[i])))
    ensures searchType == FileNamePartialMatch ==>
      (r.1 == FullPath <==> Paths.Separator in r.0) && (r.1 != FullPath ==> r.1 == FileNamePartialMatch)
    ensures searchType == FullPath ==> r.1 == FullPath
  {
    if searchType == FileNamePartialMatch || searchType == FullPath then
      var v := ReplaceChar(Upper(value), '\\', Paths.Separator);
      if searchType == FileNamePartialMatch && Paths.Separator in v then (v, FullPath) else (v, searchType)
    else (value, searchType)
  }

  /** Preparing a prepared query changes nothing. */
  lemma PrepareQueryIdempotent(value: String, searchType: SearchType)
    ensures PrepareQuery(PrepareQuery(value, searchType).0, PrepareQuery(value, searchType).1) == PrepareQuery(value, searchType)
  {
    var r := PrepareQuery(value, searchType);
    if searchType in {FileNamePartialMatch, FullPath} {
      var v := ReplaceChar(Upper(r.0), '\\', Paths.Separator);
      assert forall i :: 0 <= i < |r.0| ==> v[i] == r.0[i];
      assert v == r.0;
    }
  }

  /** The match rule of a prepared text query; None for the search types matched elsewhere. */
  function TextMatcher(query: String, searchType: SearchType): Option<Located -> bool>
  {
    match searchType
    case FileNamePartialMatch => Some((l: Located) => ContainsIgnoreCase(l.node.name, query))
    case FullPath => Some((l: Located) => ContainsIgnoreCase(l.fullPath, query))
    case _ => None
  }

  /** A partial or full-path search: the query prepared, then every node whose text or full path holds it. */
  method SearchText(roots: seq<TreeNode>, sep: String, value: String, searchType: SearchType) returns (found: seq<Located>)
    requires searchType in {FileNamePartialMatch, FullPath}
    ensures var (q, t) := PrepareQuery(value, searchType);
      forall l :: l in found <==> (l in LevelOrder(Roots(roots), sep) &&
        (if t == FullPath then ContainsIgnoreCase(l.fullPath, q) else ContainsIgnoreCase(l.node.name, q)))
  {
    var (q, t) := PrepareQuery(value, searchType);
    var m := TextMatcher(q, t).value;
    found := Search(roots, sep, m);
    SearchFindsExactlyMatches(roots, sep, m, found);
  }

  // Icons (GenerateIconList)

  /** ImageList.Images.ContainsKey: a non-empty key equal to an image name, ignoring case. */
  predicate HasImage(images: set<String>, key: String)
  {
    |key| > 0 && exists k :: k in images && EqualsIgnoreCase(k, key)
  }

  /** An extension without its compiled "_c" ending. */
  function StripCompiled(extension: String): (r: String)
    ensures EndsWith(extension, "_c") ==> r + "_c" == extension
    ensures !EndsWith(extension, "_c") ==> r == extension
  {
    if EndsWith(extension, "_c") then extension[..|extension| - 2] else extension
  }

  /** The icon of an extension: its name without "_c", else that without a leading 'v', if there is such an image. */
  function IconFor(extension: String, images: set<String>): (r: Option<String>)
    ensures r.Some? ==> HasImage(images, r.value)
  {
    var e := StripCompiled(extension);
    if HasImage(images, e) then Some(e)
    else if |e| > 0 && e[0] == 'v' && HasImage(images, e[1..]) then Some(e[1..])
    else None
  }

  /** The icon is the extension's own name when there is one; the name without 'v' only otherwise. */
  lemma IconForCases(extension: String, images: set<String>)
    ensures var e := StripCompiled(extension);
      (HasImage(images, e) ==> IconFor(extension, images) == Some(e)) &&
      (IconFor(extension, images).Some? && IconFor(extension, images).value != e ==>
        !HasImage(images, e) && ['v'] + IconFor(extension, images).value == e) &&
      (IconFor(extension, images).None? <==>
        !HasImage(images, e) && !(|e| > 0 && e[0] == 'v' && HasImage(images, e[1..])))
  {
    var e := StripCompiled(extension);
    if !HasImage(images, e) && |e| > 0 && e[0] == 'v' && HasImage(images, e[1..]) {
      assert ['v'] + e[1..] == e;
    }
  }

  datatype IconError = DuplicateExtension(extension: String)

  /** The icon table built from `extensions` onto `table`; Dictionary.Add throws on a repeated extension. */
  function AddIcons(table: map<String, String>, extensions: seq<String>, images: set<String>): (r: Result<map<String, String>, IconError>)
    ensures r.Success? ==> forall e :: e in r.value ==> e in table || (e in extensions && IconFor(e, images).Some?)
    ensures r.Success? ==> forall e :: e in table ==> e in r.value && r.value[e] == table[e]
    ensures r.Success? ==> forall e :: e in extensions && IconFor(e, images).Some? ==> e in r.value
    ensures r.Success? ==> forall e :: e in r.value && e !in table ==>
      IconFor(e, images).Some? && r.value[e] == IconFor(e, images).value
    ensures r.Failure? ==> r.error.extension in extensions && IconFor(r.error.extension, images).Some?
    decreases |extensions|
  {
    if |extensions| == 0 then Success(table)
    else
      var e := extensions[0];
      match IconFor(e, images)
      case None => AddIcons(table, extensions[1..], images)
      case Some(icon) =>
        if e in table then Failure(DuplicateExtension(e))
        else AddIcons(table[e := icon], extensions[1..], images)
  }

  /**
   * GenerateIconList: the icon of every extension that has one, failing
   * when such an extension is listed twice.
   */
  function GenerateIconList(extensions: seq<String>, images: set<String>): (r: Result<map<String, String>, IconError>)
    ensures r.Success? <==>
      forall i, j :: 0 <= i < j < |extensions| && extensions[i] == extensions[j] ==> IconFor(extensions[i], images).None?
    ensures r.Success? ==> forall e :: e in r.value <==> e in extensions && IconFor(e, images).Some?
    ensures r.Success? ==> forall e :: e in r.value ==> r.value[e] == IconFor(e, images).value
  {
    AddIconsSucceedsIff(map[], extensions, images);
    AddIcons(map[], extensions, images)
  }

  /** For distinct extensions the table is built and holds exactly the extensions with an icon, each with its icon. */
  lemma {:induction false} AddIconsComplete(table: map<String, String>, extensions: seq<String>, images: set<String>)
    requires forall i, j :: 0 <= i < j < |extensions| ==> extensions[i] != extensions[j]
    requires forall i :: 0 <= i < |extensions| ==> extensions[i] !in table
    ensures AddIcons(table, extensions, images).Success?
    ensures forall e :: e in extensions && IconFor(e, images).Some? ==>
      e in AddIcons(table, extensions, images).value &&
      AddIcons(table, extensions, images).value[e] == IconFor(e, images).value
    decreases |extensions|
  {
    if |extensions| > 0 {
      var e := extensions[0];
      var rest := extensions[1..];
      assert forall x :: x in extensions <==> x == e || x in rest;
      assert e !in rest;
      match IconFor(e, images)
      case None =>
        AddIconsComplete(table, rest, images);
      case Some(icon) =>
        AddIconsComplete(table[e := icon], rest, images);
    }
  }

  lemma GenerateIconListComplete(extensions: seq<String>, images: set<String>)
    requires forall i, j :: 0 <= i < j < |extensions| ==> extensions[i] != extensions[j]
    ensures GenerateIconList(extensions, images).Success?
    ensures forall e :: e in GenerateIconList(extensions, images).value <==> e in extensions && IconFor(e, images).Some?
    ensures forall e :: e in GenerateIconList(extensions, images).value ==>
      GenerateIconList(extensions, images).value[e] == IconFor(e, images).value
  {
    AddIconsComplete(map[], extensions, images);
  }

  /**
   * Dictionary.Add never throws: no extension with an icon is already in the
   * table, and no extension with an icon comes twice.
   */
  predicate NoClash(table: map<String, String>, extensions: seq<String>, images: set<String>)
  {
    && (forall i :: 0 <= i < |extensions| && IconFor(extensions[i], images).Some? ==> extensions[i] !in table)
    && (forall i, j :: 0 <= i < j < |extensions| && extensions[i] == extensions[j] ==> IconFor(extensions[i], images).None?)
  }

  /** The table is built exactly when no Dictionary.Add meets a key already present. */
  lemma {:induction false} AddIconsSucceedsIff(table: map<String, String>, extensions: seq<String>, images: set<String>)
    ensures AddIcons(table, extensions, images).Success? <==> NoClash(table, extensions, images)
    decreases |extensions|
  {
    if |extensions| > 0 {
      var e := extensions[0];
      match IconFor(e, images)
      case None =>
        NoClashStepWithoutIcon(table, extensions, images);
        AddIconsSucceedsIff(table, extensions[1..], images);
      case Some(icon) =>
        if e !in table {
          NoClashStepWithIcon(table, extensions, images, icon);
          AddIconsSucceedsIff(table[e := icon], extensions[1..], images);
        }
    }
  }

  /** An extension without an icon adds no clash. */
  lemma NoClashStepWithoutIcon(table: map<String, String>, extensions: seq<String>, images: set<String>)
    requires |extensions| > 0 && IconFor(extensions[0], images).None?
    ensures NoClash(table, extensions, images) <==> NoClash(table, extensions[1..], images)
  {
    var rest := extensions[1..];
    assert forall k :: 0 <= k < |rest| ==> rest[k] == extensions[k + 1];
    if NoClash(table, rest, images) {
      forall i, j | 0 <= i < j < |extensions| && extensions[i] == extensions[j]
        ensures IconFor(extensions[i], images).None?
      {
        if i > 0 { assert rest[i - 1] == rest[j - 1]; }
      }
    }
  }

  /** An extension with an icon, not yet in the table, clashes later exactly when it comes again. */
  lemma NoClashStepWithIcon(table: map<String, String>, extensions: seq<String>, images: set<String>, icon: String)
    requires |extensions| > 0 && IconFor(extensions[0], images) == Some(icon) && extensions[0] !in table
    ensures NoClash(table, extensions, images) <==> NoClash(table[extensions[0] := icon], extensions[1..], images)
  {
    var e := extensions[0];
    var rest := extensions[1..];
    assert forall k :: 0 <= k < |rest| ==> rest[k] == extensions[k + 1];
    if NoClash(table, extensions, images) {
      forall k | 0 <= k < |rest| && IconFor(rest[k], images).Some?
        ensures rest[k] !in table[e := icon]
      {
        assert extensions[k + 1] == rest[k];
      }
    }
    if NoClash(table[e := icon], rest, images) {
      forall i, j | 0 <= i < j < |extensions| && extensions[i] == extensions[j]
        ensures IconFor(extensions[i], images).None?
      {
        if i > 0 { assert rest[i - 1] == rest[j - 1]; }
      }
    }
  }

  /** An extension with an icon that is listed twice makes Dictionary.Add throw. */
  lemma RepeatedExtensionFails(extensions: seq<String>, images: set<String>, i: nat, j: nat)
    requires i < j < |extensions| && extensions[i] == extensions[j] && IconFor(extensions[i], images).Some?
    ensures GenerateIconList(extensions, images).Failure?
  {
  }

  /** An extension with an icon already in the table makes Dictionary.Add throw. */
  lemma ExistingExtensionFails(table: map<String, String>, extensions: seq<String>, images: set<String>, i: nat)
    requires i < |extensions| && extensions[i] in table && IconFor(extensions[i], images).Some?
    ensures AddIcons(table, extensions, images).Failure?
  {
    AddIconsSucceedsIff(table, extensions, images);
  }

  /** The image key of a file node: its type's icon, else "_default". */
  function IconKey(iconList: map<String, String>, typeName: String): (r: String)
    ensures typeName in iconList ==> r == iconList[typeName]
    ensures typeName !in iconList ==> r == "_default"
  {
    if typeName in iconList then iconList[typeName] else "_default"
  }

  // Folder insertion (AddFileNode)

  /** TreeNodeCollection[key]: the first child whose name equals a non-empty key, ignoring case. */
  function FindChild(children: seq<TreeNode>, key: String): (r: Option<nat>)
    ensures r.Some? ==> r.value < |children| && |key| > 0 && EqualsIgnoreCase(children[r.value].name, key)
    ensures r.Some? ==> forall j :: 0 <= j < r.value ==> !EqualsIgnoreCase(children[j].name, key)
    ensures r.None? ==> |key| == 0 || forall j :: 0 <= j < |children| ==> !EqualsIgnoreCase(children[j].name, key)
  {
    if |key| == 0 then None else FirstNamed(children, key, 0)
  }

  function FirstNamed(children: seq<TreeNode>, key: String, from: nat): (r: Option<nat>)
    requires from <= |children|
    ensures r.Some? ==> from <= r.value < |children| && EqualsIgnoreCase(children[r.value].name, key)
    ensures r.Some? ==> forall j :: from <= j < r.value ==> !EqualsIgnoreCase(children[j].name, key)
    ensures r.None? ==> forall j :: from <= j < |children| ==> !EqualsIgnoreCase(children[j].name, key)
    decreases |children| - from
  {
    if from == |children| then None
    else if EqualsIgnoreCase(children[from].name, key) then Some(from)
    else FirstNamed(children, key, from + 1)
  }

  /** A new folder node: count 1, folder icon. */
  function NewFolder(name: String): TreeNode
  {
    TreeNode(name, "_folder", 1, [])
  }

  /** The folders a directory path is made of, without the deleted-files root when it is skipped. */
  function KeptFolders(folders: seq<String>, skipDeletedRootFolder: bool, deletedFolder: String): (r: seq<String>)
    ensures |r| <= |folders|
    ensures forall i :: 0 <= i < |r| ==> r[i] in folders
    decreases |folders|
  {
    if |folders| == 0 then []
    else if skipDeletedRootFolder && folders[0] == deletedFolder then KeptFolders(folders[1..], skipDeletedRootFolder, deletedFolder)
    else [folders[0]] + KeptFolders(folders[1..], skipDeletedRootFolder, deletedFolder)
  }

  /** Walks `folders` down from `node`, reusing a child (its count plus one) or adding a folder, then adds `file`. */
  function AddUnder(node: TreeNode, folders: seq<String>, skipDeletedRootFolder: bool, deletedFolder: String,
                    file: TreeNode): (r: TreeNode)
    ensures r.name == node.name && r.imageKey == node.imageKey && r.itemCount == node.itemCount
    ensures |node.children| <= |r.children| <= |node.children| + 1
    ensures forall j :: 0 <= j < |node.children| ==> r.children[j].name == node.children[j].name
    ensures |folders| == 0 ==> r.children == node.children + [file]
    ensures |folders| > 0 && !(skipDeletedRootFolder && folders[0] == deletedFolder) ==>
      match FindChild(node.children, folders[0])
      case Some(i) =>
        && |r.children| == |node.children| && r.children[i].itemCount == node.children[i].itemCount + 1
        && r.children[i].imageKey == node.children[i].imageKey
        && forall j :: 0 <= j < |node.children| && j != i ==> r.children[j] == node.children[j]
      case None =>
        && r.children[..|node.children|] == node.children && |r.children| == |node.children| + 1
        && r.children[|node.children|].name == folders[0] && r.children[|node.children|].itemCount == 1
        && r.children[|node.children|].imageKey == "_folder"
    decreases |folders|
  {
    if |folders| == 0 then node.(children := node.children + [file])
    else if skipDeletedRootFolder && folders[0] == deletedFolder then
      AddUnder(node, folders[1..], skipDeletedRootFolder, deletedFolder, file)
    else
      match FindChild(node.children, folders[0])
      case None =>
        node.(children := node.children + [AddUnder(NewFolder(folders[0]), folders[1..], skipDeletedRootFolder, deletedFolder, file)])
      case Some(i) =>
        var sub := node.children[i];
        node.(children := node.children[i := AddUnder(sub.(itemCount := sub.itemCount + 1), folders[1..],
                                                       skipDeletedRootFolder, deletedFolder, file)])
  }

  /** The node made for a file: its name, its type's icon and no children. */
  function FileNode(fileName: String, typeName: String, iconList: map<String, String>): TreeNode
  {
    TreeNode(fileName, IconKey(iconList, typeName), 0, [])
  }

  /**
   * AddFileNode: a blank directory puts the file directly under `root`;
   * otherwise each '/'-separated folder is found or created in turn, and
   * the file ends as the last child of the folder the kept path leads to.
   */
  function AddFileNode(root: TreeNode, directoryName: String, fileName: String, typeName: String,
                       iconList: map<String, String>, skipDeletedRootFolder: bool, deletedFolder: String): (r: TreeNode)
    ensures r.name == root.name && r.imageKey == root.imageKey && r.itemCount == root.itemCount
    ensures IsWhiteSpaceOnly(directoryName) ==> r.children == root.children + [FileNode(fileName, typeName, iconList)]
    ensures !IsWhiteSpaceOnly(directoryName) ==>
      var folders := Split(directoryName, Paths.Separator);
      (forall i :: 0 <= i < |folders| ==> |folders[i]| > 0) ==>
        FileLastUnder(r, KeptFolders(folders, skipDeletedRootFolder, deletedFolder), FileNode(fileName, typeName, iconList))
  {
    var file := FileNode(fileName, typeName, iconList);
    if IsWhiteSpaceOnly(directoryName) then AddUnder(root, [], skipDeletedRootFolder, deletedFolder, file)
    else
      var folders := Split(directoryName, Paths.Separator);
      var r := AddUnder(root, folders, skipDeletedRootFolder, deletedFolder, file);
      assert (forall i :: 0 <= i < |folders| ==> |folders[i]| > 0) ==>
        FileLastUnder(r, KeptFolders(folders, skipDeletedRootFolder, deletedFolder), file) by {
        if forall i :: 0 <= i < |folders| ==> |folders[i]| > 0 {
          FileUnderLastFolder(root, folders, skipDeletedRootFolder, deletedFolder, file);
        }
      }
      r
  }

  /** Follows `folders` down from `node` the way the lookup by key does. */
  function Descend(node: TreeNode, folders: seq<String>): Option<TreeNode>
    decreases |folders|
  {
    if |folders| == 0 then Some(node)
    else
      match FindChild(node.children, folders[0])
      case None => None
      case Some(i) => Descend(node.children[i], folders[1..])
  }

  /** After the insertion the file is the last child of the folder its kept path leads to. */
  lemma {:induction false} FileUnderLastFolder(node: TreeNode, folders: seq<String>, skipDeletedRootFolder: bool,
                                              deletedFolder: String, file: TreeNode)
    requires forall i :: 0 <= i < |folders| ==> |folders[i]| > 0
    ensures FileLastUnder(AddUnder(node, folders, skipDeletedRootFolder, deletedFolder, file),
                          KeptFolders(folders, skipDeletedRootFolder, deletedFolder), file)
    decreases |folders|
  {
    if |folders| > 0 {
      var rest := folders[1..];
      assert forall i :: 0 <= i < |rest| ==> rest[i] == folders[i + 1];
      if skipDeletedRootFolder && folders[0] == deletedFolder {
        FileUnderLastFolder(node, rest, skipDeletedRootFolder, deletedFolder, file);
        SkippedFolder(node, folders, skipDeletedRootFolder, deletedFolder, file);
      } else {
        var keptRest := KeptFolders(rest, skipDeletedRootFolder, deletedFolder);
        assert KeptFolders(folders, skipDeletedRootFolder, deletedFolder) == [folders[0]] + keptRest;
        match FindChild(node.children, folders[0])
        case None =>
          FileUnderLastFolder(NewFolder(folders[0]), rest, skipDeletedRootFolder, deletedFolder, file);
          FileUnderNewFolder(node, folders, skipDeletedRootFolder, deletedFolder, file);
        case Some(i) =>
          var child := node.children[i];
          var bumped := child.(itemCount := child.itemCount + 1);
          FileUnderLastFolder(bumped, rest, skipDeletedRootFolder, deletedFolder, file);
          FileUnderReusedFolder(node, folders, skipDeletedRootFolder, deletedFolder, file, i, bumped);
      }
    }
  }

  lemma SkippedFolder(node: TreeNode, folders: seq<String>, skipDeletedRootFolder: bool,
                      deletedFolder: String, file: TreeNode)
    requires |folders| > 0 && skipDeletedRootFolder && folders[0] == deletedFolder
    ensures AddUnder(node, folders, skipDeletedRootFolder, deletedFolder, file) ==
      AddUnder(node, folders[1..], skipDeletedRootFolder, deletedFolder, file)
    ensures KeptFolders(folders, skipDeletedRootFolder, deletedFolder) ==
      KeptFolders(folders[1..], skipDeletedRootFolder, deletedFolder)
  {
  }

  /** Property of FileUnderLastFolder for the file under `node`. */
  predicate FileLastUnder(node: TreeNode, kept: seq<String>, file: TreeNode)
  {
    var d := Descend(node, kept);
    d.Some? && |d.value.children| > 0 && d.value.children[|d.value.children| - 1] == file
  }

  lemma FileUnderNewFolder(node: TreeNode, folders: seq<String>, skipDeletedRootFolder: bool,
                           deletedFolder: String, file: TreeNode)
    requires |folders| > 0 && |folders[0]| > 0 && !(skipDeletedRootFolder && folders[0] == deletedFolder)
    requires FindChild(node.children, folders[0]).None?
    requires FileLastUnder(AddUnder(NewFolder(folders[0]), folders[1..], skipDeletedRootFolder, deletedFolder, file),
                           KeptFolders(folders[1..], skipDeletedRootFolder, deletedFolder), file)
    ensures FileLastUnder(AddUnder(node, folders, skipDeletedRootFolder, deletedFolder, file),
                          KeptFolders(folders, skipDeletedRootFolder, deletedFolder), file)
  {
    var keptRest := KeptFolders(folders[1..], skipDeletedRootFolder, deletedFolder);
    var sub := AddUnder(NewFolder(folders[0]), folders[1..], skipDeletedRootFolder, deletedFolder, file);
    var r := AddUnder(node, folders, skipDeletedRootFolder, deletedFolder, file);
    assert r.children == node.children + [sub];
    assert r.children[..|node.children|] == node.children;
    NewFolderFound(node.children, r.children, folders[0]);
    DescendStep(r, folders[0], keptRest, |node.children|);
  }

  lemma FileUnderReusedFolder(node: TreeNode, folders: seq<String>, skipDeletedRootFolder: bool,
                              deletedFolder: String, file: TreeNode, i: nat, bumped: TreeNode)
    requires |folders| > 0 && !(skipDeletedRootFolder && folders[0] == deletedFolder)
    requires FindChild(node.children, folders[0]) == Some(i)
    requires bumped == node.children[i].(itemCount := node.children[i].itemCount + 1)
    requires FileLastUnder(AddUnder(bumped, folders[1..], skipDeletedRootFolder, deletedFolder, file),
                           KeptFolders(folders[1..], skipDeletedRootFolder, deletedFolder), file)
    ensures FileLastUnder(AddUnder(node, folders, skipDeletedRootFolder, deletedFolder, file),
                          KeptFolders(folders, skipDeletedRootFolder, deletedFolder), file)
  {
    var keptRest := KeptFolders(folders[1..], skipDeletedRootFolder, deletedFolder);
    var sub := AddUnder(bumped, folders[1..], skipDeletedRootFolder, deletedFolder, file);
    var r := AddUnder(node, folders, skipDeletedRootFolder, deletedFolder, file);
    ReusedFolderReplaced(node, folders, skipDeletedRootFolder, deletedFolder, file, i);
    ReusedFolderFound(node.children, r.children, folders[0], i);
    DescendStep(r, folders[0], keptRest, i);
  }

  /** Reusing child i replaces it by the bumped child with the rest of the path added under it. */
  lemma ReusedFolderReplaced(node: TreeNode, folders: seq<String>, skipDeletedRootFolder: bool,
                             deletedFolder: String, file: TreeNode, i: nat)
    requires |folders| > 0 && !(skipDeletedRootFolder && folders[0] == deletedFolder)
    requires FindChild(node.children, folders[0]) == Some(i)
    ensures AddUnder(node, folders, skipDeletedRootFolder, deletedFolder, file).children ==
      node.children[i := AddUnder(node.children[i].(itemCount := node.children[i].itemCount + 1), folders[1..],
                                  skipDeletedRootFolder, deletedFolder, file)]
  {
  }

  lemma DescendStep(node: TreeNode, name: String, folders: seq<String>, k: nat)
    requires FindChild(node.children, name) == Some(k)
    ensures Descend(node, [name] + folders) == Descend(node.children[k], folders)
  {
    assert ([name] + folders)[0] == name;
    assert ([name] + folders)[1..] == folders;
  }

  /** A folder appended after children none of which has its name is what the lookup finds. */
  lemma NewFolderFound(children: seq<TreeNode>, after: seq<TreeNode>, name: String)
    requires |name| > 0 && |after| == |children| + 1 && after[..|children|] == children
    requires FindChild(children, name).None? && after[|children|].name == name
    ensures FindChild(after, name) == Some(|children|)
  {
    assert EqualsIgnoreCase(after[|children|].name, name);
    assert forall j :: 0 <= j < |children| ==> after[j] == children[j];
  }

  /** Replacing the found child by one with the same name keeps it the one found. */
  lemma ReusedFolderFound(children: seq<TreeNode>, after: seq<TreeNode>, name: String, i: nat)
    requires FindChild(children, name) == Some(i) && |after| == |children|
    requires forall j :: 0 <= j < |children| ==> after[j].name == children[j].name
    ensures FindChild(after, name) == Some(i)
  {
    assert FindChild(after, name).Some?;
  }
}

=== FILE: clamp_scalar.dfy ===
/** The ClampScalar operator: clamps a scalar field between two per-particle bounds. */
module ClampScalar {
  import opened Wrappers
  import opened Particles

  datatype Config = Config(outputMin: NumberProvider, outputMax: NumberProvider, outputField: ScalarField)

  const Defaults: Config := Config(Literal(0.0), Literal(1.0), Radius)

  /** Math.Clamp: it throws (None) when the lower bound exceeds the upper one. */
  function Clamp(v: real, lo: real, hi: real): (r: Option<real>)
    ensures r.Some? <==> lo <= hi
    ensures r.Some? ==> lo <= r.value <= hi
    ensures r.Some? && lo <= v <= hi ==> r.value == v
    ensures r.Some? && v < lo ==> r.value == lo
    ensures r.Some? && v > hi ==> r.value == hi
  {
    if lo > hi then None else if v < lo then Some(lo) else if v > hi then Some(hi) else Some(v)
  }

  /** Clamping a clamped value again changes nothing. */
  lemma ClampIdempotent(v: real, lo: real, hi: real)
    requires lo <= hi
    ensures Clamp(Clamp(v, lo, hi).value, lo, hi) == Clamp(v, lo, hi)
  {
  }

  /** The bounds after MinMaxFixUp. */
  function Bounds(c: Config, h: Helpers, st: RenderState, p: Particle): (real, real)
  {
    h.minMaxFixUp(NextNumber(c.outputMin, p, st), NextNumber(c.outputMax, p, st))
  }

  /**
   * Clamps the output field between the fixed-up bounds; the update fails
   * exactly when the fixed-up bounds are still inverted.
   */
  function Update(c: Config, h: Helpers, st: RenderState, p: Particle): (r: Option<Particle>)
    ensures var b := Bounds(c, h, st, p); r.Some? <==> b.0 <= b.1
    ensures r.Some? ==> r.value.(current := p.current) == p
    ensures r.Some? ==> forall g :: g != c.outputField ==> GetScalar(r.value.current, g) == GetScalar(p.current, g)
    ensures r.Some? ==> forall g :: GetVector(r.value.current, g) == GetVector(p.current, g)
    ensures var b := Bounds(c, h, st, p);
      r.Some? ==> b.0 <= GetScalar(r.value.current, c.outputField) <= b.1
    ensures var b := Bounds(c, h, st, p);
      b.0 <= GetScalar(p.current, c.outputField) <= b.1 ==> r == Some(p)
  {
    var b := Bounds(c, h, st, p);
    var v := GetScalar(p.current, c.outputField);
    match Clamp(v, b.0, b.1)
    case None => None
    case Some(clamped) =>
      SetScalarSame(p.current, c.outputField);
      Some(p.(current := SetScalar(p.current, c.outputField, clamped)))
  }

  /** One frame: every particle is clamped, and the frame fails if any particle's update throws. */
  function UpdateAll(c: Config, h: Helpers, st: RenderState, ps: seq<Particle>): (r: Option<seq<Particle>>)
    ensures r.Some? <==> forall i :: 0 <= i < |ps| ==> Update(c, h, st, ps[i]).Some?
    ensures r.Some? ==> |r.value| == |ps|
    ensures r.Some? ==> forall i :: 0 <= i < |ps| ==> r.value[i] == Update(c, h, st, ps[i]).value
  {
    if |ps| == 0 then Some([])
    else
      match (Update(c, h, st, ps[0]), UpdateAll(c, h, st, ps[1..]))
      case (Some(q), Some(qs)) =>
        assert forall i :: 1 <= i < |ps| ==> ps[i] == ps[1..][i - 1];
        Some([q] + qs)
      case (None, _) => None
      case (_, None) =>
        assert exists i :: 0 <= i < |ps[1..]| && Update(c, h, st, ps[1..][i]).None?;
        None
  }

  /** MinMaxFixUp ordering the bounds is exactly what keeps the frame from throwing. */
  lemma FixUpPreventsFailure(c: Config, h: Helpers, st: RenderState, ps: seq<Particle>)
    requires FixUpOrders(h)
    ensures UpdateAll(c, h, st, ps).Some?
  {
    forall i | 0 <= i < |ps|
      ensures Update(c, h, st, ps[i]).Some?
    {
      var lo := NextNumber(c.outputMin, ps[i], st);
      var hi := NextNumber(c.outputMax, ps[i], st);
      assert h.minMaxFixUp(lo, hi).0 <= h.minMaxFixUp(lo, hi).1;
    }
  }

  /** With literal bounds a second application in the same frame changes nothing. */
  lemma UpdateIdempotent(c: Config, h: Helpers, st: RenderState, p: Particle)
    requires c.outputMin.Literal? && c.outputMax.Literal?
    requires Update(c, h, st, p).Some?
    ensures Update(c, h, st, Update(c, h, st, p).value) == Update(c, h, st, p)
  {
  }
}

=== FILE: color_interpolate_random.dfy ===
/** The ColorInterpolateRandom operator: blends a vector field towards a per-particle random colour. */
module ColorInterpolateRandom {
  import opened Wrappers
  import opened Vectors
  import opened Particles

  datatype Config = Config(
    colorFadeMin: Vec3, colorFadeMax: Vec3,
    fadeStartTime: real, fadeEndTime: real,
    fieldOutput: VectorField, easeInOut: bool)

  const Defaults: Config := Config(One, One, 0.0, 1.0, Color, false)

  /**
   * A colour bound read from the definition: absent keys keep the default,
   * an integer triple is scaled from 0-255 to 0-1, and an array shorter
   * than three entries makes the source throw (None).
   */
  function ColorBound(values: Option<seq<int>>, default: Vec3): (r: Option<Vec3>)
    ensures values.None? ==> r == Some(default)
    ensures values.Some? && |values.value| < 3 ==> r.None?
    ensures values.Some? && |values.value| >= 3 && (forall i :: 0 <= i < 3 ==> 0 <= values.value[i] <= 255) ==>
      r.Some? && 0.0 <= r.value.x <= 1.0 && 0.0 <= r.value.y <= 1.0 && 0.0 <= r.value.z <= 1.0
    ensures values.Some? && |values.value| >= 3 ==>
      r.Some? && r.value.x * 255.0 == values.value[0] as real && r.value.y * 255.0 == values.value[1] as real
      && r.value.z * 255.0 == values.value[2] as real
  {
    match values
    case None => Some(default)
    case Some(v) =>
      if |v| < 3 then None
      else Some(Vec3(v[0] as real / 255.0, v[1] as real / 255.0, v[2] as real / 255.0))
  }

  /** Builds the configuration from the optional colour arrays and the scalar settings. */
  function FromDefinition(
    fadeMin: Option<seq<int>>, fadeMax: Option<seq<int>>,
    fadeStartTime: real, fadeEndTime: real, fieldOutput: VectorField, easeInOut: bool): (r: Option<Config>)
    ensures fadeMin.None? && fadeMax.None? ==>
      r == Some(Config(One, One, fadeStartTime, fadeEndTime, fieldOutput, easeInOut))
    ensures r.Some? <==> ColorBound(fadeMin, One).Some? && ColorBound(fadeMax, One).Some?
  {
    match (ColorBound(fadeMin, One), ColorBound(fadeMax, One))
    case (Some(lo), Some(hi)) => Some(Config(lo, hi, fadeStartTime, fadeEndTime, fieldOutput, easeInOut))
    case _ => None
  }

  /** The particle's target colour: one joint draw, or one draw per component with easeInOut. */
  function TargetColor(c: Config, h: Helpers, p: Particle): Vec3
  {
    if c.easeInOut then h.randomBetweenPerComponent(p.id, c.colorFadeMin, c.colorFadeMax)
    else h.randomBetweenVector(p.id, c.colorFadeMin, c.colorFadeMax)
  }

  predicate InWindow(c: Config, t: real)
  {
    c.fadeStartTime <= t <= c.fadeEndTime
  }

  /**
   * Inside the fade window the output field becomes a blend from the
   * initial colour to the target; outside it nothing changes. Only the
   * output field is ever written.
   */
  function Operate(c: Config, h: Helpers, p: Particle): (r: Particle)
    ensures r.(current := p.current) == p
    ensures forall g :: g != c.fieldOutput ==> GetVector(r.current, g) == GetVector(p.current, g)
    ensures forall g :: GetScalar(r.current, g) == GetScalar(p.current, g)
    ensures var t := NormalizedAge(h, p);
      InWindow(c, t) ==>
        GetVector(r.current, c.fieldOutput)
          == h.lerpVector(h.remap(t, c.fadeStartTime, c.fadeEndTime), p.initial.color, TargetColor(c, h, p))
    ensures !InWindow(c, NormalizedAge(h, p)) ==> r == p
  {
    var t := NormalizedAge(h, p);
    if InWindow(c, t) then
      var blend := h.lerpVector(h.remap(t, c.fadeStartTime, c.fadeEndTime), p.initial.color, TargetColor(c, h, p));
      p.(current := SetVector(p.current, c.fieldOutput, blend))
    else p
  }

  /**
   * The target depends on the particle only through its ID, so two
   * particles with the same ID blend towards the same colour.
   */
  lemma TargetDependsOnIdOnly(c: Config, h: Helpers, p: Particle, q: Particle)
    requires p.id == q.id
    ensures TargetColor(c, h, p) == TargetColor(c, h, q)
  {
  }

  /** The blend starts from the initial colour, not the current one, so re-applying it in one frame changes nothing. */
  lemma OperateIdempotent(c: Config, h: Helpers, p: Particle)
    ensures Operate(c, h, Operate(c, h, p)) == Operate(c, h, p)
  {
    var q := Operate(c, h, p);
    assert q.initial == p.initial && q.id == p.id;
    assert NormalizedAge(h, q) == NormalizedAge(h, p);
  }
}

=== FILE: content_search.dfy ===
/**
 * Searching a package's archives for a byte pattern: the hex form of a
 * query, the scan of one archive file that credits every match to the
 * entry it falls in, and the search over the directory file and the
 * numbered archives. Reading files is a parameter: `read(i)` is the
 * content of archive `i`.
 */
module ContentSearch {
  import opened Wrappers
  import opened Text
  import opened Seqs

  datatype SearchError =
    | PatternTooShort
    | InnerPaksUnsupported
    | MissingArchive(index: int)
    | InvalidHexDigit
    | OddHexLength

  // Hex queries (SearchType.FileContentsHex)

  function HexDigitValue(c: char): (r: Option<nat>)
    ensures r.Some? ==> r.value < 16
  {
    if '0' <= c <= '9' then Some(c as int - '0' as int)
    else if 'a' <= c <= 'f' then Some(c as int - 'a' as int + 10)
    else if 'A' <= c <= 'F' then Some(c as int - 'A' as int + 10)
    else None
  }

  /** The query without its spaces (Replace(" ", "")). */
  function RemoveSpaces(s: String): (r: String)
    ensures ' ' !in r
  {
    Filter((c: char) => c != ' ', s)
  }

  /** Each pair of hex digits becomes one byte, in order; a lone last digit cannot be cut out. */
  function HexPairs(s: String): (r: Result<seq<Byte>, SearchError>)
    ensures r.Success? ==> 2 * |r.value| == |s|
    ensures r.Success? <==> |s| % 2 == 0 && forall i :: 0 <= i < |s| ==> HexDigitValue(s[i]).Some?
    decreases |s|
  {
    if |s| == 0 then Success([])
    else if |s| == 1 then Failure(OddHexLength)
    else
      var hi := HexDigitValue(s[0]);
      var lo := HexDigitValue(s[1]);
      assert forall i :: 2 <= i < |s| ==> s[i] == s[2..][i - 2];
      if hi.None? || lo.None? then Failure(InvalidHexDigit)
      else
        match HexPairs(s[2..])
        case Failure(e) => Failure(e)
        case Success(rest) => Success([(16 * hi.value + lo.value) as Byte] + rest)
  }

  /** The bytes a hex query stands for. */
  function HexQueryBytes(value: String): Result<seq<Byte>, SearchError>
  {
    HexPairs(RemoveSpaces(value))
  }

  function HexDigitChar(d: nat): (c: char)
    requires d < 16
    ensures HexDigitValue(c) == Some(d)
  {
    if d < 10 then ('0' as int + d) as char else ('A' as int + d - 10) as char
  }

  /** Bytes written as upper-case hex, two digits each. */
  function ToHex(bytes: seq<Byte>): (r: String)
    ensures |r| == 2 * |bytes|
    ensures ' ' !in r
  {
    if |bytes| == 0 then []
    else [HexDigitChar(bytes[0] as int / 16), HexDigitChar(bytes[0] as int % 16)] + ToHex(bytes[1..])
  }

  /** Reading back hex written from bytes gives the bytes. */
  lemma {:induction false} HexRoundTrip(bytes: seq<Byte>)
    ensures HexPairs(ToHex(bytes)) == Success(bytes)
  {
    if |bytes| > 0 {
      var b := bytes[0] as int;
      var s := ToHex(bytes);
      assert s[0] == HexDigitChar(b / 16) && s[1] == HexDigitChar(b % 16);
      assert s[2..] == ToHex(bytes[1..]);
      HexRoundTrip(bytes[1..]);
      assert (16 * (b / 16) + b % 16) as Byte == bytes[0];
      assert HexPairs(s) == Success([bytes[0]] + bytes[1..]);
      assert [bytes[0]] + bytes[1..] == bytes;
    }
  }

  /** Spaces anywhere in a hex query are ignored. */
  lemma HexQueryIgnoresSpaces(a: String, b: String)
    ensures HexQueryBytes(a + " " + b) == HexQueryBytes(a + b)
  {
    var p := (c: char) => c != ' ';
    FilterAppend(p, a + " ", b);
    FilterAppend(p, a, " ");
    FilterAppend(p, a, b);
    assert Filter(p, " ") == [];
    assert Filter(p, a) + [] == Filter(p, a);
  }

  // Scanning one archive file (SearchForContentsInFile)

  /** A package entry: its name, the archive holding it, and where its bytes lie in that archive. */
  datatype Entry = Entry(name: String, archiveIndex: nat, offset: int, length: int)

  predicate OccursAt(data: seq<Byte>, pattern: seq<Byte>, j: int)
  {
    0 <= j && j + |pattern| <= |data| && data[j..j + |pattern|] == pattern
  }

  /** Span.IndexOf: the first position of `pattern` in `data` at or after `from`, or -1. */
  function IndexFrom(data: seq<Byte>, pattern: seq<Byte>, from: nat): (r: int)
    ensures r == -1 || (from <= r && OccursAt(data, pattern, r))
    ensures forall j :: from <= j && (r == -1 || j < r) ==> !OccursAt(data, pattern, j)
    decreases |data| - from
  {
    if from + |pattern| > |data| then -1
    else if data[from..from + |pattern|] == pattern then from
    else IndexFrom(data, pattern, from + 1)
  }

  function IndexOf(data: seq<Byte>, pattern: seq<Byte>): (r: int)
    ensures r == -1 || OccursAt(data, pattern, r)
    ensures forall j :: 0 <= j && (r == -1 || j < r) ==> !OccursAt(data, pattern, j)
  {
    IndexFrom(data, pattern, 0)
  }

  /**
   * Where the matches of the scan end, counted from the start of the file
   * (`base` is where `data` starts): after a match the scan resumes at its
   * end, so matches never overlap.
   */
  function MatchEnds(data: seq<Byte>, pattern: seq<Byte>, base: int): (r: seq<int>)
    requires |pattern| > 0
    ensures forall k :: 0 <= k < |r| ==> base + |pattern| <= r[k] <= base + |data|
    ensures forall i, j :: 0 <= i < j < |r| ==> r[i] < r[j]
    decreases |data|
  {
    var m := IndexOf(data, pattern);
    if m < 0 then []
    else
      var e := m + |pattern|;
      var rest := MatchEnds(data[e..], pattern, base + e);
      [base + e] + rest
  }

  /** An occurrence in a suffix of `data` is an occurrence in `data`, shifted by where the suffix starts. */
  lemma OccursInSuffix(data: seq<Byte>, pattern: seq<Byte>, e: nat, j: int)
    requires e <= |data| && OccursAt(data[e..], pattern, j)
    ensures OccursAt(data, pattern, e + j)
  {
    assert data[e + j..e + j + |pattern|] == data[e..][j..j + |pattern|];
  }

  /** Each of `ends` closes an occurrence of `pattern` in `data`, which starts at `base`. */
  predicate EndsOccurrences(data: seq<Byte>, pattern: seq<Byte>, base: int, ends: seq<int>)
  {
    forall k :: 0 <= k < |ends| ==> OccursAt(data, pattern, ends[k] - base - |pattern|)
  }

  /** Every match end closes an occurrence of the pattern, found left to right. */
  lemma {:induction false} MatchEndsAreOccurrences(data: seq<Byte>, pattern: seq<Byte>, base: int)
    requires |pattern| > 0
    ensures EndsOccurrences(data, pattern, base, MatchEnds(data, pattern, base))
    decreases |data|
  {
    var m := IndexOf(data, pattern);
    if m < 0 {
      assert MatchEnds(data, pattern, base) == [];
    } else {
      var e := m + |pattern|;
      var rest := data[e..];
      var tail := MatchEnds(rest, pattern, base + e);
      MatchEndsAreOccurrences(rest, pattern, base + e);
      var r := MatchEnds(data, pattern, base);
      assert r == [base + e] + tail;
      forall k | 0 <= k < |r|
        ensures OccursAt(data, pattern, r[k] - base - |pattern|)
      {
        if k > 0 {
          var j := tail[k - 1] - (base + e) - |pattern|;
          OccursInSuffix(data, pattern, e, j);
          assert r[k] - base - |pattern| == e + j;
        }
      }
      assert EndsOccurrences(data, pattern, base, r);
    }
  }

  /** The scan finds no match exactly when the pattern occurs nowhere. */
  lemma MatchEndsEmptyIff(data: seq<Byte>, pattern: seq<Byte>, base: int)
    requires |pattern| > 0
    ensures |MatchEnds(data, pattern, base)| == 0 <==> forall j :: !OccursAt(data, pattern, j)
  {
  }

  predicate SortedByOffset(entries: seq<Entry>)
  {
    forall i, j :: 0 <= i < j < |entries| ==> entries[i].offset <= entries[j].offset
  }

  /** The last entry that starts at or before `end`, or -1. */
  function LastStarted(entries: seq<Entry>, end: int): (r: int)
    ensures -1 <= r < |entries|
    ensures r >= 0 ==> entries[r].offset <= end
    ensures forall k :: r < k < |entries| ==> entries[k].offset > end
    decreases |entries|
  {
    if |entries| == 0 then -1
    else if entries[|entries| - 1].offset <= end then |entries| - 1
    else LastStarted(entries[..|entries| - 1], end)
  }

  /** The entry a match ending at `end` is credited to: the last one started by then, else the first. */
  function Owner(entries: seq<Entry>, end: int): (r: nat)
    requires |entries| > 0
    ensures r < |entries|
  {
    var k := LastStarted(entries, end);
    if k < 0 then 0 else k
  }

  /** Matches further on are never credited to an earlier entry. */
  lemma OwnerNeverMovesBack(entries: seq<Entry>, prev: int, end: int)
    requires |entries| > 0 && prev <= end
    ensures Owner(entries, prev) <= Owner(entries, end)
  {
  }

  /** The entry loop: from `id` on, `last` moves to each entry that starts by `end`, stopping at the first that does not. */
  function Walk(entries: seq<Entry>, last: nat, id: nat, end: int): nat
    requires id <= |entries|
    decreases |entries| - id
  {
    if id < |entries| && end >= entries[id].offset then Walk(entries, id, id + 1, end) else last
  }

  lemma {:induction false} WalkToLastStarted(entries: seq<Entry>, last: nat, id: nat, end: int)
    requires SortedByOffset(entries) && id <= |entries|
    ensures Walk(entries, last, id, end) ==
      (if id <= LastStarted(entries, end) then LastStarted(entries, end) else last)
    decreases |entries| - id
  {
    if id < |entries| && end >= entries[id].offset {
      WalkToLastStarted(entries, id, id + 1, end);
    }
  }

  /** Resuming the entry loop at the previous match's entry finds the entry of the next match. */
  lemma WalkFromCursor(entries: seq<Entry>, cursor: nat, end: int)
    requires SortedByOffset(entries) && |entries| > 0 && cursor < |entries|
    requires cursor == 0 || cursor <= LastStarted(entries, end)
    ensures Walk(entries, cursor, cursor, end) == Owner(entries, end)
  {
    WalkToLastStarted(entries, cursor, cursor, end);
  }

  /** What one match ending at `end` adds: its entry, if the match ends within it. */
  function Credit(entries: seq<Entry>, end: int): (r: set<Entry>)
    requires |entries| > 0
    ensures r <= {entries[Owner(entries, end)]}
    ensures r != {} <==> end <= entries[Owner(entries, end)].offset + entries[Owner(entries, end)].length
  {
    var e := entries[Owner(entries, end)];
    if end <= e.offset + e.length then {e} else {}
  }

  /** The entries credited with the matches ending at `ends`. */
  function Credited(entries: seq<Entry>, ends: seq<int>): (r: set<Entry>)
    requires |entries| > 0
    ensures forall e :: e in r ==> e in entries
    decreases |ends|
  {
    if |ends| == 0 then {} else Credited(entries, ends[..|ends| - 1]) + Credit(entries, ends[|ends| - 1])
  }

  /** An entry is credited exactly when some match is credited to it and ends within it. */
  lemma {:induction false} CreditedMeans(entries: seq<Entry>, ends: seq<int>, e: Entry)
    requires |entries| > 0
    ensures e in Credited(entries, ends) <==> exists k :: (0 <= k < |ends| &&
      e == entries[Owner(entries, ends[k])] && ends[k] <= e.offset + e.length)
    decreases |ends|
  {
    if |ends| > 0 {
      var init := ends[..|ends| - 1];
      CreditedMeans(entries, init, e);
      assert forall k :: 0 <= k < |init| ==> init[k] == ends[k];
      if e in Credit(entries, ends[|ends| - 1]) {
        assert e == entries[Owner(entries, ends[|ends| - 1])];
      }
    }
  }

  /** A match ending before the first entry starts is still credited to that entry when it fits its end bound. */
  lemma MatchBeforeFirstEntryCredited(entries: seq<Entry>, end: int)
    requires |entries| > 0 && SortedByOffset(entries) && end < entries[0].offset && entries[0].length >= 0
    ensures Credit(entries, end) == {entries[0]}
  {
    assert LastStarted(entries, end) == -1;
  }

  /** One more match end adds what that match is credited with. */
  lemma CreditedSnoc(entries: seq<Entry>, ends: seq<int>, end: int)
    requires |entries| > 0
    ensures Credited(entries, ends + [end]) == Credited(entries, ends) + Credit(entries, end)
  {
    assert (ends + [end])[..|ends|] == ends;
  }

  /** The next match of the scan: where it ends, counted from the start of `data`, if the pattern occurs from `offset` on. */
  method NextMatch(data: seq<Byte>, pattern: seq<Byte>, offset: nat) returns (found: bool, next: int)
    requires |pattern| > 0 && offset <= |data|
    ensures found ==> (offset < next <= |data| &&
      MatchEnds(data[offset..], pattern, offset) == [next] + MatchEnds(data[next..], pattern, next))
    ensures !found ==> MatchEnds(data[offset..], pattern, offset) == []
  {
    var rest := data[offset..];
    var m := IndexOf(rest, pattern);
    found := m >= 0;
    next := offset + m + |pattern|;
    if found {
      assert rest[m + |pattern|..] == data[next..];
    }
  }

  /**
   * The entry loop of the scan: from the entry of the previous match, move
   * on while entries start at or before `end`. It finds the entry the
   * match ending at `end` is credited to.
   */
  method FindEntry(entries: seq<Entry>, cursor: nat, end: int) returns (lastEntryId: nat)
    requires SortedByOffset(entries) && cursor < |entries|
    requires cursor == 0 || cursor <= LastStarted(entries, end)
    ensures lastEntryId == Owner(entries, end)
  {
    lastEntryId := cursor;
    var entryId := cursor;
    while entryId < |entries| && end >= entries[entryId].offset
      invariant lastEntryId < |entries| && entryId <= |entries|
      invariant Walk(entries, lastEntryId, entryId, end) == Walk(entries, cursor, cursor, end)
      decreases |entries| - entryId
    {
      lastEntryId := entryId;
      entryId := entryId + 1;
    }
    WalkFromCursor(entries, cursor, end);
  }

  /** SearchForContentsInFile: every entry a match of the pattern ends in, the entry found by a cursor that only moves forward. */
  method SearchForContentsInFile(data: seq<Byte>, pattern: seq<Byte>, entries: seq<Entry>) returns (matches: set<Entry>)
    requires |pattern| > 0 && |entries| > 0 && SortedByOffset(entries)
    ensures matches == Credited(entries, MatchEnds(data, pattern, 0))
  {
    var offset := 0;
    var lastEntryId := 0;
    matches := {};
    ghost var done: seq<int> := [];
    assert data[0..] == data;
    while true
      invariant 0 <= offset <= |data|
      invariant done + MatchEnds(data[offset..], pattern, offset) == MatchEnds(data, pattern, 0)
      invariant matches == Credited(entries, done)
      invariant lastEntryId < |entries|
      invariant |done| == 0 ==> lastEntryId == 0
      invariant |done| > 0 ==> offset == done[|done| - 1] && lastEntryId == Owner(entries, offset)
      decreases |data| - offset
    {
      var found, next := NextMatch(data, pattern, offset);
      if !found {
        assert done + [] == done;
        break;
      }
      ghost var prev := offset;
      AppendAssoc(done, [next], MatchEnds(data[next..], pattern, next));
      offset := next;
      if |done| > 0 {
        OwnerNeverMovesBack(entries, prev, offset);
      }
      lastEntryId := FindEntry(entries, lastEntryId, offset);

      var entry := entries[lastEntryId];
      if offset <= entry.offset + entry.length {
        matches := matches + {entry};
      }
      CreditedSnoc(entries, done, offset);
      done := done + [offset];
    }
  }

  // Searching a package (SearchFileContents)

  /** The archive index of entries stored in the directory file. */
  const DirArchive: nat := 0x7FFF

  /** The highest archive index among the entries outside the directory file, or -1. */
  function MaxArchiveIndex(entries: seq<Entry>): (r: int)
    ensures r >= -1
    ensures forall i :: 0 <= i < |entries| && entries[i].archiveIndex != DirArchive ==> entries[i].archiveIndex <= r
    ensures r >= 0 ==> exists i :: 0 <= i < |entries| && entries[i].archiveIndex == r && r != DirArchive
    decreases |entries|
  {
    if |entries| == 0 then -1
    else
      var m := MaxArchiveIndex(entries[..|entries| - 1]);
      var a := entries[|entries| - 1].archiveIndex;
      assert forall i :: 0 <= i < |entries| - 1 ==> entries[..|entries| - 1][i] == entries[i];
      if a != DirArchive && a > m then a else m
  }

  function InsertByOffset(x: Entry, s: seq<Entry>): (r: seq<Entry>)
    requires SortedByOffset(s)
    ensures SortedByOffset(r)
    ensures multiset(r) == multiset(s) + multiset{x}
    ensures |r| == |s| + 1 && (r[0] == x || (|s| > 0 && r[0] == s[0]))
    decreases |s|
  {
    if |s| == 0 then [x]
    else if x.offset < s[0].offset then [x] + s
    else
      var rest := InsertByOffset(x, s[1..]);
      assert s == [s[0]] + s[1..];
      var r := [s[0]] + rest;
      assert s[0].offset <= rest[0].offset;
      forall i, j | 0 <= i < j < |r|
        ensures r[i].offset <= r[j].offset
      {
        assert r[j] == rest[j - 1];
        if i > 0 {
          assert r[i] == rest[i - 1];
        } else if j > 1 {
          assert rest[0].offset <= rest[j - 1].offset;
        }
      }
      r
  }

  /** The entries sorted by offset (List.Sort on Offset). */
  function SortByOffset(s: seq<Entry>): (r: seq<Entry>)
    ensures SortedByOffset(r)
    ensures multiset(r) == multiset(s)
    decreases |s|
  {
    if |s| == 0 then []
    else
      assert s == s[..|s| - 1] + [s[|s| - 1]];
      InsertByOffset(s[|s| - 1], SortByOffset(s[..|s| - 1]))
  }

  /** The entries of one archive that have bytes, sorted by offset. */
  function ArchiveEntries(entries: seq<Entry>, archive: nat): (r: seq<Entry>)
    ensures SortedByOffset(r)
    ensures forall e :: e in r <==> e in entries && e.archiveIndex == archive && e.length != 0
  {
    var kept := Filter((e: Entry) => e.archiveIndex == archive && e.length != 0, entries);
    var r := SortByOffset(kept);
    assert forall e :: e in r <==> e in multiset(r);
    assert forall e :: e in kept <==> e in multiset(kept);
    r
  }

  /** The archive indices 0, 1, ..., n-1, in order. */
  function ArchivesBelow(n: int): (r: seq<nat>)
    ensures |r| == (if n > 0 then n else 0)
    ensures forall k :: 0 <= k < |r| ==> r[k] == k
    ensures forall a :: a in r <==> 0 <= a < n
    decreases n
  {
    if n <= 0 then [] else ArchivesBelow(n - 1) + [n - 1]
  }

  /** The numbered archives the search should open: 0 up to and including the highest index. */
  function ArchivesToScan(maxArchiveIndex: int): (r: seq<nat>)
    ensures forall a :: a in r <==> 0 <= a <= maxArchiveIndex
  {
    ArchivesBelow(maxArchiveIndex + 1)
  }

  /** The archives opened as written: Parallel.For(0, maxArchiveIndex) stops before its upper bound. */
  function ArchivesScannedAsWritten(maxArchiveIndex: int): (r: seq<nat>)
    ensures forall a :: a in r <==> 0 <= a < maxArchiveIndex
  {
    ArchivesBelow(maxArchiveIndex)
  }

  /** As written, the archive with the highest index is never opened, though it holds an entry. */
  lemma LastArchiveSkipped(entries: seq<Entry>)
    requires MaxArchiveIndex(entries) >= 0
    ensures MaxArchiveIndex(entries) !in ArchivesScannedAsWritten(MaxArchiveIndex(entries))
    ensures exists i :: 0 <= i < |entries| && entries[i].archiveIndex == MaxArchiveIndex(entries)
  {
  }

  /** A package with one numbered archive: as written, nothing in it is searched. */
  lemma SingleArchiveNeverSearched()
    ensures MaxArchiveIndex([Entry("a.txt", 0, 0, 10)]) == 0
    ensures ArchivesScannedAsWritten(MaxArchiveIndex([Entry("a.txt", 0, 0, 10)])) == []
    ensures ArchivesToScan(MaxArchiveIndex([Entry("a.txt", 0, 0, 10)])) == [0]
  {
    assert MaxArchiveIndex([Entry("a.txt", 0, 0, 10)][..0]) == -1;
  }

  /** Every entry outside the directory file lies in an archive the corrected search opens. */
  lemma EveryArchiveScanned(entries: seq<Entry>)
    ensures forall i :: 0 <= i < |entries| && entries[i].archiveIndex != DirArchive ==>
      entries[i].archiveIndex in ArchivesToScan(MaxArchiveIndex(entries))
  {
  }

  /** The entries credited in archive file `a`, scanned with its own entries sorted by offset. */
  function GroupMatches(entries: seq<Entry>, pattern: seq<Byte>, read: nat -> seq<Byte>, a: nat): (r: set<Entry>)
    requires |pattern| > 0
    ensures forall e :: e in r ==> e in entries && e.archiveIndex == a && e.length != 0
  {
    var group := ArchiveEntries(entries, a);
    if |group| == 0 then {} else Credited(group, MatchEnds(read(a), pattern, 0))
  }

  /** The entries credited in archive files `archives`. */
  function ArchiveMatches(entries: seq<Entry>, pattern: seq<Byte>, read: nat -> seq<Byte>, archives: seq<nat>): (r: set<Entry>)
    requires |pattern| > 0
    ensures forall e :: e in r ==> e in entries && e.length != 0
    decreases |archives|
  {
    if |archives| == 0 then {}
    else ArchiveMatches(entries, pattern, read, archives[..|archives| - 1]) + GroupMatches(entries, pattern, read, archives[|archives| - 1])
  }

  lemma ArchiveMatchesSnoc(entries: seq<Entry>, pattern: seq<Byte>, read: nat -> seq<Byte>, archives: seq<nat>, a: nat)
    requires |pattern| > 0
    ensures ArchiveMatches(entries, pattern, read, archives + [a]) ==
      ArchiveMatches(entries, pattern, read, archives) + GroupMatches(entries, pattern, read, a)
  {
    assert (archives + [a])[..|archives|] == archives;
  }

  /** What the whole search finds: the matches in the directory file and in every numbered archive. */
  function PackageMatches(entries: seq<Entry>, pattern: seq<Byte>, read: nat -> seq<Byte>): set<Entry>
    requires |pattern| > 0
  {
    GroupMatches(entries, pattern, read, DirArchive) + ArchiveMatches(entries, pattern, read, ArchivesToScan(MaxArchiveIndex(entries)))
  }

  /** Some entry with bytes lives in archive `a`. */
  predicate HasEntries(entries: seq<Entry>, a: nat)
  {
    exists i :: 0 <= i < |entries| && entries[i].archiveIndex == a && entries[i].length != 0
  }

  /** Scanning one archive file; an archive without entries that have bytes cannot be looked up. */
  method SearchArchive(pattern: seq<Byte>, entries: seq<Entry>, read: nat -> seq<Byte>, a: nat) returns (found: Option<set<Entry>>)
    requires |pattern| > 0
    ensures found.None? <==> !HasEntries(entries, a)
    ensures found.Some? ==> found.value == GroupMatches(entries, pattern, read, a)
  {
    var group := ArchiveEntries(entries, a);
    if |group| == 0 {
      forall i | 0 <= i < |entries| && entries[i].archiveIndex == a
        ensures entries[i].length == 0
      {
        assert entries[i] !in group;
      }
      return None;
    }
    assert group[0] in group;
    var m := SearchForContentsInFile(read(a), pattern, group);
    return Some(m);
  }

  /** One step of the archive loop: archive `a` is scanned and its matches join those of the archives below it. */
  method ScanNextArchive(pattern: seq<Byte>, entries: seq<Entry>, read: nat -> seq<Byte>, a: nat, matches: set<Entry>)
    returns (found: bool, next: set<Entry>)
    requires |pattern| > 0
    requires matches == ArchiveMatches(entries, pattern, read, ArchivesBelow(a))
    ensures found <==> HasEntries(entries, a)
    ensures found ==> next == ArchiveMatches(entries, pattern, read, ArchivesBelow(a + 1))
  {
    var group := SearchArchive(pattern, entries, read, a);
    found := group.Some?;
    next := matches;
    if found {
      ArchiveMatchesSnoc(entries, pattern, read, ArchivesBelow(a), a);
      next := matches + group.value;
    }
  }

  /** The numbered archives in order, stopping at the first without entries that have bytes. */
  method SearchArchives(pattern: seq<Byte>, entries: seq<Entry>, read: nat -> seq<Byte>, maxArchiveIndex: int)
    returns (r: Result<set<Entry>, SearchError>)
    requires |pattern| > 0
    ensures r.Failure? ==> (r.error.MissingArchive? &&
      0 <= r.error.index <= maxArchiveIndex && !HasEntries(entries, r.error.index) &&
      forall a :: 0 <= a < r.error.index ==> HasEntries(entries, a))
    ensures r.Success? <==> forall a :: 0 <= a <= maxArchiveIndex ==> HasEntries(entries, a)
    ensures r.Success? ==> r.value == ArchiveMatches(entries, pattern, read, ArchivesToScan(maxArchiveIndex))
  {
    var matches: set<Entry> := {};
    var i := 0;
    while i <= maxArchiveIndex
      invariant i == 0 || 0 < i <= maxArchiveIndex + 1
      invariant matches == ArchiveMatches(entries, pattern, read, ArchivesBelow(i))
      invariant forall a :: 0 <= a < i ==> HasEntries(entries, a)
    {
      var found, next := ScanNextArchive(pattern, entries, read, i, matches);
      if !found {
        return Failure(MissingArchive(i));
      }
      matches := next;
      i := i + 1;
    }
    if maxArchiveIndex < 0 {
      assert ArchivesBelow(maxArchiveIndex + 1) == [];
    }
    return Success(matches);
  }

  /**
   * SearchFileContents: a pattern of at least three bytes is searched in
   * the directory file when entries live there, then in every numbered
   * archive, stopping at the first archive without entries that have
   * bytes. Results are combined as a set.
   */
  method SearchFileContents(pattern: seq<Byte>, insideOtherPackage: bool, entries: seq<Entry>, read: nat -> seq<Byte>)
    returns (r: Result<set<Entry>, SearchError>)
    ensures |pattern| < 3 ==> r == Failure(PatternTooShort)
    ensures |pattern| >= 3 && insideOtherPackage ==> r == Failure(InnerPaksUnsupported)
    ensures r.Failure? && r.error.MissingArchive? ==> (
      0 <= r.error.index <= MaxArchiveIndex(entries) && !HasEntries(entries, r.error.index) &&
      forall a :: 0 <= a < r.error.index ==> HasEntries(entries, a))
    ensures r.Success? <==> (|pattern| >= 3 && !insideOtherPackage &&
      forall a :: 0 <= a <= MaxArchiveIndex(entries) ==> HasEntries(entries, a))
    ensures r.Success? ==> r.value == PackageMatches(entries, pattern, read)
  {
    if |pattern| < 3 {
      return Failure(PatternTooShort);
    }
    if insideOtherPackage {
      return Failure(InnerPaksUnsupported);
    }
    var matches: set<Entry> := {};
    var dir := SearchArchive(pattern, entries, read, DirArchive);
    if dir.Some? {
      matches := dir.value;
    }
    var archived := SearchArchives(pattern, entries, read, MaxArchiveIndex(entries));
    if archived.Failure? {
      return archived;
    }
    return Success(matches + archived.value);
  }
}

=== FILE: create_within_sphere.dfy ===
/** The CreateWithinSphere initializer: places a new particle on a random direction around its position. */
module CreateWithinSphere {
  import opened Vectors
  import opened Particles

  datatype Config = Config(
    radiusMin: NumberProvider, radiusMax: NumberProvider,
    speedMin: NumberProvider, speedMax: NumberProvider,
    localSpeedMin: VectorProvider, localSpeedMax: VectorProvider)

  const Defaults: Config := Config(
    Literal(0.0), Literal(0.0), Literal(0.0), Literal(0.0), LiteralVector(Zero), LiteralVector(Zero))

  /** The per-component draw in [-1, 1]^3 whose normalisation is the direction. */
  function RandomVector(h: Helpers, p: Particle): Vec3
  {
    h.randomBetweenPerComponent(p.id, Vec3(-1.0, -1.0, -1.0), Vec3(1.0, 1.0, 1.0))
  }

  function Direction(h: Helpers, p: Particle): Vec3
  {
    h.normalize(RandomVector(h, p))
  }

  function Distance(c: Config, h: Helpers, st: RenderState, p: Particle): real
  {
    h.randomBetween(p.id, NextNumber(c.radiusMin, p, st), NextNumber(c.radiusMax, p, st))
  }

  function Speed(c: Config, h: Helpers, st: RenderState, p: Particle): real
  {
    h.randomBetween(p.id, NextNumber(c.speedMin, p, st), NextNumber(c.speedMax, p, st))
  }

  function LocalSpeed(c: Config, h: Helpers, st: RenderState, p: Particle): Vec3
  {
    h.randomBetweenPerComponent(p.id, NextVector(c.localSpeedMin, p, st), NextVector(c.localSpeedMax, p, st))
  }

  /**
   * The particle moves along the direction by the drawn distance and gets
   * the direction times the drawn speed plus the local-space speed as its
   * velocity. Position and velocity are the only attributes written, and
   * the updated particle is the one returned.
   */
  function Initialize(c: Config, h: Helpers, st: RenderState, p: Particle): (r: Particle)
    ensures r == p.(current := p.current.(position := r.current.position), velocity := r.velocity)
    ensures Sub(r.current.position, p.current.position) == Scale(Direction(h, p), Distance(c, h, st, p))
    ensures r.velocity == Add(Scale(Direction(h, p), Speed(c, h, st, p)), LocalSpeed(c, h, st, p))
  {
    var direction := Direction(h, p);
    var position := Add(p.current.position, Scale(direction, Distance(c, h, st, p)));
    var velocity := Add(Scale(direction, Speed(c, h, st, p)), LocalSpeed(c, h, st, p));
    p.(current := p.current.(position := position), velocity := velocity)
  }

  /**
   * With equal radius bounds R >= 0 the particle lands exactly on the
   * sphere of radius R around its starting position (unless the random
   * vector is zero, which the source does not guard).
   */
  lemma FixedRadiusLandsOnSphere(c: Config, h: Helpers, st: RenderState, p: Particle, radius: real)
    requires LengthIsEuclidean(h) && NormalizeDividesByLength(h) && RandomOfEqualBounds(h)
    requires c.radiusMin == Literal(radius) && c.radiusMax == Literal(radius) && radius >= 0.0
    requires h.length(RandomVector(h, p)) > 0.0
    ensures h.length(Sub(Initialize(c, h, st, p).current.position, p.current.position)) == radius
  {
    assert Distance(c, h, st, p) == radius;
    LengthOfNormalized(h, RandomVector(h, p));
    LengthOfScaled(h, Direction(h, p), radius);
  }

  /** With a speed of zero the velocity is the local-space speed alone. */
  lemma ZeroSpeedKeepsLocalSpeed(c: Config, h: Helpers, st: RenderState, p: Particle)
    requires RandomOfEqualBounds(h)
    requires c.speedMin == Literal(0.0) && c.speedMax == Literal(0.0)
    ensures Initialize(c, h, st, p).velocity == LocalSpeed(c, h, st, p)
  {
    assert Speed(c, h, st, p) == 0.0;
  }

  /** Distance and speed use the same particle seed, so equal bounds give equal draws. */
  lemma SameSeedForDistanceAndSpeed(c: Config, h: Helpers, st: RenderState, p: Particle)
    requires NextNumber(c.radiusMin, p, st) == NextNumber(c.speedMin, p, st)
    requires NextNumber(c.radiusMax, p, st) == NextNumber(c.speedMax, p, st)
    ensures Distance(c, h, st, p) == Speed(c, h, st, p)
  {
  }

  /** The defaults leave the position where it was and give a zero velocity. */
  lemma DefaultsKeepPosition(h: Helpers, st: RenderState, p: Particle)
    requires RandomOfEqualBounds(h) && RandomPerComponentOfEqualBounds(h)
    ensures Initialize(Defaults, h, st, p).current.position == p.current.position
    ensures Initialize(Defaults, h, st, p).velocity == Zero
  {
    assert Distance(Defaults, h, st, p) == 0.0;
    assert Speed(Defaults, h, st, p) == 0.0;
    assert LocalSpeed(Defaults, h, st, p) == Zero;
  }
}

=== FILE: decay.dfy ===
/** The Decay operator: kills particles that have outlived their lifetime. */
module Decay {
  import opened Particles

  function Update(p: Particle): (r: Particle)
    ensures r.(killed := p.killed) == p
    ensures r.killed <==> p.killed || p.age > p.current.lifetime
  {
    if p.age > p.current.lifetime then Kill(p) else p
  }

  /** A killed particle stays killed, and a second application changes nothing. */
  lemma UpdateIdempotent(p: Particle)
    ensures Update(Update(p)) == Update(p)
    ensures p.killed ==> Update(p) == p
  {
  }
}

=== FILE: distance_cull.dfy ===
/** The DistanceCull operator: kills particles on one side of a sphere around a control point. */
module DistanceCull {
  import opened Vectors
  import opened Particles

  datatype Config = Config(controlPoint: int, distance: real, pointOffset: Vec3, cullInside: bool)

  const Defaults: Config := Config(0, 0.0, Zero, false)

  function SphereOrigin(c: Config, st: RenderState): Vec3
  {
    Add(st.controlPointPosition(c.controlPoint), c.pointOffset)
  }

  /**
   * Whether a position is culled: strictly inside the sphere when
   * cullInside is set, strictly outside it otherwise. A position exactly on
   * the sphere is never culled.
   */
  function CulledBySphere(c: Config, h: Helpers, st: RenderState, position: Vec3): (r: bool)
    ensures var d := h.length(Sub(SphereOrigin(c, st), position));
      r <==> (if c.cullInside then d < c.distance else d > c.distance)
    ensures h.length(Sub(SphereOrigin(c, st), position)) == c.distance ==> !r
  {
    var distanceFromEdge := h.length(Sub(SphereOrigin(c, st), position)) - c.distance;
    if c.cullInside then distanceFromEdge < 0.0 else distanceFromEdge > 0.0
  }

  function Update(c: Config, h: Helpers, st: RenderState, p: Particle): (r: Particle)
    ensures r.(killed := p.killed) == p
    ensures r.killed <==> p.killed || CulledBySphere(c, h, st, p.current.position)
  {
    if CulledBySphere(c, h, st, p.current.position) then Kill(p) else p
  }

  /**
   * With the default configuration (radius 0, cull outside) every particle
   * at a non-zero distance from the control point is culled, and one at
   * distance zero is kept.
   */
  lemma DefaultsCullAnyDistance(h: Helpers, st: RenderState, position: Vec3)
    requires LengthIsEuclidean(h)
    ensures CulledBySphere(Defaults, h, st, position) <==> h.length(Sub(SphereOrigin(Defaults, st), position)) != 0.0
  {
  }

  /** Setting cullInside swaps which side of the sphere is culled; the surface itself is kept either way. */
  lemma CullInsideMirrors(c: Config, h: Helpers, st: RenderState, position: Vec3)
    ensures var d := h.length(Sub(SphereOrigin(c, st), position));
      d != c.distance ==>
        (CulledBySphere(c.(cullInside := true), h, st, position) <==> !CulledBySphere(c.(cullInside := false), h, st, position))
  {
  }
}

=== FILE: face_sets.dfy ===
/**
 * The DMX face-set encoding: each polygon is written as its vertex
 * indices followed by the terminator -1. This module holds the encoding,
 * its decoder and the triangle face sets ModelExtract builds from it.
 */
module FaceSets {
  import opened Wrappers

  const Terminator: int := -1

  /** The polygons written one after another, each followed by the terminator. */
  function Encode(polys: seq<seq<int>>): (r: seq<int>)
  {
    if |polys| == 0 then [] else polys[0] + [Terminator] + Encode(polys[1..])
  }

  lemma {:induction false} EncodeAppend(a: seq<seq<int>>, b: seq<seq<int>>)
    ensures Encode(a + b) == Encode(a) + Encode(b)
  {
    if |a| == 0 {
      assert a + b == b;
    } else {
      assert (a + b)[1..] == a[1..] + b;
      EncodeAppend(a[1..], b);
    }
  }

  /** Index of the first terminator, or |faces| when there is none. */
  function FirstTerminator(faces: seq<int>): (r: nat)
    ensures r <= |faces|
    ensures forall i :: 0 <= i < r ==> faces[i] != Terminator
    ensures r < |faces| ==> faces[r] == Terminator
  {
    if |faces| == 0 || faces[0] == Terminator then 0 else 1 + FirstTerminator(faces[1..])
  }

  /** The polygons of a face list; a trailing polygon without terminator is kept. */
  function Decode(faces: seq<int>): (r: seq<seq<int>>)
    ensures forall k :: 0 <= k < |r| ==> Terminator !in r[k]
    decreases |faces|
  {
    if |faces| == 0 then []
    else
      var k := FirstTerminator(faces);
      if k == |faces| then [faces]
      else [faces[..k]] + Decode(faces[k + 1..])
  }

  predicate NoTerminators(polys: seq<seq<int>>)
  {
    forall k :: 0 <= k < |polys| ==> Terminator !in polys[k]
  }

  /** Decoding an encoding gives the polygons back, as long as no polygon contains the terminator. */
  lemma {:induction false} DecodeEncode(polys: seq<seq<int>>)
    requires NoTerminators(polys)
    ensures Decode(Encode(polys)) == polys
  {
    if |polys| > 0 {
      var p := polys[0];
      var faces := Encode(polys);
      var rest := Encode(polys[1..]);
      assert faces == p + [Terminator] + rest;
      FirstTerminatorAfter(p, rest);
      assert faces[..|p|] == p;
      assert faces[|p| + 1..] == rest;
      DecodeEncode(polys[1..]);
    }
  }

  lemma FirstTerminatorAfter(p: seq<int>, rest: seq<int>)
    requires Terminator !in p
    ensures FirstTerminator(p + [Terminator] + rest) == |p|
  {
    var faces := p + [Terminator] + rest;
    assert faces[|p|] == Terminator;
    assert forall i :: 0 <= i < |p| ==> faces[i] == p[i];
  }

  /** The k-th group of four entries of a face list. */
  function Quad(faces: seq<int>, k: nat): seq<int>
    requires 4 * k + 4 <= |faces|
  {
    faces[4 * k..4 * k + 4]
  }

  /** Triangle t of a triangle list: the vertices 3t, 3t+1, 3t+2. */
  function Triangle(t: int): seq<int>
  {
    [3 * t, 3 * t + 1, 3 * t + 2]
  }

  /** The length of an encoding of triangles. */
  lemma {:induction false} EncodeTrianglesAt(ts: seq<seq<int>>, k: nat, j: nat)
    requires forall i :: 0 <= i < |ts| ==> |ts[i]| == 3
    requires k < |ts| && j < 4
    ensures |Encode(ts)| == 4 * |ts|
    ensures Encode(ts)[4 * k + j] == (if j < 3 then ts[k][j] else Terminator)
  {
    EncodeTrianglesLength(ts);
    if k > 0 {
      EncodeTrianglesAt(ts[1..], k - 1, j);
      assert Encode(ts) == ts[0] + [Terminator] + Encode(ts[1..]);
      assert 4 * k + j == 4 + (4 * (k - 1) + j);
    } else {
      assert Encode(ts) == ts[0] + [Terminator] + Encode(ts[1..]);
    }
  }

  lemma EncodeQuad(ts: seq<seq<int>>, k: nat)
    requires forall i :: 0 <= i < |ts| ==> |ts[i]| == 3
    requires k < |ts|
    ensures |Encode(ts)| == 4 * |ts|
    ensures Quad(Encode(ts), k) == ts[k] + [Terminator]
  {
    EncodeTrianglesLength(ts);
    var q := Quad(Encode(ts), k);
    forall j | 0 <= j < 4 ensures q[j] == (ts[k] + [Terminator])[j] {
      EncodeTrianglesAt(ts, k, j);
    }
  }

  lemma {:induction false} EncodeTrianglesLength(ts: seq<seq<int>>)
    requires forall i :: 0 <= i < |ts| ==> |ts[i]| == 3
    ensures |Encode(ts)| == 4 * |ts|
  {
    if |ts| > 0 {
      EncodeTrianglesLength(ts[1..]);
    }
  }

  /** A named face set with its material name. */
  datatype FaceSet = FaceSet(name: seq<char>, material: seq<char>, faces: seq<int>)

  /** The triangles numbered start .. end-1, in order. */
  function TriangleRange(start: int, end: int): (r: seq<seq<int>>)
    ensures |r| == (if end > start then end - start else 0)
    ensures forall i :: 0 <= i < |r| ==> r[i] == Triangle(start + i)
  {
    if end > start then seq(end - start, i requires 0 <= i < end - start => Triangle(start + i)) else []
  }

  /**
   * GenerateTriangleFaceSet: one face set named "start-end" holding the
   * triangles start .. end-1, each as 3i, 3i+1, 3i+2 and the terminator.
   */
  function TriangleFaceSet(name: seq<char>, start: int, end: int, material: seq<char>): (r: FaceSet)
    ensures r.name == name && r.material == material
    ensures |r.faces| == 4 * (if end > start then end - start else 0)
    ensures forall k: nat :: k < end - start ==>
      Quad(r.faces, k) == [3 * (start + k), 3 * (start + k) + 1, 3 * (start + k) + 2, Terminator]
  {
    var ts := TriangleRange(start, end);
    var faces := Encode(ts);
    EncodeTrianglesLength(ts);
    forall k: nat | k < end - start
      ensures Quad(faces, k) == [3 * (start + k), 3 * (start + k) + 1, 3 * (start + k) + 2, Terminator]
    {
      EncodeQuad(ts, k);
    }
    FaceSet(name, material, faces)
  }

  /** A triangle face set decodes to exactly its triangles. */
  lemma TriangleFaceSetDecodes(name: seq<char>, start: nat, end: nat, material: seq<char>)
    ensures Decode(TriangleFaceSet(name, start, end, material).faces) == TriangleRange(start, end)
  {
    var ts := TriangleRange(start, end);
    assert TriangleFaceSet(name, start, end, material).faces == Encode(ts);
    forall k | 0 <= k < |ts| ensures Terminator !in ts[k] {
      assert ts[k] == Triangle(start + k);
    }
    DecodeEncode(ts);
  }

  datatype IndexBufferError = IncompleteTriangle

  /** The index buffer cut into consecutive triples. */
  function Triples(indices: seq<int>): (r: seq<seq<int>>)
    requires |indices| % 3 == 0
    ensures |r| == |indices| / 3
    ensures forall t :: 0 <= t < |r| ==> r[t] == indices[3 * t..3 * t + 3]
  {
    seq(|indices| / 3, t requires 0 <= t < |indices| / 3 => indices[3 * t..3 * t + 3])
  }

  /**
   * GenerateTriangleFaceSetFromIndexBuffer: the indices copied in triples,
   * each followed by the terminator; a buffer whose length is not a
   * multiple of three makes the source read past its end.
   */
  function IndexBufferFaceSet(name: seq<char>, indices: seq<int>, material: seq<char>): (r: Result<FaceSet, IndexBufferError>)
    ensures r.Success? <==> |indices| % 3 == 0
    ensures r.Success? ==>
      r.value.name == name && r.value.material == material && |r.value.faces| == 4 * (|indices| / 3)
    ensures r.Success? ==> forall t: nat :: t < |indices| / 3 ==>
      Quad(r.value.faces, t) == indices[3 * t..3 * t + 3] + [Terminator]
  {
    if |indices| % 3 != 0 then Failure(IncompleteTriangle)
    else
      var ts := Triples(indices);
      EncodeTrianglesLength(ts);
      forall t: nat | t < |indices| / 3
        ensures Quad(Encode(ts), t) == indices[3 * t..3 * t + 3] + [Terminator]
      {
        EncodeQuad(ts, t);
      }
      Success(FaceSet(name, material, Encode(ts)))
  }

  /** An index buffer without terminators decodes back to its triples. */
  lemma IndexBufferDecodes(name: seq<char>, indices: seq<int>, material: seq<char>)
    requires |indices| % 3 == 0 && Terminator !in indices
    ensures Decode(IndexBufferFaceSet(name, indices, material).value.faces) == Triples(indices)
  {
    var ts := Triples(indices);
    forall t | 0 <= t < |ts| ensures Terminator !in ts[t] {
      assert forall x :: x in ts[t] ==> x in indices;
    }
    DecodeEncode(ts);
  }
}

=== FILE: fade_and_kill.dfy ===
/** The FadeAndKill operator: fades alpha in and out over the normalised age, then kills. */
module FadeAndKill {
  import opened Particles

  datatype Config = Config(
    startFadeInTime: real, endFadeInTime: real,
    startFadeOutTime: real, endFadeOutTime: real,
    startAlpha: real, endAlpha: real)

  /** The values used when the particle definition leaves a key out. */
  const Defaults: Config := Config(0.0, 0.5, 0.5, 1.0, 1.0, 0.0)

  predicate InFadeIn(c: Config, t: real)
  {
    c.startFadeInTime <= t <= c.endFadeInTime
  }

  predicate InFadeOut(c: Config, t: real)
  {
    c.startFadeOutTime <= t <= c.endFadeOutTime
  }

  /**
   * One particle's update. The fade-in blends from startAlpha to the
   * initial alpha, the fade-out from the initial alpha to endAlpha; where
   * the windows overlap the fade-out is applied last and wins. A particle
   * whose normalised age reaches endFadeOutTime is killed.
   */
  function Update(c: Config, h: Helpers, p: Particle): (r: Particle)
    ensures r == p.(current := p.current.(alpha := r.current.alpha), killed := r.killed)
    ensures r.killed <==> p.killed || NormalizedAge(h, p) >= c.endFadeOutTime
    ensures var t := NormalizedAge(h, p);
      InFadeOut(c, t) ==>
        r.current.alpha == h.lerp(h.remap(t, c.startFadeOutTime, c.endFadeOutTime), p.initial.alpha, c.endAlpha)
    ensures var t := NormalizedAge(h, p);
      InFadeIn(c, t) && !InFadeOut(c, t) ==>
        r.current.alpha == h.lerp(h.remap(t, c.startFadeInTime, c.endFadeInTime), c.startAlpha, p.initial.alpha)
    ensures var t := NormalizedAge(h, p);
      !InFadeIn(c, t) && !InFadeOut(c, t) ==> r.current.alpha == p.current.alpha
  {
    var t := NormalizedAge(h, p);
    var a0 := p.current.alpha;
    var a1 := if InFadeIn(c, t)
      then h.lerp(h.remap(t, c.startFadeInTime, c.endFadeInTime), c.startAlpha, p.initial.alpha)
      else a0;
    var a2 := if InFadeOut(c, t)
      then h.lerp(h.remap(t, c.startFadeOutTime, c.endFadeOutTime), p.initial.alpha, c.endAlpha)
      else a1;
    var q := p.(current := p.current.(alpha := a2));
    if t >= c.endFadeOutTime then Kill(q) else q
  }

  /**
   * The alpha written depends only on the initial alpha and the age, so a
   * second application in the same frame changes nothing.
   */
  lemma UpdateIdempotent(c: Config, h: Helpers, p: Particle)
    ensures Update(c, h, Update(c, h, p)) == Update(c, h, p)
  {
    var q := Update(c, h, p);
    assert NormalizedAge(h, q) == NormalizedAge(h, p);
  }

  /**
   * With the default configuration a particle at normalised age 0.5 is in
   * both windows, and the fade-out value is the one kept.
   */
  lemma DefaultsOverlapFadeOutWins(h: Helpers, p: Particle)
    requires NormalizedAge(h, p) == 0.5
    ensures Update(Defaults, h, p).current.alpha == h.lerp(h.remap(0.5, 0.5, 1.0), p.initial.alpha, 0.0)
    ensures !Update(Defaults, h, p).killed <==> !p.killed
  {
  }

  /** With the defaults, a particle whose normalised age is 1 or more is killed. */
  lemma DefaultsKillAtEnd(h: Helpers, p: Particle)
    requires NormalizedAge(h, p) >= 1.0
    ensures Update(Defaults, h, p).killed
  {
  }
}

=== FILE: fade_out_simple.dfy ===
/** The FadeOutSimple operator: scales a scalar field down over the last part of the lifetime. */
module FadeOutSimple {
  import opened Particles

  datatype Config = Config(fadeOutTime: real, fieldOutput: ScalarField)

  const Defaults: Config := Config(0.25, Alpha)

  /**
   * When the remaining normalised life is at most fadeOutTime the output
   * field becomes the initial alpha scaled by the fraction of the fade
   * still to go; otherwise nothing changes.
   */
  function Update(c: Config, h: Helpers, p: Particle): (r: Particle)
    requires c.fadeOutTime != 0.0
    ensures r.(current := p.current) == p
    ensures forall g :: g != c.fieldOutput ==> GetScalar(r.current, g) == GetScalar(p.current, g)
    ensures forall g :: GetVector(r.current, g) == GetVector(p.current, g)
    ensures var timeLeft := 1.0 - NormalizedAge(h, p);
      timeLeft <= c.fadeOutTime ==>
        GetScalar(r.current, c.fieldOutput) * c.fadeOutTime == timeLeft * p.initial.alpha
    ensures 1.0 - NormalizedAge(h, p) > c.fadeOutTime ==> r == p
  {
    var timeLeft := 1.0 - NormalizedAge(h, p);
    if timeLeft <= c.fadeOutTime then
      var t := timeLeft / c.fadeOutTime;
      p.(current := SetScalar(p.current, c.fieldOutput, t * p.initial.alpha))
    else p
  }

  /** At the end of the life the output is zero; at the start of the fade it is the initial alpha. */
  lemma FadeEndpoints(c: Config, h: Helpers, p: Particle)
    requires c.fadeOutTime > 0.0
    ensures NormalizedAge(h, p) == 1.0 ==> GetScalar(Update(c, h, p).current, c.fieldOutput) == 0.0
    ensures NormalizedAge(h, p) == 1.0 - c.fadeOutTime ==>
      GetScalar(Update(c, h, p).current, c.fieldOutput) == p.initial.alpha
  {
    if NormalizedAge(h, p) == 1.0 {
      assert (1.0 - NormalizedAge(h, p)) / c.fadeOutTime == 0.0;
    }
    if NormalizedAge(h, p) == 1.0 - c.fadeOutTime {
      var timeLeft := 1.0 - NormalizedAge(h, p);
      assert timeLeft == c.fadeOutTime;
      assert timeLeft / c.fadeOutTime == 1.0;
    }
  }
}

=== FILE: interpolate_radius.dfy ===
/** The InterpolateRadius operator: scales the initial radius over a window of the normalised age. */
module InterpolateRadius {
  import opened Particles

  datatype Config = Config(
    startTime: real, endTime: real,
    startScale: NumberProvider, endScale: NumberProvider, bias: NumberProvider)

  const Defaults: Config := Config(0.0, 1.0, Literal(1.0), Literal(1.0), Literal(0.0))

  predicate InWindow(c: Config, t: real)
  {
    c.startTime <= t <= c.endTime
  }

  /** The radius factor: the biased window position blended between the two scales. */
  function RadiusScale(c: Config, h: Helpers, st: RenderState, p: Particle, t: real): real
  {
    var timeScale := h.pow(h.remap(t, c.startTime, c.endTime), 1.0 - NextNumber(c.bias, p, st));
    h.lerp(timeScale, NextNumber(c.startScale, p, st), NextNumber(c.endScale, p, st))
  }

  /**
   * Inside the window the radius becomes the initial radius times the
   * scale; outside it nothing changes. Only the radius is written.
   */
  function Update(c: Config, h: Helpers, st: RenderState, p: Particle): (r: Particle)
    ensures r == p.(current := p.current.(radius := r.current.radius))
    ensures var t := NormalizedAge(h, p);
      InWindow(c, t) ==> r.current.radius == p.initial.radius * RadiusScale(c, h, st, p, t)
    ensures !InWindow(c, NormalizedAge(h, p)) ==> r == p
  {
    var t := NormalizedAge(h, p);
    if InWindow(c, t) then p.(current := p.current.(radius := p.initial.radius * RadiusScale(c, h, st, p, t)))
    else p
  }

  /** With the default scales of 1 the radius inside the window is the initial radius. */
  lemma DefaultsKeepInitialRadius(h: Helpers, st: RenderState, p: Particle)
    requires LerpOfEqualEnds(h)
    requires InWindow(Defaults, NormalizedAge(h, p))
    ensures Update(Defaults, h, st, p).current.radius == p.initial.radius
  {
  }

  /**
   * The radius is derived from the initial radius, not the current one, so
   * with literal scales and bias a second application in the same frame
   * changes nothing.
   */
  lemma UpdateIdempotent(c: Config, h: Helpers, st: RenderState, p: Particle)
    requires c.startScale.Literal? && c.endScale.Literal? && c.bias.Literal?
    ensures Update(c, h, st, Update(c, h, st, p)) == Update(c, h, st, p)
  {
    var q := Update(c, h, st, p);
    assert NormalizedAge(h, q) == NormalizedAge(h, p);
  }
}

=== FILE: lerp_scalar.dfy ===
/** The LerpScalar operator: blends a scalar field from its initial value to a target over absolute age. */
module LerpScalar {
  import opened Vectors
  import opened Particles

  datatype Config = Config(fieldOutput: ScalarField, output: NumberProvider, startTime: real, endTime: real)

  const Defaults: Config := Config(Radius, Literal(1.0), 0.0, 1.0)

  /** The blend weight; it uses the particle's age in seconds, not its normalised age. */
  function Weight(c: Config, h: Helpers, p: Particle): real
  {
    h.saturate(h.remap(p.age, c.startTime, c.endTime))
  }

  /** Every frame the output field becomes the blend of its initial value and the target. */
  function Operate(c: Config, h: Helpers, st: RenderState, p: Particle): (r: Particle)
    ensures r.(current := p.current) == p
    ensures forall g :: g != c.fieldOutput ==> GetScalar(r.current, g) == GetScalar(p.current, g)
    ensures forall g :: GetVector(r.current, g) == GetVector(p.current, g)
    ensures GetScalar(r.current, c.fieldOutput)
      == h.lerp(Weight(c, h, p), GetScalar(p.initial, c.fieldOutput), NextNumber(c.output, p, st))
  {
    var target := NextNumber(c.output, p, st);
    var value := h.lerp(Weight(c, h, p), GetScalar(p.initial, c.fieldOutput), target);
    p.(current := SetScalar(p.current, c.fieldOutput, value))
  }

  /** The weight is saturated, so the written value lies between the initial value and the target. */
  lemma OperateStaysBetween(c: Config, h: Helpers, st: RenderState, p: Particle)
    requires SaturateInUnit(h) && LerpStaysBetween(h)
    ensures var a := GetScalar(p.initial, c.fieldOutput);
      var b := NextNumber(c.output, p, st);
      var v := GetScalar(Operate(c, h, st, p).current, c.fieldOutput);
      Min(a, b) <= v <= Max(a, b)
  {
    var x := h.remap(p.age, c.startTime, c.endTime);
    assert 0.0 <= h.saturate(x) <= 1.0;
  }
}

=== FILE: lerp_to_other_attribute.dfy ===
/** The LerpToOtherAttribute operator: blends one field towards another of the same type. */
module LerpToOtherAttribute {
  import opened Particles

  datatype Config = Config(fieldInput: ParticleField, fieldOutput: ParticleField, interpolation: NumberProvider)

  const Defaults: Config := Config(OfVector(Color), OfVector(Color), Literal(1.0))

  /** Fields of different types make the operator do nothing. */
  predicate Skips(c: Config)
  {
    TypeOf(c.fieldInput) != TypeOf(c.fieldOutput)
  }

  /**
   * The output field moves towards the input field by the interpolation
   * amount; only the output field is written, and nothing at all when the
   * field types differ.
   */
  function Update(c: Config, h: Helpers, st: RenderState, p: Particle): (r: Particle)
    ensures r.(current := p.current) == p
    ensures Skips(c) ==> r == p
    ensures forall g :: OfScalar(g) != c.fieldOutput ==> GetScalar(r.current, g) == GetScalar(p.current, g)
    ensures forall g :: OfVector(g) != c.fieldOutput ==> GetVector(r.current, g) == GetVector(p.current, g)
    ensures c.fieldInput.OfVector? && c.fieldOutput.OfVector? ==>
      GetVector(r.current, c.fieldOutput.vector)
        == h.lerpVector(NextNumber(c.interpolation, p, st),
                        GetVector(p.current, c.fieldOutput.vector), GetVector(p.current, c.fieldInput.vector))
    ensures c.fieldInput.OfScalar? && c.fieldOutput.OfScalar? ==>
      GetScalar(r.current, c.fieldOutput.scalar)
        == h.lerp(NextNumber(c.interpolation, p, st),
                  GetScalar(p.current, c.fieldOutput.scalar), GetScalar(p.current, c.fieldInput.scalar))
  {
    var interp := NextNumber(c.interpolation, p, st);
    match (c.fieldInput, c.fieldOutput)
    case (OfVector(i), OfVector(o)) =>
      p.(current := SetVector(p.current, o, h.lerpVector(interp, GetVector(p.current, o), GetVector(p.current, i))))
    case (OfScalar(i), OfScalar(o)) =>
      p.(current := SetScalar(p.current, o, h.lerp(interp, GetScalar(p.current, o), GetScalar(p.current, i))))
    case _ => p
  }

  /** With the default interpolation of 1 the output field takes the input field's value. */
  lemma FullInterpolationCopies(c: Config, h: Helpers, st: RenderState, p: Particle)
    requires LerpHitsEndpoints(h) && LerpVectorHitsEnd(h)
    requires c.interpolation == Literal(1.0) && !Skips(c)
    ensures c.fieldOutput.OfVector? ==>
      GetVector(Update(c, h, st, p).current, c.fieldOutput.vector) == GetVector(p.current, c.fieldInput.vector)
    ensures c.fieldOutput.OfScalar? ==>
      GetScalar(Update(c, h, st, p).current, c.fieldOutput.scalar) == GetScalar(p.current, c.fieldInput.scalar)
  {
  }

  /** The default configuration blends Color into itself and so changes nothing. */
  lemma DefaultsChangeNothing(h: Helpers, st: RenderState, p: Particle)
    requires LerpVectorHitsEnd(h)
    ensures Update(Defaults, h, st, p) == p
  {
    SetVectorSame(p.current, Color);
  }
}

=== FILE: map_document.dfy ===
/**
 * The Hammer map document that MapExtract builds: the world node with its
 * layers, groups, static props and entities, held as a store of nodes
 * that refer to their children by index.
 */
module MapDocument {
  import opened Wrappers
  import opened Text
  import Paths
  import Seqs
  import opened MapEntities

  datatype NodeKind =
    | WorldNode(world: MapEntity)
    | Layer(layerName: String)
    | Group(groupName: String, groupId: Option<int>)
    | EntityNode(entity: MapEntity)

  datatype Node = Node(kind: NodeKind, children: seq<nat>)

  /** A world layer made by the extractor: its name and its node. */
  datatype WorldLayer = WorldLayer(name: String, node: nat)

  /**
   * The document together with the extractor's bookkeeping: the world
   * layers made so far, the parent groups by hammer node id, the groups for
   * baked models by owning node and group name (the key-value lookup the
   * extractor keeps on each node), the asset references and the models
   * queued for extraction.
   */
  datatype Doc = Doc(
    nodes: seq<Node>,
    worldLayers: seq<WorldLayer>,
    uniqueNodeIds: map<int, nat>,
    groups: map<(nat, String), nat>,
    assetReferences: seq<String>,
    modelsToExtract: seq<String>)

  /** The world node is always the first. */
  const World: nat := 0

  /** The group node made for a parent id: its name is the id's decimal text. */
  function ParentGroup(id: int): NodeKind
  {
    Group(IntToString(id), Some(id))
  }

  /** Every node the bookkeeping refers to exists, and the first node is the world. */
  predicate Valid(d: Doc)
  {
    && |d.nodes| > 0
    && d.nodes[World].kind.WorldNode?
    && (forall i :: 0 <= i < |d.worldLayers| ==> d.worldLayers[i].node < |d.nodes|)
    && (forall id :: id in d.uniqueNodeIds ==> d.uniqueNodeIds[id] < |d.nodes|)
    && (forall k :: k in d.groups ==> d.groups[k] < |d.nodes|)
  }

  /**
   * `e` only adds to `d`: more nodes, more world layers, more parent ids
   * with the old ones kept, and more children of the world.
   */
  predicate Extends(d: Doc, e: Doc)
  {
    && |d.nodes| <= |e.nodes|
    && d.worldLayers <= e.worldLayers
    && (forall id :: id in d.uniqueNodeIds ==> id in e.uniqueNodeIds && e.uniqueNodeIds[id] == d.uniqueNodeIds[id])
    && (|d.nodes| > 0 ==> d.nodes[World].children <= e.nodes[World].children)
  }

  /**
   * `e` keeps the document-wide records of `d`: the same world layers,
   * asset references and models to extract. The entity lumps add nodes only.
   */
  predicate SameRecords(d: Doc, e: Doc)
  {
    d.worldLayers == e.worldLayers && d.assetReferences == e.assetReferences && d.modelsToExtract == e.modelsToExtract
  }

  lemma ExtendsKeys(d: Doc, e: Doc)
    requires Extends(d, e)
    ensures d.uniqueNodeIds.Keys <= e.uniqueNodeIds.Keys
  {
    forall id | id in d.uniqueNodeIds.Keys
      ensures id in e.uniqueNodeIds.Keys
    {
    }
  }

  lemma ExtendsTransitive(a: Doc, b: Doc, c: Doc)
    requires Extends(a, b) && Extends(b, c)
    ensures Extends(a, c)
  {
  }

  /** A new node of kind `kind`, appended as the last child of `parent`. */
  function AddNode(d: Doc, parent: nat, kind: NodeKind): (r: (Doc, nat))
    requires Valid(d) && parent < |d.nodes|
    requires !kind.WorldNode?
    ensures |r.0.nodes| == |d.nodes| + 1 && r.1 == |d.nodes|
    ensures Valid(r.0) && Extends(d, r.0)
    ensures r.0.nodes[r.1] == Node(kind, [])
    ensures r.0.nodes[parent].children == d.nodes[parent].children + [r.1]
    ensures r.0.nodes[World].kind == d.nodes[World].kind
    ensures r.0.worldLayers == d.worldLayers && r.0.uniqueNodeIds == d.uniqueNodeIds && r.0.groups == d.groups
    ensures r.0.assetReferences == d.assetReferences && r.0.modelsToExtract == d.modelsToExtract
  {
    var index := |d.nodes|;
    var p := d.nodes[parent];
    var nodes := d.nodes[parent := p.(children := p.children + [index])] + [Node(kind, [])];
    (d.(nodes := nodes), index)
  }

  // ---------------------------------------------------------------------
  // Entity lumps
  // ---------------------------------------------------------------------

  /** Position in the world layers of the first layer named `name`, or -1. */
  function FindLayer(layers: seq<WorldLayer>, name: String): (r: int)
    ensures -1 <= r < |layers|
    ensures r >= 0 ==> layers[r].name == name
    ensures forall j :: 0 <= j < |layers| && (r < 0 || j < r) ==> layers[j].name != name
  {
    if |layers| == 0 then -1
    else if layers[0].name == name then 0
    else
      var k := FindLayer(layers[1..], name);
      assert forall j :: 1 <= j < |layers| ==> layers[j] == layers[1..][j - 1];
      if k < 0 then -1 else k + 1
  }

  /**
   * Where a lump's entities go: the world for an unnamed lump or
   * "default_ents", the first world layer of that name, or else a new group
   * of that name added to the world.
   */
  function LumpDestination(d: Doc, lumpName: String): (r: (Doc, nat))
    requires Valid(d)
    ensures Valid(r.0) && Extends(d, r.0) && r.1 < |r.0.nodes|
    ensures SameRecords(d, r.0)
    ensures lumpName == "" || lumpName == "default_ents" ==> r == (d, World)
    ensures lumpName != "" && lumpName != "default_ents" && FindLayer(d.worldLayers, lumpName) >= 0 ==>
      r == (d, d.worldLayers[FindLayer(d.worldLayers, lumpName)].node)
    ensures lumpName != "" && lumpName != "default_ents" && FindLayer(d.worldLayers, lumpName) < 0 ==>
      r.1 == |d.nodes| && r.0.nodes[r.1].kind == Group(lumpName, None) &&
      r.0.nodes[World].children == d.nodes[World].children + [r.1]
  {
    if lumpName == "" || lumpName == "default_ents" then (d, World)
    else
      var k := FindLayer(d.worldLayers, lumpName);
      if k >= 0 then (d, d.worldLayers[k].node)
      else AddNode(d, World, Group(lumpName, None))
  }

  /** One parent id: its group when seen before, otherwise a new group under `dest`. */
  function PlaceParent(d: Doc, dest: nat, id: int): (r: (Doc, nat))
    requires Valid(d) && dest < |d.nodes|
    ensures Valid(r.0) && Extends(d, r.0) && r.1 < |r.0.nodes|
    ensures id in r.0.uniqueNodeIds && r.0.uniqueNodeIds[id] == r.1
    ensures r.0.uniqueNodeIds.Keys == d.uniqueNodeIds.Keys + {id}
    ensures id in d.uniqueNodeIds ==> r == (d, d.uniqueNodeIds[id])
    ensures id !in d.uniqueNodeIds ==>
      |r.0.nodes| == |d.nodes| + 1 && r.1 == |d.nodes| && r.0.nodes[r.1].kind == ParentGroup(id) &&
      r.0.nodes[dest].children == d.nodes[dest].children + [r.1]
    ensures r.0.worldLayers == d.worldLayers
    ensures r.0.assetReferences == d.assetReferences && r.0.modelsToExtract == d.modelsToExtract
  {
    if id in d.uniqueNodeIds then (d, d.uniqueNodeIds[id])
    else
      var (d0, g) := AddNode(d, dest, ParentGroup(id));
      (d0.(uniqueNodeIds := d0.uniqueNodeIds[id := g]), g)
  }

  /**
   * The parent groups of an entity, outermost first: an id seen before
   * reuses its group, a new id gets a group under the current destination,
   * so each id gets exactly one group. The result's destination is the
   * innermost group.
   */
  function PlaceParents(d: Doc, dest: nat, parents: seq<int>): (r: (Doc, nat))
    requires Valid(d) && dest < |d.nodes|
    ensures Valid(r.0) && Extends(d, r.0) && r.1 < |r.0.nodes|
    ensures |parents| == 0 ==> r == (d, dest)
    ensures r.0.worldLayers == d.worldLayers
    ensures r.0.assetReferences == d.assetReferences && r.0.modelsToExtract == d.modelsToExtract
    decreases |parents|
  {
    if |parents| == 0 then (d, dest)
    else
      var (d1, dest1) := PlaceParent(d, dest, parents[0]);
      var r := PlaceParents(d1, dest1, parents[1..]);
      ExtendsTransitive(d, d1, r.0);
      r
  }

  /** After placing the parents, exactly the ids seen before and the parent ids have groups. */
  lemma {:induction false} PlaceParentsIds(d: Doc, dest: nat, parents: seq<int>)
    requires Valid(d) && dest < |d.nodes|
    ensures forall id :: id in PlaceParents(d, dest, parents).0.uniqueNodeIds <==> id in d.uniqueNodeIds || id in parents
    decreases |parents|
  {
    if |parents| > 0 {
      var id := parents[0];
      var (d1, dest1) := PlaceParent(d, dest, id);
      PlaceParentsIds(d1, dest1, parents[1..]);
      assert PlaceParents(d, dest, parents) == PlaceParents(d1, dest1, parents[1..]);
      assert forall x :: x in parents <==> x == id || x in parents[1..];
    }
  }

  /** The destination after placing the parents is the group of the last parent id. */
  lemma {:induction false} PlaceParentsDestination(d: Doc, dest: nat, parents: seq<int>)
    requires Valid(d) && dest < |d.nodes| && |parents| > 0
    ensures parents[|parents| - 1] in PlaceParents(d, dest, parents).0.uniqueNodeIds
    ensures PlaceParents(d, dest, parents).1 == PlaceParents(d, dest, parents).0.uniqueNodeIds[parents[|parents| - 1]]
    decreases |parents|
  {
    var (d1, dest1) := PlaceParent(d, dest, parents[0]);
    var r := PlaceParents(d1, dest1, parents[1..]);
    assert PlaceParents(d, dest, parents) == r;
    if |parents| > 1 {
      PlaceParentsDestination(d1, dest1, parents[1..]);
      assert parents[1..][|parents[1..]| - 1] == parents[|parents| - 1];
    } else {
      assert r == (d1, dest1);
    }
  }

  /**
   * Each parent id gets a group exactly once: the nodes added are as many
   * as the ids that had no group before.
   */
  lemma {:induction false} GroupsMadeOnce(d: Doc, dest: nat, parents: seq<int>)
    requires Valid(d) && dest < |d.nodes|
    ensures var r := PlaceParents(d, dest, parents);
      |r.0.nodes| == |d.nodes| + |r.0.uniqueNodeIds.Keys - d.uniqueNodeIds.Keys|
    decreases |parents|
  {
    if |parents| > 0 {
      var p := PlaceParent(d, dest, parents[0]);
      var d1 := p.0;
      GroupsMadeOnce(d1, p.1, parents[1..]);
      var r := PlaceParents(d1, p.1, parents[1..]);
      assert PlaceParents(d, dest, parents) == r;
      ExtendsKeys(d1, r.0);
      PlaceParentsCount(d.uniqueNodeIds.Keys, d1.uniqueNodeIds.Keys, r.0.uniqueNodeIds.Keys,
        |d.nodes|, |d1.nodes|, |r.0.nodes|, parents[0]);
    }
  }

  /** The node count grows by the number of new ids, step by step. */
  lemma PlaceParentsCount(a: set<int>, b: set<int>, c: set<int>, n: nat, n1: nat, n2: nat, id: int)
    requires a <= b <= c && b == a + {id}
    requires id in a ==> n1 == n
    requires id !in a ==> n1 == n + 1
    requires n2 == n1 + |c - b|
    ensures n2 == n + |c - a|
  {
    assert c - a == (b - a) + (c - b);
    assert (b - a) * (c - b) == {};
    if id in a {
      assert b - a == {};
    } else {
      assert b - a == {id};
    }
  }

  /** The classname of a compiled entity: the first string property with the classname hash. */
  function ClassName(h: Hashes, e: CompiledEntity): (r: Option<String>)
    ensures r.Some? ==>
      exists i :: 0 <= i < |e.properties| && e.properties[i].hash == h.className && e.properties[i].data == Str(r.value)
  {
    ClassNameFrom(h, e.properties)
  }

  function ClassNameFrom(h: Hashes, props: seq<EntityProperty>): (r: Option<String>)
    ensures r.Some? ==>
      exists i :: 0 <= i < |props| && props[i].hash == h.className && props[i].data == Str(r.value)
  {
    if |props| == 0 then None
    else if props[0].hash == h.className then
      (if props[0].data.Str? then Some(props[0].data.text) else None)
    else
      var r := ClassNameFrom(h, props[1..]);
      assert forall i :: 1 <= i < |props| ==> props[i] == props[1..][i - 1];
      r
  }

  const Description: String := "Decompiled with VRF 0.3.2 - https://vrf.steamdb.info/"

  /** The external conversions: string hashes, value formats and the string-token table. */
  datatype Conversions = Conversions(hashes: Hashes, formats: Formats, hashTable: map<nat, String>)

  /** A worldspawn: its properties merged into the world's, with the description added. */
  function MergeWorldspawn(cv: Conversions, d: Doc, e: CompiledEntity): (r: Result<Doc, MapError>)
    requires Valid(d)
    ensures r.Success? ==> Valid(r.value) && Extends(d, r.value) && |r.value.nodes| == |d.nodes|
    ensures r.Success? ==> SameRecords(d, r.value)
    ensures r.Success? ==>
      var world := r.value.nodes[World].kind.world;
      "description" in world.keyValues && world.keyValues["description"] == Description
    ensures r.Success? ==> forall k :: k in d.nodes[World].kind.world.keyValues && k != "description" ==>
      k in r.value.nodes[World].kind.world.keyValues &&
      r.value.nodes[World].kind.world.keyValues[k] == d.nodes[World].kind.world.keyValues[k]
  {
    var w := d.nodes[World];
    match AddProperties(cv.hashes, cv.formats, e, w.kind.world)
    case Failure(err) => Failure(err)
    case Success(copy) =>
      var world := copy.entity.(keyValues := copy.entity.keyValues["description" := Description]);
      Success(d.(nodes := d.nodes[World := w.(kind := WorldNode(world))]))
  }

  /**
   * Where an entity with this lineage goes: the group of its innermost
   * parent id when it has parents (every id but the last), else `dest`.
   */
  function EntityDestination(d: Doc, dest: nat, lineage: seq<int>): (r: (Doc, nat))
    requires Valid(d) && dest < |d.nodes|
    ensures Valid(r.0) && Extends(d, r.0) && r.1 < |r.0.nodes|
    ensures SameRecords(d, r.0)
    ensures |lineage| <= 1 ==> r == (d, dest)
    ensures |lineage| > 1 ==>
      lineage[|lineage| - 2] in r.0.uniqueNodeIds && r.1 == r.0.uniqueNodeIds[lineage[|lineage| - 2]]
  {
    if |lineage| <= 1 then (d, dest)
    else
      var parents := lineage[..|lineage| - 1];
      assert parents[|parents| - 1] == lineage[|lineage| - 2];
      PlaceParentsDestination(d, dest, parents);
      PlaceParents(d, dest, parents)
  }

  /**
   * A converted entity placed in the document as the last child of its
   * destination. The node it went under is the destination for the next
   * entity: it is not reset between entities.
   */
  function PlaceCopy(d: Doc, dest: nat, copy: Copy): (r: (Doc, nat))
    requires Valid(d) && dest < |d.nodes|
    ensures Valid(r.0) && Extends(d, r.0) && r.1 < |r.0.nodes| - 1
    ensures r.1 == EntityDestination(d, dest, copy.lineage).1
    ensures SameRecords(d, r.0) && |r.0.nodes| > |d.nodes|
    ensures r.0.nodes[|r.0.nodes| - 1].kind == EntityNode(copy.entity)
    ensures |r.0.nodes[r.1].children| > 0
    ensures r.0.nodes[r.1].children[|r.0.nodes[r.1].children| - 1] == |r.0.nodes| - 1
  {
    var (d1, dest1) := EntityDestination(d, dest, copy.lineage);
    var (d2, node) := AddNode(d1, dest1, EntityNode(copy.entity));
    ExtendsTransitive(d, d1, d2);
    (d2, dest1)
  }

  /** Any other entity: its properties converted, then placed. */
  function PlaceEntity(cv: Conversions, d: Doc, dest: nat, e: CompiledEntity): (r: Result<(Doc, nat), MapError>)
    requires Valid(d) && dest < |d.nodes|
    ensures r.Success? <==> AddProperties(cv.hashes, cv.formats, e, EmptyEntity).Success?
    ensures r.Success? ==> r.value == PlaceCopy(d, dest, AddProperties(cv.hashes, cv.formats, e, EmptyEntity).value)
  {
    match AddProperties(cv.hashes, cv.formats, e, EmptyEntity)
    case Failure(err) => Failure(err)
    case Success(copy) => Success(PlaceCopy(d, dest, copy))
  }

  /**
   * One compiled entity, its missing names filled in first: a worldspawn
   * goes onto the world node, any other entity becomes a node of its own.
   */
  function ProcessEntity(cv: Conversions, d: Doc, dest: nat, e: CompiledEntity): (r: Result<(Doc, nat), MapError>)
    requires Valid(d) && dest < |d.nodes|
    ensures r.Success? ==> Valid(r.value.0) && Extends(d, r.value.0) && r.value.1 < |r.value.0.nodes|
    ensures r.Success? ==> SameRecords(d, r.value.0)
    ensures r.Success? && ClassName(cv.hashes, e) != Some("worldspawn") ==> |r.value.0.nodes| > |d.nodes|
    ensures ClassName(cv.hashes, e) == Some("worldspawn") ==>
      r.Success? == MergeWorldspawn(cv, d, CompiledEntity(FixUpNames(cv.hashTable, e.properties))).Success? &&
      (r.Success? ==> r.value.1 == dest)
    ensures ClassName(cv.hashes, e) != Some("worldspawn") ==>
      r == PlaceEntity(cv, d, dest, CompiledEntity(FixUpNames(cv.hashTable, e.properties)))
  {
    var fixed := CompiledEntity(FixUpNames(cv.hashTable, e.properties));
    if ClassName(cv.hashes, e) == Some("worldspawn") then
      match MergeWorldspawn(cv, d, fixed)
      case Failure(err) => Failure(err)
      case Success(d1) => Success((d1, dest))
    else PlaceEntity(cv, d, dest, fixed)
  }

  /** How many of the entities are not a worldspawn, so each becomes a node of its own. */
  function PlacedEntities(h: Hashes, entities: seq<CompiledEntity>): (r: nat)
    ensures r <= |entities|
    ensures (forall i :: 0 <= i < |entities| ==> ClassName(h, entities[i]) != Some("worldspawn")) ==> r == |entities|
    decreases |entities|
  {
    if |entities| == 0 then 0
    else
      assert forall i :: 1 <= i < |entities| ==> entities[1..][i - 1] == entities[i];
      (if ClassName(h, entities[0]) == Some("worldspawn") then 0 else 1) + PlacedEntities(h, entities[1..])
  }

  /**
   * The entities of a lump in order, the destination carried from one to
   * the next. Every entity that is not a worldspawn adds at least one node,
   * and the document-wide records stay as they were.
   */
  function ProcessEntities(cv: Conversions, d: Doc, dest: nat, entities: seq<CompiledEntity>): (r: Result<Doc, MapError>)
    requires Valid(d) && dest < |d.nodes|
    ensures r.Success? ==> Valid(r.value) && Extends(d, r.value)
    ensures r.Success? ==> SameRecords(d, r.value)
    ensures r.Success? ==> |r.value.nodes| >= |d.nodes| + PlacedEntities(cv.hashes, entities)
    decreases |entities|
  {
    if |entities| == 0 then Success(d)
    else
      match ProcessEntity(cv, d, dest, entities[0])
      case Failure(err) => Failure(err)
      case Success((d1, dest1)) =>
        var r := ProcessEntities(cv, d1, dest1, entities[1..]);
        if r.Success? then ExtendsTransitive(d, d1, r.value); r else r
  }

  /** An entity lump with the child lumps that could be loaded. */
  datatype Lump = Lump(name: String, children: seq<Lump>, entities: seq<CompiledEntity>)

  /** GatherEntitiesFromLump: the destination first, then the child lumps, then the entities. */
  function GatherLump(cv: Conversions, d: Doc, lump: Lump): (r: Result<Doc, MapError>)
    requires Valid(d)
    ensures r.Success? ==> Valid(r.value) && Extends(d, r.value)
    ensures r.Success? ==> SameRecords(d, r.value)
    ensures r.Success? ==> |r.value.nodes| >= |d.nodes| + PlacedEntities(cv.hashes, lump.entities)
    decreases lump, |lump.children| + 1
  {
    var (d1, dest) := LumpDestination(d, lump.name);
    match GatherChildren(cv, d1, lump, 0)
    case Failure(err) => Failure(err)
    case Success(d2) =>
      assert Extends(d1, d2);
      var r := ProcessEntities(cv, d2, dest, lump.entities);
      if r.Success? then
        ExtendsTransitive(d, d1, d2);
        ExtendsTransitive(d, d2, r.value);
        r
      else r
  }

  function GatherChildren(cv: Conversions, d: Doc, lump: Lump, i: nat): (r: Result<Doc, MapError>)
    requires Valid(d) && i <= |lump.children|
    ensures r.Success? ==> Valid(r.value) && Extends(d, r.value)
    ensures r.Success? ==> SameRecords(d, r.value)
    decreases lump, |lump.children| - i
  {
    if i == |lump.children| then Success(d)
    else
      match GatherLump(cv, d, lump.children[i])
      case Failure(err) => Failure(err)
      case Success(d1) =>
        var r := GatherChildren(cv, d1, lump, i + 1);
        if r.Success? then ExtendsTransitive(d, d1, r.value); r else r
  }

  // ---------------------------------------------------------------------
  // World nodes as static props
  // ---------------------------------------------------------------------

  const BaseLayer: String := "world_layer_base"

  /** One layer name: the world for the base layer, otherwise a new world layer under the world. */
  function AddLayer(d: Doc, name: String): (r: (Doc, nat))
    requires Valid(d)
    ensures Valid(r.0) && Extends(d, r.0) && r.1 < |r.0.nodes|
    ensures name == BaseLayer ==> r == (d, World)
    ensures name != BaseLayer ==>
      r.1 == |d.nodes| && r.0.nodes[r.1].kind == Layer(name) &&
      r.0.worldLayers == d.worldLayers + [WorldLayer(name, r.1)] && r.1 in r.0.nodes[World].children
    ensures r.0.uniqueNodeIds == d.uniqueNodeIds
    ensures r.0.assetReferences == d.assetReferences && r.0.modelsToExtract == d.modelsToExtract
  {
    if name == BaseLayer then (d, World)
    else
      var (d0, l) := AddNode(d, World, Layer(name));
      (d0.(worldLayers := d0.worldLayers + [WorldLayer(name, l)]), l)
  }

  /**
   * The layer nodes of a world node: the world for the base layer, a new
   * world layer (also added to the world's children) for any other name.
   * Making the layers first and adding them to the world afterwards, as
   * the extractor does, gives the same children in the same order.
   */
  function LayerNodes(d: Doc, names: seq<String>): (r: (Doc, seq<nat>))
    requires Valid(d)
    ensures Valid(r.0) && Extends(d, r.0)
    ensures |r.1| == |names|
    ensures forall i :: 0 <= i < |names| ==> r.1[i] < |r.0.nodes|
    ensures forall i :: 0 <= i < |names| && names[i] == BaseLayer ==> r.1[i] == World
    ensures forall i :: 0 <= i < |names| && names[i] != BaseLayer ==>
      |d.nodes| <= r.1[i] && WorldLayer(names[i], r.1[i]) in r.0.worldLayers && r.1[i] in r.0.nodes[World].children
    ensures r.0.uniqueNodeIds == d.uniqueNodeIds
    ensures r.0.assetReferences == d.assetReferences && r.0.modelsToExtract == d.modelsToExtract
    decreases |names|
  {
    if |names| == 0 then (d, [])
    else
      var (d1, first) := AddLayer(d, names[0]);
      var (d2, rest) := LayerNodes(d1, names[1..]);
      LayerKept(d1, d2, names[0], first);
      assert forall i :: 1 <= i < |names| ==> names[i] == names[1..][i - 1];
      ExtendsTransitive(d, d1, d2);
      (d2, [first] + rest)
  }

  /** A layer made earlier keeps its place when more nodes follow. */
  lemma LayerKept(d1: Doc, d2: Doc, name: String, l: nat)
    requires Valid(d1) && Extends(d1, d2)
    ensures WorldLayer(name, l) in d1.worldLayers && l in d1.nodes[World].children ==>
      WorldLayer(name, l) in d2.worldLayers && l in d2.nodes[World].children
  {
  }

  /** The object-type flags the extractor reads. */
  datatype ObjectFlags = ObjectFlags(model: bool, renderToCubemaps: bool, noShadows: bool)

  const NoFlags := ObjectFlags(false, false, false)

  /** A scene object of a world node; `layerIndex` is -1 when the node has no layer indices. */
  datatype SceneObject = SceneObject(modelName: Option<String>, skin: String, flags: ObjectFlags, layerIndex: int)

  datatype WorldNodeData = WorldNodeData(layerNames: seq<String>, sceneObjects: seq<SceneObject>, aggregates: seq<SceneObject>)

  function FlagText(b: bool): String
  {
    if b then "1" else "0"
  }

  /** The naming key-values of a prop_static: its class, its model and, for a non-aggregate, its skin. */
  function NamingKeyValues(o: SceneObject, model: String, isAggregate: bool): map<String, String>
  {
    var kv := map["classname" := "prop_static", "model" := model];
    if !isAggregate && o.skin != "" then kv["skin" := o.skin] else kv
  }

  /** The two render flags, as "1" or "0". */
  function FlagKeyValues(flags: ObjectFlags): map<String, String>
  {
    map["rendertocubemaps" := FlagText(flags.renderToCubemaps), "disableshadows" := FlagText(flags.noShadows)]
  }

  /** Baking into the world for an embedded model, and no mesh merging for a "nomerge" file name. */
  function BakeKeyValues(flags: ObjectFlags, model: String): map<String, String>
  {
    var kv: map<String, String> := if !flags.model then map["baketoworld" := "1"] else map[];
    if Contains(Paths.GetFileName(model), "nomerge") then kv["disablemeshmerging" := "1"] else kv
  }

  /**
   * The key-values of the prop_static made from a scene object. Aggregates
   * have no flags of their own, so they are always baked into the world.
   * The three groups use different keys, so their union is the dictionary
   * the converter fills one key at a time.
   */
  function StaticPropKeyValues(o: SceneObject, model: String, isAggregate: bool): map<String, String>
  {
    var flags := if isAggregate then NoFlags else o.flags;
    NamingKeyValues(o, model, isAggregate) + FlagKeyValues(flags) + BakeKeyValues(flags, model)
  }

  /** The naming keys are not flag or bake keys, and the flag keys are not bake keys. */
  lemma KeyGroupsDisjoint(model: String, flags: ObjectFlags)
    ensures "classname" !in FlagKeyValues(flags) && "model" !in FlagKeyValues(flags) && "skin" !in FlagKeyValues(flags)
    ensures "classname" !in BakeKeyValues(flags, model) && "model" !in BakeKeyValues(flags, model)
    ensures "skin" !in BakeKeyValues(flags, model)
    ensures "rendertocubemaps" !in BakeKeyValues(flags, model) && "disableshadows" !in BakeKeyValues(flags, model)
  {
    assert |"classname"| == 9 && |"model"| == 5 && |"skin"| == 4 && |"rendertocubemaps"| == 16;
    assert |"disableshadows"| == 14 && |"baketoworld"| == 11 && |"disablemeshmerging"| == 18;
  }

  /** The prop_static key-values name the class and the model, and the skin only for a non-aggregate with one. */
  lemma StaticPropNamingKeys(o: SceneObject, model: String, isAggregate: bool)
    ensures var kv := StaticPropKeyValues(o, model, isAggregate);
      && "classname" in kv && kv["classname"] == "prop_static"
      && "model" in kv && kv["model"] == model
      && ("skin" in kv <==> !isAggregate && o.skin != "")
      && ("skin" in kv ==> kv["skin"] == o.skin)
  {
    var flags := if isAggregate then NoFlags else o.flags;
    KeyGroupsDisjoint(model, flags);
    assert |"classname"| == 9 && |"model"| == 5 && |"skin"| == 4;
  }

  /** The two render flags are written as "1"/"0"; an aggregate has neither set. */
  lemma StaticPropFlagKeys(o: SceneObject, model: String, isAggregate: bool)
    ensures var kv := StaticPropKeyValues(o, model, isAggregate);
      && "rendertocubemaps" in kv && kv["rendertocubemaps"] == FlagText(!isAggregate && o.flags.renderToCubemaps)
      && "disableshadows" in kv && kv["disableshadows"] == FlagText(!isAggregate && o.flags.noShadows)
  {
    var flags := if isAggregate then NoFlags else o.flags;
    KeyGroupsDisjoint(model, flags);
    assert |"rendertocubemaps"| == 16 && |"disableshadows"| == 14;
  }

  /** An embedded model is baked into the world; a "nomerge" file name turns mesh merging off. */
  lemma StaticPropBakeKeys(o: SceneObject, model: String, isAggregate: bool)
    ensures var kv := StaticPropKeyValues(o, model, isAggregate);
      && ("baketoworld" in kv <==> isAggregate || !o.flags.model)
      && ("baketoworld" in kv ==> kv["baketoworld"] == "1")
      && ("disablemeshmerging" in kv <==> Contains(Paths.GetFileName(model), "nomerge"))
      && ("disablemeshmerging" in kv ==> kv["disablemeshmerging"] == "1")
  {
    var flags := if isAggregate then NoFlags else o.flags;
    KeyGroupsDisjoint(model, flags);
    assert |"baketoworld"| == 11 && |"disablemeshmerging"| == 18;
  }

  const BakedGroupName: String := "Baked World Models"

  /** The node's group named `groupName`, made and recorded in the node's lookup on first use. */
  function GroupFor(d: Doc, node: nat, groupName: String): (r: (Doc, nat))
    requires Valid(d) && node < |d.nodes|
    ensures Valid(r.0) && Extends(d, r.0) && r.1 < |r.0.nodes|
    ensures (node, groupName) in d.groups ==> r == (d, d.groups[(node, groupName)])
    ensures (node, groupName) !in d.groups ==>
      r.1 == |d.nodes| && |r.0.nodes| == |d.nodes| + 1 && r.0.nodes[r.1].kind == Group(groupName, None) &&
      r.0.nodes[node].children == d.nodes[node].children + [r.1] &&
      r.0.groups == d.groups[(node, groupName) := r.1]
    ensures r.0.worldLayers == d.worldLayers && r.0.uniqueNodeIds == d.uniqueNodeIds
    ensures r.0.assetReferences == d.assetReferences && r.0.modelsToExtract == d.modelsToExtract
  {
    if (node, groupName) in d.groups then (d, d.groups[(node, groupName)])
    else
      var (d0, g) := AddNode(d, node, Group(groupName, None));
      (d0.(groups := d0.groups[(node, groupName) := g]), g)
  }

  /**
   * AddChildMaybeGrouped: with a group name, the child goes into the node's
   * group of that name, made on first use; otherwise straight under the node.
   */
  function AddChildMaybeGrouped(d: Doc, node: nat, kind: NodeKind, groupName: String): (r: (Doc, nat))
    requires Valid(d) && node < |d.nodes|
    requires kind.EntityNode?
    ensures Valid(r.0) && Extends(d, r.0)
    ensures r.1 < |r.0.nodes| - 1
    ensures r.0.nodes[|r.0.nodes| - 1].kind == kind
    ensures groupName == "" ==> r.1 == node && |r.0.nodes| == |d.nodes| + 1
    ensures groupName == "" ==> r.0.nodes[node].children == d.nodes[node].children + [|d.nodes|]
    ensures groupName != "" ==> r.1 == GroupFor(d, node, groupName).1
    ensures |r.0.nodes[r.1].children| > 0
    ensures r.0.nodes[r.1].children[|r.0.nodes[r.1].children| - 1] == |r.0.nodes| - 1
    ensures r.0.worldLayers == d.worldLayers && r.0.uniqueNodeIds == d.uniqueNodeIds
    ensures r.0.assetReferences == d.assetReferences && r.0.modelsToExtract == d.modelsToExtract
  {
    var (d1, parent) := if groupName == "" then (d, node) else GroupFor(d, node, groupName);
    var (d2, child) := AddNode(d1, parent, kind);
    ExtendsTransitive(d, d1, d2);
    (d2, parent)
  }

  /**
   * SceneObjectToStaticProp: a scene object with a model becomes a
   * prop_static under its layer's node (the world when it has none); a
   * model that is not a separate model asset is queued for extraction and,
   * on the world only, goes into the baked-models group. A layer index past
   * the layer nodes fails as the list index does.
   */
  function AddStaticProp(d: Doc, o: SceneObject, layerNodes: seq<nat>, isAggregate: bool): (r: Result<Doc, MapError>)
    requires Valid(d)
    requires forall i :: 0 <= i < |layerNodes| ==> layerNodes[i] < |d.nodes|
    ensures r.Success? ==> Valid(r.value) && Extends(d, r.value)
    ensures o.modelName.None? ==> r == Success(d)
    ensures o.modelName.Some? && o.layerIndex >= |layerNodes| ==> r == Failure(LayerIndexOutOfRange(o.layerIndex))
    ensures r.Success? && o.modelName.Some? ==>
      |r.value.nodes| > |d.nodes| &&
      r.value.nodes[|r.value.nodes| - 1].kind ==
        EntityNode(EmptyEntity.(keyValues := StaticPropKeyValues(o, o.modelName.value, isAggregate))) &&
      r.value.assetReferences == d.assetReferences + [o.modelName.value] &&
      r.value.modelsToExtract == d.modelsToExtract +
        (if isAggregate || !o.flags.model then [o.modelName.value] else [])
    ensures r.Success? && o.modelName.Some? && 0 <= o.layerIndex < |layerNodes| && layerNodes[o.layerIndex] != World ==>
      |r.value.nodes| == |d.nodes| + 1 &&
      r.value.nodes[layerNodes[o.layerIndex]].children == d.nodes[layerNodes[o.layerIndex]].children + [|d.nodes|]
  {
    if o.modelName.None? then Success(d)
    else if o.layerIndex >= |layerNodes| then Failure(LayerIndexOutOfRange(o.layerIndex))
    else Success(PlaceObject(d, o, layerNodes, isAggregate))
  }

  /** A scene object with a model, on a layer that exists (or on none), placed as a prop_static. */
  function PlaceObject(d: Doc, o: SceneObject, layerNodes: seq<nat>, isAggregate: bool): (r: Doc)
    requires Valid(d) && o.modelName.Some? && o.layerIndex < |layerNodes|
    requires forall i :: 0 <= i < |layerNodes| ==> layerNodes[i] < |d.nodes|
    ensures Valid(r) && Extends(d, r)
    ensures |r.nodes| > |d.nodes|
    ensures r.nodes[|r.nodes| - 1].kind == EntityNode(EmptyEntity.(keyValues := StaticPropKeyValues(o, o.modelName.value, isAggregate)))
    ensures r.assetReferences == d.assetReferences + [o.modelName.value]
    ensures r.modelsToExtract == d.modelsToExtract + (if isAggregate || !o.flags.model then [o.modelName.value] else [])
    ensures 0 <= o.layerIndex && layerNodes[o.layerIndex] != World ==>
      |r.nodes| == |d.nodes| + 1 &&
      r.nodes[layerNodes[o.layerIndex]].children == d.nodes[layerNodes[o.layerIndex]].children + [|d.nodes|]
  {
    var model := o.modelName.value;
    var dest := if o.layerIndex > -1 then layerNodes[o.layerIndex] else World;
    var entity := EmptyEntity.(keyValues := StaticPropKeyValues(o, model, isAggregate));
    PlaceStaticProp(d, dest, model, entity, isAggregate || !o.flags.model)
  }

  /**
   * The prop entity recorded and placed under `dest`: an embedded model is
   * queued for extraction and, on the world, goes into the baked-models group.
   */
  function PlaceStaticProp(d: Doc, dest: nat, model: String, entity: MapEntity, embedded: bool): (r: Doc)
    requires Valid(d) && dest < |d.nodes|
    ensures Valid(r) && Extends(d, r)
    ensures |r.nodes| > |d.nodes| && r.nodes[|r.nodes| - 1].kind == EntityNode(entity)
    ensures r.assetReferences == d.assetReferences + [model]
    ensures r.modelsToExtract == d.modelsToExtract + (if embedded then [model] else [])
    ensures dest != World ==>
      |r.nodes| == |d.nodes| + 1 && r.nodes[dest].children == d.nodes[dest].children + [|d.nodes|]
  {
    var bakedGroup := if embedded && dest == World then BakedGroupName else "";
    var d1 := d.(assetReferences := d.assetReferences + [model],
                 modelsToExtract := d.modelsToExtract + (if embedded then [model] else []));
    RecordsOnly(d, d1);
    var (d2, _) := AddChildMaybeGrouped(d1, dest, EntityNode(entity), bakedGroup);
    ExtendsTransitive(d, d1, d2);
    d2
  }

  /** Changing only the asset references and models to extract keeps a document valid and extends it. */
  lemma RecordsOnly(d: Doc, e: Doc)
    requires Valid(d)
    requires e == d.(assetReferences := e.assetReferences, modelsToExtract := e.modelsToExtract)
    ensures Valid(e) && Extends(d, e) && e.nodes == d.nodes
  {
  }

  /** Every aggregate with a model is queued for extraction. */
  lemma AggregatesAreBaked(d: Doc, o: SceneObject, layerNodes: seq<nat>)
    requires Valid(d) && o.modelName.Some?
    requires forall i :: 0 <= i < |layerNodes| ==> layerNodes[i] < |d.nodes|
    ensures AddStaticProp(d, o, layerNodes, true).Success? ==>
      AddStaticProp(d, o, layerNodes, true).value.modelsToExtract == d.modelsToExtract + [o.modelName.value]
  {
  }

  function AddStaticProps(d: Doc, objects: seq<SceneObject>, layerNodes: seq<nat>, isAggregate: bool): (r: Result<Doc, MapError>)
    requires Valid(d)
    requires forall i :: 0 <= i < |layerNodes| ==> layerNodes[i] < |d.nodes|
    ensures r.Success? ==> Valid(r.value) && Extends(d, r.value)
    decreases |objects|
  {
    if |objects| == 0 then Success(d)
    else
      match AddStaticProp(d, objects[0], layerNodes, isAggregate)
      case Failure(err) => Failure(err)
      case Success(d1) =>
        var r := AddStaticProps(d1, objects[1..], layerNodes, isAggregate);
        if r.Success? then ExtendsTransitive(d, d1, r.value); r else r
  }

  /** One step of AddStaticProps: the first object, then the rest. */
  lemma AddStaticPropsStep(d: Doc, objects: seq<SceneObject>, layerNodes: seq<nat>, isAggregate: bool)
    requires Valid(d)
    requires forall i :: 0 <= i < |layerNodes| ==> layerNodes[i] < |d.nodes|
    requires |objects| > 0
    ensures AddStaticProp(d, objects[0], layerNodes, isAggregate).Failure? ==>
      AddStaticProps(d, objects, layerNodes, isAggregate).Failure?
    ensures AddStaticProp(d, objects[0], layerNodes, isAggregate).Success? ==>
      var d1 := AddStaticProp(d, objects[0], layerNodes, isAggregate).value;
      (forall i :: 0 <= i < |layerNodes| ==> layerNodes[i] < |d1.nodes|) &&
      AddStaticProps(d, objects, layerNodes, isAggregate) == AddStaticProps(d1, objects[1..], layerNodes, isAggregate)
  {
  }

  /** The first object's contribution to the asset references. */
  lemma AssetReferenceOfOne(d: Doc, objects: seq<SceneObject>, layerNodes: seq<nat>, isAggregate: bool)
    requires Valid(d)
    requires forall i :: 0 <= i < |layerNodes| ==> layerNodes[i] < |d.nodes|
    requires |objects| > 0
    ensures AddStaticProp(d, objects[0], layerNodes, isAggregate).Success? ==>
      d.assetReferences + ModelNames(objects) ==
        AddStaticProp(d, objects[0], layerNodes, isAggregate).value.assetReferences + ModelNames(objects[1..])
  {
    var r := AddStaticProp(d, objects[0], layerNodes, isAggregate);
    var head := if objects[0].modelName.Some? then [objects[0].modelName.value] else [];
    assert ModelNames(objects) == head + ModelNames(objects[1..]);
    if r.Success? {
      assert r.value.assetReferences == d.assetReferences + head;
      Seqs.AppendAssoc(d.assetReferences, head, ModelNames(objects[1..]));
    }
  }

  predicate HasModel(o: SceneObject)
  {
    o.modelName.Some?
  }

  /** Each scene object with a model adds exactly one asset reference, its model, in order. */
  lemma {:induction false} AssetReferencesPerModel(d: Doc, objects: seq<SceneObject>, layerNodes: seq<nat>, isAggregate: bool)
    requires Valid(d)
    requires forall i :: 0 <= i < |layerNodes| ==> layerNodes[i] < |d.nodes|
    ensures AddStaticProps(d, objects, layerNodes, isAggregate).Success? ==>
      AddStaticProps(d, objects, layerNodes, isAggregate).value.assetReferences ==
        d.assetReferences + ModelNames(objects)
    decreases |objects|
  {
    if |objects| > 0 {
      var r1 := AddStaticProp(d, objects[0], layerNodes, isAggregate);
      AddStaticPropsStep(d, objects, layerNodes, isAggregate);
      if r1.Success? {
        var d1 := r1.value;
        AssetReferencesPerModel(d1, objects[1..], layerNodes, isAggregate);
        AssetReferenceOfOne(d, objects, layerNodes, isAggregate);
      }
    }
  }

  /** The model names of the objects that have one, in order. */
  function ModelNames(objects: seq<SceneObject>): (r: seq<String>)
    ensures |r| <= |objects|
    ensures |objects| > 0 ==>
      r == (if objects[0].modelName.Some? then [objects[0].modelName.value] else []) + ModelNames(objects[1..])
  {
    if |objects| == 0 then []
    else (if objects[0].modelName.Some? then [objects[0].modelName.value] else []) + ModelNames(objects[1..])
  }

  /** The models a world node refers to: its scene objects' first, then its aggregates'. */
  function WorldNodeModels(w: WorldNodeData): seq<String>
  {
    ModelNames(w.sceneObjects) + ModelNames(w.aggregates)
  }

  /** The models of the world nodes, in order. */
  function WorldModels(ws: seq<WorldNodeData>): seq<String>
    decreases |ws|
  {
    if |ws| == 0 then [] else WorldNodeModels(ws[0]) + WorldModels(ws[1..])
  }

  /**
   * AddWorldNodesAsStaticProps: the layers, then the scene objects, then
   * the aggregates. Each model a world node refers to becomes one asset
   * reference, in that order.
   */
  function AddWorldNode(d: Doc, w: WorldNodeData): (r: Result<Doc, MapError>)
    requires Valid(d)
    ensures r.Success? ==> Valid(r.value) && Extends(d, r.value)
    ensures r.Success? ==> r.value.assetReferences == d.assetReferences + WorldNodeModels(w)
  {
    var (d1, layerNodes) := LayerNodes(d, w.layerNames);
    match AddStaticProps(d1, w.sceneObjects, layerNodes, false)
    case Failure(err) => Failure(err)
    case Success(d2) =>
      assert forall i :: 0 <= i < |layerNodes| ==> layerNodes[i] < |d2.nodes|;
      var r := AddStaticProps(d2, w.aggregates, layerNodes, true);
      if r.Success? then
        ExtendsTransitive(d, d1, d2);
        ExtendsTransitive(d, d2, r.value);
        AssetReferencesPerModel(d1, w.sceneObjects, layerNodes, false);
        AssetReferencesPerModel(d2, w.aggregates, layerNodes, true);
        Seqs.AppendAssoc(d.assetReferences, ModelNames(w.sceneObjects), ModelNames(w.aggregates));
        r
      else r
  }

  /** Every world node in order; the asset references gain each node's models, in order. */
  function AddWorldNodes(d: Doc, ws: seq<WorldNodeData>): (r: Result<Doc, MapError>)
    requires Valid(d)
    ensures r.Success? ==> Valid(r.value) && Extends(d, r.value)
    ensures r.Success? ==> r.value.assetReferences == d.assetReferences + WorldModels(ws)
    decreases |ws|
  {
    if |ws| == 0 then Success(d)
    else
      match AddWorldNode(d, ws[0])
      case Failure(err) => Failure(err)
      case Success(d1) =>
        var r := AddWorldNodes(d1, ws[1..]);
        if r.Success? then
          ExtendsTransitive(d, d1, r.value);
          Seqs.AppendAssoc(d.assetReferences, WorldNodeModels(ws[0]), WorldModels(ws[1..]));
          r
        else r
  }

  function GatherLumps(cv: Conversions, d: Doc, lumps: seq<Lump>): (r: Result<Doc, MapError>)
    requires Valid(d)
    ensures r.Success? ==> Valid(r.value) && Extends(d, r.value)
    ensures r.Success? ==> SameRecords(d, r.value)
    decreases |lumps|
  {
    if |lumps| == 0 then Success(d)
    else
      match GatherLump(cv, d, lumps[0])
      case Failure(err) => Failure(err)
      case Success(d1) =>
        var r := GatherLumps(cv, d1, lumps[1..]);
        if r.Success? then ExtendsTransitive(d, d1, r.value); r else r
  }

  /** The document before anything is read: the world and its physics prop. */
  function InitialDocument(worldPhysicsName: String): (r: Doc)
    ensures Valid(r)
    ensures |r.nodes| == 2 && r.nodes[World].children == [1]
    ensures r.nodes[1].kind.EntityNode? && r.nodes[1].kind.entity.name == Some("world_physics")
    ensures "model" in r.nodes[1].kind.entity.keyValues
    ensures r.nodes[1].kind.entity.keyValues["model"] == Paths.ChangeExtension(worldPhysicsName, ".vmdl")
    ensures r.worldLayers == [] && r.uniqueNodeIds == map[]
  {
    var empty := Doc([Node(WorldNode(EmptyEntity), [])], [], map[], map[], [], []);
    var physics := EmptyEntity.(name := Some("world_physics"),
      keyValues := map["classname" := "prop_static", "model" := Paths.ChangeExtension(worldPhysicsName, ".vmdl")]);
    AddNode(empty, World, EntityNode(physics)).0
  }

  /**
   * ToValveMap: the physics prop, then every loaded world node, then every
   * loaded entity lump, into one document. The physics prop stays the
   * world's first child.
   */
  function ToValveMap(cv: Conversions, worldPhysicsName: String, worldNodes: seq<WorldNodeData>, lumps: seq<Lump>): (r: Result<Doc, MapError>)
    ensures r.Success? ==> Valid(r.value) && |r.value.nodes| >= 2
    ensures r.Success? ==> |r.value.nodes[World].children| > 0 && r.value.nodes[World].children[0] == 1
  {
    var d := InitialDocument(worldPhysicsName);
    match AddWorldNodes(d, worldNodes)
    case Failure(err) => Failure(err)
    case Success(d1) =>
      var r := GatherLumps(cv, d1, lumps);
      if r.Success? then ExtendsTransitive(d, d1, r.value); r else r
  }
}

=== FILE: map_entities.dfy ===
/**
 * Compiled entity properties turned into Hammer key-values (MapExtract):
 * the lump-folder path test, the text form of property values, the
 * hammeruniqueid lineage and the copying of properties into a map entity.
 */
module MapEntities {
  import opened Wrappers
  import opened Text
  import Paths
  import opened Vectors
  import Seqs

  datatype MapError =
    | WorldManifestMissing
    | LumpFolderMismatch
    | ColorTooShort
    | UnhandledVectorType
    | DuplicateKey(key: String)
    | LayerIndexOutOfRange(index: int)

  // ---------------------------------------------------------------------
  // Lump folder
  // ---------------------------------------------------------------------

  /** A path with '\\' read as '/' and its trailing separators trimmed. */
  function NormalizePath(p: String): (r: String)
    ensures '\\' !in r
    ensures |r| == 0 || r[|r| - 1] != '/'
    ensures |r| <= |p|
    ensures forall i :: 0 <= i < |r| ==> r[i] == (if p[i] == '\\' then '/' else p[i])
    ensures forall i :: |r| <= i < |p| ==> p[i] == '/' || p[i] == '\\'
  {
    TrimEnd(ReplaceChar(p, '\\', '/'), '/')
  }

  /**
   * Whether `path` ends with `equalOrSubPath`, ignoring case, either
   * separator and trailing separators. The test is on characters, not on
   * path components.
   */
  predicate PathIsEqualOrSubPath(equalOrSubPath: String, path: String)
  {
    EndsWithIgnoreCase(NormalizePath(path), NormalizePath(equalOrSubPath))
  }

  lemma SubPathReflexive(p: String)
    ensures PathIsEqualOrSubPath(p, p)
  {
    var u := Upper(NormalizePath(p));
    assert u[|u| - |u|..] == u;
  }

  /** Trailing separators on either side make no difference. */
  lemma {:induction false} TrailingSeparatorIgnored(p: String, c: char)
    requires c == '/' || c == '\\'
    ensures NormalizePath(p + [c]) == NormalizePath(p)
  {
    ReplaceCharAppend(p, [c], '\\', '/');
    assert ReplaceChar([c], '\\', '/') == ['/'];
    var q := ReplaceChar(p, '\\', '/');
    assert (q + ['/'])[..|q + ['/']| - 1] == q;
  }

  /**
   * Any text in front of a path still leaves the path a sub-path of the
   * result, including text that does not end in a separator: "b/c" is a
   * sub-path of "ab/c".
   */
  lemma SubPathOfAnyPrefix(prefix: String, p: String)
    requires |p| > 0 && p[|p| - 1] != '/' && p[|p| - 1] != '\\'
    ensures PathIsEqualOrSubPath(p, prefix + p)
  {
    var rp := ReplaceChar(p, '\\', '/');
    var rx := ReplaceChar(prefix, '\\', '/');
    ReplaceCharAppend(prefix, p, '\\', '/');
    assert NormalizePath(p) == rp;
    assert NormalizePath(prefix + p) == rx + rp;
    UpperAppend(rx, rp);
    var u := Upper(rx + rp);
    assert u[|u| - |Upper(rp)|..] == Upper(rp);
  }

  predicate IsWorldManifest(reference: String)
  {
    EndsWithIgnoreCase(reference, "world.vrman")
  }

  /** Which references are world manifests, one flag per reference. */
  function ManifestFlags(references: seq<String>): (r: seq<bool>)
    ensures |r| == |references|
    ensures forall i :: 0 <= i < |references| ==> r[i] == IsWorldManifest(references[i])
  {
    seq(|references|, i requires 0 <= i < |references| => IsWorldManifest(references[i]))
  }

  /** Reference i is a world manifest and none before it is. */
  predicate IsFirstManifest(references: seq<String>, i: int)
  {
    0 <= i < |references| && IsWorldManifest(references[i]) &&
    forall j :: 0 <= j < i ==> !IsWorldManifest(references[j])
  }

  predicate NoManifest(references: seq<String>)
  {
    forall j :: 0 <= j < |references| ==> !IsWorldManifest(references[j])
  }

  /** Index of the first world manifest among the references, or -1. */
  function FirstWorldManifest(references: seq<String>): (r: int)
    ensures -1 <= r < |references|
    ensures r >= 0 ==> IsFirstManifest(references, r)
    ensures r < 0 ==> NoManifest(references)
  {
    var flags := ManifestFlags(references);
    if true in flags then Seqs.FirstIndex(flags, true) else -1
  }

  /**
   * The lump folder named by a map's external references: the directory of
   * the first reference ending in "world.vrman", in any case.
   */
  function LumpFolderFromReferences(references: seq<String>): (r: Result<String, MapError>)
    ensures r.Failure? <==> NoManifest(references)
    ensures r.Failure? ==> r.error == WorldManifestMissing
    ensures r.Success? ==>
      exists i :: IsFirstManifest(references, i) && r.value == Paths.GetDirectoryName(references[i])
  {
    var k := FirstWorldManifest(references);
    if k < 0 then Failure(WorldManifestMissing)
    else Success(Paths.GetDirectoryName(references[k]))
  }

  /**
   * The location check on a vmap resource: when its file name has a
   * directory, the lump folder must be a sub-path of that directory
   * joined with the map name.
   */
  function CheckVmapLocation(lumpFolder: String, vmapFileName: String): (r: Result<(), MapError>)
    ensures r.Failure? <==>
      Paths.GetDirectoryName(vmapFileName) != "" &&
      !PathIsEqualOrSubPath(lumpFolder,
        Paths.GetDirectoryName(vmapFileName) + "/" + Paths.GetFileNameWithoutExtension(vmapFileName))
    ensures r.Failure? ==> r.error == LumpFolderMismatch
  {
    var mapName := Paths.GetFileNameWithoutExtension(vmapFileName);
    var rootDir := Paths.GetDirectoryName(vmapFileName);
    if rootDir != "" && !PathIsEqualOrSubPath(lumpFolder, rootDir + "/" + mapName)
    then Failure(LumpFolderMismatch)
    else Success(())
  }

  /** A vmap stored as "<dir>/<name>.vmap_c" has the directory <dir>. */
  lemma VmapDirectory(dir: String, mapName: String)
    requires |dir| > 0 && dir[|dir| - 1] != '/' && Paths.NoDoubledSeparators(dir) && '/' !in mapName
    ensures Paths.GetDirectoryName(dir + "/" + mapName + ".vmap_c") == dir
  {
    var f := mapName + ".vmap_c";
    assert '/' !in f by {
      assert forall i :: 0 <= i < |f| ==> f[i] == (if i < |mapName| then mapName[i] else ".vmap_c"[i - |mapName|]);
    }
    assert dir + "/" + mapName + ".vmap_c" == dir + "/" + f;
    Paths.DirectoryBeforeSeparatorRun(dir, "/", f);
  }

  /** A vmap stored as "<dir>/<name>.vmap_c" has the map name <name>. */
  lemma VmapMapName(dir: String, mapName: String)
    requires '/' !in mapName && '.' !in mapName
    ensures Paths.GetFileNameWithoutExtension(dir + "/" + mapName + ".vmap_c") == mapName
  {
    assert dir + "/" + mapName + ".vmap_c" == dir + [Paths.Separator] + mapName + "." + "vmap_c";
    Paths.FileNameWithoutExtensionOf(dir, mapName, "vmap_c");
  }

  /** A vmap stored as "<dir>/<name>.vmap_c" passes with the lump folder "<dir>/<name>". */
  lemma VmapInOwnFolderPasses(dir: String, mapName: String)
    requires |dir| > 0 && dir[|dir| - 1] != '/' && Paths.NoDoubledSeparators(dir) && '/' !in mapName && '.' !in mapName
    ensures CheckVmapLocation(dir + "/" + mapName, dir + "/" + mapName + ".vmap_c").Success?
  {
    VmapDirectory(dir, mapName);
    VmapMapName(dir, mapName);
    SubPathReflexive(dir + "/" + mapName);
  }

  // ---------------------------------------------------------------------
  // Property values as text
  // ---------------------------------------------------------------------

  /** The data of a compiled entity property, by its run-time type. */
  datatype Value =
    | Str(text: String)
    | Bool(flag: bool)
    | Vector(v: Vec3)
    | Color(bytes: seq<Byte>)
    | Other(display: String)

  /**
   * The two conversions that live outside this model: the text of a float
   * and the parser for a vector written as text.
   */
  datatype Formats = Formats(floatText: real -> String, parseVector: String -> Vec3)

  /**
   * The Hammer edit-string of a value: strings unchanged, booleans as
   * "1"/"0", vectors and colours as space-separated components. A colour
   * array shorter than four bytes fails as the index does.
   */
  function EditString(f: Formats, v: Value): (r: Result<String, MapError>)
    ensures r.Failure? <==> v.Color? && |v.bytes| < 4
    ensures r.Failure? ==> r.error == ColorTooShort
    ensures v.Str? ==> r == Success(v.text)
    ensures v.Other? ==> r == Success(v.display)
  {
    match v
    case Str(text) => Success(text)
    case Bool(flag) => Success(if flag then "1" else "0")
    case Vector(x) => Success(f.floatText(x.x) + " " + f.floatText(x.y) + " " + f.floatText(x.z))
    case Color(bytes) =>
      if |bytes| < 4 then Failure(ColorTooShort)
      else Success(NatToString(bytes[0] as nat) + " " + NatToString(bytes[1] as nat) + " " +
                   NatToString(bytes[2] as nat) + " " + NatToString(bytes[3] as nat))
    case Other(display) => Success(display)
  }

  /** A boolean's text parses back to 1 for true and 0 for false. */
  lemma BoolTextParses(f: Formats, flag: bool)
    ensures EditString(f, Bool(flag)).Success?
    ensures ParseInt(EditString(f, Bool(flag)).value) == Success(if flag then 1 else 0)
  {
    var s := EditString(f, Bool(flag)).value;
    assert s == [if flag then '1' else '0'];
    assert s[..0] == [];
    assert DigitsValue(s) == (if flag then 1 else 0);
    assert !exists i :: 0 <= i < |s| && !IsDigit(s[i]);
  }

  /** The text of a colour splits at spaces into its first four bytes, each parsing back. */
  lemma ColorTextParses(f: Formats, bytes: seq<Byte>)
    requires |bytes| >= 4
    ensures EditString(f, Color(bytes)).Success?
    ensures |Split(EditString(f, Color(bytes)).value, ' ')| == 4
    ensures forall i :: 0 <= i < 4 ==>
      ParseInt(Split(EditString(f, Color(bytes)).value, ' ')[i]) == Success(bytes[i] as int)
  {
    var parts := [NatToString(bytes[0] as nat), NatToString(bytes[1] as nat),
                  NatToString(bytes[2] as nat), NatToString(bytes[3] as nat)];
    forall i | 0 <= i < 4
      ensures ' ' !in parts[i]
      ensures ParseInt(parts[i]) == Success(bytes[i] as int)
    {
      ParseIntToString(bytes[i] as int);
    }
    JoinOfFour(parts, ' ');
    assert EditString(f, Color(bytes)).value == Join(parts, [' ']);
    SplitJoin(parts, ' ');
    assert Split(EditString(f, Color(bytes)).value, ' ') == parts;
  }

  /** The text of a vector splits at spaces into its three component texts. */
  lemma VectorTextSplits(f: Formats, v: Vec3)
    requires ' ' !in f.floatText(v.x) && ' ' !in f.floatText(v.y) && ' ' !in f.floatText(v.z)
    ensures EditString(f, Vector(v)).Success?
    ensures Split(EditString(f, Vector(v)).value, ' ') == [f.floatText(v.x), f.floatText(v.y), f.floatText(v.z)]
  {
    var parts := [f.floatText(v.x), f.floatText(v.y), f.floatText(v.z)];
    JoinOfThree(parts, ' ');
    SplitJoin(parts, ' ');
  }

  lemma JoinOfThree(parts: seq<String>, sep: char)
    requires |parts| == 3
    ensures Join(parts, [sep]) == parts[0] + [sep] + parts[1] + [sep] + parts[2]
  {
    assert Join(parts[1..], [sep]) == parts[1] + [sep] + parts[2] by {
      assert parts[1..][1..] == [parts[2]];
      assert Join(parts[1..][1..], [sep]) == parts[2];
    }
  }

  lemma JoinOfFour(parts: seq<String>, sep: char)
    requires |parts| == 4
    ensures Join(parts, [sep]) == parts[0] + [sep] + parts[1] + [sep] + parts[2] + [sep] + parts[3]
  {
    JoinOfThree(parts[1..], sep);
  }

  // ---------------------------------------------------------------------
  // hammeruniqueid lineage
  // ---------------------------------------------------------------------

  /**
   * Int32.Parse over every piece, in order, as Array.ConvertAll does: the
   * first piece that fails decides the error.
   */
  function ParseAll(pieces: seq<String>): (r: Result<seq<int>, ParseError>)
    ensures r.Success? <==> forall i :: 0 <= i < |pieces| ==> ParseInt(pieces[i]).Success?
    ensures r.Success? ==> |r.value| == |pieces|
    ensures r.Success? ==> forall i :: 0 <= i < |pieces| ==> ParseInt(pieces[i]) == Success(r.value[i])
    ensures r.Failure? ==>
      exists i :: 0 <= i < |pieces| && ParseInt(pieces[i]) == Failure(r.error) &&
        forall j :: 0 <= j < i ==> ParseInt(pieces[j]).Success?
  {
    if |pieces| == 0 then Success([])
    else
      match ParseInt(pieces[0])
      case Failure(e) => Failure(e)
      case Success(v) =>
        var rest := ParseAll(pieces[1..]);
        assert forall i :: 1 <= i < |pieces| ==> pieces[i] == pieces[1..][i - 1];
        match rest
        case Success(vs) => Success([v] + vs)
        case Failure(e) =>
          var k :| 0 <= k < |pieces[1..]| && ParseInt(pieces[1..][k]) == Failure(e) &&
            forall j :: 0 <= j < k ==> ParseInt(pieces[1..][j]).Success?;
          assert ParseInt(pieces[k + 1]) == Failure(e);
          Failure(e)
  }

  /**
   * The hammeruniqueid handling as written: the text "a:b:c" becomes the
   * lineage [a, b, c]; a format error keeps the previous lineage, but an
   * overflow is not caught and aborts the extraction (the Failure).
   */
  function LineageAsWritten(text: String, previous: seq<int>): (r: Result<seq<int>, ParseError>)
    ensures r.Failure? <==> ParseAll(Split(text, ':')) == Failure(OverflowError)
    ensures r.Success? && ParseAll(Split(text, ':')).Success? ==> r.value == ParseAll(Split(text, ':')).value
    ensures r.Success? && ParseAll(Split(text, ':')).Failure? ==> r.value == previous
  {
    match ParseAll(Split(text, ':'))
    case Success(ids) => Success(ids)
    case Failure(FormatError) => Success(previous)
    case Failure(OverflowError) => Failure(OverflowError)
  }

  /**
   * The id text of a node past the 32-bit range, such as "2147483648",
   * aborts the extraction instead of being ignored like other bad ids.
   */
  lemma LineageOverflowEscapes(n: nat, previous: seq<int>)
    requires n > Int32Max
    ensures LineageAsWritten(NatToString(n), previous) == Failure(OverflowError)
  {
    var s := NatToString(n);
    assert ':' !in s by {
      assert forall i :: 0 <= i < |s| ==> IsDigit(s[i]);
    }
    SplitWithoutSeparator(s, ':');
    DigitsOfNat(n);
    assert !exists i :: 0 <= i < |s| && !IsDigit(s[i]);
    assert s[0] != '-' && s[0] != '+' by { assert IsDigit(s[0]); }
    assert ParseInt(s) == Failure(OverflowError);
  }

  /**
   * The lineage of a hammeruniqueid text: the ids when every piece parses,
   * otherwise the previous lineage, whatever the parse error.
   */
  function Lineage(text: String, previous: seq<int>): (r: seq<int>)
    ensures ParseAll(Split(text, ':')).Success? ==> r == ParseAll(Split(text, ':')).value
    ensures ParseAll(Split(text, ':')).Failure? ==> r == previous
    ensures |r| == |Split(text, ':')| || r == previous
  {
    match ParseAll(Split(text, ':'))
    case Success(ids) => ids
    case Failure(_) => previous
  }

  /** The decimal texts of the ids, one per id. */
  function IdTexts(ids: seq<int>): (r: seq<String>)
    ensures |r| == |ids|
    ensures forall i :: 0 <= i < |ids| ==> r[i] == IntToString(ids[i])
  {
    if |ids| == 0 then [] else [IntToString(ids[0])] + IdTexts(ids[1..])
  }

  /** Writing a lineage as "a:b:c" and reading it back gives the same ids. */
  lemma LineageRoundTrip(ids: seq<int>, previous: seq<int>)
    requires |ids| >= 1
    requires forall i :: 0 <= i < |ids| ==> IsInt32(ids[i])
    ensures Lineage(Join(IdTexts(ids), ":"), previous) == ids
  {
    var texts := IdTexts(ids);
    forall i | 0 <= i < |texts|
      ensures ':' !in texts[i]
      ensures ParseInt(texts[i]) == Success(ids[i])
    {
      IdTextParses(ids[i]);
    }
    SplitJoin(texts, ':');
    assert Join(texts, ":") == Join(texts, [':']);
    ParseAllParses(texts, ids);
  }

  /** Pieces that each parse to their id parse together to the ids. */
  lemma {:induction false} ParseAllParses(texts: seq<String>, ids: seq<int>)
    requires |texts| == |ids|
    requires forall i :: 0 <= i < |texts| ==> ParseInt(texts[i]) == Success(ids[i])
    ensures ParseAll(texts) == Success(ids)
  {
    var r := ParseAll(texts);
    assert r.Success?;
    assert forall i :: 0 <= i < |ids| ==> Success(r.value[i]) == ParseInt(texts[i]) == Success(ids[i]);
    assert r.value == ids;
  }

  lemma IdTextParses(n: int)
    requires IsInt32(n)
    ensures ':' !in IntToString(n)
    ensures ParseInt(IntToString(n)) == Success(n)
  {
    ParseIntToString(n);
    var d := NatToString(if n < 0 then -n else n);
    assert forall k :: 0 <= k < |d| ==> IsDigit(d[k]);
  }

  /** The corrected handling never aborts, and the overflowing text is ignored like a malformed one. */
  lemma LineageIgnoresOverflow(n: nat, previous: seq<int>)
    requires n > Int32Max
    ensures Lineage(NatToString(n), previous) == previous
  {
    LineageOverflowEscapes(n, previous);
  }

  // ---------------------------------------------------------------------
  // Copying properties into a map entity
  // ---------------------------------------------------------------------

  /** The string-token hashes of the properties with special handling. */
  datatype Hashes = Hashes(className: nat, origin: nat, angles: nat, scales: nat, hammerUniqueId: nat)

  datatype EntityProperty = EntityProperty(hash: nat, name: Option<String>, data: Value)

  /** A compiled entity: its properties in the order of its dictionary. */
  datatype CompiledEntity = CompiledEntity(properties: seq<EntityProperty>)

  /** A Hammer entity: its key-values and the transform and node id kept outside them. */
  datatype MapEntity = MapEntity(
    name: Option<String>,
    keyValues: map<String, String>,
    origin: Option<Vec3>,
    angles: Option<Vec3>,
    scales: Option<Vec3>,
    nodeId: Option<int>)

  const EmptyEntity := MapEntity(None, map[], None, None, None, None)

  /**
   * Names for the properties that lack one: the string the hash stands
   * for, or the decimal text of the hash itself.
   */
  function FixUpNames(hashTable: map<nat, String>, props: seq<EntityProperty>): (r: seq<EntityProperty>)
    ensures |r| == |props|
    ensures forall i :: 0 <= i < |props| ==>
      r[i].name.Some? && r[i].hash == props[i].hash && r[i].data == props[i].data
    ensures forall i :: 0 <= i < |props| && props[i].name.Some? ==> r[i] == props[i]
    ensures forall i :: 0 <= i < |props| && props[i].name.None? && props[i].hash in hashTable ==>
      r[i].name == Some(hashTable[props[i].hash])
    ensures forall i :: 0 <= i < |props| && props[i].name.None? && props[i].hash !in hashTable ==>
      r[i].name == Some(NatToString(props[i].hash))
  {
    if |props| == 0 then []
    else
      var p := props[0];
      var named := if p.name.Some? then p
        else p.(name := Some(if p.hash in hashTable then hashTable[p.hash] else NatToString(p.hash)));
      [named] + FixUpNames(hashTable, props[1..])
  }

  predicate IsSpecial(h: Hashes, hash: nat)
  {
    hash == h.origin || hash == h.angles || hash == h.scales || hash == h.hammerUniqueId
  }

  /** A property whose name becomes the key `key`. */
  predicate CopiedAs(h: Hashes, p: EntityProperty, key: String)
  {
    p.name == Some(key) && !IsSpecial(h, p.hash)
  }

  /** A vector property: parsed from text, taken as-is, or rejected. */
  function VectorOf(f: Formats, v: Value): (r: Result<Vec3, MapError>)
    ensures r.Failure? <==> !(v.Str? || v.Vector?)
    ensures v.Vector? ==> r == Success(v.v)
  {
    match v
    case Str(text) => Success(f.parseVector(text))
    case Vector(x) => Success(x)
    case _ => Failure(UnhandledVectorType)
  }

  /** The state carried through the properties: the entity so far and the lineage. */
  datatype Copy = Copy(entity: MapEntity, lineage: seq<int>)

  /** The hammeruniqueid property: the lineage it names, and the node id as its last element. */
  function ApplyLineage(f: Formats, c: Copy, p: EntityProperty): (r: Result<Copy, MapError>)
    ensures r.Failure? <==> EditString(f, p.data).Failure?
    ensures r.Success? ==> r.value.entity == c.entity.(nodeId := r.value.entity.nodeId)
    ensures r.Success? ==> r.value.lineage == Lineage(EditString(f, p.data).value, c.lineage)
    ensures r.Success? && |r.value.lineage| > 0 ==>
      r.value.entity.nodeId == Some(r.value.lineage[|r.value.lineage| - 1])
    ensures r.Success? && |r.value.lineage| == 0 ==> r.value.entity.nodeId == c.entity.nodeId
  {
    match EditString(f, p.data)
    case Failure(e) => Failure(e)
    case Success(text) =>
      var lineage := Lineage(text, c.lineage);
      var e := if |lineage| > 0 then c.entity.(nodeId := Some(lineage[|lineage| - 1])) else c.entity;
      Success(Copy(e, lineage))
  }

  /** One of the four special properties, which never becomes a key-value. */
  function ApplySpecial(h: Hashes, f: Formats, c: Copy, p: EntityProperty): (r: Result<Copy, MapError>)
    requires IsSpecial(h, p.hash)
    ensures r.Success? ==> r.value.entity.keyValues == c.entity.keyValues && r.value.entity.name == c.entity.name
    ensures r.Success? && p.hash != h.hammerUniqueId ==> r.value.lineage == c.lineage
    ensures r.Success? && p.hash == h.origin ==> VectorOf(f, p.data).Success? && r.value.entity.origin == Some(VectorOf(f, p.data).value)
  {
    if p.hash == h.origin then
      match VectorOf(f, p.data)
      case Failure(e) => Failure(e)
      case Success(v) => Success(c.(entity := c.entity.(origin := Some(v))))
    else if p.hash == h.angles then
      match VectorOf(f, p.data)
      case Failure(e) => Failure(e)
      case Success(v) => Success(c.(entity := c.entity.(angles := Some(v))))
    else if p.hash == h.scales then
      match VectorOf(f, p.data)
      case Failure(e) => Failure(e)
      case Success(v) => Success(c.(entity := c.entity.(scales := Some(v))))
    else ApplyLineage(f, c, p)
  }

  /** One property: skipped without a name, handled when special, otherwise added once. */
  function CopyProperty(h: Hashes, f: Formats, c: Copy, p: EntityProperty): (r: Result<Copy, MapError>)
    ensures r.Success? && p.name.None? ==> r.value == c
    ensures r.Success? && !CopiedAs(h, p, p.name.GetOr([])) ==>
      r.value.entity.keyValues == c.entity.keyValues
    ensures r.Success? && p.name.Some? && !IsSpecial(h, p.hash) ==>
      p.name.value !in c.entity.keyValues && EditString(f, p.data).Success? &&
      r.value.entity.keyValues == c.entity.keyValues[p.name.value := EditString(f, p.data).value] &&
      r.value.lineage == c.lineage
    ensures r.Success? && p.hash != h.hammerUniqueId ==> r.value.lineage == c.lineage
    ensures p.name.Some? && !IsSpecial(h, p.hash) && p.name.value in c.entity.keyValues ==> r.Failure?
    ensures p.name.Some? && !IsSpecial(h, p.hash) && p.name.value in c.entity.keyValues ==>
      (EditString(f, p.data).Success? ==> r == Failure(DuplicateKey(p.name.value)))
  {
    if p.name.None? then Success(c)
    else if IsSpecial(h, p.hash) then ApplySpecial(h, f, c, p)
    else
      var key := p.name.value;
      match EditString(f, p.data)
      case Failure(e) => Failure(e)
      case Success(text) =>
        if key in c.entity.keyValues then Failure(DuplicateKey(key))
        else Success(c.(entity := c.entity.(keyValues := c.entity.keyValues[key := text])))
  }

  /**
   * The properties copied in reverse dictionary order. Every new key comes
   * from exactly one named, non-special property and carries its edit
   * string; every such property's name is a key; keys already present stay.
   */
  function CopyAll(h: Hashes, f: Formats, c: Copy, props: seq<EntityProperty>): (r: Result<Copy, MapError>)
    decreases |props|
    ensures r.Success? ==> forall k :: k in c.entity.keyValues ==>
      k in r.value.entity.keyValues && r.value.entity.keyValues[k] == c.entity.keyValues[k]
    ensures r.Success? ==> forall k :: k in r.value.entity.keyValues && k !in c.entity.keyValues ==>
      exists i :: 0 <= i < |props| && CopiedAs(h, props[i], k) &&
        EditString(f, props[i].data) == Success(r.value.entity.keyValues[k])
  {
    if |props| == 0 then Success(c)
    else
      var last := props[|props| - 1];
      match CopyProperty(h, f, c, last)
      case Failure(e) => Failure(e)
      case Success(c1) =>
        var rest := CopyAll(h, f, c1, props[..|props| - 1]);
        assert forall i :: 0 <= i < |props| - 1 ==> props[..|props| - 1][i] == props[i];
        rest
  }

  /** Every named, non-special property of a successful copy has become a key. */
  lemma {:induction false} CopyAllNamesPresent(h: Hashes, f: Formats, c: Copy, props: seq<EntityProperty>)
    requires CopyAll(h, f, c, props).Success?
    ensures forall i :: 0 <= i < |props| && props[i].name.Some? && !IsSpecial(h, props[i].hash) ==>
      props[i].name.value in CopyAll(h, f, c, props).value.entity.keyValues
    decreases |props|
  {
    if |props| > 0 {
      var last := props[|props| - 1];
      var init := props[..|props| - 1];
      var c1 := CopyProperty(h, f, c, last).value;
      assert CopyAll(h, f, c, props) == CopyAll(h, f, c1, init);
      CopyAllNamesPresent(h, f, c1, init);
      var r := CopyAll(h, f, c1, init).value;
      forall i | 0 <= i < |props| && props[i].name.Some? && !IsSpecial(h, props[i].hash)
        ensures props[i].name.value in r.entity.keyValues
      {
        if i < |init| {
          assert init[i] == props[i];
        } else {
          assert props[i] == last;
          assert last.name.value in c1.entity.keyValues;
        }
      }
    }
  }

  /** Without a hammeruniqueid property the lineage stays as it was. */
  lemma {:induction false} CopyAllKeepsLineage(h: Hashes, f: Formats, c: Copy, props: seq<EntityProperty>)
    requires CopyAll(h, f, c, props).Success?
    requires forall i :: 0 <= i < |props| ==> props[i].hash != h.hammerUniqueId
    ensures CopyAll(h, f, c, props).value.lineage == c.lineage
    decreases |props|
  {
    if |props| > 0 {
      var last := props[|props| - 1];
      var init := props[..|props| - 1];
      var c1 := CopyProperty(h, f, c, last).value;
      assert CopyAll(h, f, c, props) == CopyAll(h, f, c1, init);
      assert forall i :: 0 <= i < |init| ==> init[i] == props[i];
      CopyAllKeepsLineage(h, f, c1, init);
    }
  }

  /** AddProperties: the entity's properties copied onto `target`, with the lineage they carry. */
  function AddProperties(h: Hashes, f: Formats, e: CompiledEntity, target: MapEntity): (r: Result<Copy, MapError>)
    ensures r.Success? ==> forall k :: k in target.keyValues ==>
      k in r.value.entity.keyValues && r.value.entity.keyValues[k] == target.keyValues[k]
    ensures r.Success? ==> forall k :: k in r.value.entity.keyValues && k !in target.keyValues ==>
      exists i :: 0 <= i < |e.properties| && CopiedAs(h, e.properties[i], k)
    ensures r.Success? && (forall i :: 0 <= i < |e.properties| ==> e.properties[i].hash != h.hammerUniqueId) ==>
      r.value.lineage == []
  {
    var r := CopyAll(h, f, Copy(target, []), e.properties);
    if r.Success? && forall i :: 0 <= i < |e.properties| ==> e.properties[i].hash != h.hammerUniqueId then
      CopyAllKeepsLineage(h, f, Copy(target, []), e.properties);
      r
    else r
  }

  /** No special property ever reaches the key-values, whatever its name. */
  lemma SpecialNeverCopied(h: Hashes, f: Formats, e: CompiledEntity, target: MapEntity, key: String)
    requires key !in target.keyValues
    requires forall i :: 0 <= i < |e.properties| && e.properties[i].name == Some(key) ==> IsSpecial(h, e.properties[i].hash)
    ensures AddProperties(h, f, e, target).Success? ==> key !in AddProperties(h, f, e, target).value.entity.keyValues
  {
  }

  /** Two non-special properties with one name cannot both be copied. */
  lemma {:induction false} DuplicateNameFails(h: Hashes, f: Formats, c: Copy, props: seq<EntityProperty>, i: nat, j: nat)
    requires i < j < |props|
    requires props[i].name.Some? && props[i].name == props[j].name
    requires !IsSpecial(h, props[i].hash) && !IsSpecial(h, props[j].hash)
    ensures CopyAll(h, f, c, props).Failure?
    decreases |props|
  {
    var last := props[|props| - 1];
    var init := props[..|props| - 1];
    match CopyProperty(h, f, c, last)
    case Failure(_) =>
    case Success(c1) =>
      if j == |props| - 1 {
        assert init[i] == props[i];
        assert props[j].name.value in c1.entity.keyValues;
        AlreadyPresentFails(h, f, c1, init, i);
      } else {
        assert init[i] == props[i] && init[j] == props[j];
        DuplicateNameFails(h, f, c1, init, i, j);
      }
  }

  /** A non-special property whose name is already a key makes the copy fail. */
  lemma {:induction false} AlreadyPresentFails(h: Hashes, f: Formats, c: Copy, props: seq<EntityProperty>, i: nat)
    requires i < |props|
    requires props[i].name.Some? && !IsSpecial(h, props[i].hash)
    requires props[i].name.value in c.entity.keyValues
    ensures CopyAll(h, f, c, props).Failure?
    decreases |props|
  {
    var last := props[|props| - 1];
    var init := props[..|props| - 1];
    match CopyProperty(h, f, c, last)
    case Failure(_) =>
    case Success(c1) =>
      if i < |props| - 1 {
        assert init[i] == props[i];
        CopyPropertyKeepsKeys(h, f, c, last);
        assert props[i].name.value in c1.entity.keyValues;
        AlreadyPresentFails(h, f, c1, init, i);
      }
  }

  /** Copying one property never removes a key. */
  lemma CopyPropertyKeepsKeys(h: Hashes, f: Formats, c: Copy, p: EntityProperty)
    ensures CopyProperty(h, f, c, p).Success? ==>
      c.entity.keyValues.Keys <= CopyProperty(h, f, c, p).value.entity.keyValues.Keys
  {
    if CopyProperty(h, f, c, p).Success? && p.name.Some? && !IsSpecial(h, p.hash) {
      assert CopyProperty(h, f, c, p).value.entity.keyValues
        == c.entity.keyValues[p.name.value := EditString(f, p.data).value];
    }
  }
}

=== FILE: material_loader.dfy ===
/**
 * MaterialLoader: the material cache, the texture fallbacks and parameter
 * defaults of a loaded material, the texture-format tables and the
 * error-texture singleton. OpenGL is reduced to a handle allocator: each
 * generated texture gets the next handle, and the loader records the wrap
 * modes set on it.
 */
module MaterialLoader {
  import opened Wrappers
  import opened Vectors
  import Text

  datatype WrapMode = Clamp | Repeat

  datatype Wrap = Wrap(s: WrapMode, t: WrapMode)

  /**
   * The loader's state. Handle 0 is the null texture; `errorTexture` is 0
   * until the error texture is generated.
   */
  datatype Loader = Loader(
    materials: map<Text.String, Material>,
    errorTexture: nat,
    nextHandle: nat,
    wraps: map<nat, Wrap>)

  /** A value together with the loader state after computing it. */
  datatype Step<T> = Step(loader: Loader, value: T)

  predicate Valid(l: Loader)
  {
    l.nextHandle > 0 && l.errorTexture < l.nextHandle && forall h :: h in l.wraps ==> 0 < h < l.nextHandle
  }

  const Initial: Loader := Loader(map[], 0, 1, map[])

  datatype Material = Material(
    shaderName: Text.String,
    textures: map<Text.String, nat>,
    intParams: map<Text.String, int>,
    vectorParams: map<Text.String, Vec4>)

  /** A material resource: its texture parameters in declaration order, and its parameters. */
  datatype MaterialResource = MaterialResource(
    shaderName: Text.String,
    textureParams: seq<(Text.String, Text.String)>,
    intParams: map<Text.String, int>,
    vectorParams: map<Text.String, Vec4>)

  datatype TexFlag = SuggestClampS | SuggestClampT | OtherFlag(bit: nat)

  datatype VTexFormat =
    | DXT1 | DXT5 | ETC2 | ETC2_EAC | ATI1N | ATI2N | BC6H | BC7 | RGBA8888 | RGBA16161616 | I8
    | R16 | R16F | RG1616 | RG1616F
    | OtherFormat(code: int)

  datatype TextureResource = TextureResource(format: VTexFormat, flags: set<TexFlag>)

  datatype GlFormat =
    | CompressedRgbaS3tcDxt1Ext | CompressedRgbaS3tcDxt5Ext | CompressedRgb8Etc2 | CompressedRgba8Etc2Eac
    | CompressedRedRgtc1 | CompressedRgRgtc2 | CompressedRgbBptcUnsignedFloat | CompressedRgbaBptcUnorm
    | Rgba8 | Rgba16f | Intensity8 | GlR16 | GlR16f | Rg16 | Rg16f

  datatype PixelFormat = Red | Rg | Rgba
  datatype PixelType = UnsignedShort | Float | UnsignedByte

  /** The table used for formats uploaded as they are (compressed or not). */
  function InternalFormat(f: VTexFormat): Option<GlFormat>
  {
    match f
    case DXT1 => Some(CompressedRgbaS3tcDxt1Ext)
    case DXT5 => Some(CompressedRgbaS3tcDxt5Ext)
    case ETC2 => Some(CompressedRgb8Etc2)
    case ETC2_EAC => Some(CompressedRgba8Etc2Eac)
    case ATI1N => Some(CompressedRedRgtc1)
    case ATI2N => Some(CompressedRgRgtc2)
    case BC6H => Some(CompressedRgbBptcUnsignedFloat)
    case BC7 => Some(CompressedRgbaBptcUnorm)
    case RGBA8888 => Some(Rgba8)
    case RGBA16161616 => Some(Rgba16f)
    case I8 => Some(Intensity8)
    case _ => None
  }

  /** The table used for formats uploaded as pixel data. */
  function PixelInternalFormat(f: VTexFormat): Option<GlFormat>
  {
    match f
    case R16 => Some(GlR16)
    case R16F => Some(GlR16f)
    case RG1616 => Some(Rg16)
    case RG1616F => Some(Rg16f)
    case _ => None
  }

  function PixelFormatOf(f: VTexFormat): PixelFormat
  {
    match f
    case R16 => Red
    case R16F => Red
    case RG1616 => Rg
    case RG1616F => Rg
    case _ => Rgba
  }

  function PixelTypeOf(f: VTexFormat): PixelType
  {
    match f
    case R16 => UnsignedShort
    case R16F => Float
    case RG1616 => UnsignedShort
    case RG1616F => Float
    case _ => UnsignedByte
  }

  predicate Supported(f: VTexFormat)
  {
    InternalFormat(f).Some? || PixelInternalFormat(f).Some?
  }

  /** The two tables are disjoint, and exactly the fifteen listed formats are supported. */
  lemma FormatTables(f: VTexFormat)
    ensures !(InternalFormat(f).Some? && PixelInternalFormat(f).Some?)
    ensures Supported(f) <==> !f.OtherFormat?
    ensures PixelInternalFormat(f).Some? ==> PixelFormatOf(f) != Rgba && PixelTypeOf(f) != UnsignedByte
  {
  }

  /** GL.GenTexture: the next handle. */
  function GenTexture(l: Loader): (r: Step<nat>)
    requires Valid(l)
    ensures Valid(r.loader) && r.value == l.nextHandle && r.value > 0
    ensures r.loader == l.(nextHandle := l.nextHandle + 1)
  {
    Step(l.(nextHandle := l.nextHandle + 1), l.nextHandle)
  }

  /** GenerateColorTexture: a fresh handle with repeat wrapping on both axes. */
  function ColorTexture(l: Loader): (r: Step<nat>)
    requires Valid(l)
    ensures Valid(r.loader) && r.value == l.nextHandle && r.value > 0
    ensures r.loader == l.(nextHandle := l.nextHandle + 1, wraps := l.wraps[r.value := Wrap(Repeat, Repeat)])
  {
    var g := GenTexture(l);
    Step(g.loader.(wraps := g.loader.wraps[g.value := Wrap(Repeat, Repeat)]), g.value)
  }

  /** GetErrorTexture: generated on the first call, the same handle afterwards. */
  function ErrorTexture(l: Loader): (r: Step<nat>)
    requires Valid(l)
    ensures Valid(r.loader) && r.value > 0 && r.loader.errorTexture == r.value
    ensures l.errorTexture != 0 ==> r == Step(l, l.errorTexture)
    ensures l.errorTexture == 0 ==> r.value == l.nextHandle && r.loader.materials == l.materials
  {
    if l.errorTexture != 0 then Step(l, l.errorTexture)
    else
      var c := ColorTexture(l);
      Step(c.loader.(errorTexture := c.value), c.value)
  }

  /** Asking for the error texture again returns the same handle and changes nothing. */
  lemma ErrorTextureSingleton(l: Loader)
    requires Valid(l)
    ensures var first := ErrorTexture(l);
      ErrorTexture(first.loader) == first
  {
  }

  /**
   * LoadTexture for a loaded resource: a handle is generated first; an
   * unsupported format then yields the error texture (the generated handle
   * is left unused); otherwise the handle is returned with clamp wrapping
   * on each axis whose SUGGEST_CLAMP flag is set and repeat otherwise.
   */
  function LoadTexture(l: Loader, tex: TextureResource): (r: Step<nat>)
    requires Valid(l)
    ensures Valid(r.loader) && r.value > 0 && r.loader.materials == l.materials
    ensures !Supported(tex.format) ==> r.value == r.loader.errorTexture && r.value != l.nextHandle
    ensures Supported(tex.format) ==>
      r.value == l.nextHandle && r.value in r.loader.wraps
      && (r.loader.wraps[r.value].s == Clamp <==> SuggestClampS in tex.flags)
      && (r.loader.wraps[r.value].t == Clamp <==> SuggestClampT in tex.flags)
  {
    var g := GenTexture(l);
    if !Supported(tex.format) then ErrorTexture(g.loader)
    else
      var s := if SuggestClampS in tex.flags then Clamp else Repeat;
      var t := if SuggestClampT in tex.flags then Clamp else Repeat;
      Step(g.loader.(wraps := g.loader.wraps[g.value := Wrap(s, t)]), g.value)
  }

  /** LoadTexture by name: a texture whose compiled file does not load is the error texture. */
  function LoadTextureByName(l: Loader, name: Text.String, load: Text.String -> Option<TextureResource>): (r: Step<nat>)
    requires Valid(l)
    ensures Valid(r.loader) && r.value > 0 && r.loader.materials == l.materials
    ensures load(name + "_c").None? ==> r == ErrorTexture(l)
  {
    match load(name + "_c")
    case None => ErrorTexture(l)
    case Some(tex) => LoadTexture(l, tex)
  }

  /** The keys of the texture parameters. */
  function ParamKeys(params: seq<(Text.String, Text.String)>): (r: set<Text.String>)
    ensures forall k :: k in r <==> exists i :: 0 <= i < |params| && params[i].0 == k
  {
    if |params| == 0 then {}
    else
      assert forall i :: 1 <= i < |params| ==> params[i] == params[1..][i - 1];
      {params[0].0} + ParamKeys(params[1..])
  }

  /** The texture parameters loaded in order; a later parameter with the same key replaces an earlier one. */
  function LoadTextures(
    l: Loader, textures: map<Text.String, nat>, params: seq<(Text.String, Text.String)>,
    load: Text.String -> Option<TextureResource>): (r: Step<map<Text.String, nat>>)
    requires Valid(l)
    ensures Valid(r.loader) && r.loader.materials == l.materials
    ensures r.value.Keys == textures.Keys + ParamKeys(params)
    ensures forall k :: k in textures && k in r.value && r.value[k] != textures[k] ==> exists i :: 0 <= i < |params| && params[i].0 == k
    decreases |params|
  {
    if |params| == 0 then Step(l, textures)
    else
      var t := LoadTextureByName(l, params[0].1, load);
      var rest := LoadTextures(t.loader, textures[params[0].0 := t.value], params[1..], load);
      rest
  }

  /** The texture slots the colour texture falls back to, in order of preference. */
  const ColorFallbacks: seq<Text.String> := ["g_tColor2", "g_tColor1", "g_tColorA", "g_tColorB", "g_tColorC"]

  /** The first fallback slot present in the map. */
  function FirstFallback(textures: map<Text.String, nat>, names: seq<Text.String>): (r: Option<Text.String>)
    ensures r.None? <==> forall i :: 0 <= i < |names| ==> names[i] !in textures
    ensures r.Some? ==> r.value in textures
    ensures r.Some? ==>
      exists i :: 0 <= i < |names| && names[i] == r.value && forall j :: 0 <= j < i ==> names[j] !in textures
  {
    if |names| == 0 then None
    else if names[0] in textures then Some(names[0])
    else match FirstFallback(textures, names[1..])
      case None => None
      case Some(n) =>
        assert exists i :: 0 <= i < |names[1..]| && names[1..][i] == n && forall j :: 0 <= j < i ==> names[1..][j] !in textures;
        var i :| 0 <= i < |names[1..]| && names[1..][i] == n && forall j :: 0 <= j < i ==> names[1..][j] !in textures;
        assert names[i + 1] == n && forall j :: 0 <= j < i + 1 ==> names[j] !in textures;
        Some(n)
  }

  /** Which fallback slot is chosen depends only on which slots are present, not on their handles. */
  lemma {:induction false} FirstFallbackByKeys(a: map<Text.String, nat>, b: map<Text.String, nat>, names: seq<Text.String>)
    requires a.Keys == b.Keys
    ensures FirstFallback(a, names) == FirstFallback(b, names)
    decreases |names|
  {
    if |names| > 0 && names[0] !in a {
      FirstFallbackByKeys(a, b, names[1..]);
    }
  }

  /** Sets a parameter to a default only when it is missing. */
  function WithDefault(params: map<Text.String, Vec4>, key: Text.String, v: Vec4): (r: map<Text.String, Vec4>)
    ensures key in r && r.Keys == params.Keys + {key}
    ensures key in params ==> r == params
    ensures key !in params ==> r[key] == v
    ensures forall k :: k in params ==> r[k] == params[k]
  {
    if key in params then params else params[key := v]
  }

  /** The error material: only the error texture, and the error shader. */
  function ErrorMaterial(l: Loader): (r: Step<Material>)
    requires Valid(l)
    ensures Valid(r.loader) && r.loader.materials == l.materials
    ensures r.value.shaderName == "vrf.error"
    ensures r.value.textures == map["g_tColor" := r.loader.errorTexture] && r.loader.errorTexture > 0
  {
    var e := ErrorTexture(l);
    Step(e.loader, Material("vrf.error", map["g_tColor" := e.value], map[], map[]))
  }

  datatype LoadError = MissingColorTint

  /** Whether a material declares neither a colour texture nor any fallback slot. */
  predicate NoColorSlot(res: MaterialResource)
  {
    "g_tColor" !in ParamKeys(res.textureParams)
    && forall i :: 0 <= i < |ColorFallbacks| ==> ColorFallbacks[i] !in ParamKeys(res.textureParams)
  }

  predicate SolidColor(res: MaterialResource)
  {
    "F_SOLID_COLOR" in res.intParams && res.intParams["F_SOLID_COLOR"] == 1
  }

  /**
   * The texture half of LoadMaterial: the texture parameters loaded, a
   * generated colour texture for a solid-colour material, the error
   * texture for a missing colour texture, then the colour fallback.
   */
  function MaterialTextures(l: Loader, m: MaterialResource, load: Text.String -> Option<TextureResource>):
    (r: Step<map<Text.String, nat>>)
    requires Valid(l)
    ensures Valid(r.loader) && r.loader.materials == l.materials
    ensures "g_tColor" in r.value
    ensures SolidColor(m) ==> r.value["g_tColor"] != r.loader.errorTexture
    ensures !SolidColor(m) && NoColorSlot(m) ==> r.value["g_tColor"] == r.loader.errorTexture
    ensures !SolidColor(m) && "g_tColor" !in ParamKeys(m.textureParams) && FirstFallback(r.value, ColorFallbacks).Some? ==>
      r.value["g_tColor"] == r.value[FirstFallback(r.value, ColorFallbacks).value]
  {
    var t := LoadTextures(l, map[], m.textureParams, load);
    var s := if SolidColor(m) then
        var c := ColorTexture(t.loader); Step(c.loader, t.value["g_tColor" := c.value])
      else t;
    var withColor := if "g_tColor" in s.value then s else
        var e := ErrorTexture(s.loader); Step(e.loader, s.value["g_tColor" := e.value]);
    var e := ErrorTexture(withColor.loader);
    var out := FallBack(withColor.value, e.value);
    FirstFallbackByKeys(out, withColor.value, ColorFallbacks);
    Step(e.loader, out)
  }

  /**
   * LoadMaterial. The texture parameters are loaded; F_SOLID_COLOR == 1
   * replaces the colour texture by one generated from g_vColorTint (a
   * missing tint throws); a missing colour texture becomes the error
   * texture, and a colour texture equal to the error texture is replaced
   * by the first present fallback slot. Missing texture-coordinate scale,
   * offset and tint get their defaults.
   */
  function LoadMaterial(l: Loader, res: Option<MaterialResource>, load: Text.String -> Option<TextureResource>):
    (r: Result<Step<Material>, LoadError>)
    requires Valid(l)
    ensures res.None? ==> r == Success(ErrorMaterial(l))
    ensures res.Some? ==> (r.Failure? <==> SolidColor(res.value) && "g_vColorTint" !in res.value.vectorParams)
    ensures r.Success? ==> Valid(r.value.loader) && r.value.loader.materials == l.materials
    ensures r.Success? ==> "g_tColor" in r.value.value.textures
    ensures r.Success? && res.Some? && SolidColor(res.value) ==>
      r.value.value.textures["g_tColor"] != r.value.loader.errorTexture
    ensures r.Success? && res.Some? && !SolidColor(res.value) && NoColorSlot(res.value) ==>
      r.value.value.textures["g_tColor"] == r.value.loader.errorTexture
    ensures (&& r.Success? && res.Some? && !SolidColor(res.value) && "g_tColor" !in ParamKeys(res.value.textureParams)
             && FirstFallback(r.value.value.textures, ColorFallbacks).Some?) ==>
      r.value.value.textures["g_tColor"] == r.value.value.textures[FirstFallback(r.value.value.textures, ColorFallbacks).value]
    ensures r.Success? && res.Some? ==> r.value.value.vectorParams == VectorDefaults(res.value.vectorParams)
  {
    match res
    case None => Success(ErrorMaterial(l))
    case Some(m) =>
      if SolidColor(m) && "g_vColorTint" !in m.vectorParams then Failure(MissingColorTint)
      else
        var t := MaterialTextures(l, m, load);
        Success(Step(t.loader, Material(m.shaderName, t.value, m.intParams, VectorDefaults(m.vectorParams))))
  }

  /**
   * The vector parameters a loaded material gets: the compiled ones, plus
   * a unit texture-coordinate scale, a zero offset and a white tint where
   * those are missing.
   */
  function VectorDefaults(vectorParams: map<Text.String, Vec4>): (vp: map<Text.String, Vec4>)
    ensures "g_vTexCoordScale" in vp && "g_vTexCoordOffset" in vp && "g_vColorTint" in vp
    ensures forall k :: k in vectorParams ==> k in vp && vp[k] == vectorParams[k]
    ensures "g_vTexCoordScale" !in vectorParams ==> vp["g_vTexCoordScale"] == One4
    ensures "g_vTexCoordOffset" !in vectorParams ==> vp["g_vTexCoordOffset"] == Vec4(0.0, 0.0, 0.0, 0.0)
    ensures "g_vColorTint" !in vectorParams ==> vp["g_vColorTint"] == One4
  {
    WithDefault(WithDefault(WithDefault(vectorParams,
      "g_vTexCoordScale", One4), "g_vTexCoordOffset", Vec4(0.0, 0.0, 0.0, 0.0)), "g_vColorTint", One4)
  }

  /**
   * The colour-texture fallback: a colour texture that is the error
   * texture is replaced by the first present fallback slot.
   */
  function FallBack(textures: map<Text.String, nat>, errorTexture: nat): (r: map<Text.String, nat>)
    requires "g_tColor" in textures
    ensures r.Keys == textures.Keys
    ensures forall k :: k in textures && k != "g_tColor" ==> r[k] == textures[k]
    ensures textures["g_tColor"] != errorTexture ==> r == textures
    ensures textures["g_tColor"] == errorTexture && FirstFallback(textures, ColorFallbacks).Some? ==>
      r["g_tColor"] == textures[FirstFallback(textures, ColorFallbacks).value]
    ensures FirstFallback(textures, ColorFallbacks).None? ==> r == textures
  {
    if textures["g_tColor"] == errorTexture then
      match FirstFallback(textures, ColorFallbacks)
      case None => textures
      case Some(name) => textures["g_tColor" := textures[name]]
    else textures
  }

  /** With a colour texture missing and g_tColor1 present but not g_tColor2, the colour comes from g_tColor1. */
  lemma FallbackPrefersOrder(textures: map<Text.String, nat>, errorTexture: nat)
    requires "g_tColor" in textures && textures["g_tColor"] == errorTexture
    requires "g_tColor2" !in textures && "g_tColor1" in textures
    ensures FallBack(textures, errorTexture)["g_tColor"] == textures["g_tColor1"]
  {
    assert ColorFallbacks[0] == "g_tColor2" && ColorFallbacks[1] == "g_tColor1";
    assert FirstFallback(textures, ColorFallbacks[1..]) == Some("g_tColor1");
  }

  /**
   * GetMaterial: no name gives a fresh error material and caches nothing;
   * a cached name returns the cached material; otherwise the material is
   * loaded from the name's compiled file and cached.
   */
  function GetMaterial(
    l: Loader, name: Option<Text.String>,
    loadMaterial: Text.String -> Option<MaterialResource>, load: Text.String -> Option<TextureResource>):
    (r: Result<Step<Material>, LoadError>)
    requires Valid(l)
    ensures name.None? ==> r == Success(ErrorMaterial(l)) && r.value.loader.materials == l.materials
    ensures name.Some? && name.value in l.materials ==> r == Success(Step(l, l.materials[name.value]))
    ensures r.Success? ==> Valid(r.value.loader)
    ensures r.Success? && name.Some? ==>
      name.value in r.value.loader.materials && r.value.loader.materials[name.value] == r.value.value
      && forall k :: k in l.materials ==> k in r.value.loader.materials && r.value.loader.materials[k] == l.materials[k]
  {
    match name
    case None => Success(ErrorMaterial(l))
    case Some(n) =>
      if n in l.materials then Success(Step(l, l.materials[n]))
      else
        match LoadMaterial(l, loadMaterial(n + "_c"), load)
        case Failure(e) => Failure(e)
        case Success(s) =>
          var l' := s.loader.(materials := s.loader.materials[n := s.value]);
          Success(Step(l', s.value))
  }

  /** A second GetMaterial for the same name returns the same material and changes nothing. */
  lemma GetMaterialCached(
    l: Loader, name: Text.String,
    loadMaterial: Text.String -> Option<MaterialResource>, load: Text.String -> Option<TextureResource>)
    requires Valid(l)
    requires GetMaterial(l, Some(name), loadMaterial, load).Success?
    ensures var first := GetMaterial(l, Some(name), loadMaterial, load).value;
      GetMaterial(first.loader, Some(name), loadMaterial, load) == Success(first)
  {
  }
}

=== FILE: max_velocity.dfy ===
/** The MaxVelocity operator: caps the length of every particle's velocity. */
module MaxVelocity {
  import opened Vectors
  import opened Particles

  datatype Config = Config(maxVelocity: real, overrideCP: int, overrideCPField: int)

  const Defaults: Config := Config(0.0, -1, 0)

  /**
   * The cap for the frame: the configured maximum, or one component of a
   * control point's position when an override control point is set.
   */
  function Cap(c: Config, h: Helpers, st: RenderState): (r: real)
    ensures c.overrideCP <= -1 ==> r == c.maxVelocity
    ensures c.overrideCP > -1 ==> r == h.component(st.controlPointPosition(c.overrideCP), c.overrideCPField)
  {
    if c.overrideCP > -1 then h.component(st.controlPointPosition(c.overrideCP), c.overrideCPField)
    else c.maxVelocity
  }

  /** A velocity longer than the cap is replaced by the normalised velocity times the cap. */
  function Limit(h: Helpers, cap: real, p: Particle): (r: Particle)
    ensures r.(velocity := p.velocity) == p
    ensures h.length(p.velocity) <= cap ==> r == p
    ensures h.length(p.velocity) > cap ==> r.velocity == Scale(h.normalize(p.velocity), cap)
  {
    if h.length(p.velocity) > cap then p.(velocity := Scale(h.normalize(p.velocity), cap)) else p
  }

  /** The cap is computed once per frame and applied to every particle. */
  function Update(c: Config, h: Helpers, st: RenderState, ps: seq<Particle>): (r: seq<Particle>)
    ensures |r| == |ps|
    ensures forall i :: 0 <= i < |ps| ==> r[i] == Limit(h, Cap(c, h, st), ps[i])
  {
    var cap := Cap(c, h, st);
    ForEach(ps, p => Limit(h, cap, p))
  }

  /**
   * A capped velocity ends with a length equal to the magnitude of the
   * cap; for a non-negative cap that is the cap itself.
   */
  lemma LimitedLengthIsCap(h: Helpers, cap: real, p: Particle)
    requires LengthIsEuclidean(h) && NormalizeDividesByLength(h)
    requires h.length(p.velocity) > cap && h.length(p.velocity) > 0.0
    ensures h.length(Limit(h, cap, p).velocity) == Abs(cap)
    ensures cap >= 0.0 ==> h.length(Limit(h, cap, p).velocity) == cap
  {
    var n := h.normalize(p.velocity);
    LengthOfNormalized(h, p.velocity);
    LengthOfScaled(h, n, cap);
  }

  /** The default cap of 0 stops every moving particle. */
  lemma DefaultsStopParticles(h: Helpers, st: RenderState, p: Particle)
    requires h.length(p.velocity) > 0.0
    ensures Limit(h, Cap(Defaults, h, st), p).velocity == Zero
  {
  }

  /** With the override control point, field 0 to 2 select the X, Y and Z of its position. */
  lemma OverrideSelectsAxis(c: Config, h: Helpers, st: RenderState)
    requires ComponentSelectsAxis(h) && c.overrideCP > -1
    ensures c.overrideCPField == 0 ==> Cap(c, h, st) == st.controlPointPosition(c.overrideCP).x
    ensures c.overrideCPField == 1 ==> Cap(c, h, st) == st.controlPointPosition(c.overrideCP).y
    ensures c.overrideCPField == 2 ==> Cap(c, h, st) == st.controlPointPosition(c.overrideCP).z
  {
  }
}

=== FILE: model_extract.dfy ===
/**
 * The parts of ModelExtract that decide what goes into the exported DMX
 * files: surface/tag material names, the names of the DMX files, the
 * numbering of physics hulls and meshes, the n-gon faces of a hull and
 * the per-surface face sets of a physics mesh.
 */
module ModelExtract {
  import opened Wrappers
  import opened Text
  import Paths
  import Seqs
  import opened FaceSets

  datatype ExtractError = IndexOutOfRange | NullCollisionTags | EndlessLoop

  // ---------------------------------------------------------------------
  // Surface / collision-tag combinations

  /** new HashSet<string>(tags): the distinct strings, in insertion order. */
  function ToHashSet(tags: seq<String>): (r: seq<String>)
    ensures forall i, j :: 0 <= i < j < |r| ==> r[i] != r[j]
    ensures forall x :: x in r <==> x in tags
  {
    Seqs.Distinct(tags)
  }

  /** A surface property together with the set of collision tags it interacts as. */
  datatype SurfaceTagCombo = SurfaceTagCombo(surfacePropName: String, interactAs: seq<String>)

  /** The secondary constructor taking a string array. */
  function ComboFromArray(surface: String, collisionTags: seq<String>): (r: SurfaceTagCombo)
    ensures r.surfacePropName == surface
    ensures forall i, j :: 0 <= i < j < |r.interactAs| ==> r.interactAs[i] != r.interactAs[j]
    ensures forall x :: x in r.interactAs <==> x in collisionTags
  {
    SurfaceTagCombo(surface, ToHashSet(collisionTags))
  }

  /** The material name of a combination: tags joined by '+', then '$' and the surface. */
  function StringMaterial(c: SurfaceTagCombo): String
  {
    Join(c.interactAs, "+") + "$" + c.surfacePropName
  }

  /** The text after the last '$' of a material name. */
  function MaterialSurface(m: String): String
  {
    m[Paths.LastIndexOf(m, '$') + 1..]
  }

  /** The text before the last '$' of a material name (all of it when there is none). */
  function MaterialTagText(m: String): String
  {
    var i := Paths.LastIndexOf(m, '$');
    if i < 0 then m else m[..i]
  }

  /** A surface name without '$' can be read back from the material name, and so can the joined tags. */
  lemma StringMaterialParts(c: SurfaceTagCombo)
    requires '$' !in c.surfacePropName
    ensures MaterialSurface(StringMaterial(c)) == c.surfacePropName
    ensures MaterialTagText(StringMaterial(c)) == Join(c.interactAs, "+")
  {
    var tags := Join(c.interactAs, "+");
    var m := StringMaterial(c);
    var i := Paths.LastIndexOf(m, '$');
    assert m[|tags|] == '$';
    assert forall k :: |tags| < k < |m| ==> m[k] == c.surfacePropName[k - |tags| - 1];
    assert i == |tags|;
    assert m[..i] == tags;
  }

  /** Two combinations are equal when their material names agree ignoring case. */
  predicate SameCombo(a: SurfaceTagCombo, b: SurfaceTagCombo)
  {
    EqualsIgnoreCase(StringMaterial(a), StringMaterial(b))
  }

  /** A HashSet<SurfaceTagCombo> as its elements in insertion order. */
  predicate NoSameCombos(cs: seq<SurfaceTagCombo>)
  {
    forall i, j :: 0 <= i < j < |cs| ==> !SameCombo(cs[i], cs[j])
  }

  /** HashSet.Add: a combination equal to one already present leaves the set as it is. */
  function AddCombo(cs: seq<SurfaceTagCombo>, c: SurfaceTagCombo): (r: seq<SurfaceTagCombo>)
    ensures NoSameCombos(cs) ==> NoSameCombos(r)
  {
    if exists i :: 0 <= i < |cs| && SameCombo(cs[i], c) then cs else cs + [c]
  }

  /** Adding a combination keeps the set as it is when an equal one is present, and appends it otherwise; either way it is then present. */
  lemma AddComboSpec(cs: seq<SurfaceTagCombo>, c: SurfaceTagCombo)
    ensures (exists i :: 0 <= i < |cs| && SameCombo(cs[i], c)) ==> AddCombo(cs, c) == cs
    ensures (forall i :: 0 <= i < |cs| ==> !SameCombo(cs[i], c)) ==> AddCombo(cs, c) == cs + [c]
    ensures exists i :: 0 <= i < |AddCombo(cs, c)| && SameCombo(AddCombo(cs, c)[i], c)
  {
    if !exists i :: 0 <= i < |cs| && SameCombo(cs[i], c) {
      assert SameCombo(c, c);
      assert (cs + [c])[|cs|] == c;
    }
  }

  /** Combinations that differ only in the case of their names are the same set entry. */
  lemma AddComboIgnoresCase(cs: seq<SurfaceTagCombo>, c: SurfaceTagCombo, d: SurfaceTagCombo)
    requires Upper(c.surfacePropName) == Upper(d.surfacePropName) && c.interactAs == d.interactAs
    ensures AddCombo(AddCombo(cs, c), d) == AddCombo(cs, c)
  {
    var r := AddCombo(cs, c);
    AddComboSpec(cs, c);
    AddComboSpec(r, d);
    UpperAppend(Join(c.interactAs, "+") + "$", c.surfacePropName);
    UpperAppend(Join(d.interactAs, "+") + "$", d.surfacePropName);
    var i :| 0 <= i < |r| && SameCombo(r[i], c);
    assert SameCombo(r[i], d);
  }

  // ---------------------------------------------------------------------
  // DMX file names

  /** The number appended to an embedded mesh's file name; the first one gets none. */
  function NumberSuffix(number: nat): (r: String)
    ensures r == [] <==> number == 0
    ensures forall i :: 0 <= i < |r| ==> IsDigit(r[i])
  {
    if number > 0 then NatToString(number) else ""
  }

  lemma NumberSuffixInjective(m: nat, n: nat)
    requires NumberSuffix(m) == NumberSuffix(n)
    ensures m == n
  {
    if m > 0 && n > 0 {
      NatToStringInjective(m, n);
    }
  }

  /** Directory, separator and file name without extension: what every embedded mesh's name starts with. */
  function DmxBase(fileName: String): String
  {
    Paths.GetDirectoryName(fileName) + [Paths.Separator] + Paths.GetFileNameWithoutExtension(fileName)
  }

  /** The part of an embedded mesh's file name before its number, from its base. */
  function StemOf(base: String, subString: String): String
  {
    ReplaceChar(base + "_" + subString, '\\', '/')
  }

  /** The part of an embedded mesh's file name before its number. */
  function DmxStem(fileName: String, subString: String): String
  {
    StemOf(DmxBase(fileName), subString)
  }

  /** An embedded mesh's file name from its base: backslashes turned into '/' before the number and ".dmx" are added. */
  function NameOf(base: String, subString: String, number: nat): (r: String)
    ensures r == StemOf(base, subString) + NumberSuffix(number) + ".dmx"
  {
    var head := base + "_" + subString;
    var tail := NumberSuffix(number) + ".dmx";
    ReplaceCharAppend(head, tail, '\\', '/');
    assert ReplaceChar(tail, '\\', '/') == tail;
    ReplaceChar(head + tail, '\\', '/')
  }

  /**
   * GetDmxFileName_ForEmbeddedMesh: directory, separator, file name without
   * extension, "_", the sub-string, the number unless it is 0, ".dmx"; every
   * backslash turned into '/'.
   */
  function EmbeddedDmxName(fileName: String, subString: String, number: nat): (r: String)
    ensures r == DmxStem(fileName, subString) + NumberSuffix(number) + ".dmx"
  {
    NameOf(DmxBase(fileName), subString, number)
  }

  /** A name built from any base ends in ".dmx" and uses no backslash. */
  lemma NameOfShape(base: String, subString: String, number: nat)
    ensures EndsWith(NameOf(base, subString, number), ".dmx")
    ensures '\\' !in NameOf(base, subString, number)
  {
    var r := NameOf(base, subString, number);
    var full := base + "_" + subString + (NumberSuffix(number) + ".dmx");
    assert r == ReplaceChar(full, '\\', '/');
    forall i | 0 <= i < |r|
      ensures r[i] != '\\'
    {
    }
    assert r == (StemOf(base, subString) + NumberSuffix(number)) + ".dmx";
    assert r[|r| - 4..] == ".dmx";
  }

  /** An embedded mesh's file name ends in ".dmx" and uses no backslash. */
  lemma EmbeddedDmxNameShape(fileName: String, subString: String, number: nat)
    ensures EndsWith(EmbeddedDmxName(fileName, subString, number), ".dmx")
    ensures '\\' !in EmbeddedDmxName(fileName, subString, number)
  {
    NameOfShape(DmxBase(fileName), subString, number);
  }

  /** Equal names built from one prefix and middles of one length have equal middles and ends. */
  lemma SplitEqual(a: String, s1: String, x1: String, s2: String, x2: String)
    requires a + s1 + x1 == a + s2 + x2 && |s1| == |s2|
    ensures s1 == s2 && x1 == x2
  {
    var n1 := a + s1 + x1;
    var n2 := a + s2 + x2;
    assert s1 == n1[|a|..|a| + |s1|] && s2 == n2[|a|..|a| + |s2|];
    assert x1 == n1[|a| + |s1|..] && x2 == n2[|a| + |s2|..];
  }

  lemma DropSuffix(x1: String, x2: String, t: String)
    requires x1 + t == x2 + t
    ensures x1 == x2
  {
    assert x1 == (x1 + t)[..|x1|] && x2 == (x2 + t)[..|x2|];
  }

  /** From one base, sub-strings of one length without backslashes and distinct numbers give distinct names. */
  lemma NameOfInjective(base: String, sub1: String, n1: nat, sub2: String, n2: nat)
    requires |sub1| == |sub2| && '\\' !in sub1 && '\\' !in sub2
    requires NameOf(base, sub1, n1) == NameOf(base, sub2, n2)
    ensures sub1 == sub2 && n1 == n2
  {
    var prefix := base + "_";
    var a := ReplaceChar(prefix, '\\', '/');
    ReplaceCharAppend(prefix, sub1, '\\', '/');
    ReplaceCharAppend(prefix, sub2, '\\', '/');
    assert ReplaceChar(sub1, '\\', '/') == sub1;
    assert ReplaceChar(sub2, '\\', '/') == sub2;
    assert StemOf(base, sub1) == a + sub1;
    assert StemOf(base, sub2) == a + sub2;
    var x1 := NumberSuffix(n1) + ".dmx";
    var x2 := NumberSuffix(n2) + ".dmx";
    Seqs.AppendAssoc(a + sub1, NumberSuffix(n1), ".dmx");
    Seqs.AppendAssoc(a + sub2, NumberSuffix(n2), ".dmx");
    SplitEqual(a, sub1, x1, sub2, x2);
    DropSuffix(NumberSuffix(n1), NumberSuffix(n2), ".dmx");
    NumberSuffixInjective(n1, n2);
  }

  /** Sub-strings of one length without backslashes and distinct numbers give distinct names. */
  lemma EmbeddedNamesInjective(fileName: String, sub1: String, n1: nat, sub2: String, n2: nat)
    requires |sub1| == |sub2| && '\\' !in sub1 && '\\' !in sub2
    requires EmbeddedDmxName(fileName, sub1, n1) == EmbeddedDmxName(fileName, sub2, n2)
    ensures sub1 == sub2 && n1 == n2
  {
    NameOfInjective(DmxBase(fileName), sub1, n1, sub2, n2);
  }

  /** GetDmxFileName_ForReferenceMesh: the mesh name with its extension changed to ".dmx". */
  function ReferenceDmxName(meshName: String): (r: String)
    ensures EndsWith(r, ".dmx")
    ensures '\\' !in r
    ensures r == ReplaceChar(Paths.RemoveExtension(meshName), '\\', '/') + ".dmx"
  {
    ReplaceCharAppend(Paths.RemoveExtension(meshName), ".dmx", '\\', '/');
    assert ReplaceChar(".dmx", '\\', '/') == ".dmx";
    ReplaceChar(Paths.ChangeExtension(meshName, ".dmx"), '\\', '/')
  }

  // ---------------------------------------------------------------------
  // Physics shapes and their queue

  /** A half-edge of a hull: the edge after it around its face, and its origin vertex. */
  datatype HalfEdge = HalfEdge(next: int, origin: int)

  /** A hull; `faces` holds the first edge of each face. */
  datatype Hull = Hull(surfacePropertyIndex: int, collisionAttributeIndex: int,
                       edges: seq<HalfEdge>, faces: seq<int>)

  /** A triangle mesh; `materials` holds a surface index per triangle, or nothing. */
  datatype PhysMesh = PhysMesh(surfacePropertyIndex: int, collisionAttributeIndex: int,
                               triangles: seq<seq<int>>, materials: seq<int>)

  datatype Part = Part(hulls: seq<Hull>, meshes: seq<PhysMesh>)

  /** Collision attributes: the optional m_InteractAsStrings and m_PhysicsTagStrings arrays. */
  datatype CollisionAttributes = CollisionAttributes(interactAs: Option<seq<String>>, physicsTags: Option<seq<String>>)

  /**
   * The queue of physics DMX files: each hull and mesh with the number its
   * file name carries, the combinations seen, and the next number.
   */
  datatype Queue = Queue(hulls: seq<(Hull, nat)>, meshes: seq<(PhysMesh, nat)>,
                         combos: seq<SurfaceTagCombo>, next: nat)

  /** A surface property name: the known string for a hash, else the hash in decimal. */
  function SurfaceName(hash: nat, known: map<nat, String>): String
  {
    if hash in known then known[hash] else NatToString(hash)
  }

  /** An unknown hash is written as its own decimal value. */
  lemma UnknownSurfaceNameIsHash(hash: nat, known: map<nat, String>)
    requires hash !in known
    ensures forall i :: 0 <= i < |SurfaceName(hash, known)| ==> IsDigit(SurfaceName(hash, known)[i])
    ensures DigitsValue(SurfaceName(hash, known)) == hash
  {
    DigitsOfNat(hash);
  }

  /** The tag set of one attribute collection; ToHashSet of a null array throws. */
  function CollisionTags(a: CollisionAttributes): (r: Result<seq<String>, ExtractError>)
    ensures r.Failure? <==> a.interactAs.None? && a.physicsTags.None?
    ensures r.Success? && a.interactAs.Some? ==> forall x :: x in r.value <==> x in a.interactAs.value
    ensures r.Success? && a.interactAs.None? ==> forall x :: x in r.value <==> x in a.physicsTags.value
    ensures r.Success? ==> forall i, j :: 0 <= i < j < |r.value| ==> r.value[i] != r.value[j]
  {
    if a.interactAs.Some? then Success(ToHashSet(a.interactAs.value))
    else if a.physicsTags.Some? then Success(ToHashSet(a.physicsTags.value))
    else Failure(NullCollisionTags)
  }

  /** The tag sets of all attribute collections, computed up front. */
  function AllCollisionTags(attrs: seq<CollisionAttributes>): (r: Result<seq<seq<String>>, ExtractError>)
    ensures r.Success? <==> forall i :: 0 <= i < |attrs| ==> CollisionTags(attrs[i]).Success?
    ensures r.Success? ==>
      && |r.value| == |attrs|
      && forall i :: 0 <= i < |attrs| ==> r.value[i] == CollisionTags(attrs[i]).value
  {
    if |attrs| == 0 then Success([])
    else
      match CollisionTags(attrs[0])
      case Failure(e) => Failure(e)
      case Success(first) =>
        match AllCollisionTags(attrs[1..])
        case Failure(e) => Failure(e)
        case Success(rest) =>
          assert forall i :: 1 <= i < |attrs| ==> attrs[i] == attrs[1..][i - 1];
          Success([first] + rest)
  }

  /** The combination for a surface index and an attribute index; either may be out of range. */
  function ComboAt(names: seq<String>, tagSets: seq<seq<String>>, surface: int, attribute: int): (r: Result<SurfaceTagCombo, ExtractError>)
    ensures r.Success? <==> 0 <= surface < |names| && 0 <= attribute < |tagSets|
    ensures r.Success? ==> r.value == SurfaceTagCombo(names[surface], tagSets[attribute])
  {
    if 0 <= surface < |names| && 0 <= attribute < |tagSets| then
      Success(SurfaceTagCombo(names[surface], tagSets[attribute]))
    else Failure(IndexOutOfRange)
  }

  /** Every file number in the queue is below `next`, and no number is used twice. */
  predicate Numbered(q: Queue)
  {
    && NumsIn(q.hulls, 0, q.next) && NumsIn(q.meshes, 0, q.next)
    && NumsDistinct(q.hulls) && NumsDistinct(q.meshes)
    && NumsApart(q.hulls, q.meshes)
  }

  /** Every number in `xs` lies in [lo, hi). */
  predicate NumsIn<T>(xs: seq<(T, nat)>, lo: nat, hi: nat)
  {
    forall i :: 0 <= i < |xs| ==> lo <= xs[i].1 < hi
  }

  predicate NumsDistinct<T>(xs: seq<(T, nat)>)
  {
    forall i, j :: 0 <= i < j < |xs| ==> xs[i].1 != xs[j].1
  }

  predicate NumsApart<T, U>(xs: seq<(T, nat)>, ys: seq<(U, nat)>)
  {
    forall i, j :: 0 <= i < |xs| && 0 <= j < |ys| ==> xs[i].1 != ys[j].1
  }

  /** Numbers from disjoint ranges, each distinct on its own, stay distinct together. */
  lemma AppendNums<T>(a: seq<(T, nat)>, b: seq<(T, nat)>, n: nat, m: nat)
    requires n <= m && NumsIn(a, 0, n) && NumsIn(b, n, m) && NumsDistinct(a) && NumsDistinct(b)
    ensures NumsIn(a + b, 0, m) && NumsDistinct(a + b)
  {
    forall i | 0 <= i < |a + b|
      ensures 0 <= (a + b)[i].1 < m
    {
      if i < |a| {
        assert (a + b)[i] == a[i];
      } else {
        assert (a + b)[i] == b[i - |a|];
      }
    }
    forall i, j | 0 <= i < j < |a + b|
      ensures (a + b)[i].1 != (a + b)[j].1
    {
      if j < |a| {
        assert (a + b)[i] == a[i] && (a + b)[j] == a[j];
      } else if i >= |a| {
        assert (a + b)[i] == b[i - |a|] && (a + b)[j] == b[j - |a|];
      } else {
        assert (a + b)[i] == a[i] && (a + b)[j] == b[j - |a|];
      }
    }
  }

  /** Numbers above every number of `c` keep `a + b` apart from `c`. */
  lemma AppendApart<T, U>(a: seq<(T, nat)>, b: seq<(T, nat)>, c: seq<(U, nat)>, n: nat, m: nat)
    requires NumsApart(a, c) && NumsIn(c, 0, n) && NumsIn(b, n, m)
    ensures NumsApart(a + b, c) && NumsApart(c, a + b)
  {
    forall i, j | 0 <= i < |a + b| && 0 <= j < |c|
      ensures (a + b)[i].1 != c[j].1
    {
      if i < |a| {
        assert (a + b)[i] == a[i];
      } else {
        assert (a + b)[i] == b[i - |a|];
      }
    }
  }

  lemma {:induction false} NumberedFromNums<T>(xs: seq<T>, n: nat)
    ensures NumsIn(NumberedFrom(xs, n), n, n + |xs|) && NumsDistinct(NumberedFrom(xs, n))
  {
    NumberedFromAt(xs, n);
  }

  /** The queue invariant: numbered files and a duplicate-free combination set. */
  predicate QueueValid(q: Queue)
  {
    Numbered(q) && NoSameCombos(q.combos)
  }

  predicate MaterialsInRange(names: seq<String>, materials: seq<int>)
  {
    forall k :: 0 <= k < |materials| ==> 0 <= materials[k] < |names|
  }

  /** One combination per triangle material of a mesh, all with the mesh's tags. */
  function AddMaterialCombos(names: seq<String>, tags: seq<String>, cs: seq<SurfaceTagCombo>, materials: seq<int>): (r: Result<seq<SurfaceTagCombo>, ExtractError>)
    ensures r.Success? <==> MaterialsInRange(names, materials)
    ensures r.Success? && NoSameCombos(cs) ==> NoSameCombos(r.value)
    decreases |materials|
  {
    if |materials| == 0 then Success(cs)
    else if !(0 <= materials[0] < |names|) then Failure(IndexOutOfRange)
    else
      assert forall k :: 1 <= k < |materials| ==> materials[k] == materials[1..][k - 1];
      AddMaterialCombos(names, tags, AddCombo(cs, SurfaceTagCombo(names[materials[0]], tags)), materials[1..])
  }

  predicate HullIndicesValid(names: seq<String>, tagSets: seq<seq<String>>, h: Hull)
  {
    0 <= h.surfacePropertyIndex < |names| && 0 <= h.collisionAttributeIndex < |tagSets|
  }

  predicate MeshIndicesValid(names: seq<String>, tagSets: seq<seq<String>>, m: PhysMesh)
  {
    0 <= m.surfacePropertyIndex < |names| && 0 <= m.collisionAttributeIndex < |tagSets|
      && MaterialsInRange(names, m.materials)
  }

  /** A hull sequence is valid exactly when its first hull and the rest are. */
  lemma HullsValidCons(names: seq<String>, tagSets: seq<seq<String>>, hulls: seq<Hull>)
    requires |hulls| > 0
    ensures (forall k :: 0 <= k < |hulls| ==> HullIndicesValid(names, tagSets, hulls[k])) <==>
      (HullIndicesValid(names, tagSets, hulls[0]) &&
       forall k :: 0 <= k < |hulls[1..]| ==> HullIndicesValid(names, tagSets, hulls[1..][k]))
  {
    assert forall k :: 1 <= k < |hulls| ==> hulls[k] == hulls[1..][k - 1];
  }

  /** A mesh sequence is valid exactly when its first mesh and the rest are. */
  lemma MeshesValidCons(names: seq<String>, tagSets: seq<seq<String>>, meshes: seq<PhysMesh>)
    requires |meshes| > 0
    ensures (forall k :: 0 <= k < |meshes| ==> MeshIndicesValid(names, tagSets, meshes[k])) <==>
      (MeshIndicesValid(names, tagSets, meshes[0]) &&
       forall k :: 0 <= k < |meshes[1..]| ==> MeshIndicesValid(names, tagSets, meshes[1..][k]))
  {
    assert forall k :: 1 <= k < |meshes| ==> meshes[k] == meshes[1..][k - 1];
  }

  /** The items paired with the consecutive numbers n, n+1, ... */
  function NumberedFrom<T>(xs: seq<T>, n: nat): (r: seq<(T, nat)>)
    ensures |r| == |xs|
  {
    if |xs| == 0 then [] else [(xs[0], n)] + NumberedFrom(xs[1..], n + 1)
  }

  lemma {:induction false} NumberedFromAt<T>(xs: seq<T>, n: nat)
    ensures forall k :: 0 <= k < |xs| ==> NumberedFrom(xs, n)[k] == (xs[k], n + k)
  {
    if |xs| > 0 {
      NumberedFromAt(xs[1..], n + 1);
    }
  }

  lemma NumberedFromCons<T>(prefix: seq<(T, nat)>, xs: seq<T>, n: nat)
    requires |xs| > 0
    ensures (prefix + [(xs[0], n)]) + NumberedFrom(xs[1..], n + 1) == prefix + NumberedFrom(xs, n)
  {
    Seqs.AppendAssoc(prefix, [(xs[0], n)], NumberedFrom(xs[1..], n + 1));
  }

  /** One numbering step: whatever follows the first numbered element continues the numbering. */
  lemma NumberedStep<T>(before: seq<(T, nat)>, mid: seq<(T, nat)>, xs: seq<T>, n: nat, m: nat, result: seq<(T, nat)>)
    requires |xs| > 0 && mid == before + [(xs[0], n)] && m == n + 1
    requires result == mid + NumberedFrom(xs[1..], m)
    ensures result == before + NumberedFrom(xs, n)
  {
    NumberedFromCons(before, xs, n);
  }

  /** Queues one hull with the next number and adds its combination. */
  function EnqueueHull(names: seq<String>, tagSets: seq<seq<String>>, q: Queue, h: Hull): (r: Result<Queue, ExtractError>)
    ensures r.Success? <==> HullIndicesValid(names, tagSets, h)
    ensures r.Success? ==> r.value.hulls == q.hulls + [(h, q.next)] && r.value.meshes == q.meshes && r.value.next == q.next + 1
    ensures r.Success? && NoSameCombos(q.combos) ==> NoSameCombos(r.value.combos)
  {
    match ComboAt(names, tagSets, h.surfacePropertyIndex, h.collisionAttributeIndex)
    case Failure(e) => Failure(e)
    case Success(c) => Success(Queue(q.hulls + [(h, q.next)], q.meshes, AddCombo(q.combos, c), q.next + 1))
  }

  /** Queues the hulls of a part, each taking the next number. */
  function EnqueueHulls(names: seq<String>, tagSets: seq<seq<String>>, q: Queue, hulls: seq<Hull>): (r: Result<Queue, ExtractError>)
    ensures r.Success? <==> forall k :: 0 <= k < |hulls| ==> HullIndicesValid(names, tagSets, hulls[k])
    ensures r.Success? ==> r.value.meshes == q.meshes && r.value.next == q.next + |hulls|
    decreases |hulls|
  {
    if |hulls| == 0 then Success(q)
    else
      HullsValidCons(names, tagSets, hulls);
      match EnqueueHull(names, tagSets, q, hulls[0])
      case Failure(e) => Failure(e)
      case Success(q1) => EnqueueHulls(names, tagSets, q1, hulls[1..])
  }

  /** The combinations of one mesh: its own, then one per triangle material. */
  function MeshCombos(names: seq<String>, tagSets: seq<seq<String>>, combos: seq<SurfaceTagCombo>, m: PhysMesh): (r: Result<seq<SurfaceTagCombo>, ExtractError>)
    ensures r.Success? <==> MeshIndicesValid(names, tagSets, m)
    ensures r.Success? && NoSameCombos(combos) ==> NoSameCombos(r.value)
  {
    match ComboAt(names, tagSets, m.surfacePropertyIndex, m.collisionAttributeIndex)
    case Failure(e) => Failure(e)
    case Success(c) => AddMaterialCombos(names, tagSets[m.collisionAttributeIndex], AddCombo(combos, c), m.materials)
  }

  /** Queues one mesh with the next number and adds its combinations. */
  function EnqueueMesh(names: seq<String>, tagSets: seq<seq<String>>, q: Queue, m: PhysMesh): (r: Result<Queue, ExtractError>)
    ensures r.Success? <==> MeshIndicesValid(names, tagSets, m)
    ensures r.Success? ==> r.value.meshes == q.meshes + [(m, q.next)] && r.value.hulls == q.hulls && r.value.next == q.next + 1
    ensures r.Success? && NoSameCombos(q.combos) ==> NoSameCombos(r.value.combos)
  {
    match MeshCombos(names, tagSets, q.combos, m)
    case Failure(e) => Failure(e)
    case Success(cs) => Success(Queue(q.hulls, q.meshes + [(m, q.next)], cs, q.next + 1))
  }

  /** Queues the meshes of a part, each taking the next number, with its material combinations. */
  function EnqueueMeshes(names: seq<String>, tagSets: seq<seq<String>>, q: Queue, meshes: seq<PhysMesh>): (r: Result<Queue, ExtractError>)
    ensures r.Success? <==> forall k :: 0 <= k < |meshes| ==> MeshIndicesValid(names, tagSets, meshes[k])
    ensures r.Success? ==> r.value.hulls == q.hulls && r.value.next == q.next + |meshes|
    decreases |meshes|
  {
    if |meshes| == 0 then Success(q)
    else
      MeshesValidCons(names, tagSets, meshes);
      match EnqueueMesh(names, tagSets, q, meshes[0])
      case Failure(e) => Failure(e)
      case Success(q1) => EnqueueMeshes(names, tagSets, q1, meshes[1..])
  }

  /** The queued hulls are the part's hulls with consecutive numbers. */
  lemma {:induction false} EnqueueHullsNumbers(names: seq<String>, tagSets: seq<seq<String>>, q: Queue, hulls: seq<Hull>)
    requires EnqueueHulls(names, tagSets, q, hulls).Success?
    ensures EnqueueHulls(names, tagSets, q, hulls).value.hulls == q.hulls + NumberedFrom(hulls, q.next)
    decreases |hulls|
  {
    if |hulls| == 0 {
      assert q.hulls + NumberedFrom(hulls, q.next) == q.hulls;
    } else {
      var q1 := EnqueueHull(names, tagSets, q, hulls[0]).value;
      assert EnqueueHulls(names, tagSets, q, hulls) == EnqueueHulls(names, tagSets, q1, hulls[1..]);
      EnqueueHullsNumbers(names, tagSets, q1, hulls[1..]);
      assert q1.hulls == q.hulls + [(hulls[0], q.next)] && q1.next == q.next + 1;
      NumberedStep(q.hulls, q1.hulls, hulls, q.next, q1.next, EnqueueHulls(names, tagSets, q1, hulls[1..]).value.hulls);
    }
  }

  /** Queueing hulls keeps the combination set free of equal entries. */
  lemma {:induction false} EnqueueHullsCombos(names: seq<String>, tagSets: seq<seq<String>>, q: Queue, hulls: seq<Hull>)
    requires EnqueueHulls(names, tagSets, q, hulls).Success? && NoSameCombos(q.combos)
    ensures NoSameCombos(EnqueueHulls(names, tagSets, q, hulls).value.combos)
    decreases |hulls|
  {
    if |hulls| > 0 {
      var q1 := EnqueueHull(names, tagSets, q, hulls[0]).value;
      EnqueueHullsCombos(names, tagSets, q1, hulls[1..]);
    }
  }

  /** The queued meshes are the part's meshes with consecutive numbers. */
  lemma {:induction false} EnqueueMeshesNumbers(names: seq<String>, tagSets: seq<seq<String>>, q: Queue, meshes: seq<PhysMesh>)
    requires EnqueueMeshes(names, tagSets, q, meshes).Success?
    ensures EnqueueMeshes(names, tagSets, q, meshes).value.meshes == q.meshes + NumberedFrom(meshes, q.next)
    decreases |meshes|
  {
    if |meshes| == 0 {
      assert q.meshes + NumberedFrom(meshes, q.next) == q.meshes;
    } else {
      var q1 := EnqueueMesh(names, tagSets, q, meshes[0]).value;
      assert EnqueueMeshes(names, tagSets, q, meshes) == EnqueueMeshes(names, tagSets, q1, meshes[1..]);
      EnqueueMeshesNumbers(names, tagSets, q1, meshes[1..]);
      assert q1.meshes == q.meshes + [(meshes[0], q.next)] && q1.next == q.next + 1;
      NumberedStep(q.meshes, q1.meshes, meshes, q.next, q1.next, EnqueueMeshes(names, tagSets, q1, meshes[1..]).value.meshes);
    }
  }

  /** Queueing meshes keeps the combination set free of equal entries. */
  lemma {:induction false} EnqueueMeshesCombos(names: seq<String>, tagSets: seq<seq<String>>, q: Queue, meshes: seq<PhysMesh>)
    requires EnqueueMeshes(names, tagSets, q, meshes).Success? && NoSameCombos(q.combos)
    ensures NoSameCombos(EnqueueMeshes(names, tagSets, q, meshes).value.combos)
    decreases |meshes|
  {
    if |meshes| > 0 {
      var q1 := EnqueueMesh(names, tagSets, q, meshes[0]).value;
      EnqueueMeshesCombos(names, tagSets, q1, meshes[1..]);
    }
  }

  /** Numbering new hulls from `next` keeps the numbers unique. */
  lemma NumberedAfterHulls(q: Queue, hulls: seq<Hull>, q1: Queue)
    requires Numbered(q)
    requires q1.hulls == q.hulls + NumberedFrom(hulls, q.next)
    requires q1.meshes == q.meshes && q1.next == q.next + |hulls|
    ensures Numbered(q1)
  {
    var b := NumberedFrom(hulls, q.next);
    NumberedFromNums(hulls, q.next);
    AppendNums(q.hulls, b, q.next, q1.next);
    AppendApart(q.hulls, b, q.meshes, q.next, q1.next);
  }

  /** Numbering new meshes from `next` keeps the numbers unique. */
  lemma NumberedAfterMeshes(q: Queue, meshes: seq<PhysMesh>, q1: Queue)
    requires Numbered(q)
    requires q1.meshes == q.meshes + NumberedFrom(meshes, q.next)
    requires q1.hulls == q.hulls && q1.next == q.next + |meshes|
    ensures Numbered(q1)
  {
    var b := NumberedFrom(meshes, q.next);
    NumberedFromNums(meshes, q.next);
    AppendNums(q.meshes, b, q.next, q1.next);
    AppendApart(q.meshes, b, q.hulls, q.next, q1.next);
  }

  function ShapeCount(parts: seq<Part>): nat
  {
    if |parts| == 0 then 0 else |parts[0].hulls| + |parts[0].meshes| + ShapeCount(parts[1..])
  }

  predicate PartValid(names: seq<String>, tagSets: seq<seq<String>>, p: Part)
  {
    && (forall k :: 0 <= k < |p.hulls| ==> HullIndicesValid(names, tagSets, p.hulls[k]))
    && (forall k :: 0 <= k < |p.meshes| ==> MeshIndicesValid(names, tagSets, p.meshes[k]))
  }

  lemma PartsValidCons(names: seq<String>, tagSets: seq<seq<String>>, parts: seq<Part>)
    requires |parts| > 0
    ensures (forall k :: 0 <= k < |parts| ==> PartValid(names, tagSets, parts[k])) <==>
      (PartValid(names, tagSets, parts[0]) &&
       forall k :: 0 <= k < |parts[1..]| ==> PartValid(names, tagSets, parts[1..][k]))
  {
    assert forall k :: 1 <= k < |parts| ==> parts[k] == parts[1..][k - 1];
  }

  /** The loop over the physics parts: the hulls of a part, then its meshes, one shared counter. */
  function EnqueueParts(names: seq<String>, tagSets: seq<seq<String>>, q: Queue, parts: seq<Part>): (r: Result<Queue, ExtractError>)
    ensures r.Success? <==> forall k :: 0 <= k < |parts| ==> PartValid(names, tagSets, parts[k])
    ensures r.Success? ==> r.value.next == q.next + ShapeCount(parts)
    decreases |parts|
  {
    if |parts| == 0 then Success(q)
    else
      PartsValidCons(names, tagSets, parts);
      match EnqueueHulls(names, tagSets, q, parts[0].hulls)
      case Failure(e) => Failure(e)
      case Success(q1) =>
        match EnqueueMeshes(names, tagSets, q1, parts[0].meshes)
        case Failure(e) => Failure(e)
        case Success(q2) => EnqueueParts(names, tagSets, q2, parts[1..])
  }

  /** Queueing keeps the file numbers unique and the combination set free of equal entries. */
  lemma {:induction false} EnqueuePartsValid(names: seq<String>, tagSets: seq<seq<String>>, q: Queue, parts: seq<Part>)
    requires QueueValid(q)
    requires EnqueueParts(names, tagSets, q, parts).Success?
    ensures QueueValid(EnqueueParts(names, tagSets, q, parts).value)
    decreases |parts|
  {
    if |parts| > 0 {
      var q1 := EnqueueHulls(names, tagSets, q, parts[0].hulls).value;
      var q2 := EnqueueMeshes(names, tagSets, q1, parts[0].meshes).value;
      EnqueueHullsNumbers(names, tagSets, q, parts[0].hulls);
      EnqueueHullsCombos(names, tagSets, q, parts[0].hulls);
      EnqueueMeshesNumbers(names, tagSets, q1, parts[0].meshes);
      EnqueueMeshesCombos(names, tagSets, q1, parts[0].meshes);
      NumberedAfterHulls(q, parts[0].hulls, q1);
      NumberedAfterMeshes(q1, parts[0].meshes, q2);
      EnqueuePartsValid(names, tagSets, q2, parts[1..]);
    }
  }

  /**
   * EnqueuePhysMeshes: surface names from the hash table, tag sets from the
   * attributes, then every hull and mesh queued with a number from 0.
   */
  function EnqueuePhysMeshes(hashes: seq<nat>, known: map<nat, String>, attrs: seq<CollisionAttributes>, parts: seq<Part>): (r: Result<Queue, ExtractError>)
    ensures r.Success? ==> QueueValid(r.value) && r.value.next == ShapeCount(parts)
    ensures r.Success? <==>
      && (forall i :: 0 <= i < |attrs| ==> CollisionTags(attrs[i]).Success?)
      && (forall k :: 0 <= k < |parts| ==> PartValid(SurfaceNames(hashes, known), AllCollisionTags(attrs).value, parts[k]))
  {
    match AllCollisionTags(attrs)
    case Failure(e) => Failure(e)
    case Success(tagSets) =>
      var r := EnqueueParts(SurfaceNames(hashes, known), tagSets, Queue([], [], [], 0), parts);
      if r.Success? then
        EnqueuePartsValid(SurfaceNames(hashes, known), tagSets, Queue([], [], [], 0), parts);
        r
      else r
  }

  function SurfaceNames(hashes: seq<nat>, known: map<nat, String>): (r: seq<String>)
    ensures |r| == |hashes|
    ensures forall i :: 0 <= i < |hashes| ==> r[i] == SurfaceName(hashes[i], known)
  {
    seq(|hashes|, i requires 0 <= i < |hashes| => SurfaceName(hashes[i], known))
  }

  function HullFileName(fileName: String, q: Queue, i: nat): String
    requires i < |q.hulls|
  {
    EmbeddedDmxName(fileName, "hull", q.hulls[i].1)
  }

  function MeshFileName(fileName: String, q: Queue, i: nat): String
    requires i < |q.meshes|
  {
    EmbeddedDmxName(fileName, "phys", q.meshes[i].1)
  }

  /** The shared counter gives every physics file of a queue its own name. */
  lemma PhysicsFileNamesDistinct(fileName: String, q: Queue)
    requires Numbered(q)
    ensures forall i, j :: 0 <= i < j < |q.hulls| ==> HullFileName(fileName, q, i) != HullFileName(fileName, q, j)
    ensures forall i, j :: 0 <= i < j < |q.meshes| ==> MeshFileName(fileName, q, i) != MeshFileName(fileName, q, j)
    ensures forall i, j :: 0 <= i < |q.hulls| && 0 <= j < |q.meshes| ==> HullFileName(fileName, q, i) != MeshFileName(fileName, q, j)
  {
    HullFileNamesDistinct(fileName, q);
    MeshFileNamesDistinct(fileName, q);
    HullAndMeshFileNamesDistinct(fileName, q);
  }

  lemma HullFileNamesDistinct(fileName: String, q: Queue)
    requires NumsDistinct(q.hulls)
    ensures forall i, j :: 0 <= i < j < |q.hulls| ==> HullFileName(fileName, q, i) != HullFileName(fileName, q, j)
  {
    forall i, j | 0 <= i < j < |q.hulls|
      ensures HullFileName(fileName, q, i) != HullFileName(fileName, q, j)
    {
      if HullFileName(fileName, q, i) == HullFileName(fileName, q, j) {
        EmbeddedNamesInjective(fileName, "hull", q.hulls[i].1, "hull", q.hulls[j].1);
      }
    }
  }

  lemma MeshFileNamesDistinct(fileName: String, q: Queue)
    requires NumsDistinct(q.meshes)
    ensures forall i, j :: 0 <= i < j < |q.meshes| ==> MeshFileName(fileName, q, i) != MeshFileName(fileName, q, j)
  {
    forall i, j | 0 <= i < j < |q.meshes|
      ensures MeshFileName(fileName, q, i) != MeshFileName(fileName, q, j)
    {
      if MeshFileName(fileName, q, i) == MeshFileName(fileName, q, j) {
        EmbeddedNamesInjective(fileName, "phys", q.meshes[i].1, "phys", q.meshes[j].1);
      }
    }
  }

  lemma HullAndMeshFileNamesDistinct(fileName: String, q: Queue)
    ensures forall i, j :: 0 <= i < |q.hulls| && 0 <= j < |q.meshes| ==> HullFileName(fileName, q, i) != MeshFileName(fileName, q, j)
  {
    forall i, j | 0 <= i < |q.hulls| && 0 <= j < |q.meshes|
      ensures HullFileName(fileName, q, i) != MeshFileName(fileName, q, j)
    {
      if HullFileName(fileName, q, i) == MeshFileName(fileName, q, j) {
        EmbeddedNamesInjective(fileName, "hull", q.hulls[i].1, "phys", q.meshes[j].1);
      }
    }
  }

  // ---------------------------------------------------------------------
  // Hull faces

  /**
   * A walk from `cur` along Next that stops at the edge whose Next is
   * `start`: every edge in range, consecutive by Next, and none but the
   * first equal to `start`.
   */
  predicate WalkTo(edges: seq<HalfEdge>, start: int, path: seq<int>)
  {
    && |path| >= 1
    && (forall i :: 0 <= i < |path| ==> 0 <= path[i] < |edges|)
    && (forall i :: 0 <= i < |path| - 1 ==> edges[path[i]].next == path[i + 1])
    && edges[path[|path| - 1]].next == start
    && (forall i :: 0 < i < |path| ==> path[i] != start)
  }

  /** The edges of the do-while loop from `cur` until Next returns to `start`, with at most `fuel` steps. */
  function EdgeWalk(edges: seq<HalfEdge>, start: int, cur: int, fuel: nat): (r: Result<seq<int>, ExtractError>)
    ensures r.Success? ==> WalkTo(edges, start, r.value) && r.value[0] == cur && |r.value| <= fuel
    decreases fuel
  {
    if !(0 <= cur < |edges|) then Failure(IndexOutOfRange)
    else if fuel == 0 then Failure(EndlessLoop)
    else if edges[cur].next == start then Success([cur])
    else
      match EdgeWalk(edges, start, edges[cur].next, fuel - 1)
      case Failure(e) => Failure(e)
      case Success(rest) => Success([cur] + rest)
  }

  /** The walk is the only one: whenever a walk of at most `fuel` edges exists, EdgeWalk finds it. */
  lemma {:induction false} EdgeWalkComplete(edges: seq<HalfEdge>, start: int, path: seq<int>, fuel: nat)
    requires WalkTo(edges, start, path) && |path| <= fuel
    ensures EdgeWalk(edges, start, path[0], fuel) == Success(path)
    decreases fuel
  {
    if |path| > 1 {
      var rest := path[1..];
      assert edges[path[0]].next == rest[0];
      assert WalkTo(edges, start, rest);
      EdgeWalkComplete(edges, start, rest, fuel - 1);
      assert path == [path[0]] + rest;
    } else {
      assert path == [path[0]];
    }
  }

  /** Walks from equal edges stay equal. */
  lemma {:induction false} WalkShift(edges: seq<HalfEdge>, start: int, path: seq<int>, i: nat, j: nat, k: nat)
    requires WalkTo(edges, start, path)
    requires i < j && j + k < |path| && path[i] == path[j]
    ensures path[i + k] == path[j + k]
    decreases k
  {
    if k > 0 {
      WalkShift(edges, start, path, i, j, k - 1);
      assert edges[path[i + k - 1]].next == path[i + k];
      assert edges[path[j + k - 1]].next == path[j + k];
    }
  }

  /** Only the last edge of a walk leads back to its start. */
  lemma WalkNoEarlyReturn(edges: seq<HalfEdge>, path: seq<int>, m: nat)
    requires |path| >= 1 && WalkTo(edges, path[0], path)
    requires m < |path| - 1
    ensures edges[path[m]].next != path[0]
  {
    assert edges[path[m]].next == path[m + 1];
  }

  /** A walk that returns to its start passes each edge once. */
  lemma WalkEdgesDistinct(edges: seq<HalfEdge>, path: seq<int>)
    requires |path| >= 1 && WalkTo(edges, path[0], path)
    ensures forall i, j :: 0 <= i < j < |path| ==> path[i] != path[j]
  {
    forall i, j | 0 <= i < j < |path|
      ensures path[i] != path[j]
    {
      if path[i] == path[j] {
        var k := |path| - 1 - j;
        WalkShift(edges, path[0], path, i, j, k);
        WalkNoEarlyReturn(edges, path, i + k);
        assert false;
      }
    }
  }

  function Origins(edges: seq<HalfEdge>, path: seq<int>): (r: seq<int>)
    requires forall i :: 0 <= i < |path| ==> 0 <= path[i] < |edges|
    ensures |r| == |path|
    ensures forall i :: 0 <= i < |path| ==> r[i] == edges[path[i]].origin
  {
    seq(|path|, i requires 0 <= i < |path| => edges[path[i]].origin)
  }

  /** The polygon of one face: the origins of the edges around it. */
  function FacePolygon(edges: seq<HalfEdge>, face: int): Result<seq<int>, ExtractError>
  {
    match EdgeWalk(edges, face, face, |edges|)
    case Failure(e) => Failure(e)
    case Success(path) => Success(Origins(edges, path))
  }

  /** A polygon that was found comes from a walk around its face that returns to the face's first edge. */
  lemma FacePolygonWalk(edges: seq<HalfEdge>, face: int)
    requires FacePolygon(edges, face).Success?
    ensures exists path :: (WalkTo(edges, face, path) && path[0] == face && |path| <= |edges| &&
      FacePolygon(edges, face).value == Origins(edges, path))
  {
    var path := EdgeWalk(edges, face, face, |edges|).value;
    assert WalkTo(edges, face, path) && path[0] == face;
  }

  function FacePolygons(edges: seq<HalfEdge>, faces: seq<int>): (r: Result<seq<seq<int>>, ExtractError>)
    ensures r.Success? <==> forall k :: 0 <= k < |faces| ==> FacePolygon(edges, faces[k]).Success?
    ensures r.Success? ==>
      && |r.value| == |faces|
      && forall k :: 0 <= k < |faces| ==> r.value[k] == FacePolygon(edges, faces[k]).value
  {
    if |faces| == 0 then Success([])
    else
      assert forall k :: 1 <= k < |faces| ==> faces[k] == faces[1..][k - 1];
      match FacePolygon(edges, faces[0])
      case Failure(e) => Failure(e)
      case Success(p) =>
        match FacePolygons(edges, faces[1..])
        case Failure(e) => Failure(e)
        case Success(ps) => Success([p] + ps)
  }

  /** ToDmxMesh of a hull: one n-gon face set "hull faces" with the uniform combination's material. */
  function HullFaceSet(hull: Hull, uniformSurface: String, uniformTags: seq<String>): (r: Result<FaceSet, ExtractError>)
    ensures r.Success? <==> FacePolygons(hull.edges, hull.faces).Success?
    ensures r.Success? ==>
      && r.value.name == "hull faces"
      && r.value.material == StringMaterial(SurfaceTagCombo(uniformSurface, uniformTags))
  {
    match FacePolygons(hull.edges, hull.faces)
    case Failure(e) => Failure(e)
    case Success(ps) =>
      Success(FaceSet("hull faces", StringMaterial(SurfaceTagCombo(uniformSurface, uniformTags)), Encode(ps)))
  }

  /**
   * The hull face set lists, for each face in order, the origins around
   * it, once each: decoding the faces gives one polygon per face.
   */
  lemma HullFaceSetDecodes(hull: Hull, uniformSurface: String, uniformTags: seq<String>)
    requires HullFaceSet(hull, uniformSurface, uniformTags).Success?
    requires forall e :: 0 <= e < |hull.edges| ==> hull.edges[e].origin != Terminator
    ensures |Decode(HullFaceSet(hull, uniformSurface, uniformTags).value.faces)| == |hull.faces|
    ensures forall k :: 0 <= k < |hull.faces| ==>
      Decode(HullFaceSet(hull, uniformSurface, uniformTags).value.faces)[k] == FacePolygon(hull.edges, hull.faces[k]).value
  {
    var ps := FacePolygons(hull.edges, hull.faces).value;
    forall k | 0 <= k < |ps|
      ensures Terminator !in ps[k]
    {
      FacePolygonWalk(hull.edges, hull.faces[k]);
      var path :| WalkTo(hull.edges, hull.faces[k], path) && path[0] == hull.faces[k]
        && |path| <= |hull.edges| && ps[k] == Origins(hull.edges, path);
      assert forall i :: 0 <= i < |ps[k]| ==> ps[k][i] == hull.edges[path[i]].origin;
    }
    DecodeEncode(ps);
  }

  /** The origins of a face are those of the unique walk around it, each edge visited once. */
  lemma FacePolygonIsCycle(edges: seq<HalfEdge>, face: int, path: seq<int>)
    requires WalkTo(edges, face, path) && path[0] == face
    ensures |path| <= |edges|
    ensures FacePolygon(edges, face) == Success(Origins(edges, path))
  {
    WalkEdgesDistinct(edges, path);
    Seqs.DistinctBound(path, |edges|);
    EdgeWalkComplete(edges, face, path, |edges|);
  }

  // ---------------------------------------------------------------------
  // Physics mesh face sets

  /** The triangles that use surface `s`, in increasing order. */
  function TrianglesWith(materials: seq<int>, s: int): (r: seq<int>)
    ensures forall k :: 0 <= k < |r| ==> 0 <= r[k] < |materials| && materials[r[k]] == s
    ensures forall t :: 0 <= t < |materials| && materials[t] == s ==> t in r
    ensures forall i, j :: 0 <= i < j < |r| ==> r[i] < r[j]
  {
    if |materials| == 0 then []
    else
      var n := |materials| - 1;
      var p := materials[..n];
      assert forall t :: 0 <= t < n ==> p[t] == materials[t];
      var rest := TrianglesWith(p, s);
      if materials[n] == s then
        assert forall k :: 0 <= k < |rest| ==> (rest + [n])[k] == rest[k];
        rest + [n]
      else rest
  }

  lemma TrianglesWithStep(materials: seq<int>, t: nat, s: int)
    requires t < |materials|
    ensures TrianglesWith(materials[..t + 1], s)
      == TrianglesWith(materials[..t], s) + (if materials[t] == s then [t] else [])
  {
    assert materials[..t + 1][..t] == materials[..t];
  }

  function TriangleList(ts: seq<int>): (r: seq<seq<int>>)
    ensures |r| == |ts|
    ensures forall i :: 0 <= i < |ts| ==> r[i] == Triangle(ts[i])
  {
    seq(|ts|, i requires 0 <= i < |ts| => Triangle(ts[i]))
  }

  /** Triangles are told apart by their first vertex. */
  lemma TriangleInList(ts: seq<int>, t: int)
    ensures Triangle(t) in TriangleList(ts) <==> t in ts
  {
    if Triangle(t) in TriangleList(ts) {
      var i :| 0 <= i < |ts| && TriangleList(ts)[i] == Triangle(t);
      assert Triangle(ts[i])[0] == 3 * t;
    }
    if t in ts {
      var i :| 0 <= i < |ts| && ts[i] == t;
      assert TriangleList(ts)[i] == Triangle(t);
    }
  }

  lemma TriangleListDecodes(ts: seq<int>)
    requires forall i :: 0 <= i < |ts| ==> ts[i] >= 0
    ensures Decode(Encode(TriangleList(ts))) == TriangleList(ts)
  {
    var l := TriangleList(ts);
    forall k | 0 <= k < |l| ensures Terminator !in l[k] {
      assert l[k] == Triangle(ts[k]);
    }
    DecodeEncode(l);
  }

  function SurfaceSetName(surfaceList: seq<String>, s: int): String
    requires 0 <= s < |surfaceList|
  {
    surfaceList[s] + "$" + IntToString(s)
  }

  /** The face set of one surface: named surface + '$' + index, holding that surface's triangles. */
  function SurfaceSet(materials: seq<int>, surfaceList: seq<String>, tags: seq<String>, s: int): FaceSet
    requires 0 <= s < |surfaceList|
  {
    FaceSet(SurfaceSetName(surfaceList, s),
            StringMaterial(SurfaceTagCombo(surfaceList[s], tags)),
            Encode(TriangleList(TrianglesWith(materials, s))))
  }

  /** A surface's face set holds triangle t exactly when t uses that surface. */
  lemma SurfaceSetHolds(materials: seq<int>, surfaceList: seq<String>, tags: seq<String>, s: int, t: nat)
    requires 0 <= s < |surfaceList| && t < |materials|
    ensures Triangle(t) in Decode(SurfaceSet(materials, surfaceList, tags, s).faces) <==> materials[t] == s
  {
    var ts := TrianglesWith(materials, s);
    TriangleListDecodes(ts);
    TriangleInList(ts, t);
  }

  predicate InRange(order: seq<int>, surfaceList: seq<String>)
  {
    forall k :: 0 <= k < |order| ==> 0 <= order[k] < |surfaceList|
  }

  /** The face sets of the surfaces in `order`. */
  function SetsFor(materials: seq<int>, surfaceList: seq<String>, tags: seq<String>, order: seq<int>): (r: seq<FaceSet>)
    requires InRange(order, surfaceList)
    ensures |r| == |order|
    ensures forall k :: 0 <= k < |order| ==> r[k] == SurfaceSet(materials, surfaceList, tags, order[k])
  {
    seq(|order|, k requires 0 <= k < |order| => SurfaceSet(materials, surfaceList, tags, order[k]))
  }

  /** The face sets of a mesh with per-triangle materials: one per surface, in the order of first use. */
  function SurfaceFaceSets(materials: seq<int>, surfaceList: seq<String>, tags: seq<String>): (r: Result<seq<FaceSet>, ExtractError>)
    ensures r.Success? <==> MaterialsInRange(surfaceList, materials)
    ensures r.Success? ==> |r.value| == |Seqs.Distinct(materials)|
  {
    if !MaterialsInRange(surfaceList, materials) then Failure(IndexOutOfRange)
    else
      var order := Seqs.Distinct(materials);
      assert InRange(order, surfaceList);
      Success(SetsFor(materials, surfaceList, tags, order))
  }

  /**
   * ToDmxMesh of a physics mesh: without materials one face set "0-n"
   * over all triangles with the uniform material; otherwise one set per
   * surface used.
   */
  function MeshFaceSets(mesh: PhysMesh, uniformSurface: String, uniformTags: seq<String>, surfaceList: seq<String>): (r: Result<seq<FaceSet>, ExtractError>)
    ensures |mesh.materials| == 0 ==>
      && r.Success? && |r.value| == 1
      && r.value[0].name == "0-" + IntToString(|mesh.triangles|)
      && r.value[0].material == StringMaterial(SurfaceTagCombo(uniformSurface, uniformTags))
      && Decode(r.value[0].faces) == TriangleList(Seqs.Range(0, |mesh.triangles|))
    ensures |mesh.materials| > 0 ==> r == SurfaceFaceSets(mesh.materials, surfaceList, uniformTags)
  {
    if |mesh.materials| == 0 then
      var n := |mesh.triangles|;
      var fs := TriangleFaceSet(IntToString(0) + "-" + IntToString(n), 0, n,
                                StringMaterial(SurfaceTagCombo(uniformSurface, uniformTags)));
      TriangleFaceSetDecodes(fs.name, 0, n, fs.material);
      assert TriangleRange(0, n) == TriangleList(Seqs.Range(0, n));
      Success([fs])
    else SurfaceFaceSets(mesh.materials, surfaceList, uniformTags)
  }

  /**
   * Each triangle lands in exactly one face set, the one for its surface,
   * and that set exists.
   */
  lemma TriangleInOneSurfaceSet(materials: seq<int>, surfaceList: seq<String>, tags: seq<String>, t: nat)
    requires SurfaceFaceSets(materials, surfaceList, tags).Success?
    requires t < |materials|
    ensures exists k :: 0 <= k < |Seqs.Distinct(materials)| && Seqs.Distinct(materials)[k] == materials[t]
    ensures forall k :: 0 <= k < |Seqs.Distinct(materials)| ==>
      ((Triangle(t) in Decode(SurfaceFaceSets(materials, surfaceList, tags).value[k].faces)) <==> (Seqs.Distinct(materials)[k] == materials[t]))
  {
    var sets := SurfaceFaceSets(materials, surfaceList, tags).value;
    var order := Seqs.Distinct(materials);
    forall k | 0 <= k < |order|
      ensures (Triangle(t) in Decode(sets[k].faces)) <==> (order[k] == materials[t])
    {
      SurfaceSetHolds(materials, surfaceList, tags, order[k], t);
    }
    assert materials[t] in order;
  }

  /** The surface sets come in the order in which the triangles first use their surfaces. */
  lemma SurfaceSetsInFirstUseOrder(materials: seq<int>, i: nat, j: nat)
    requires i < j < |Seqs.Distinct(materials)|
    ensures Seqs.FirstIndex(materials, Seqs.Distinct(materials)[i]) < Seqs.FirstIndex(materials, Seqs.Distinct(materials)[j])
  {
    Seqs.DistinctFirstUse(materials, i, j);
  }

  /** Appends triangle t to a face set. */
  function AddTriangle(fs: FaceSet, t: int): FaceSet
  {
    fs.(faces := fs.faces + Triangle(t) + [Terminator])
  }

  /** Appending triangle t to the set of its surface turns the sets of the first t triangles into those of the first t+1. */
  lemma AddTriangleStep(materials: seq<int>, surfaceList: seq<String>, tags: seq<String>, order: seq<int>, t: nat, k: nat)
    requires InRange(order, surfaceList) && t < |materials|
    requires k < |order| && order[k] == materials[t]
    requires forall i, j :: 0 <= i < j < |order| ==> order[i] != order[j]
    ensures var before := SetsFor(materials[..t], surfaceList, tags, order);
      before[k := AddTriangle(before[k], t)] == SetsFor(materials[..t + 1], surfaceList, tags, order)
  {
    var before := SetsFor(materials[..t], surfaceList, tags, order);
    var after := SetsFor(materials[..t + 1], surfaceList, tags, order);
    forall j | 0 <= j < |order|
      ensures before[k := AddTriangle(before[k], t)][j] == after[j]
    {
      TrianglesWithStep(materials, t, order[j]);
      if j == k {
        AddTriangleToOwnSet(materials, surfaceList, tags, t);
      } else {
        OtherSetUnchanged(materials, surfaceList, tags, t, order[j]);
      }
    }
  }

  lemma AddTriangleToOwnSet(materials: seq<int>, surfaceList: seq<String>, tags: seq<String>, t: nat)
    requires t < |materials| && 0 <= materials[t] < |surfaceList|
    ensures AddTriangle(SurfaceSet(materials[..t], surfaceList, tags, materials[t]), t)
      == SurfaceSet(materials[..t + 1], surfaceList, tags, materials[t])
  {
    var s := materials[t];
    var ts := TrianglesWith(materials[..t], s);
    TrianglesWithStep(materials, t, s);
    assert TrianglesWith(materials[..t + 1], s) == ts + [t];
    assert TriangleList(ts + [t]) == TriangleList(ts) + [Triangle(t)];
    EncodeAppend(TriangleList(ts), [Triangle(t)]);
    assert Encode([Triangle(t)]) == Triangle(t) + [Terminator] + Encode([]);
  }

  lemma OtherSetUnchanged(materials: seq<int>, surfaceList: seq<String>, tags: seq<String>, t: nat, s: int)
    requires t < |materials| && 0 <= s < |surfaceList| && materials[t] != s
    ensures SurfaceSet(materials[..t], surfaceList, tags, s) == SurfaceSet(materials[..t + 1], surfaceList, tags, s)
  {
    TrianglesWithStep(materials, t, s);
    assert TrianglesWith(materials[..t + 1], s) == TrianglesWith(materials[..t], s);
  }

  /** A surface not used by the first t triangles starts with an empty set. */
  lemma NewSurfaceStep(materials: seq<int>, surfaceList: seq<String>, tags: seq<String>, order: seq<int>, t: nat, s: int)
    requires InRange(order, surfaceList) && t <= |materials| && 0 <= s < |surfaceList|
    requires s !in materials[..t]
    ensures SetsFor(materials[..t], surfaceList, tags, order)
      + [FaceSet(SurfaceSetName(surfaceList, s), StringMaterial(SurfaceTagCombo(surfaceList[s], tags)), [])]
      == SetsFor(materials[..t], surfaceList, tags, order + [s])
  {
  }

  /**
   * The surfaces of the first t triangles in first-use order, and the slot
   * of each surface's set (the source's array of face sets indexed by
   * surface).
   */
  predicate Ordered(materials: seq<int>, surfaceList: seq<String>, t: nat, order: seq<int>, slot: map<int, nat>)
  {
    && t <= |materials|
    && (forall k :: 0 <= k < t ==> 0 <= materials[k] < |surfaceList|)
    && order == Seqs.Distinct(materials[..t])
    && InRange(order, surfaceList)
    && (forall k :: 0 <= k < |order| ==> order[k] in slot && slot[order[k]] == k)
    && (forall x :: x in slot ==> slot[x] < |order| && order[slot[x]] == x)
  }

  /** The state of the loop after t triangles: the order, the slots and the sets built so far. */
  predicate Built(materials: seq<int>, surfaceList: seq<String>, tags: seq<String>, t: nat,
                  order: seq<int>, slot: map<int, nat>, sets: seq<FaceSet>)
  {
    Ordered(materials, surfaceList, t, order, slot)
      && sets == SetsFor(materials[..t], surfaceList, tags, order)
  }

  lemma OrderStep(materials: seq<int>, surfaceList: seq<String>, t: nat, order: seq<int>, slot: map<int, nat>)
    requires t < |materials| && 0 <= materials[t] < |surfaceList|
    requires Ordered(materials, surfaceList, t, order, slot)
    ensures materials[t] in slot <==> materials[t] in order
    ensures materials[t] !in order ==> materials[t] !in materials[..t]
    ensures materials[t] in slot ==> Ordered(materials, surfaceList, t + 1, order, slot)
    ensures materials[t] !in slot ==>
      Ordered(materials, surfaceList, t + 1, order + [materials[t]], slot[materials[t] := |order|])
  {
    var s := materials[t];
    assert materials[..t + 1][..t] == materials[..t];
    assert materials[..t + 1][t] == s;
    assert Seqs.Distinct(materials[..t + 1]) == if s in order then order else order + [s];
  }

  /** One iteration: triangle t is appended to its surface's set, which is created on first use. */
  method AddToSurfaceSet(materials: seq<int>, surfaceList: seq<String>, tags: seq<String>, t: nat,
                         order: seq<int>, slot: map<int, nat>, sets: seq<FaceSet>)
    returns (order': seq<int>, slot': map<int, nat>, sets': seq<FaceSet>)
    requires t < |materials| && 0 <= materials[t] < |surfaceList|
    requires Built(materials, surfaceList, tags, t, order, slot, sets)
    ensures Built(materials, surfaceList, tags, t + 1, order', slot', sets')
  {
    var s := materials[t];
    OrderStep(materials, surfaceList, t, order, slot);
    order', slot', sets' := order, slot, sets;
    if s !in slot {
      NewSurfaceStep(materials, surfaceList, tags, order, t, s);
      slot' := slot[s := |order|];
      order' := order + [s];
      sets' := sets + [FaceSet(SurfaceSetName(surfaceList, s), StringMaterial(SurfaceTagCombo(surfaceList[s], tags)), [])];
    }
    var k := slot'[s];
    AddTriangleStep(materials, surfaceList, tags, order', t, k);
    sets' := sets'[k := AddTriangle(sets'[k], t)];
  }

  /** The loop of ToDmxMesh over the triangle materials, creating each surface's set on first use. */
  method BuildSurfaceFaceSets(materials: seq<int>, surfaceList: seq<String>, tags: seq<String>) returns (r: Result<seq<FaceSet>, ExtractError>)
    ensures r == SurfaceFaceSets(materials, surfaceList, tags)
  {
    var sets: seq<FaceSet> := [];
    var order: seq<int> := [];
    var slot: map<int, nat> := map[];
    var t := 0;
    while t < |materials|
      invariant Built(materials, surfaceList, tags, t, order, slot, sets)
    {
      if !(0 <= materials[t] < |surfaceList|) {
        assert !MaterialsInRange(surfaceList, materials);
        return Failure(IndexOutOfRange);
      }
      order, slot, sets := AddToSurfaceSet(materials, surfaceList, tags, t, order, slot, sets);
      t := t + 1;
    }
    assert materials[..t] == materials;
    r := Success(sets);
  }

  /** The flattened index array of a mesh; a triangle with fewer than three indices throws. */
  function FlattenIndices(triangles: seq<seq<int>>): (r: Result<seq<int>, ExtractError>)
    ensures r.Success? <==> forall t :: 0 <= t < |triangles| ==> |triangles[t]| >= 3
    ensures r.Success? ==>
      && |r.value| == 3 * |triangles|
      && forall t, i :: 0 <= t < |triangles| && 0 <= i < 3 ==> r.value[3 * t..][i] == triangles[t][i]
  {
    if |triangles| == 0 then Success([])
    else if |triangles[0]| < 3 then Failure(IndexOutOfRange)
    else
      assert forall t :: 1 <= t < |triangles| ==> triangles[t] == triangles[1..][t - 1];
      match FlattenIndices(triangles[1..])
      case Failure(e) => Failure(e)
      case Success(rest) =>
        var r := triangles[0][..3] + rest;
        assert forall t :: 1 <= t < |triangles| ==> r[3 * t..] == rest[3 * (t - 1)..];
        Success(r)
  }

  /** Flattening and cutting back into triples gives each triangle's first three indices. */
  lemma FlattenTriples(triangles: seq<seq<int>>)
    requires FlattenIndices(triangles).Success?
    ensures |Triples(FlattenIndices(triangles).value)| == |triangles|
    ensures forall t :: 0 <= t < |triangles| ==> Triples(FlattenIndices(triangles).value)[t] == triangles[t][..3]
  {
    var r := FlattenIndices(triangles).value;
    forall t | 0 <= t < |triangles|
      ensures Triples(r)[t] == triangles[t][..3]
    {
      assert r[3 * t..3 * t + 3] == r[3 * t..][..3];
    }
  }
}

=== FILE: model_meshes.dfy ===
/** The mesh references of a model that the scene nodes read: embedded meshes, referenced mesh files and LoD masks. */
module ModelMeshes {
  import opened Wrappers
  import opened Vectors
  import Text

  datatype AABB = AABB(min: Vec3, max: Vec3)

  datatype DrawCall = DrawCall(meshId: int, drawBounds: Option<AABB>)

  /** The parts of a loaded mesh the scene nodes read. */
  datatype Mesh = Mesh(boundingBox: AABB, drawCallsOpaque: seq<DrawCall>)

  datatype EmbeddedMesh = EmbeddedMesh(mesh: Mesh, meshIndex: int, lodMask: int)

  datatype ReferencedMesh = ReferencedMesh(meshName: Text.String, meshIndex: int, lodMask: int)

  /** `(mask & 1) != 0` on a two's-complement int; the Euclidean remainder agrees for negative masks too. */
  predicate InLod0(mask: int)
  {
    mask % 2 == 1
  }

  /** The entries of a mesh list whose LoD mask (read by `mask`) includes LoD 0, in model order. */
  function LoD0Of<T(!new)>(ms: seq<T>, mask: T -> int): (r: seq<T>)
    ensures forall m :: m in r <==> m in ms && InLod0(mask(m))
    ensures |r| <= |ms|
  {
    if |ms| == 0 then []
    else (if InLod0(mask(ms[0])) then [ms[0]] else []) + LoD0Of(ms[1..], mask)
  }

  /** The referenced meshes in LoD 0, in model order. */
  function LoD0References(refs: seq<ReferencedMesh>): (r: seq<ReferencedMesh>)
    ensures forall m :: m in r ==> m in refs && InLod0(m.lodMask)
    ensures forall m :: m in refs && InLod0(m.lodMask) ==> m in r
  {
    LoD0Of(refs, (m: ReferencedMesh) => m.lodMask)
  }

  /** The embedded meshes in LoD 0, in model order. */
  function LoD0Embedded(meshes: seq<EmbeddedMesh>): (r: seq<EmbeddedMesh>)
    ensures forall m :: m in r ==> m in meshes && InLod0(m.lodMask)
    ensures forall m :: m in meshes && InLod0(m.lodMask) ==> m in r
  {
    LoD0Of(meshes, (m: EmbeddedMesh) => m.lodMask)
  }

  /** The file a referenced mesh is loaded from: its name with the compiled-resource suffix. */
  function CompiledName(m: ReferencedMesh): (r: Text.String)
    ensures |r| == |m.meshName| + 2 && Text.EndsWith(r, "_c") && r[..|m.meshName|] == m.meshName
  {
    m.meshName + "_c"
  }
}

=== FILE: model_scene_node.dfy ===
/**
 * ModelSceneNode: the mesh renderers of a model, its skin (material
 * remapping), its active mesh groups, its tint and its animation list.
 * The node is a value; each operation returns the node afterwards.
 */
module ModelSceneNode {
  import opened Wrappers
  import opened Vectors
  import opened ModelMeshes
  import Seqs
  import Text

  /** A skin: default material name to replacement material name. */
  type SkinMap = map<Text.String, Text.String>

  datatype Renderer = Renderer(mesh: Mesh, meshIndex: int, tint: Vec4, skin: Option<SkinMap>)

  datatype Animation = Animation(name: Text.String)

  /** `active` holds positions in `renderers`; a position may occur more than once. */
  datatype Node = Node(
    renderers: seq<Renderer>,
    skinMaterials: Option<SkinMap>,
    activeGroups: seq<Text.String>,
    active: seq<nat>,
    animations: seq<Animation>,
    loadedAnimations: bool,
    hasAnimationTexture: bool)

  datatype NodeError = IndexOutOfRange

  /** The Tint getter: the first renderer's tint, or one when there are no renderers. */
  function Tint(n: Node): (r: Vec4)
    ensures |n.renderers| == 0 ==> r == One4
    ensures |n.renderers| > 0 ==> r == n.renderers[0].tint
  {
    if |n.renderers| > 0 then n.renderers[0].tint else One4
  }

  /** The Tint setter: every renderer gets the tint; nothing else changes. */
  function SetTint(n: Node, tint: Vec4): (r: Node)
    ensures r.(renderers := n.renderers) == n
    ensures |r.renderers| == |n.renderers|
    ensures forall i :: 0 <= i < |n.renderers| ==> r.renderers[i] == n.renderers[i].(tint := tint)
  {
    n.(renderers := seq(|n.renderers|, i requires 0 <= i < |n.renderers| => n.renderers[i].(tint := tint)))
  }

  /** Reading the tint back after setting it gives the tint set, as long as there is a renderer. */
  lemma TintRoundTrip(n: Node, tint: Vec4)
    requires |n.renderers| > 0
    ensures Tint(SetTint(n, tint)) == tint
  {
  }

  datatype MaterialGroup = MaterialGroup(name: Option<Text.String>, materials: seq<Text.String>)

  /** Whether position i holds the last occurrence of its value. */
  predicate LastOccurrence<T(==)>(s: seq<T>, i: nat)
    requires i < |s|
  {
    forall j :: i < j < |s| ==> s[j] != s[i]
  }

  /**
   * The skin map built positionally: default material i maps to skin
   * material i; when a default name repeats, the later position wins.
   */
  function BuildSkinMap(defaults: seq<Text.String>, materials: seq<Text.String>): (r: SkinMap)
    requires |defaults| <= |materials|
    ensures r.Keys == set i | 0 <= i < |defaults| :: defaults[i]
    decreases |defaults|
  {
    if |defaults| == 0 then map[]
    else
      var n := |defaults| - 1;
      var prefix := BuildSkinMap(defaults[..n], materials);
      assert forall i :: 0 <= i < n ==> defaults[..n][i] == defaults[i];
      assert (set i | 0 <= i < |defaults| :: defaults[i]) == (set i | 0 <= i < n :: defaults[..n][i]) + {defaults[n]};
      prefix[defaults[n] := materials[n]]
  }

  /** The material at the last position of a default name is the one it maps to. */
  lemma {:induction false} SkinMapLastWins(defaults: seq<Text.String>, materials: seq<Text.String>, i: nat)
    requires |defaults| <= |materials| && i < |defaults| && LastOccurrence(defaults, i)
    ensures defaults[i] in BuildSkinMap(defaults, materials)
    ensures BuildSkinMap(defaults, materials)[defaults[i]] == materials[i]
    decreases |defaults|
  {
    var n := |defaults| - 1;
    assert defaults[i] in BuildSkinMap(defaults, materials).Keys;
    if i < n {
      assert defaults[..n][i] == defaults[i];
      assert defaults[n] != defaults[i];
      assert LastOccurrence(defaults[..n], i);
      SkinMapLastWins(defaults[..n], materials, i);
    }
  }

  lemma SkinMapLastWinsAll(defaults: seq<Text.String>, materials: seq<Text.String>)
    requires |defaults| <= |materials|
    ensures forall i :: 0 <= i < |defaults| && LastOccurrence(defaults, i) ==>
      BuildSkinMap(defaults, materials)[defaults[i]] == materials[i]
  {
    forall i | 0 <= i < |defaults| && LastOccurrence(defaults, i)
      ensures BuildSkinMap(defaults, materials)[defaults[i]] == materials[i]
    {
      SkinMapLastWins(defaults, materials, i);
    }
  }

  /** The first group whose name is the requested skin. */
  function FindGroup(groups: seq<MaterialGroup>, skin: Text.String): (r: Option<nat>)
    ensures r.None? <==> forall k :: 0 <= k < |groups| ==> groups[k].name != Some(skin)
    ensures r.Some? ==>
      && r.value < |groups| && groups[r.value].name == Some(skin)
      && forall k :: 0 <= k < r.value ==> groups[k].name != Some(skin)
  {
    if |groups| == 0 then None
    else if groups[0].name == Some(skin) then Some(0)
    else match FindGroup(groups[1..], skin)
      case None => None
      case Some(k) => Some(k + 1)
  }

  function WithSkin(rs: seq<Renderer>, skin: Option<SkinMap>): (r: seq<Renderer>)
    ensures |r| == |rs| && forall i :: 0 <= i < |rs| ==> r[i] == rs[i].(skin := skin)
  {
    seq(|rs|, i requires 0 <= i < |rs| => rs[i].(skin := skin))
  }

  /**
   * SetSkin: the default materials are those of the first material group;
   * the first group named `skin` replaces the skin map, pairing default
   * material i with its material i (the source indexes past the end of a
   * shorter list and throws). An unknown skin keeps the previous map.
   * Every renderer then receives the node's current map.
   */
  function SetSkin(n: Node, groups: seq<MaterialGroup>, skin: Text.String): (r: Result<Node, NodeError>)
    ensures FindGroup(groups, skin).None? ==>
      r == Success(n.(renderers := WithSkin(n.renderers, n.skinMaterials)))
    ensures FindGroup(groups, skin).Some? ==>
      (r.Success? <==> |groups[0].materials| <= |groups[FindGroup(groups, skin).value].materials|)
    ensures r.Success? && FindGroup(groups, skin).Some? ==>
      var chosen := groups[FindGroup(groups, skin).value].materials;
      r.value.skinMaterials.Some?
      && r.value.skinMaterials.value.Keys == (set i | 0 <= i < |groups[0].materials| :: groups[0].materials[i])
      && (forall i :: 0 <= i < |groups[0].materials| && LastOccurrence(groups[0].materials, i) ==>
            r.value.skinMaterials.value[groups[0].materials[i]] == chosen[i])
    ensures r.Success? ==>
      r.value == n.(skinMaterials := r.value.skinMaterials, renderers := WithSkin(n.renderers, r.value.skinMaterials))
  {
    match FindGroup(groups, skin)
    case None => Success(n.(renderers := WithSkin(n.renderers, n.skinMaterials)))
    case Some(k) =>
      var defaults := groups[0].materials;
      var chosen := groups[k].materials;
      if |defaults| > |chosen| then Failure(IndexOutOfRange)
      else
        var m := Some(BuildSkinMap(defaults, chosen));
        SkinMapLastWinsAll(defaults, chosen);
        Success(n.(skinMaterials := m, renderers := WithSkin(n.renderers, m)))
  }

  /** Choosing an unknown skin after a known one keeps the known skin's map. */
  lemma UnknownSkinKeepsMap(n: Node, groups: seq<MaterialGroup>, known: Text.String, unknown: Text.String)
    requires SetSkin(n, groups, known).Success?
    requires FindGroup(groups, unknown).None?
    ensures SetSkin(SetSkin(n, groups, known).value, groups, unknown).value.skinMaterials
      == SetSkin(n, groups, known).value.skinMaterials
  {
  }

  /**
   * LoadAnimations: only the first call has an effect. It appends the
   * model's animations and creates the animation texture when there is at
   * least one animation and no texture yet.
   */
  function LoadAnimations(n: Node, available: seq<Animation>): (r: Node)
    ensures n.loadedAnimations ==> r == n
    ensures !n.loadedAnimations ==>
      r == n.(loadedAnimations := true, animations := n.animations + available,
              hasAnimationTexture := n.hasAnimationTexture || |n.animations + available| > 0)
  {
    if n.loadedAnimations then n
    else
      var animations := n.animations + available;
      n.(loadedAnimations := true, animations := animations,
         hasAnimationTexture := n.hasAnimationTexture || |animations| > 0)
  }

  /** A second LoadAnimations, with whatever animations, changes nothing. */
  lemma LoadAnimationsOnce(n: Node, first: seq<Animation>, second: seq<Animation>)
    ensures LoadAnimations(LoadAnimations(n, first), second) == LoadAnimations(n, first)
  {
  }

  /**
   * The renderers LoadMeshes creates: one per LoD-0 embedded mesh, then one
   * per LoD-0 referenced mesh whose compiled file loads, in model order,
   * each with the current skin map.
   */
  function LoadMeshes(
    embedded: seq<EmbeddedMesh>, refs: seq<ReferencedMesh>, load: Text.String -> Option<Mesh>,
    tint: Vec4, skin: Option<SkinMap>): (r: seq<Renderer>)
    ensures forall x :: x in r ==> x.tint == tint && x.skin == skin
    ensures forall x :: x in r ==>
      (exists m :: m in embedded && InLod0(m.lodMask) && x.mesh == m.mesh && x.meshIndex == m.meshIndex)
      || (exists m :: m in refs && InLod0(m.lodMask) && load(CompiledName(m)) == Some(x.mesh) && x.meshIndex == m.meshIndex)
    ensures forall m :: m in embedded && InLod0(m.lodMask) ==> Renderer(m.mesh, m.meshIndex, tint, skin) in r
    ensures forall m :: m in refs && InLod0(m.lodMask) && load(CompiledName(m)).Some? ==>
      Renderer(load(CompiledName(m)).value, m.meshIndex, tint, skin) in r
  {
    EmbeddedRenderers(LoD0Embedded(embedded), tint, skin) + LoadReferenced(LoD0References(refs), load, tint, skin)
  }

  /** One renderer per embedded mesh, in order. */
  function EmbeddedRenderers(meshes: seq<EmbeddedMesh>, tint: Vec4, skin: Option<SkinMap>): (r: seq<Renderer>)
    ensures forall x :: x in r ==> exists m :: m in meshes && x == Renderer(m.mesh, m.meshIndex, tint, skin)
    ensures forall m :: m in meshes ==> Renderer(m.mesh, m.meshIndex, tint, skin) in r
    ensures |r| == |meshes|
    ensures forall i :: 0 <= i < |meshes| ==> r[i] == Renderer(meshes[i].mesh, meshes[i].meshIndex, tint, skin)
  {
    if |meshes| == 0 then []
    else [Renderer(meshes[0].mesh, meshes[0].meshIndex, tint, skin)] + EmbeddedRenderers(meshes[1..], tint, skin)
  }

  function LoadReferenced(refs: seq<ReferencedMesh>, load: Text.String -> Option<Mesh>, tint: Vec4, skin: Option<SkinMap>):
    (r: seq<Renderer>)
    ensures forall x :: x in r ==> x.tint == tint && x.skin == skin
    ensures forall x :: x in r ==>
      exists m :: m in refs && load(CompiledName(m)) == Some(x.mesh) && x.meshIndex == m.meshIndex
    ensures forall m :: m in refs && load(CompiledName(m)).Some? ==>
      Renderer(load(CompiledName(m)).value, m.meshIndex, tint, skin) in r
  {
    if |refs| == 0 then []
    else
      var rest := LoadReferenced(refs[1..], load, tint, skin);
      match load(CompiledName(refs[0]))
      case None => rest
      case Some(mesh) => [Renderer(mesh, refs[0].meshIndex, tint, skin)] + rest
  }

  /** The renderer positions whose mesh index the mask marks, offset by `base`. */
  function Marked(mask: seq<bool>, rs: seq<Renderer>, base: nat): (r: seq<nat>)
    requires forall k :: 0 <= k < |rs| ==> 0 <= rs[k].meshIndex < |mask|
    ensures forall x :: multiset(r)[x] == (if base <= x < base + |rs| && mask[rs[x - base].meshIndex] then 1 else 0)
    decreases |rs|
  {
    if |rs| == 0 then []
    else
      var rest := Marked(mask, rs[1..], base + 1);
      assert forall k :: 0 <= k < |rs| - 1 ==> rs[1..][k] == rs[k + 1];
      var head := if mask[rs[0].meshIndex] then [base] else [];
      assert multiset(head + rest) == multiset(head) + multiset(rest);
      head + rest
  }

  /** Whether every renderer's mesh index lies inside the mask. */
  predicate MaskCovers(mask: seq<bool>, rs: seq<Renderer>)
  {
    forall k :: 0 <= k < |rs| ==> 0 <= rs[k].meshIndex < |mask|
  }

  /** How many of the groups mark mesh index `mi` in their mask. */
  function GroupsMarking(groups: seq<Text.String>, maskFor: Text.String -> seq<bool>, mi: int): nat
  {
    if |groups| == 0 then 0
    else
      var mask := maskFor(groups[0]);
      (if 0 <= mi < |mask| && mask[mi] then 1 else 0) + GroupsMarking(groups[1..], maskFor, mi)
  }

  /**
   * The active renderers for several groups: for each group in order, the
   * renderers its mask marks. A renderer is listed once per group that
   * marks it; a mesh index outside a group's mask throws.
   */
  function ActiveFor(groups: seq<Text.String>, rs: seq<Renderer>, maskFor: Text.String -> seq<bool>):
    (r: Result<seq<nat>, NodeError>)
    ensures r.Success? <==> forall g :: g in groups ==> MaskCovers(maskFor(g), rs)
    ensures r.Success? ==>
      forall x: nat :: multiset(r.value)[x] == (if x < |rs| then GroupsMarking(groups, maskFor, rs[x].meshIndex) else 0)
  {
    if |groups| == 0 then Success([])
    else
      var mask := maskFor(groups[0]);
      if !MaskCovers(mask, rs) then Failure(IndexOutOfRange)
      else
        match ActiveFor(groups[1..], rs, maskFor)
        case Failure(e) =>
          assert exists g :: g in groups[1..] && !MaskCovers(maskFor(g), rs);
          Failure(e)
        case Success(rest) =>
          assert forall g :: g in groups ==> g == groups[0] || g in groups[1..];
          Success(Marked(mask, rs, 0) + rest)
  }

  /** Every position 0 .. n-1 once. */
  function AllPositions(n: nat): (r: seq<nat>)
    ensures |r| == n && forall i :: 0 <= i < n ==> r[i] == i
  {
    seq(n, i requires 0 <= i < n => i)
  }

  /** Intersect: the distinct model groups that were requested, in model order. */
  function IntersectGroups(modelGroups: seq<Text.String>, requested: seq<Text.String>): (r: seq<Text.String>)
    ensures forall g :: g in r <==> g in modelGroups && g in requested
    ensures forall i, j :: 0 <= i < j < |r| ==> r[i] != r[j]
  {
    var r := Seqs.Distinct(Seqs.Filter(g => g in requested, modelGroups));
    assert forall g :: g in r ==> g in Seqs.Filter(g => g in requested, modelGroups);
    r
  }

  /**
   * SetActiveMeshGroups: the active groups are the requested model groups.
   * A model with more than one group activates the renderers the active
   * groups' masks mark; otherwise every renderer is active.
   */
  function SetActiveMeshGroups(
    n: Node, modelGroups: seq<Text.String>, requested: seq<Text.String>, maskFor: Text.String -> seq<bool>):
    (r: Result<Node, NodeError>)
    ensures r.Success? ==> r.value == n.(activeGroups := r.value.activeGroups, active := r.value.active)
    ensures r.Success? ==> forall g :: g in r.value.activeGroups <==> g in modelGroups && g in requested
    ensures |modelGroups| <= 1 ==> r.Success? && r.value.active == AllPositions(|n.renderers|)
    ensures |modelGroups| > 1 ==>
      (r.Success? <==> forall g :: g in modelGroups && g in requested ==> MaskCovers(maskFor(g), n.renderers))
    ensures |modelGroups| > 1 && r.Success? ==>
      forall x: nat :: multiset(r.value.active)[x] ==
        (if x < |n.renderers| then GroupsMarking(r.value.activeGroups, maskFor, n.renderers[x].meshIndex) else 0)
  {
    var groups := IntersectGroups(modelGroups, requested);
    if |modelGroups| > 1 then
      match ActiveFor(groups, n.renderers, maskFor)
      case Failure(e) => Failure(e)
      case Success(active) => Success(n.(activeGroups := groups, active := active))
    else Success(n.(activeGroups := groups, active := AllPositions(|n.renderers|)))
  }

  /**
   * With several model groups, a renderer is active exactly when some
   * active group's mask marks its mesh index.
   */
  lemma {:induction false} ActiveIffMarked(groups: seq<Text.String>, maskFor: Text.String -> seq<bool>, mi: int)
    ensures GroupsMarking(groups, maskFor, mi) > 0 <==>
      exists g :: g in groups && 0 <= mi < |maskFor(g)| && maskFor(g)[mi]
  {
    if |groups| > 0 {
      ActiveIffMarked(groups[1..], maskFor, mi);
      assert forall g :: g in groups ==> g == groups[0] || g in groups[1..];
    }
  }

  /**
   * The constructor: SetSkin when a skin is given (before any renderer
   * exists), then LoadMeshes and the default mesh groups, then the
   * animations when requested.
   */
  function Construct(
    groups: seq<MaterialGroup>, skin: Option<Text.String>,
    embedded: seq<EmbeddedMesh>, refs: seq<ReferencedMesh>, load: Text.String -> Option<Mesh>, tint: Vec4,
    modelGroups: seq<Text.String>, defaultGroups: seq<Text.String>, maskFor: Text.String -> seq<bool>,
    loadAnimations: bool, available: seq<Animation>): (r: Result<Node, NodeError>)
    ensures r.Success? ==> r.value.loadedAnimations == loadAnimations
    ensures r.Success? ==> forall x :: x in r.value.renderers ==> x.skin == r.value.skinMaterials
    ensures r.Success? && skin.None? ==> r.value.skinMaterials.None?
  {
    var empty := Node([], None, [], [], [], false, false);
    var skinned := if skin.Some? then SetSkin(empty, groups, skin.value) else Success(empty);
    match skinned
    case Failure(e) => Failure(e)
    case Success(n0) =>
      var n1 := n0.(renderers := LoadMeshes(embedded, refs, load, tint, n0.skinMaterials));
      match SetActiveMeshGroups(n1, modelGroups, defaultGroups, maskFor)
      case Failure(e) => Failure(e)
      case Success(n2) => Success(if loadAnimations then LoadAnimations(n2, available) else n2)
  }
}

=== FILE: particles.dfy ===
/**
 * The particle data model shared by every operator and initializer.
 *
 * A particle is immutable here: an operator returns the updated particle.
 * Killing a particle sets a flag. Each particle keeps a snapshot of its
 * field values at emission (`initial`), which is what the source reads
 * through GetInitialScalar / GetInitialVector.
 *
 * The numeric helpers the operators call (MathUtils, the random draws, the
 * set-method modifiers, NormalizedAge, Speed, Vector3 length and
 * normalisation, MathF.Pow) are not part of this model; they are the fields
 * of a `Helpers` record of total functions, so every draw is a pure function
 * of its arguments. The facts a proof needs about them are the named
 * predicates below, required only where they are used.
 */
module Particles {
  import opened Vectors

  datatype ScalarField = Radius | Alpha | AlphaAlternate | LifeDuration | Roll | RollSpeed | Yaw | TrailLength
  datatype VectorField = Position | PositionPrevious | Color

  /** A particle attribute; its constructor is its field type (float or vector). */
  datatype ParticleField = OfScalar(scalar: ScalarField) | OfVector(vector: VectorField)

  datatype FieldType = FloatField | VectorType

  function TypeOf(f: ParticleField): FieldType
  {
    if f.OfScalar? then FloatField else VectorType
  }

  /** The addressable attributes of one particle. */
  datatype Fields = Fields(
    position: Vec3, positionPrevious: Vec3, color: Vec3,
    radius: real, alpha: real, alphaAlternate: real, lifetime: real,
    roll: real, rollSpeed: real, yaw: real, trailLength: real)

  function GetScalar(fs: Fields, f: ScalarField): real
  {
    match f
    case Radius => fs.radius
    case Alpha => fs.alpha
    case AlphaAlternate => fs.alphaAlternate
    case LifeDuration => fs.lifetime
    case Roll => fs.roll
    case RollSpeed => fs.rollSpeed
    case Yaw => fs.yaw
    case TrailLength => fs.trailLength
  }

  function GetVector(fs: Fields, f: VectorField): Vec3
  {
    match f
    case Position => fs.position
    case PositionPrevious => fs.positionPrevious
    case Color => fs.color
  }

  /** Writes one scalar attribute; every other attribute keeps its value. */
  function SetScalar(fs: Fields, f: ScalarField, v: real): (r: Fields)
    ensures GetScalar(r, f) == v
    ensures forall g :: g != f ==> GetScalar(r, g) == GetScalar(fs, g)
    ensures forall g :: GetVector(r, g) == GetVector(fs, g)
  {
    match f
    case Radius => fs.(radius := v)
    case Alpha => fs.(alpha := v)
    case AlphaAlternate => fs.(alphaAlternate := v)
    case LifeDuration => fs.(lifetime := v)
    case Roll => fs.(roll := v)
    case RollSpeed => fs.(rollSpeed := v)
    case Yaw => fs.(yaw := v)
    case TrailLength => fs.(trailLength := v)
  }

  /** Writes one vector attribute; every other attribute keeps its value. */
  function SetVector(fs: Fields, f: VectorField, v: Vec3): (r: Fields)
    ensures GetVector(r, f) == v
    ensures forall g :: g != f ==> GetVector(r, g) == GetVector(fs, g)
    ensures forall g :: GetScalar(r, g) == GetScalar(fs, g)
  {
    match f
    case Position => fs.(position := v)
    case PositionPrevious => fs.(positionPrevious := v)
    case Color => fs.(color := v)
  }

  /** Two field records are equal when they agree on every attribute. */
  lemma FieldsExtensional(a: Fields, b: Fields)
    requires forall g :: GetScalar(a, g) == GetScalar(b, g)
    requires forall g :: GetVector(a, g) == GetVector(b, g)
    ensures a == b
  {
    assert GetScalar(a, Radius) == GetScalar(b, Radius);
    assert GetScalar(a, Alpha) == GetScalar(b, Alpha);
    assert GetScalar(a, AlphaAlternate) == GetScalar(b, AlphaAlternate);
    assert GetScalar(a, LifeDuration) == GetScalar(b, LifeDuration);
    assert GetScalar(a, Roll) == GetScalar(b, Roll);
    assert GetScalar(a, RollSpeed) == GetScalar(b, RollSpeed);
    assert GetScalar(a, Yaw) == GetScalar(b, Yaw);
    assert GetScalar(a, TrailLength) == GetScalar(b, TrailLength);
    assert GetVector(a, Position) == GetVector(b, Position);
    assert GetVector(a, PositionPrevious) == GetVector(b, PositionPrevious);
    assert GetVector(a, Color) == GetVector(b, Color);
  }

  /** Writing back the value a field already holds changes nothing. */
  lemma SetScalarSame(fs: Fields, f: ScalarField)
    ensures SetScalar(fs, f, GetScalar(fs, f)) == fs
  {
  }

  lemma SetVectorSame(fs: Fields, f: VectorField)
    ensures SetVector(fs, f, GetVector(fs, f)) == fs
  {
  }

  datatype Particle = Particle(
    id: int, age: real, velocity: Vec3, sequence: int,
    current: Fields, initial: Fields, killed: bool)

  function Kill(p: Particle): (r: Particle)
    ensures r.killed && r.(killed := p.killed) == p
  {
    p.(killed := true)
  }

  /** The way ModifyScalarBySetMethod / ModifyVectorBySetMethod combine a value with the particle's own. */
  datatype SetMethod =
    | ReplaceValue
    | ScaleInitialValue
    | AddToInitialValue
    | RampCurrentValue
    | ScaleCurrentValue
    | AddToCurrentValue

  /** The state of the particle system an operator can consult. */
  datatype RenderState = RenderState(controlPointPosition: int -> Vec3)

  /** A number provider: a literal, or a value computed from the particle and the system state. */
  datatype NumberProvider =
    | Literal(value: real)
    | Dynamic(compute: (Particle, RenderState) -> real)

  datatype VectorProvider =
    | LiteralVector(vector: Vec3)
    | DynamicVector(computeVector: (Particle, RenderState) -> Vec3)

  /** INumberProvider.NextNumber. */
  function NextNumber(n: NumberProvider, p: Particle, st: RenderState): (r: real)
    ensures n.Literal? ==> r == n.value
  {
    match n
    case Literal(v) => v
    case Dynamic(f) => f(p, st)
  }

  /** IVectorProvider.NextVector. */
  function NextVector(n: VectorProvider, p: Particle, st: RenderState): (r: Vec3)
    ensures n.LiteralVector? ==> r == n.vector
  {
    match n
    case LiteralVector(v) => v
    case DynamicVector(f) => f(p, st)
  }

  /** The helper functions the particle code calls but whose bodies are not part of this model. */
  datatype Helpers = Helpers(
    lerp: (real, real, real) -> real,                   // MathUtils.Lerp(t, a, b)
    lerpVector: (real, Vec3, Vec3) -> Vec3,             // MathUtils.Lerp(t, a, b) on vectors
    remap: (real, real, real) -> real,                  // MathUtils.Remap(x, a, b)
    saturate: real -> real,                             // MathUtils.Saturate
    minMaxFixUp: (real, real) -> (real, real),          // MathUtils.MinMaxFixUp(ref min, ref max)
    pow: (real, real) -> real,                          // MathF.Pow
    length: Vec3 -> real,                               // Vector3.Length
    normalize: Vec3 -> Vec3,                            // Vector3.Normalize
    component: (Vec3, int) -> real,                     // Vector3.GetComponent
    randomBetween: (int, real, real) -> real,           // RandomBetween(id, min, max)
    randomBetweenVector: (int, Vec3, Vec3) -> Vec3,     // RandomBetween(id, Vector3, Vector3)
    randomBetweenPerComponent: (int, Vec3, Vec3) -> Vec3,
    normalizedAge: (real, real) -> real,                // Particle.NormalizedAge of (age, lifetime)
    speed: Vec3 -> real,                                // Particle.Speed of the velocity
    modifyScalar: (Particle, ScalarField, real, SetMethod) -> real,
    modifyVector: (Particle, VectorField, Vec3, SetMethod) -> Vec3)

  function NormalizedAge(h: Helpers, p: Particle): real
  {
    h.normalizedAge(p.age, p.current.lifetime)
  }

  // The facts about the helpers that individual proofs rely on.

  ghost predicate LerpHitsEndpoints(h: Helpers)
  {
    forall a: real, b: real :: h.lerp(0.0, a, b) == a && h.lerp(1.0, a, b) == b
  }

  ghost predicate LerpOfEqualEnds(h: Helpers)
  {
    forall t: real, a: real :: h.lerp(t, a, a) == a
  }

  ghost predicate LerpStaysBetween(h: Helpers)
  {
    forall t: real, a: real, b: real :: 0.0 <= t <= 1.0 ==> Min(a, b) <= h.lerp(t, a, b) <= Max(a, b)
  }

  ghost predicate LerpVectorHitsEnd(h: Helpers)
  {
    forall a: Vec3, b: Vec3 :: h.lerpVector(1.0, a, b) == b
  }

  ghost predicate SaturateInUnit(h: Helpers)
  {
    forall x: real :: 0.0 <= h.saturate(x) <= 1.0
  }

  ghost predicate FixUpOrders(h: Helpers)
  {
    forall a: real, b: real :: h.minMaxFixUp(a, b).0 <= h.minMaxFixUp(a, b).1
  }

  /** Length is the non-negative square root of the squared length. */
  ghost predicate LengthIsEuclidean(h: Helpers)
  {
    forall v: Vec3 :: h.length(v) >= 0.0 && h.length(v) * h.length(v) == LengthSq(v)
  }

  ghost predicate NormalizeDividesByLength(h: Helpers)
  {
    forall v: Vec3 :: h.length(v) > 0.0 ==> h.normalize(v) == Scale(v, 1.0 / h.length(v))
  }

  ghost predicate ComponentSelectsAxis(h: Helpers)
  {
    forall v: Vec3 :: h.component(v, 0) == v.x && h.component(v, 1) == v.y && h.component(v, 2) == v.z
  }

  /** A draw between equal bounds returns that bound. */
  ghost predicate RandomOfEqualBounds(h: Helpers)
  {
    forall id: int, a: real :: h.randomBetween(id, a, a) == a
  }

  ghost predicate RandomPerComponentOfEqualBounds(h: Helpers)
  {
    forall id: int, v: Vec3 :: h.randomBetweenPerComponent(id, v, v) == v
  }

  ghost predicate ReplaceReturnsValue(h: Helpers)
  {
    forall p: Particle, f: ScalarField, v: real :: h.modifyScalar(p, f, v, ReplaceValue) == v
  }

  ghost predicate ReplaceVectorReturnsValue(h: Helpers)
  {
    forall p: Particle, f: VectorField, v: Vec3 :: h.modifyVector(p, f, v, ReplaceValue) == v
  }

  /** Scaling a vector scales its length by the factor's magnitude. */
  lemma LengthOfScaled(h: Helpers, v: Vec3, k: real)
    requires LengthIsEuclidean(h)
    ensures h.length(Scale(v, k)) == Abs(k) * h.length(v)
  {
    var a := h.length(Scale(v, k));
    var b := Abs(k) * h.length(v);
    LengthSqOfScale(v, k);
    assert a * a == k * k * LengthSq(v);
    assert b * b == Abs(k) * Abs(k) * (h.length(v) * h.length(v));
    assert Abs(k) * Abs(k) == k * k;
    assert b >= 0.0;
    SquareRootUnique(a, b);
  }

  /** A normalised non-zero vector has length one. */
  lemma LengthOfNormalized(h: Helpers, v: Vec3)
    requires LengthIsEuclidean(h) && NormalizeDividesByLength(h)
    requires h.length(v) > 0.0
    ensures h.length(h.normalize(v)) == 1.0
  {
    LengthOfScaled(h, v, 1.0 / h.length(v));
  }

  /** Applies a per-particle step to every particle of a frame. */
  function ForEach(ps: seq<Particle>, step: Particle -> Particle): (r: seq<Particle>)
    ensures |r| == |ps|
    ensures forall i :: 0 <= i < |ps| ==> r[i] == step(ps[i])
  {
    seq(|ps|, i requires 0 <= i < |ps| => step(ps[i]))
  }
}

=== FILE: paths.dfy ===
/**
 * The parts of System.IO.Path the model needs, with '/' as the only
 * directory separator.
 */
module Paths {
  import opened Text

  const Separator: char := '/'

  /** Index of the last `c` in `s`, or -1 when there is none. */
  function LastIndexOf(s: String, c: char): (r: int)
    ensures -1 <= r < |s|
    ensures r >= 0 ==> s[r] == c
    ensures forall i :: r < i < |s| ==> s[i] != c
  {
    if |s| == 0 then -1
    else if s[|s| - 1] == c then |s| - 1
    else LastIndexOf(s[..|s| - 1], c)
  }

  /** Path.GetFileName: the text after the last separator. */
  function GetFileName(path: String): (r: String)
    ensures Separator !in r
    ensures EndsWith(path, r)
    ensures |r| == |path| || path[|path| - |r| - 1] == Separator
  {
    var i := LastIndexOf(path, Separator);
    path[i + 1..]
  }

  /** No separator directly follows another. */
  predicate NoDoubledSeparators(s: String)
  {
    forall i :: 0 < i < |s| ==> !(s[i - 1] == Separator && s[i] == Separator)
  }

  /** Every separator that directly follows another dropped, as .NET normalises a directory name. */
  function CollapseSeparators(s: String): (r: String)
    ensures NoDoubledSeparators(r)
    ensures |r| <= |s|
    ensures |s| > 0 ==> |r| > 0 && r[0] == s[0] && r[|r| - 1] == s[|s| - 1]
    ensures forall c :: c != Separator ==> (c in r <==> c in s)
    ensures Separator in r <==> Separator in s
    ensures NoDoubledSeparators(s) ==> r == s
  {
    if |s| < 2 then s
    else if s[|s| - 2] == Separator && s[|s| - 1] == Separator then CollapseSeparators(s[..|s| - 1])
    else
      assert NoDoubledSeparators(s) ==> NoDoubledSeparators(s[..|s| - 1]);
      assert s == s[..|s| - 1] + [s[|s| - 1]];
      CollapseSeparators(s[..|s| - 1]) + [s[|s| - 1]]
  }

  /** Length of the root of a path: 1 when it starts at the separator, else 0. */
  function RootLength(path: String): (r: nat)
    ensures r <= 1 && r <= |path|
    ensures r == 1 <==> |path| > 0 && path[0] == Separator
  {
    if |path| > 0 && path[0] == Separator then 1 else 0
  }

  /** Moves `end` back over the separators just before it, stopping at the root. */
  function TrimSeparatorsBefore(path: String, end: nat, root: nat): (e: nat)
    requires root <= end <= |path|
    ensures root <= e <= end
    ensures forall k :: e <= k < end ==> path[k] == Separator
    ensures e == root || path[e - 1] != Separator
    decreases end
  {
    if end > root && path[end - 1] == Separator then TrimSeparatorsBefore(path, end - 1, root) else end
  }

  /**
   * Where .NET's directory name ends: at the last separator past the root
   * (or at the root when there is none), moved back over the separators
   * just before it.
   */
  function DirectoryEnd(path: String): (end: nat)
    requires |path| > RootLength(path)
    ensures RootLength(path) <= end < |path|
    ensures Separator !in path ==> end == 0
    ensures end == RootLength(path) || path[end - 1] != Separator
    ensures forall k :: end <= k <= LastIndexOf(path, Separator) ==> path[k] == Separator
    ensures NoDoubledSeparators(path) && LastIndexOf(path, Separator) > 0 ==> end == LastIndexOf(path, Separator)
  {
    var root := RootLength(path);
    var i := LastIndexOf(path, Separator);
    TrimSeparatorsBefore(path, if i >= root then i else root, root)
  }

  /**
   * Path.GetDirectoryName: the text before the separator run that precedes
   * the file name, with doubled separators collapsed; "" (null in .NET) for
   * an empty path or the bare root, "" when there is no separator, and "/"
   * for a file at the root.
   */
  function GetDirectoryName(path: String): (r: String)
    ensures Separator !in path ==> r == ""
    ensures |path| <= RootLength(path) ==> r == ""
    ensures NoDoubledSeparators(r)
    ensures RootLength(path) == 1 && |path| > 1 ==> |r| > 0 && r[0] == Separator
    ensures NoDoubledSeparators(path) && LastIndexOf(path, Separator) > 0 ==>
      r + [Separator] + GetFileName(path) == path
  {
    if |path| <= RootLength(path) then ""
    else
      var end := DirectoryEnd(path);
      assert NoDoubledSeparators(path) ==> NoDoubledSeparators(path[..end]);
      assert NoDoubledSeparators(path) && LastIndexOf(path, Separator) > 0 ==>
        path[..end] + [Separator] + GetFileName(path) == path;
      CollapseSeparators(path[..end])
  }

  /**
   * A directory without doubled or trailing separators, then any non-empty
   * run of separators, then a file name: the directory comes back.
   */
  lemma {:induction false} DirectoryBeforeSeparatorRun(dir: String, run: String, name: String)
    requires |dir| > 0 && dir[|dir| - 1] != Separator && NoDoubledSeparators(dir)
    requires |run| > 0 && forall k :: 0 <= k < |run| ==> run[k] == Separator
    requires Separator !in name
    ensures GetDirectoryName(dir + run + name) == dir
  {
    var path := dir + run + name;
    var last := |dir| + |run| - 1;
    assert path[last] == Separator;
    assert forall k :: last < k < |path| ==> path[k] == name[k - |dir| - |run|];
    assert LastIndexOf(path, Separator) == last;
    var root := RootLength(path);
    assert root <= 1 && root <= |dir|;
    if root == 1 {
      assert dir[0] == Separator;
      assert |dir| > 1;
    }
    var end := TrimSeparatorsBefore(path, last, root);
    assert forall k :: |dir| <= k <= last ==> path[k] == Separator;
    TrimOverRun(path, last, root, |dir|);
    assert end == |dir|;
    assert path[..end] == dir;
  }

  /** .NET's answers on a doubled separator before the file name, the bare root and a file at the root. */
  lemma GetDirectoryNameExamples()
    ensures GetDirectoryName("a//b") == "a"
    ensures GetDirectoryName("/") == ""
    ensures GetDirectoryName("/b") == "/"
  {
  }

  /** A doubled separator inside the directory is collapsed: "x//y/b" has the directory "x/y". */
  lemma CollapsedDirectoryExample()
    ensures GetDirectoryName("x//y/b") == "x/y"
  {
    var p: String := "x//y/b";
    assert LastIndexOf(p, Separator) == 4 by {
      assert p[5] != Separator && p[4] == Separator;
      assert p[..5] == "x//y/";
    }
    assert TrimSeparatorsBefore(p, 4, 0) == 4;
    var d: String := "x//y";
    assert p[..4] == d;
    assert d[..3] == "x//" && d[..3][..2] == "x/" && d[..3][..2][..1] == "x";
    assert CollapseSeparators("x/") == "x/";
    assert CollapseSeparators("x//") == "x/";
    assert CollapseSeparators(d) == "x/y";
  }

  /** Trimming from inside a separator run that starts at `start`, after a non-separator, stops at `start`. */
  lemma {:induction false} TrimOverRun(path: String, end: nat, root: nat, start: nat)
    requires root < start <= end <= |path|
    requires forall k :: start <= k < end ==> path[k] == Separator
    requires path[start - 1] != Separator
    ensures TrimSeparatorsBefore(path, end, root) == start
    decreases end
  {
    if end > start {
      TrimOverRun(path, end - 1, root, start);
    }
  }

  /** Path.ChangeExtension(path, null): drops the last extension of the file name. */
  function RemoveExtension(path: String): (r: String)
    ensures |r| <= |path| && r == path[..|r|]
    ensures r == path <==> LastIndexOf(path, '.') <= LastIndexOf(path, Separator)
    ensures r != path ==>
      && path[|r|] == '.'
      && forall i :: |r| < i < |path| ==> path[i] != '.' && path[i] != Separator
  {
    var dot := LastIndexOf(path, '.');
    var sep := LastIndexOf(path, Separator);
    if dot > sep then path[..dot] else path
  }

  /** A name without a dot has no extension to remove. */
  lemma RemoveExtensionWithoutDot(name: String)
    requires '.' !in name
    ensures RemoveExtension(name) == name
  {
    assert LastIndexOf(name, '.') == -1;
  }

  /** A plain file name keeps everything before its one dot. */
  lemma RemoveExtensionOf(name: String, ext: String)
    requires '.' !in name && Separator !in name && '.' !in ext && Separator !in ext
    ensures RemoveExtension(name + "." + ext) == name
  {
    var path := name + "." + ext;
    assert path[|name|] == '.';
    assert forall i :: |name| < i < |path| ==> path[i] != '.';
    assert LastIndexOf(path, '.') == |name|;
    assert forall i :: 0 <= i < |path| ==> path[i] != Separator;
    assert path[..|name|] == name;
  }

  /** Path.ChangeExtension(path, ext) for an extension that starts with a dot. */
  function ChangeExtension(path: String, ext: String): (r: String)
    ensures EndsWith(r, ext) && |r| == |RemoveExtension(path)| + |ext|
    ensures r[..|r| - |ext|] == RemoveExtension(path)
  {
    RemoveExtension(path) + ext
  }

  /** Path.GetFileNameWithoutExtension. */
  function GetFileNameWithoutExtension(path: String): (r: String)
    ensures Separator !in r
    ensures r == RemoveExtension(GetFileName(path))
  {
    RemoveExtension(GetFileName(path))
  }

  /** The file name of a path is everything after the directory and its separator. */
  lemma FileNameAfterDirectory(dir: String, name: String)
    requires Separator !in name
    ensures GetFileName(dir + [Separator] + name) == name
  {
    var path := dir + [Separator] + name;
    assert path[|dir|] == Separator;
    assert forall i :: |dir| < i < |path| ==> path[i] == name[i - |dir| - 1];
    assert LastIndexOf(path, Separator) == |dir|;
    assert path[|dir| + 1..] == name;
  }

  /** A file "dir/name.ext" without further dots or separators in name and ext is called name. */
  lemma FileNameWithoutExtensionOf(dir: String, name: String, ext: String)
    requires '.' !in name && Separator !in name && '.' !in ext && Separator !in ext
    ensures GetFileNameWithoutExtension(dir + [Separator] + name + "." + ext) == name
  {
    var file := name + "." + ext;
    assert Separator !in file by {
      assert forall i :: 0 <= i < |file| ==> file[i] == (if i < |name| then name[i] else if i == |name| then '.' else ext[i - |name| - 1]);
    }
    assert dir + [Separator] + name + "." + ext == dir + [Separator] + file;
    FileNameAfterDirectory(dir, file);
    RemoveExtensionOf(name, ext);
  }
}

=== FILE: remap_speed.dfy ===
/** The RemapSpeed operator: maps the particle's speed from an input range to an output range. */
module RemapSpeed {
  import opened Vectors
  import opened Particles

  datatype Config = Config(
    inputMin: NumberProvider, inputMax: NumberProvider,
    outputMin: NumberProvider, outputMax: NumberProvider,
    outputField: ScalarField, setMethod: SetMethod)

  const Defaults: Config := Config(Literal(0.0), Literal(1.0), Literal(0.0), Literal(1.0), Radius, ReplaceValue)

  /** The speed's saturated position in the input range, blended into the output range. */
  function RemappedSpeed(c: Config, h: Helpers, st: RenderState, p: Particle): real
  {
    var w := h.saturate(h.remap(h.speed(p.velocity), NextNumber(c.inputMin, p, st), NextNumber(c.inputMax, p, st)));
    h.lerp(w, NextNumber(c.outputMin, p, st), NextNumber(c.outputMax, p, st))
  }

  /** The output field receives the remapped speed combined by the set method; nothing else changes. */
  function Operate(c: Config, h: Helpers, st: RenderState, p: Particle): (r: Particle)
    ensures r.(current := p.current) == p
    ensures forall g :: g != c.outputField ==> GetScalar(r.current, g) == GetScalar(p.current, g)
    ensures forall g :: GetVector(r.current, g) == GetVector(p.current, g)
    ensures GetScalar(r.current, c.outputField)
      == h.modifyScalar(p, c.outputField, RemappedSpeed(c, h, st, p), c.setMethod)
  {
    var value := h.modifyScalar(p, c.outputField, RemappedSpeed(c, h, st, p), c.setMethod);
    p.(current := SetScalar(p.current, c.outputField, value))
  }

  /** The value handed to the set method lies between the output bounds. */
  lemma RemappedSpeedBetweenOutputs(c: Config, h: Helpers, st: RenderState, p: Particle)
    requires SaturateInUnit(h) && LerpStaysBetween(h)
    ensures var lo := NextNumber(c.outputMin, p, st);
      var hi := NextNumber(c.outputMax, p, st);
      Min(lo, hi) <= RemappedSpeed(c, h, st, p) <= Max(lo, hi)
  {
    var x := h.remap(h.speed(p.velocity), NextNumber(c.inputMin, p, st), NextNumber(c.inputMax, p, st));
    assert 0.0 <= h.saturate(x) <= 1.0;
  }

  /** With the replace method the field is set to the remapped speed itself. */
  lemma ReplaceWritesRemappedSpeed(c: Config, h: Helpers, st: RenderState, p: Particle)
    requires ReplaceReturnsValue(h) && c.setMethod == ReplaceValue
    ensures GetScalar(Operate(c, h, st, p).current, c.outputField) == RemappedSpeed(c, h, st, p)
  {
  }
}

=== FILE: render_sprites.dfy ===
/**
 * The CPU side of the RenderSprites particle renderer: the growth rule of
 * the vertex buffer, the vertex layout (nine floats per vertex, four
 * vertices per particle), the colour written to each vertex and the
 * texture coordinates chosen from a sprite sheet.
 */
module RenderSprites {
  import opened Wrappers
  import opened Vectors
  import opened Particles
  import Text

  /** Floats per vertex: position (3), colour and alpha (4), texture coordinates (2). */
  const VertexSize: nat := 9

  datatype AnimationType = FixedRate | FitLifetime | ManualFrames

  datatype Config = Config(animationRate: real, animationType: AnimationType, alphaScale: NumberProvider)

  const Defaults: Config := Config(0.1, FixedRate, Literal(1.0))

  /**
   * The texture name: m_hTexture when present, else the first entry of
   * m_vecTexturesInput, else none.
   */
  function TextureName(hTexture: Option<Text.String>, texturesInput: Option<seq<Option<Text.String>>>): (r: Option<Text.String>)
    ensures hTexture.Some? ==> r == hTexture
    ensures hTexture.None? && texturesInput.Some? && |texturesInput.value| > 0 ==> r == texturesInput.value[0]
    ensures hTexture.None? && (texturesInput.None? || |texturesInput.value| == 0) ==> r.None?
  {
    if hTexture.Some? then hTexture
    else if texturesInput.Some? && |texturesInput.value| > 0 then texturesInput.value[0]
    else None
  }

  datatype UV = UV(u: real, v: real)

  datatype Image = Image(croppedMin: UV, croppedMax: UV)
  datatype Frame = Frame(images: seq<Image>)
  datatype Sequence = Sequence(frames: seq<Frame>)
  datatype SpriteSheet = SpriteSheet(sequences: seq<Sequence>)

  datatype RenderError = IndexOutOfRange | DivideByZero

  /** C# `%` on integers: the remainder takes the sign of the dividend. */
  function CsRemainder(a: int, n: int): (r: int)
    requires n > 0
    ensures a >= 0 ==> r == a % n
    ensures -n < r < n
    ensures a < 0 ==> r <= 0
    ensures -n < a < 0 ==> r == a
  {
    if a >= 0 then a % n else -((-a) % n)
  }

  /** The texture coordinates used when there is no usable sprite sheet. */
  const DefaultUVs: seq<UV> := [UV(0.0, 1.0), UV(0.0, 0.0), UV(1.0, 0.0), UV(1.0, 1.0)]

  /** Whether the sheet passes the source's guard: a sheet whose first sequence has frames. */
  predicate HasFrames(sheet: Option<SpriteSheet>)
  {
    sheet.Some? && |sheet.value.sequences| > 0 && |sheet.value.sequences[0].frames| > 0
  }

  function AnimationTime(c: Config, h: Helpers, p: Particle): real
  {
    if c.animationType == FitLifetime then NormalizedAge(h, p) else p.age
  }

  /** The four corners of the cropped rectangle, in vertex order. */
  function RectangleUVs(img: Image): seq<UV>
  {
    var offset := img.croppedMin;
    var scale := UV(img.croppedMax.u - img.croppedMin.u, img.croppedMax.v - img.croppedMin.v);
    [UV(offset.u, offset.v + scale.v), UV(offset.u, offset.v),
     UV(offset.u + scale.u, offset.v), UV(offset.u + scale.u, offset.v + scale.v)]
  }

  /**
   * The frame an animation time selects: the frame count times the rate
   * times the time, rounded down, modulo the frame count (a C# remainder,
   * negative for a negative time).
   */
  function FrameIndex(c: Config, h: Helpers, frameCount: nat, p: Particle): (r: int)
    requires frameCount > 0
    ensures -(frameCount as int) < r < frameCount
  {
    FrameAt(c.animationRate, frameCount, AnimationTime(c, h, p))
  }

  function FrameAt(rate: real, frameCount: nat, time: real): (r: int)
    requires frameCount > 0
    ensures -(frameCount as int) < r < frameCount
  {
    CsRemainder(((frameCount as real) * rate * time).Floor, frameCount)
  }

  /**
   * The particle's texture coordinates: from the sprite sheet, the sequence
   * chosen by the particle's Sequence modulo the sequence count and the
   * frame chosen by the animation time; the default square otherwise. The
   * source throws for a negative remainder, a chosen sequence without frames
   * and a frame without images.
   */
  function QuadUVs(c: Config, h: Helpers, sheet: Option<SpriteSheet>, p: Particle): (r: Result<seq<UV>, RenderError>)
    ensures !HasFrames(sheet) ==> r == Success(DefaultUVs)
    ensures r.Success? ==> |r.value| == 4
    ensures HasFrames(sheet) ==>
      var seqs := sheet.value.sequences;
      var si := CsRemainder(p.sequence, |seqs|);
      && (si < 0 ==> r == Failure(IndexOutOfRange))
      && (si >= 0 && |seqs[si].frames| == 0 ==> r == Failure(DivideByZero))
      && (si >= 0 && |seqs[si].frames| > 0 ==>
            var fi := FrameIndex(c, h, |seqs[si].frames|, p);
            && (fi < 0 || |seqs[si].frames[fi].images| == 0 ==> r == Failure(IndexOutOfRange))
            && (fi >= 0 && |seqs[si].frames[fi].images| > 0 ==>
                  r == Success(RectangleUVs(seqs[si].frames[fi].images[0]))))
    ensures HasFrames(sheet) && -|sheet.value.sequences| < p.sequence < 0 ==> r == Failure(IndexOutOfRange)
  {
    if !HasFrames(sheet) then Success(DefaultUVs)
    else
      var seqs := sheet.value.sequences;
      var si := CsRemainder(p.sequence, |seqs|);
      if si < 0 then Failure(IndexOutOfRange)
      else
        var frames := seqs[si].frames;
        if |frames| == 0 then Failure(DivideByZero)
        else
          var fi := FrameIndex(c, h, |frames|, p);
          if fi < 0 then Failure(IndexOutOfRange)
          else
            var images := frames[fi].images;
            if |images| == 0 then Failure(IndexOutOfRange)
            else Success(RectangleUVs(images[0]))
  }

  /**
   * The sequence choice wraps around: two non-negative Sequence values that
   * differ by a multiple of the sequence count get the same coordinates.
   */
  lemma SequenceWraps(c: Config, h: Helpers, sheet: Option<SpriteSheet>, p: Particle, k: int)
    requires HasFrames(sheet) && p.sequence >= 0 && p.sequence + k * |sheet.value.sequences| >= 0
    ensures QuadUVs(c, h, sheet, p.(sequence := p.sequence + k * |sheet.value.sequences|)) == QuadUVs(c, h, sheet, p)
  {
    var n := |sheet.value.sequences|;
    ModuloShift(p.sequence, k, n);
    SameSequenceSameUVs(c, h, sheet, p, p.(sequence := p.sequence + k * n));
  }

  /** Two particles that differ only in Sequence, choosing the same sequence, get the same coordinates. */
  lemma SameSequenceSameUVs(c: Config, h: Helpers, sheet: Option<SpriteSheet>, p: Particle, q: Particle)
    requires HasFrames(sheet) && q == p.(sequence := q.sequence)
    requires CsRemainder(q.sequence, |sheet.value.sequences|) == CsRemainder(p.sequence, |sheet.value.sequences|)
    ensures QuadUVs(c, h, sheet, q) == QuadUVs(c, h, sheet, p)
  {
    var si := CsRemainder(p.sequence, |sheet.value.sequences|);
    if si >= 0 {
      var m := |sheet.value.sequences[si].frames|;
      if m > 0 {
        FrameIndexByTime(c, h, m, p, q);
      }
    }
  }

  /** The frame depends on the particle only through its animation time. */
  lemma FrameIndexByTime(c: Config, h: Helpers, m: nat, p: Particle, q: Particle)
    requires m > 0 && q == p.(sequence := q.sequence)
    ensures FrameIndex(c, h, m, q) == FrameIndex(c, h, m, p)
  {
    assert AnimationTime(c, h, q) == AnimationTime(c, h, p);
  }

  /** Adding a multiple of n to a non-negative number that stays non-negative keeps its remainder. */
  lemma ModuloShift(a: int, k: int, n: int)
    requires n > 0 && a >= 0 && a + k * n >= 0
    ensures (a + k * n) % n == a % n
  {
    var x := a + k * n;
    var q := a / n + k;
    assert x == q * n + a % n;
    RemainderUnique(x, q, a % n, n);
  }

  /** The remainder is the only r in [0, n) with x == q * n + r. */
  lemma RemainderUnique(x: int, q: int, r: int, n: int)
    requires n > 0 && 0 <= r < n && x == q * n + r
    ensures x % n == r
  {
    var d := q - x / n;
    assert d * n == x % n - r;
  }

  /** With a sprite sheet the frame's first image is used whenever the lookups succeed. */
  lemma SheetUVsAreFirstImage(c: Config, h: Helpers, sheet: Option<SpriteSheet>, p: Particle)
    requires HasFrames(sheet) && QuadUVs(c, h, sheet, p).Success?
    ensures var seqs := sheet.value.sequences;
      var si := CsRemainder(p.sequence, |seqs|);
      && 0 <= si && |seqs[si].frames| > 0
      && var fi := FrameIndex(c, h, |seqs[si].frames|, p);
      && 0 <= fi && |seqs[si].frames[fi].images| > 0
      && QuadUVs(c, h, sheet, p).value == RectangleUVs(seqs[si].frames[fi].images[0])
  {
  }

  /** The cropped rectangle's corners: bottom-left, top-left, top-right, bottom-right of the cropped area. */
  lemma RectangleCorners(img: Image)
    ensures RectangleUVs(img)[1] == img.croppedMin && RectangleUVs(img)[3] == img.croppedMax
    ensures RectangleUVs(img)[0] == UV(img.croppedMin.u, img.croppedMax.v)
    ensures RectangleUVs(img)[2] == UV(img.croppedMax.u, img.croppedMin.v)
  {
  }

  /** One vertex as written to the buffer. */
  datatype Vertex = Vertex(position: Vec3, color: Vec3, alpha: real, uv: UV)

  function VertexFloats(v: Vertex): (r: seq<real>)
    ensures |r| == VertexSize
  {
    [v.position.x, v.position.y, v.position.z, v.color.x, v.color.y, v.color.z, v.alpha, v.uv.u, v.uv.v]
  }

  /** The float layout of a vertex sequence. */
  function Flatten(vs: seq<Vertex>): (r: seq<real>)
    ensures |r| == VertexSize * |vs|
  {
    if |vs| == 0 then [] else VertexFloats(vs[0]) + Flatten(vs[1..])
  }

  /** Float `9k + off` of the layout is attribute `off` of vertex `k`. */
  lemma {:induction false} FlattenAt(vs: seq<Vertex>, k: nat, off: nat)
    requires k < |vs| && off < VertexSize
    ensures Flatten(vs)[VertexSize * k + off] == VertexFloats(vs[k])[off]
  {
    if k > 0 {
      FlattenAt(vs[1..], k - 1, off);
      assert Flatten(vs) == VertexFloats(vs[0]) + Flatten(vs[1..]);
      assert VertexSize * k + off == VertexSize + (VertexSize * (k - 1) + off);
    }
  }

  /** The alpha a particle's vertices get: its own alpha times alphaScale. */
  function ScaledAlpha(c: Config, st: RenderState, p: Particle): real
  {
    p.current.alpha * NextNumber(c.alphaScale, p, st)
  }

  /**
   * The four vertices of one particle: the transformed quad corners
   * (matrix maths is not part of this model, so `corner` supplies them),
   * the particle colour with its alpha times alphaScale, and the UVs.
   */
  function QuadVertices(
    c: Config, st: RenderState, corner: (Particle, nat) -> Vec3, p: Particle, uvs: seq<UV>): (r: seq<Vertex>)
    requires |uvs| == 4
    ensures |r| == 4
    ensures forall j :: 0 <= j < 4 ==>
      r[j] == Vertex(corner(p, j), p.current.color, ScaledAlpha(c, st, p), uvs[j])
  {
    var alpha := ScaledAlpha(c, st, p);
    seq(4, j requires 0 <= j < 4 => Vertex(corner(p, j), p.current.color, alpha, uvs[j]))
  }

  /** The vertices of all particles in order, or the first failure of a UV lookup. */
  function AllVertices(
    c: Config, h: Helpers, st: RenderState, sheet: Option<SpriteSheet>,
    corner: (Particle, nat) -> Vec3, ps: seq<Particle>): (r: Result<seq<Vertex>, RenderError>)
    ensures r.Success? <==> forall i :: 0 <= i < |ps| ==> QuadUVs(c, h, sheet, ps[i]).Success?
    ensures r.Success? ==> |r.value| == 4 * |ps|
    ensures r.Success? ==> forall i, j :: 0 <= i < |ps| && 0 <= j < 4 ==>
      r.value[4 * i + j] == QuadVertices(c, st, corner, ps[i], QuadUVs(c, h, sheet, ps[i]).value)[j]
  {
    if |ps| == 0 then Success([])
    else
      match QuadUVs(c, h, sheet, ps[0])
      case Failure(e) => Failure(e)
      case Success(uvs) =>
        match AllVertices(c, h, st, sheet, corner, ps[1..])
        case Failure(e) =>
          assert exists i :: 0 <= i < |ps[1..]| && QuadUVs(c, h, sheet, ps[1..][i]).Failure?;
          Failure(e)
        case Success(rest) =>
          var head := QuadVertices(c, st, corner, ps[0], uvs);
          var all := head + rest;
          forall i, j | 1 <= i < |ps| && 0 <= j < 4
            ensures all[4 * i + j] == QuadVertices(c, st, corner, ps[i], QuadUVs(c, h, sheet, ps[i]).value)[j]
          {
            assert ps[i] == ps[1..][i - 1];
            assert all[4 * i + j] == rest[4 * (i - 1) + j];
          }
          Success(all)
  }

  /**
   * EnsureSpaceForVertices: allocates exactly `count` vertices' worth of
   * floats when there is no buffer yet, keeps a buffer that is large
   * enough, and otherwise grows it to the next multiple of 64 vertices
   * above `count`, keeping its contents.
   */
  function EnsureSpace(buffer: Option<seq<real>>, count: nat): (r: seq<real>)
    ensures |r| >= count * VertexSize
    ensures buffer.None? ==> |r| == count * VertexSize
    ensures buffer.Some? && |buffer.value| >= count * VertexSize ==> r == buffer.value
    ensures buffer.Some? && |buffer.value| < count * VertexSize ==>
      |r| == ((count / 64) + 1) * 64 * VertexSize && r[..|buffer.value|] == buffer.value
      && |r| % (64 * VertexSize) == 0
  {
    var numFloats := count * VertexSize;
    match buffer
    case None => seq(numFloats, _ => 0.0)
    case Some(b) =>
      if |b| < numFloats then
        var nextSize := ((count / 64) + 1) * 64 * VertexSize;
        assert nextSize >= numFloats;
        b + seq(nextSize - |b|, _ => 0.0)
      else b
  }

  /** The outcome of one Render call: the vertex buffer afterwards and the number of indices drawn. */
  datatype Drawn = Drawn(buffer: Option<seq<real>>, indexCount: nat)

  /**
   * Render: nothing happens for an empty bag; otherwise the buffer is
   * made large enough for four vertices per particle, the vertices are
   * written from its start, and six indices per particle are drawn.
   */
  function Render(
    c: Config, h: Helpers, st: RenderState, sheet: Option<SpriteSheet>,
    corner: (Particle, nat) -> Vec3, buffer: Option<seq<real>>, ps: seq<Particle>): (r: Result<Drawn, RenderError>)
    ensures |ps| == 0 ==> r == Success(Drawn(buffer, 0))
    ensures |ps| > 0 && r.Success? ==>
      r.value.indexCount == 6 * |ps| && r.value.buffer.Some?
      && |r.value.buffer.value| >= 4 * |ps| * VertexSize
    ensures |ps| > 0 ==> (r.Success? <==> AllVertices(c, h, st, sheet, corner, ps).Success?)
  {
    if |ps| == 0 then Success(Drawn(buffer, 0))
    else
      var space := EnsureSpace(buffer, |ps| * 4);
      match AllVertices(c, h, st, sheet, corner, ps)
      case Failure(e) => Failure(e)
      case Success(vs) =>
        var written := Flatten(vs);
        Success(Drawn(Some(written + space[|written|..]), 6 * |ps|))
  }

  /**
   * Every vertex of particle i carries the particle's colour and its alpha
   * times alphaScale, at float offsets 3 to 6 of the vertex.
   */
  lemma RenderedColor(
    c: Config, h: Helpers, st: RenderState, sheet: Option<SpriteSheet>,
    corner: (Particle, nat) -> Vec3, buffer: Option<seq<real>>, ps: seq<Particle>, i: nat, j: nat)
    requires i < |ps| && j < 4
    requires Render(c, h, st, sheet, corner, buffer, ps).Success?
    ensures var b := Render(c, h, st, sheet, corner, buffer, ps).value.buffer.value;
      var base := (4 * i + j) * VertexSize;
      b[base + 3] == ps[i].current.color.x && b[base + 4] == ps[i].current.color.y
      && b[base + 5] == ps[i].current.color.z
      && b[base + 6] == ScaledAlpha(c, st, ps[i])
  {
    var v := Vertex(corner(ps[i], j), ps[i].current.color, ScaledAlpha(c, st, ps[i]), QuadUVs(c, h, sheet, ps[i]).value[j]);
    assert VertexFloats(v)[3] == v.color.x && VertexFloats(v)[4] == v.color.y;
    assert VertexFloats(v)[5] == v.color.z && VertexFloats(v)[6] == v.alpha;
    RenderedVertexFloat(c, h, st, sheet, corner, buffer, ps, i, j, 3);
    RenderedVertexFloat(c, h, st, sheet, corner, buffer, ps, i, j, 4);
    RenderedVertexFloat(c, h, st, sheet, corner, buffer, ps, i, j, 5);
    RenderedVertexFloat(c, h, st, sheet, corner, buffer, ps, i, j, 6);
  }

  /** Float `off` of vertex j of particle i in the rendered buffer. */
  lemma RenderedVertexFloat(
    c: Config, h: Helpers, st: RenderState, sheet: Option<SpriteSheet>,
    corner: (Particle, nat) -> Vec3, buffer: Option<seq<real>>, ps: seq<Particle>, i: nat, j: nat, off: nat)
    requires i < |ps| && j < 4 && off < VertexSize
    requires Render(c, h, st, sheet, corner, buffer, ps).Success?
    ensures Render(c, h, st, sheet, corner, buffer, ps).value.buffer.value[(4 * i + j) * VertexSize + off] ==
      VertexFloats(Vertex(corner(ps[i], j), ps[i].current.color, ScaledAlpha(c, st, ps[i]), QuadUVs(c, h, sheet, ps[i]).value[j]))[off]
  {
    var k := 4 * i + j;
    var all := AllVertices(c, h, st, sheet, corner, ps);
    RenderedFloat(c, h, st, sheet, corner, buffer, ps, k, k * VertexSize, off);
    VertexOfParticle(c, h, st, sheet, corner, ps, i, j);
  }

  /** Vertex j of particle i: the quad corner, the particle's colour and scaled alpha, and the UV. */
  lemma VertexOfParticle(
    c: Config, h: Helpers, st: RenderState, sheet: Option<SpriteSheet>,
    corner: (Particle, nat) -> Vec3, ps: seq<Particle>, i: nat, j: nat)
    requires i < |ps| && j < 4
    requires AllVertices(c, h, st, sheet, corner, ps).Success?
    ensures AllVertices(c, h, st, sheet, corner, ps).value[4 * i + j] ==
      Vertex(corner(ps[i], j), ps[i].current.color, ScaledAlpha(c, st, ps[i]), QuadUVs(c, h, sheet, ps[i]).value[j])
  {
    var uvs := QuadUVs(c, h, sheet, ps[i]).value;
    assert AllVertices(c, h, st, sheet, corner, ps).value[4 * i + j] == QuadVertices(c, st, corner, ps[i], uvs)[j];
  }

  /** Float `base + off` of the rendered buffer, with `base == 9k`, is attribute `off` of the k-th vertex. */
  lemma RenderedFloat(
    c: Config, h: Helpers, st: RenderState, sheet: Option<SpriteSheet>,
    corner: (Particle, nat) -> Vec3, buffer: Option<seq<real>>, ps: seq<Particle>, k: nat, base: nat, off: nat)
    requires k < 4 * |ps| && base == k * VertexSize && off < VertexSize
    requires Render(c, h, st, sheet, corner, buffer, ps).Success?
    ensures Render(c, h, st, sheet, corner, buffer, ps).value.buffer.value[base + off] ==
      VertexFloats(AllVertices(c, h, st, sheet, corner, ps).value[k])[off]
  {
    var vs := AllVertices(c, h, st, sheet, corner, ps).value;
    var written := Flatten(vs);
    var space := EnsureSpace(buffer, |ps| * 4);
    assert Render(c, h, st, sheet, corner, buffer, ps).value.buffer.value == written + space[|written|..];
    FlattenAt(vs, k, off);
    assert base == VertexSize * k;
  }

  /** A buffer that EnsureSpace returned is kept as it is by a second call for the same count. */
  lemma EnsureSpaceStable(buffer: Option<seq<real>>, count: nat)
    ensures EnsureSpace(Some(EnsureSpace(buffer, count)), count) == EnsureSpace(buffer, count)
  {
  }

  /** Without a usable sprite sheet rendering never fails, and every vertex gets the default UVs. */
  lemma {:induction false} NoSheetNeverFails(
    c: Config, h: Helpers, st: RenderState, sheet: Option<SpriteSheet>,
    corner: (Particle, nat) -> Vec3, buffer: Option<seq<real>>, ps: seq<Particle>)
    requires !HasFrames(sheet)
    ensures Render(c, h, st, sheet, corner, buffer, ps).Success?
    ensures forall i :: 0 <= i < |ps| ==> QuadUVs(c, h, sheet, ps[i]) == Success(DefaultUVs)
  {
    forall i | 0 <= i < |ps|
      ensures QuadUVs(c, h, sheet, ps[i]).Success?
    {
    }
  }
}

=== FILE: scene_aggregate.dfy ===
/**
 * SceneAggregate: an aggregate scene object whose single render mesh is
 * split into fragments, one per draw call or one per aggregate mesh.
 */
module SceneAggregate {
  import opened Wrappers
  import opened Vectors
  import Text
  import opened ModelMeshes

  /** A 4x4 transform, kept opaque: matrix products are not part of this model. */
  datatype Matrix = Matrix(entries: seq<real>)

  datatype RenderMesh = RenderMesh(mesh: Mesh, meshIndex: int)

  datatype AggregateError =
    | MoreThanOneEmbeddedMesh
    | NoReferencedMesh
    | MoreThanOneReferencedMesh
    | IndexOutOfRange
    | MissingDrawCallIndex

  /**
   * The constructor. Embedded meshes take precedence: exactly one is
   * allowed. Otherwise exactly one referenced mesh must be in LoD 0; it is
   * loaded by name with "_c" appended, and a failed load leaves the
   * aggregate without a render mesh.
   */
  function Construct(embedded: seq<EmbeddedMesh>, refs: seq<ReferencedMesh>, load: Text.String -> Option<Mesh>):
    (r: Result<Option<RenderMesh>, AggregateError>)
    ensures |embedded| == 1 ==> r == Success(Some(RenderMesh(embedded[0].mesh, 0)))
    ensures |embedded| > 1 ==> r == Failure(MoreThanOneEmbeddedMesh)
    ensures |embedded| == 0 && |LoD0References(refs)| == 0 ==> r == Failure(NoReferencedMesh)
    ensures |embedded| == 0 && |LoD0References(refs)| > 1 ==> r == Failure(MoreThanOneReferencedMesh)
    ensures |embedded| == 0 && r.Success? && r.value.Some? ==>
      exists m :: m in refs && InLod0(m.lodMask) && load(CompiledName(m)) == Some(r.value.value.mesh)
        && r.value.value.meshIndex == m.meshIndex
    ensures |embedded| == 0 && |LoD0References(refs)| == 1 ==>
      r.Success? && (r.value.None? <==> load(CompiledName(LoD0References(refs)[0])).None?)
  {
    if |embedded| > 0 then
      if |embedded| > 1 then Failure(MoreThanOneEmbeddedMesh)
      else Success(Some(RenderMesh(embedded[0].mesh, 0)))
    else
      var lod0 := LoD0References(refs);
      if |lod0| == 0 then Failure(NoReferencedMesh)
      else if |lod0| > 1 then Failure(MoreThanOneReferencedMesh)
      else
        var m := lod0[0];
        assert m in lod0;
        match load(CompiledName(m))
        case None => Success(None)
        case Some(mesh) => Success(Some(RenderMesh(mesh, m.meshIndex)))
  }

  /** One entry of m_aggregateMeshes. */
  datatype AggregateMesh = AggregateMesh(
    drawCallIndex: Option<int>, worldBounds: seq<Vec3>, tintColor: Vec3, hasTransform: bool)

  /** The scene node the fragments belong to. */
  datatype Parent = Parent(name: Text.String, layerName: Text.String)

  /** A fragment: a transform of None is the identity. */
  datatype Fragment = Fragment(
    name: Text.String, layerName: Text.String, bounds: AABB, drawCall: DrawCall,
    tint: Option<Vec3>, transform: Option<Matrix>)

  /** Whether the draw-call-to-mesh layout applies: the first aggregate mesh has no draw call index. */
  predicate DrawCallLayout(meshes: seq<AggregateMesh>)
  {
    |meshes| > 0 && meshes[0].drawCallIndex.None?
  }

  /**
   * The draw-call-to-mesh layout: one fragment per opaque draw call, bounded
   * by the world bounds of the aggregate mesh its MeshId selects; the
   * fragment's draw call carries those bounds, as the render mesh's own
   * draw call does afterwards (BoundCalls).
   */
  function FragmentsPerDrawCall(parent: Parent, meshes: seq<AggregateMesh>, calls: seq<DrawCall>):
    (r: Result<seq<Fragment>, AggregateError>)
    ensures r.Success? <==> forall i :: 0 <= i < |calls| ==>
      0 <= calls[i].meshId < |meshes| && |meshes[calls[i].meshId].worldBounds| >= 2
    ensures r.Success? ==> |r.value| == |calls|
    ensures r.Success? ==> forall i :: 0 <= i < |calls| ==>
      var wb := meshes[calls[i].meshId].worldBounds;
      r.value[i] == Fragment(parent.name, parent.layerName, AABB(wb[0], wb[1]),
        calls[i].(drawBounds := Some(AABB(wb[0], wb[1]))), None, None)
  {
    if |calls| == 0 then Success([])
    else
      var dc := calls[0];
      if !(0 <= dc.meshId < |meshes|) || |meshes[dc.meshId].worldBounds| < 2 then Failure(IndexOutOfRange)
      else
        var wb := meshes[dc.meshId].worldBounds;
        var bounds := AABB(wb[0], wb[1]);
        var f := Fragment(parent.name, parent.layerName, bounds, dc.(drawBounds := Some(bounds)), None, None);
        match FragmentsPerDrawCall(parent, meshes, calls[1..])
        case Failure(e) =>
          assert !(0 <= calls[1..][0].meshId < |meshes| && |meshes[calls[1..][0].meshId].worldBounds| >= 2)
            || exists i :: 1 <= i < |calls[1..]| && !(0 <= calls[1..][i].meshId < |meshes|
                 && |meshes[calls[1..][i].meshId].worldBounds| >= 2);
          Failure(e)
        case Success(rest) =>
          assert forall i :: 1 <= i < |calls| ==> calls[i] == calls[1..][i - 1];
          Success([f] + rest)
  }

  /** Whether a draw call's MeshId selects an aggregate mesh with two world-bound corners. */
  predicate HasWorldBounds(meshes: seq<AggregateMesh>, dc: DrawCall)
  {
    0 <= dc.meshId < |meshes| && |meshes[dc.meshId].worldBounds| >= 2
  }

  /** The box of the aggregate mesh a draw call selects. */
  function WorldBoundsOf(meshes: seq<AggregateMesh>, dc: DrawCall): AABB
    requires HasWorldBounds(meshes, dc)
  {
    AABB(meshes[dc.meshId].worldBounds[0], meshes[dc.meshId].worldBounds[1])
  }

  /** How many draw calls from the start select world bounds before the first that does not. */
  function ResolvedPrefix(meshes: seq<AggregateMesh>, calls: seq<DrawCall>): (r: nat)
    ensures r <= |calls|
    ensures forall j :: 0 <= j < r ==> HasWorldBounds(meshes, calls[j])
    ensures r < |calls| ==> !HasWorldBounds(meshes, calls[r])
    decreases |calls|
  {
    if |calls| == 0 || !HasWorldBounds(meshes, calls[0]) then 0
    else
      var rest := ResolvedPrefix(meshes, calls[1..]);
      assert forall j :: 1 <= j < |calls| ==> calls[j] == calls[1..][j - 1];
      1 + rest
  }

  /**
   * The render mesh's opaque draw calls after the draw-call-to-mesh layout
   * has run: the source writes DrawBounds into the shared draw-call
   * objects one by one, so every call before the first one that throws has
   * its world bounds, and the rest are unchanged.
   */
  function BoundCalls(meshes: seq<AggregateMesh>, calls: seq<DrawCall>): (r: seq<DrawCall>)
    ensures |r| == |calls|
    ensures forall i :: 0 <= i < ResolvedPrefix(meshes, calls) ==>
      r[i] == calls[i].(drawBounds := Some(WorldBoundsOf(meshes, calls[i])))
    ensures forall i :: ResolvedPrefix(meshes, calls) <= i < |calls| ==> r[i] == calls[i]
    decreases |calls|
  {
    if |calls| == 0 then []
    else if !HasWorldBounds(meshes, calls[0]) then calls
    else
      var rest := BoundCalls(meshes, calls[1..]);
      assert forall j :: 1 <= j < |calls| ==> calls[j] == calls[1..][j - 1];
      [calls[0].(drawBounds := Some(WorldBoundsOf(meshes, calls[0])))] + rest
  }

  /** The layout succeeds exactly when every draw call selects world bounds. */
  lemma {:induction false} DrawCallLayoutSucceedsIff(parent: Parent, meshes: seq<AggregateMesh>, calls: seq<DrawCall>)
    ensures FragmentsPerDrawCall(parent, meshes, calls).Success? <==> ResolvedPrefix(meshes, calls) == |calls|
  {
    var n := ResolvedPrefix(meshes, calls);
    if n < |calls| {
      assert !HasWorldBounds(meshes, calls[n]);
    }
  }

  /**
   * Each fragment of the draw-call-to-mesh layout holds the same draw call
   * the render mesh holds afterwards, bounds included.
   */
  lemma FragmentsShareDrawCalls(parent: Parent, meshes: seq<AggregateMesh>, calls: seq<DrawCall>)
    requires FragmentsPerDrawCall(parent, meshes, calls).Success?
    ensures forall i :: 0 <= i < |calls| ==>
      FragmentsPerDrawCall(parent, meshes, calls).value[i].drawCall == BoundCalls(meshes, calls)[i]
  {
    DrawCallLayoutSucceedsIff(parent, meshes, calls);
  }

  /** The render mesh after CreateFragments: only the draw-call-to-mesh layout writes bounds into it. */
  function MeshAfterFragments(rm: Mesh, meshes: seq<AggregateMesh>): (r: Mesh)
    ensures r.boundingBox == rm.boundingBox && |r.drawCallsOpaque| == |rm.drawCallsOpaque|
    ensures !DrawCallLayout(meshes) ==> r == rm
    ensures forall i :: 0 <= i < |rm.drawCallsOpaque| ==> r.drawCallsOpaque[i].meshId == rm.drawCallsOpaque[i].meshId
    ensures DrawCallLayout(meshes) ==> forall i :: 0 <= i < |rm.drawCallsOpaque| ==>
      r.drawCallsOpaque[i].drawBounds.Some? || r.drawCallsOpaque[i] == rm.drawCallsOpaque[i]
  {
    if DrawCallLayout(meshes) then rm.(drawCallsOpaque := BoundCalls(meshes, rm.drawCallsOpaque)) else rm
  }

  /** How many of the aggregate meshes carry a transform. */
  function TransformCount(meshes: seq<AggregateMesh>): (r: nat)
    ensures r <= |meshes|
  {
    if |meshes| == 0 then 0 else (if meshes[0].hasTransform then 1 else 0) + TransformCount(meshes[1..])
  }

  lemma {:induction false} TransformCountAppend(a: seq<AggregateMesh>, b: seq<AggregateMesh>)
    ensures TransformCount(a + b) == TransformCount(a) + TransformCount(b)
  {
    if |a| > 0 {
      assert (a + b)[0] == a[0];
      assert (a + b)[1..] == a[1..] + b;
      TransformCountAppend(a[1..], b);
    } else {
      assert a + b == b;
    }
  }

  /** Whether mesh m can become a fragment: it has a draw call index that selects an opaque draw call. */
  predicate ResolvesDrawCall(m: AggregateMesh, calls: seq<DrawCall>)
  {
    m.drawCallIndex.Some? && 0 <= m.drawCallIndex.value < |calls|
  }

  /**
   * The mesh-to-draw-call layout from transform cursor `next` on: one
   * fragment per aggregate mesh, pointing at the draw call its index
   * selects, bounded by the draw call's bounds or else the mesh bounding
   * box, tinted with the mesh's tint, and taking the next unused fragment
   * transform exactly when it has one.
   */
  function FragmentsPerMesh(
    parent: Parent, rm: Mesh, meshes: seq<AggregateMesh>, transforms: seq<Matrix>, next: nat):
    (r: Result<seq<Fragment>, AggregateError>)
    requires next <= |transforms|
    decreases |meshes|
    ensures r.Success? <==>
      (forall i :: 0 <= i < |meshes| ==> ResolvesDrawCall(meshes[i], rm.drawCallsOpaque))
      && next + TransformCount(meshes) <= |transforms|
    ensures r.Success? ==> |r.value| == |meshes|
  {
    if |meshes| == 0 then Success([])
    else
      var m := meshes[0];
      if !ResolvesDrawCall(m, rm.drawCallsOpaque) then Failure(IndexOutOfRange)
      else if m.hasTransform && next >= |transforms| then Failure(IndexOutOfRange)
      else
        var dc := rm.drawCallsOpaque[m.drawCallIndex.value];
        var transform := if m.hasTransform then Some(transforms[next]) else None;
        var f := Fragment(parent.name, parent.layerName, dc.drawBounds.GetOr(rm.boundingBox), dc,
          Some(m.tintColor), transform);
        var next' := if m.hasTransform then next + 1 else next;
        assert TransformCount(meshes) == (if m.hasTransform then 1 else 0) + TransformCount(meshes[1..]);
        assert forall i :: 1 <= i < |meshes| ==> meshes[i] == meshes[1..][i - 1];
        match FragmentsPerMesh(parent, rm, meshes[1..], transforms, next')
        case Failure(e) => Failure(e)
        case Success(rest) => Success([f] + rest)
  }

  /**
   * Fragment i of the mesh-to-draw-call layout points at mesh i's draw
   * call, is bounded by that call's bounds or else the mesh bounding box,
   * is tinted with the mesh's tint, and takes the next unused transform
   * exactly when the mesh has one.
   */
  lemma {:induction false} FragmentsPerMeshAt(
    parent: Parent, rm: Mesh, meshes: seq<AggregateMesh>, transforms: seq<Matrix>, next: nat, i: nat)
    requires next <= |transforms| && i < |meshes|
    requires FragmentsPerMesh(parent, rm, meshes, transforms, next).Success?
    decreases i
    ensures ResolvesDrawCall(meshes[i], rm.drawCallsOpaque)
    ensures var r := FragmentsPerMesh(parent, rm, meshes, transforms, next).value;
      var dc := rm.drawCallsOpaque[meshes[i].drawCallIndex.value];
      && r[i].drawCall == dc
      && r[i].bounds == dc.drawBounds.GetOr(rm.boundingBox)
      && r[i].tint == Some(meshes[i].tintColor)
      && r[i].name == parent.name && r[i].layerName == parent.layerName
      && (!meshes[i].hasTransform ==> r[i].transform.None?)
      && (meshes[i].hasTransform ==>
            next + TransformCount(meshes[..i]) < |transforms|
            && r[i].transform == Some(transforms[next + TransformCount(meshes[..i])]))
  {
    var m := meshes[0];
    var next' := if m.hasTransform then next + 1 else next;
    assert TransformCount(meshes) == (if m.hasTransform then 1 else 0) + TransformCount(meshes[1..]);
    var rest := FragmentsPerMesh(parent, rm, meshes[1..], transforms, next');
    assert rest.Success?;
    assert FragmentsPerMesh(parent, rm, meshes, transforms, next).value[1..] == rest.value;
    if i == 0 {
      assert meshes[..0] == [];
    } else {
      FragmentsPerMeshAt(parent, rm, meshes[1..], transforms, next', i - 1);
      assert meshes[1..][i - 1] == meshes[i];
      assert meshes[..i] == [m] + meshes[1..][..i - 1];
      TransformCountAppend([m], meshes[1..][..i - 1]);
    }
  }

  /** Every fragment of the mesh-to-draw-call layout carries the parent's name and layer. */
  lemma FragmentsPerMeshNamed(parent: Parent, rm: Mesh, meshes: seq<AggregateMesh>, transforms: seq<Matrix>, next: nat)
    requires next <= |transforms|
    requires FragmentsPerMesh(parent, rm, meshes, transforms, next).Success?
    ensures forall i :: 0 <= i < |FragmentsPerMesh(parent, rm, meshes, transforms, next).value| ==>
      FragmentsPerMesh(parent, rm, meshes, transforms, next).value[i].name == parent.name
      && FragmentsPerMesh(parent, rm, meshes, transforms, next).value[i].layerName == parent.layerName
  {
    forall i | 0 <= i < |FragmentsPerMesh(parent, rm, meshes, transforms, next).value|
      ensures FragmentsPerMesh(parent, rm, meshes, transforms, next).value[i].name == parent.name
      ensures FragmentsPerMesh(parent, rm, meshes, transforms, next).value[i].layerName == parent.layerName
    {
      FragmentsPerMeshAt(parent, rm, meshes, transforms, next, i);
    }
  }

  /** CreateFragments: the layout is chosen by whether the first aggregate mesh has a draw call index. */
  function CreateFragments(parent: Parent, rm: Mesh, meshes: seq<AggregateMesh>, transforms: seq<Matrix>):
    (r: Result<seq<Fragment>, AggregateError>)
    ensures DrawCallLayout(meshes) ==> r == FragmentsPerDrawCall(parent, meshes, rm.drawCallsOpaque)
    ensures !DrawCallLayout(meshes) ==> r == FragmentsPerMesh(parent, rm, meshes, transforms, 0)
    ensures r.Success? ==> forall i :: 0 <= i < |r.value| ==>
      r.value[i].name == parent.name && r.value[i].layerName == parent.layerName
  {
    if DrawCallLayout(meshes) then FragmentsPerDrawCall(parent, meshes, rm.drawCallsOpaque)
    else
      var r := FragmentsPerMesh(parent, rm, meshes, transforms, 0);
      if r.Success? then FragmentsPerMeshNamed(parent, rm, meshes, transforms, 0); r
      else r
  }

  /**
   * In the mesh-to-draw-call layout the fragments consume the transform
   * list as a prefix: the k-th fragment with a transform gets transform k.
   */
  lemma TransformsConsumedInOrder(
    parent: Parent, rm: Mesh, meshes: seq<AggregateMesh>, transforms: seq<Matrix>, i: nat)
    requires !DrawCallLayout(meshes)
    requires CreateFragments(parent, rm, meshes, transforms).Success?
    requires i < |meshes| && meshes[i].hasTransform
    ensures TransformCount(meshes[..i]) < |transforms|
    ensures CreateFragments(parent, rm, meshes, transforms).value[i].transform
      == Some(transforms[TransformCount(meshes[..i])])
  {
    FragmentsPerMeshAt(parent, rm, meshes, transforms, 0, i);
    assert meshes == meshes[..i] + meshes[i..];
    TransformCountAppend(meshes[..i], meshes[i..]);
    assert meshes[i..][0] == meshes[i];
    assert TransformCount(meshes[i..]) >= 1;
  }

  /** An empty aggregate-mesh list gives no fragments. */
  lemma NoMeshesNoFragments(parent: Parent, rm: Mesh, transforms: seq<Matrix>)
    ensures CreateFragments(parent, rm, [], transforms) == Success([])
  {
  }
}

=== FILE: seqs.dfy ===
/** Sequence helpers used by several parts of the model. */
module Seqs {

  /** The elements of `s` that satisfy `p`, in their original order. */
  function Filter<T>(p: T -> bool, s: seq<T>): (r: seq<T>)
    ensures |r| <= |s|
    ensures forall i :: 0 <= i < |r| ==> r[i] in s && p(r[i])
    ensures forall i :: 0 <= i < |s| && p(s[i]) ==> s[i] in r
  {
    if |s| == 0 then []
    else if p(s[0]) then [s[0]] + Filter(p, s[1..])
    else Filter(p, s[1..])
  }

  lemma {:induction false} FilterAppend<T>(p: T -> bool, a: seq<T>, b: seq<T>)
    ensures Filter(p, a + b) == Filter(p, a) + Filter(p, b)
  {
    if |a| == 0 {
      assert a + b == b;
    } else {
      assert (a + b)[1..] == a[1..] + b;
      FilterAppend(p, a[1..], b);
    }
  }

  /** The distinct elements of `s` in the order of their first occurrence. */
  function Distinct<T(==)>(s: seq<T>): (r: seq<T>)
    ensures forall i :: 0 <= i < |r| ==> r[i] in s
    ensures forall i :: 0 <= i < |s| ==> s[i] in r
    ensures forall i, j :: 0 <= i < j < |r| ==> r[i] != r[j]
  {
    if |s| == 0 then []
    else
      var rest := Distinct(s[..|s| - 1]);
      if s[|s| - 1] in rest then rest else rest + [s[|s| - 1]]
  }

  lemma AppendAssoc<T>(a: seq<T>, b: seq<T>, c: seq<T>)
    ensures (a + b) + c == a + (b + c)
  {
  }

  /** Concatenation of a sequence of sequences. */
  function Concat<T>(ss: seq<seq<T>>): seq<T>
  {
    if |ss| == 0 then [] else ss[0] + Concat(ss[1..])
  }

  lemma {:induction false} ConcatAppend<T>(a: seq<seq<T>>, b: seq<seq<T>>)
    ensures Concat(a + b) == Concat(a) + Concat(b)
  {
    if |a| == 0 {
      assert a + b == b;
    } else {
      assert (a + b)[1..] == a[1..] + b;
      ConcatAppend(a[1..], b);
    }
  }

  /** Position of the first occurrence of `x` in `s`. */
  function FirstIndex<T(==)>(s: seq<T>, x: T): (r: nat)
    requires x in s
    ensures r < |s| && s[r] == x
    ensures forall i :: 0 <= i < r ==> s[i] != x
  {
    if s[0] == x then 0 else 1 + FirstIndex(s[1..], x)
  }

  lemma FirstIndexPrefix<T>(s: seq<T>, x: T)
    requires |s| > 0 && x in s[..|s| - 1]
    ensures FirstIndex(s, x) == FirstIndex(s[..|s| - 1], x)
  {
    var p := s[..|s| - 1];
    var a := FirstIndex(s, x);
    var b := FirstIndex(p, x);
    assert s[b] == x;
    assert a < |p| ==> p[a] == s[a];
  }

  /** `Distinct` lists the elements in the order of their first use. */
  lemma {:induction false} DistinctFirstUse<T>(s: seq<T>, i: nat, j: nat)
    requires i < j < |Distinct(s)|
    ensures FirstIndex(s, Distinct(s)[i]) < FirstIndex(s, Distinct(s)[j])
  {
    var p := s[..|s| - 1];
    var d := Distinct(s);
    var dp := Distinct(p);
    var last := s[|s| - 1];
    assert d == dp || d == dp + [last];
    assert d[i] == dp[i];
    assert dp[i] in p;
    FirstIndexPrefix(s, dp[i]);
    if j < |dp| {
      assert d[j] == dp[j];
      assert dp[j] in p;
      DistinctFirstUse(p, i, j);
      FirstIndexPrefix(s, dp[j]);
    } else {
      assert d == dp + [last] && d[j] == last;
      assert last !in p;
      assert FirstIndex(s, last) == |s| - 1;
    }
  }

  /** The integers lo, lo+1, ..., hi-1. */
  function Range(lo: int, hi: int): (r: seq<int>)
    ensures |r| == (if hi > lo then hi - lo else 0)
    ensures forall i :: 0 <= i < |r| ==> r[i] == lo + i
  {
    if hi > lo then seq(hi - lo, i requires 0 <= i < hi - lo => lo + i) else []
  }

  /** The values of `s` as a set. */
  function Elements(s: seq<int>): (r: set<int>)
    ensures forall x :: x in r <==> x in s
  {
    if |s| == 0 then {} else Elements(s[..|s| - 1]) + {s[|s| - 1]}
  }

  /** The set {0, ..., n-1}. */
  function RangeSet(n: nat): (r: set<int>)
    ensures forall x :: x in r <==> 0 <= x < n
    ensures |r| == n
  {
    if n == 0 then {} else RangeSet(n - 1) + {n - 1}
  }

  lemma {:induction false} ElementsSize(s: seq<int>)
    requires forall i, j :: 0 <= i < j < |s| ==> s[i] != s[j]
    ensures |Elements(s)| == |s|
  {
    if |s| > 0 {
      var p := s[..|s| - 1];
      ElementsSize(p);
      assert s[|s| - 1] !in p;
    }
  }

  /** A duplicate-free sequence of numbers below n has at most n elements. */
  lemma DistinctBound(s: seq<int>, n: nat)
    requires forall i :: 0 <= i < |s| ==> 0 <= s[i] < n
    requires forall i, j :: 0 <= i < j < |s| ==> s[i] != s[j]
    ensures |s| <= n
  {
    ElementsSize(s);
    var a := Elements(s);
    var b := RangeSet(n);
    assert a <= b;
    assert b == a + (b - a);
  }
}

=== FILE: set_float.dfy ===
/** The SetFloat operator: moves a scalar field towards a value combined by a set method. */
module SetFloat {
  import opened Particles

  datatype Config = Config(outputField: ScalarField, value: NumberProvider, setMethod: SetMethod, lerp: NumberProvider)

  const Defaults: Config := Config(Radius, Literal(0.0), ReplaceValue, Literal(1.0))

  /** The set-method result for this particle. */
  function SetValue(c: Config, h: Helpers, st: RenderState, p: Particle): real
  {
    h.modifyScalar(p, c.outputField, NextNumber(c.value, p, st), c.setMethod)
  }

  /**
   * The output field becomes a blend from its CURRENT value to the
   * set-method result by the lerp amount; nothing else changes.
   */
  function Update(c: Config, h: Helpers, st: RenderState, p: Particle): (r: Particle)
    ensures r.(current := p.current) == p
    ensures forall g :: g != c.outputField ==> GetScalar(r.current, g) == GetScalar(p.current, g)
    ensures forall g :: GetVector(r.current, g) == GetVector(p.current, g)
    ensures GetScalar(r.current, c.outputField)
      == h.lerp(NextNumber(c.lerp, p, st), GetScalar(p.current, c.outputField), SetValue(c, h, st, p))
  {
    var current := GetScalar(p.current, c.outputField);
    var value := h.lerp(NextNumber(c.lerp, p, st), current, SetValue(c, h, st, p));
    p.(current := SetScalar(p.current, c.outputField, value))
  }

  /** With the default lerp of 1 the field is set to the set-method result. */
  lemma FullLerpWritesSetValue(c: Config, h: Helpers, st: RenderState, p: Particle)
    requires LerpHitsEndpoints(h) && c.lerp == Literal(1.0)
    ensures GetScalar(Update(c, h, st, p).current, c.outputField) == SetValue(c, h, st, p)
  {
  }

  /** A lerp of 0 leaves the particle as it was. */
  lemma ZeroLerpChangesNothing(c: Config, h: Helpers, st: RenderState, p: Particle)
    requires LerpHitsEndpoints(h) && c.lerp == Literal(0.0)
    ensures Update(c, h, st, p) == p
  {
    SetScalarSame(p.current, c.outputField);
  }

  /** With the defaults and the replace semantics every particle's radius is set to 0. */
  lemma DefaultsZeroTheRadius(h: Helpers, st: RenderState, p: Particle)
    requires LerpHitsEndpoints(h) && ReplaceReturnsValue(h)
    ensures Update(Defaults, h, st, p).current.radius == 0.0
  {
  }
}

=== FILE: set_vec.dfy ===
/** The SetVec operator: moves a vector field towards a value combined by a set method. */
module SetVec {
  import opened Vectors
  import opened Particles

  datatype Config = Config(outputField: VectorField, value: VectorProvider, setMethod: SetMethod, lerp: NumberProvider)

  const Defaults: Config := Config(Color, LiteralVector(Zero), ReplaceValue, Literal(1.0))

  function SetValue(c: Config, h: Helpers, st: RenderState, p: Particle): Vec3
  {
    h.modifyVector(p, c.outputField, NextVector(c.value, p, st), c.setMethod)
  }

  /**
   * The output field becomes a blend from its current value to the
   * set-method result by the lerp amount; nothing else changes.
   */
  function Operate(c: Config, h: Helpers, st: RenderState, p: Particle): (r: Particle)
    ensures r.(current := p.current) == p
    ensures forall g :: g != c.outputField ==> GetVector(r.current, g) == GetVector(p.current, g)
    ensures forall g :: GetScalar(r.current, g) == GetScalar(p.current, g)
    ensures GetVector(r.current, c.outputField)
      == h.lerpVector(NextNumber(c.lerp, p, st), GetVector(p.current, c.outputField), SetValue(c, h, st, p))
  {
    var current := GetVector(p.current, c.outputField);
    var value := h.lerpVector(NextNumber(c.lerp, p, st), current, SetValue(c, h, st, p));
    p.(current := SetVector(p.current, c.outputField, value))
  }

  /** With the default lerp of 1 the field is set to the set-method result. */
  lemma FullLerpWritesSetValue(c: Config, h: Helpers, st: RenderState, p: Particle)
    requires LerpVectorHitsEnd(h) && c.lerp == Literal(1.0)
    ensures GetVector(Operate(c, h, st, p).current, c.outputField) == SetValue(c, h, st, p)
  {
  }

  /** With the defaults and the replace semantics every particle's colour is set to black. */
  lemma DefaultsBlackenColor(h: Helpers, st: RenderState, p: Particle)
    requires LerpVectorHitsEnd(h) && ReplaceVectorReturnsValue(h)
    ensures Operate(Defaults, h, st, p).current.color == Zero
  {
  }
}

=== FILE: shader_data_provider.dfy ===
/**
 * Which source textures a compiled material texture is made of, and the
 * file-name suffix each of them gets on export. The basic provider works
 * from hard-coded tables; the full provider asks the compiled shader and
 * falls back to the basic one. Shader files themselves are not modelled:
 * where the full provider reads them, the values read are parameters.
 */
module ShaderDataProvider {
  import opened Wrappers
  import opened Text
  import Paths
  import opened Seqs

  /** The channels of a texture that an input occupies (ChannelMapping). */
  datatype Channel = R | G | B | A | RGB | RGBA | AG

  /** One source texture: the channels it fills and its name. */
  datatype Input = Input(channel: Channel, name: String)

  /** A material's integer parameters (Dictionary<string, long>). */
  type IntParams = map<String, int>

  /** Dictionary.GetValueOrDefault. */
  function ParamOrZero(p: IntParams, key: String): int
  {
    if key in p then p[key] else 0
  }

  /** Texture inputs per shader and texture parameter. */
  type Tables = map<String, map<String, seq<Input>>>

  /** The inputs of global_lit_simple. */
  const GlobalLitSimpleInputs: map<String, seq<Input>> := map[
    "g_tColor" := [Input(RGB, "TextureColor"), Input(A, "TextureTranslucency")],
    "g_tNormal" := [Input(RGB, "TextureNormal")],
    "g_tSpecular" := [Input(R, "TextureReflectance"), Input(G, "TextureSelfIllum"), Input(B, "TextureBloom")]
  ]

  /** The inputs of multiblend. */
  const MultiblendInputs: map<String, seq<Input>> := map[
    "g_tColor0" := [Input(RGB, "TextureColor0")],
    "g_tColor1" := [Input(RGB, "TextureColor1"), Input(A, "TextureRevealMask1")],
    "g_tColor2" := [Input(RGB, "TextureColor2"), Input(A, "TextureRevealMask2")],
    "g_tColor3" := [Input(RGB, "TextureColor3"), Input(A, "TextureRevealMask3")],
    "g_tSpecular0" := [Input(R, "TextureReflectance0"), Input(G, "TextureSelfIllum0"), Input(B, "TextureBloom0")],
    "g_tSpecular1" := [Input(R, "TextureReflectance1"), Input(G, "TextureSelfIllum1"), Input(B, "TextureBloom1")],
    "g_tSpecular2" := [Input(R, "TextureReflectance2"), Input(G, "TextureSelfIllum2"), Input(B, "TextureBloom2")],
    "g_tSpecular3" := [Input(R, "TextureReflectance3"), Input(G, "TextureSelfIllum3"), Input(B, "TextureBloom3")],
    "g_tTintMasks" := [Input(R, "TextureTintMask0"), Input(G, "TextureTintMask1"), Input(B, "TextureTintMask2"), Input(A, "TextureTintMask3")],
    "g_tTint2Masks" := [Input(R, "TextureTint2Mask0"), Input(G, "TextureTint2Mask1"), Input(B, "TextureTint2Mask2"), Input(A, "TextureTint2Mask3")]
  ]

  /** The inputs of hero. */
  const HeroInputs: map<String, seq<Input>> := map[
    "g_tColor" := [Input(RGB, "TextureColor"), Input(A, "TextureTranslucency")],
    "g_tNormal" := [Input(RGB, "TextureNormal")],
    "g_tCubeMap" := [Input(RGBA, "TextureCubeMap")],
    "g_tCubeMapSeparateMask" := [Input(G, "TextureCubeMapSeparateMask")],
    "g_tFresnelWarp" := [Input(R, "TextureFresnelWarpRim"), Input(G, "TextureFresnelWarpColor"), Input(B, "TextureFresnelWarpSpec")],
    "g_tMasks1" := [Input(R, "TextureDetailMask"), Input(G, "TextureDiffuseWarpMask"), Input(B, "TextureMetalnessMask"), Input(A, "TextureSelfIllumMask")],
    "g_tMasks2" := [Input(R, "TextureSpecularMask"), Input(G, "TextureRimMask"), Input(B, "TextureTintByBaseMask"), Input(A, "TextureSpecularExponent")],
    "g_tDetail" := [Input(RGBA, "TextureDetail")],
    "g_tDetail2" := [Input(RGBA, "TextureDetail2")]
  ]

  /** The inputs of grasstile_preview. */
  const GrasstilePreviewInputs: map<String, seq<Input>> := map[
    "g_tColor" := [Input(RGB, "TextureColor"), Input(A, "TextureTranslucency")],
    "g_tTintMask" := [Input(G, "TextureTintMask")],
    "g_tSpecular" := [Input(G, "TextureReflectance")],
    "g_tSelfIllum" := [Input(G, "TextureSelfIllum")]
  ]

  /** The inputs of generic. */
  const GenericInputs: map<String, seq<Input>> := map[
    "g_tColor" := [Input(RGB, "TextureColor")],
    "g_tNormal" := [Input(RGB, "TextureNormal")],
    "g_tMetalnessReflectanceFresnel" := [Input(R, "TextureMetalness"), Input(G, "TextureReflectance"), Input(B, "TextureFresnel")],
    "g_tRoughness" := [Input(R, "TextureRoughness")]
  ]

  /** The inputs of vr_standard. */
  const VrStandardInputs: map<String, seq<Input>> := map[
    "g_tColor" := [Input(RGB, "TextureColor"), Input(A, "TextureTranslucency")],
    "g_tColor1" := [Input(RGB, "TextureColor")],
    "g_tColor2" := [Input(RGB, "TextureColor")],
    "g_tNormal" := [Input(RGB, "TextureNormal")],
    "g_tNormal1" := [Input(RGB, "TextureNormal")],
    "g_tNormal2" := [Input(RGB, "TextureNormal")]
  ]

  /** The inputs of vr_complex. */
  const VrComplexInputs: map<String, seq<Input>> := map[
    "g_tNormal" := [Input(RGB, "TextureNormal"), Input(A, "TextureRoughness")],
    "g_tAmbientOcclusion" := [Input(R, "TextureAmbientOcclusion")],
    "g_tTintMask" := [Input(R, "TextureTintMask")],
    "g_tMetalness" := [Input(R, "TextureMetalness")],
    "g_tSelfIllumMask" := [Input(R, "TextureSelfIllumMask")],
    "g_tBentNormal" := [Input(RGB, "TextureBentNormal")],
    "g_tDetail" := [Input(RGB, "TextureDetail")],
    "g_tDetailMask" := [Input(R, "TextureDetailMask")],
    "g_tNormalDetail" := [Input(RGB, "TextureNormalDetail")],
    "g_tSquishColor" := [Input(RGB, "TextureSquishColor")],
    "g_tStretchColor" := [Input(RGB, "TextureStretchColor")],
    "g_tSquishNormal" := [Input(RGB, "TextureSquishNormal")],
    "g_tStretchNormal" := [Input(RGB, "TextureStretchNormal")],
    "g_tSquishAmbientOcclusion" := [Input(R, "TextureSquishAmbientOcclusion")],
    "g_tStretchAmbientOcclusion" := [Input(R, "TextureStretchAmbientOcclusion")],
    "g_tColor" := [Input(RGB, "TextureColor"), Input(A, "")]
  ]

  /** The inputs of vr_simple. */
  const VrSimpleInputs: map<String, seq<Input>> := map[
    "g_tNormal" := [Input(RGB, "TextureNormal"), Input(A, "TextureRoughness")],
    "g_tAmbientOcclusion" := [Input(R, "TextureAmbientOcclusion")],
    "g_tTintMask" := [Input(R, "TextureTintMask")],
    "g_tColor" := [Input(RGB, "TextureColor"), Input(A, "")]
  ]

  /** The inputs of vr_simple_2way_blend. */
  const VrSimple2wayBlendInputs: map<String, seq<Input>> := map[
    "g_tColorA" := [Input(RGB, "TextureColorA"), Input(A, "TextureMetalnessA")],
    "g_tNormalA" := [Input(RGB, "TextureNormalA"), Input(A, "TextureRoughnessA")],
    "g_tColorB" := [Input(RGB, "TextureColorB"), Input(A, "TextureMetalnessB")],
    "g_tNormalB" := [Input(RGB, "TextureNormalB"), Input(A, "TextureRoughnessB")],
    "g_tMask" := [Input(R, "TextureMask")]
  ]

  /** The inputs of vr_eyeball. */
  const VrEyeballInputs: map<String, seq<Input>> := map[
    "g_tColor" := [Input(RGB, "TextureColor"), Input(A, "TextureReflectance")],
    "g_tIris" := [Input(RGB, "IrisNormal"), Input(A, "IrisRoughness")],
    "g_tNormal" := [Input(AG, "TextureNormal")],
    "g_tIrisMask" := [Input(R, "TextureIrisMask")],
    "g_tSelfIllumMask" := [Input(R, "TextureSelfIllumMask")]
  ]

  /** The inputs of csgo_weapon. */
  const CsgoWeaponInputs: map<String, seq<Input>> := map[
    "g_tColor" := [Input(RGB, "TextureColor")],
    "g_tMetalness" := [Input(R, "TextureRoughness"), Input(G, "TextureMetalness")],
    "g_tAmbientOcclusion" := [Input(R, "TextureAmbientOcclusion")]
  ]

  /** The inputs of sky. */
  const SkyInputs: map<String, seq<Input>> := map[
    "g_tSkyTexture" := [Input(RGBA, "SkyTexture")]
  ]

  /**
   * The hard-coded inputs per shader and texture parameter. An empty name
   * marks a channel whose meaning depends on the material's feature flags.
   */
  const TextureMappings: Tables := map[
    "global_lit_simple" := GlobalLitSimpleInputs,
    "multiblend" := MultiblendInputs,
    "hero" := HeroInputs,
    "grasstile_preview" := GrasstilePreviewInputs,
    "generic" := GenericInputs,
    "vr_standard" := VrStandardInputs,
    "vr_simple_2way_blend" := VrSimple2wayBlendInputs,
    "vr_eyeball" := VrEyeballInputs,
    "csgo_weapon" := CsgoWeaponInputs,
    "sky" := SkyInputs,
    "vr_complex" := VrComplexInputs,
    "vr_simple" := VrSimpleInputs
  ]

  /** The common input types and their suffixes, in the dictionary's enumeration order. */
  const CommonTextureSuffixes: seq<(String, String)> := [
    ("TextureDetailMask", "_detailmask"),
    ("TextureDiffuseWarpMask", "_diffusemask"),
    ("TextureMetalnessMask", "_metalnessmask"),
    ("TextureSelfIllumMask", "_selfillummask"),
    ("TextureSpecularMask", "_specmask"),
    ("TextureRimMask", "_rimmask"),
    ("TextureTintByBaseMask", "_basetintmask"),
    ("TextureSpecularExponent", "_specexp"),
    ("TextureRevealMask", "_blend"),
    ("TextureColor", "_color"),
    ("TextureNormal", "_normal"),
    ("TextureRoughness", "_rough"),
    ("TextureMetalness", "_metal"),
    ("TextureAmbientOcclusion", "_ao"),
    ("TextureReflectance", "_refl"),
    ("TextureTranslucency", "_trans")
  ]

  /**
   * The meaning of the alpha channel that the tables leave open. vr_simple's
   * color alpha is metalness, else ambient occlusion, else nothing;
   * vr_complex's is translucency for translucent or alpha-tested materials
   * and metalness otherwise; no other texture has an open channel.
   */
  function TryFigureOutNonStaticMap(shader: String, textureType: String, p: IntParams): (r: Option<String>)
    ensures r.Some? <==>
      textureType == "g_tColor" &&
      (shader == "vr_complex" ||
       (shader == "vr_simple" && (ParamOrZero(p, "F_METALNESS_TEXTURE") != 0 || ParamOrZero(p, "F_AMBIENT_OCCLUSION_TEXTURE") != 0)))
    ensures r.Some? ==> |r.value| > 0
  {
    if shader == "vr_simple" && textureType == "g_tColor" then
      if ParamOrZero(p, "F_METALNESS_TEXTURE") != 0 then Some("TextureMetalness")
      else if ParamOrZero(p, "F_AMBIENT_OCCLUSION_TEXTURE") != 0 then Some("TextureAmbientOcclusion")
      else None
    else if shader == "vr_complex" && textureType == "g_tColor" then
      if ParamOrZero(p, "F_TRANSLUCENT") != 0 || ParamOrZero(p, "F_ALPHA_TEST") != 0 then Some("TextureTranslucency")
      else Some("TextureMetalness")
    else None
  }

  /**
   * The table's inputs in order, with an open channel resolved by
   * TryFigureOutNonStaticMap and dropped when that finds nothing.
   */
  function ResolveMappings(shader: String, textureType: String, p: IntParams, ms: seq<Input>): (r: seq<Input>)
    ensures |r| <= |ms|
  {
    if |ms| == 0 then []
    else
      var rest := ResolveMappings(shader, textureType, p, ms[1..]);
      if |ms[0].name| == 0 then
        match TryFigureOutNonStaticMap(shader, textureType, p)
        case None => rest
        case Some(name) => [Input(ms[0].channel, name)] + rest
      else [ms[0]] + rest
  }

  /**
   * What the resolution keeps: every named input, and nothing unnamed
   * survives.
   */
  lemma {:induction false} ResolveMappingsSound(shader: String, textureType: String, p: IntParams, ms: seq<Input>)
    ensures var r := ResolveMappings(shader, textureType, p, ms);
      (forall i :: 0 <= i < |ms| && |ms[i].name| > 0 ==> ms[i] in r) &&
      (forall i :: 0 <= i < |r| ==> |r[i].name| > 0)
  {
    if |ms| > 0 {
      ResolveMappingsSound(shader, textureType, p, ms[1..]);
    }
  }

  /**
   * Where a resolved input may come from: the table itself, or an open
   * channel of the table named by TryFigureOutNonStaticMap.
   */
  predicate FromTable(shader: String, textureType: String, p: IntParams, ms: seq<Input>, x: Input)
  {
    x in ms || (Input(x.channel, "") in ms && TryFigureOutNonStaticMap(shader, textureType, p) == Some(x.name))
  }

  /**
   * Where each resolved input comes from: the table, or an open channel
   * named by TryFigureOutNonStaticMap; without that name, only the table.
   */
  lemma {:induction false} ResolveMappingsOrigin(shader: String, textureType: String, p: IntParams, ms: seq<Input>)
    ensures forall x :: x in ResolveMappings(shader, textureType, p, ms) ==> FromTable(shader, textureType, p, ms, x)
    ensures TryFigureOutNonStaticMap(shader, textureType, p).None? ==>
      forall x :: x in ResolveMappings(shader, textureType, p, ms) ==> x in ms
  {
    if |ms| > 0 {
      ResolveMappingsOrigin(shader, textureType, p, ms[1..]);
      var rest := ResolveMappings(shader, textureType, p, ms[1..]);
      forall x | x in ResolveMappings(shader, textureType, p, ms)
        ensures FromTable(shader, textureType, p, ms, x)
      {
        if x in rest {
          assert FromTable(shader, textureType, p, ms[1..], x);
          TailMember(ms, x);
          TailMember(ms, Input(x.channel, ""));
        }
      }
    }
  }

  /** What the tail of a sequence holds, the sequence holds. */
  lemma TailMember<T>(s: seq<T>, x: T)
    requires |s| > 0
    ensures x in s[1..] ==> x in s
  {
    if x in s[1..] {
      var j :| 0 <= j < |s[1..]| && s[1..][j] == x;
      assert s[j + 1] == x;
    }
  }

  /** The table entry for a shader and texture parameter, if the tables have one. */
  function Mapping(tables: Tables, shader: String, textureType: String): Option<seq<Input>>
  {
    if shader in tables && textureType in tables[shader] then Some(tables[shader][textureType]) else None
  }

  /**
   * BasicShaderDataProvider.GetInputsForTexture: the shader name loses its
   * extension; an unknown shader or texture gives one RGBA input named
   * after the texture with "g_t" replaced by "Texture".
   */
  function BasicInputs(tables: Tables, shaderFileName: String, textureType: String, p: IntParams): seq<Input>
  {
    var shader := Paths.RemoveExtension(shaderFileName);
    match Mapping(tables, shader, textureType)
    case Some(ms) => ResolveMappings(shader, textureType, p, ms)
    case None => [Input(RGBA, ReplaceAll(textureType, "g_t", "Texture"))]
  }

  /**
   * The basic provider's two outcomes: an unknown shader or texture gives
   * the single guessed input; a known one gives at most its table's
   * inputs, all named, with every named table input among them.
   */
  lemma BasicInputsCases(tables: Tables, shaderFileName: String, textureType: String, p: IntParams)
    ensures Mapping(tables, Paths.RemoveExtension(shaderFileName), textureType).None? ==>
      BasicInputs(tables, shaderFileName, textureType, p) == [Input(RGBA, ReplaceAll(textureType, "g_t", "Texture"))]
    ensures Mapping(tables, Paths.RemoveExtension(shaderFileName), textureType).Some? ==>
      var ms := Mapping(tables, Paths.RemoveExtension(shaderFileName), textureType).value;
      var r := BasicInputs(tables, shaderFileName, textureType, p);
      |r| <= |ms| && (forall i :: 0 <= i < |r| ==> |r[i].name| > 0) &&
      (forall i :: 0 <= i < |ms| && |ms[i].name| > 0 ==> ms[i] in r)
  {
    var shader := Paths.RemoveExtension(shaderFileName);
    if Mapping(tables, shader, textureType).Some? {
      ResolveMappingsSound(shader, textureType, p, Mapping(tables, shader, textureType).value);
    }
  }

  /** The ".vfx" extension of a shader file name does not change its inputs. */
  lemma ExtensionStripped(tables: Tables, shader: String, textureType: String, p: IntParams)
    requires '.' !in shader && Paths.Separator !in shader
    ensures BasicInputs(tables, shader + ".vfx", textureType, p) == BasicInputs(tables, shader, textureType, p)
  {
    Paths.RemoveExtensionOf(shader, "vfx");
    assert shader + "." + "vfx" == shader + ".vfx";
    assert Paths.LastIndexOf(shader, '.') == -1;
    assert Paths.RemoveExtension(shader) == shader;
  }

  /** A named input followed by an open alpha: the alpha is resolved or dropped. */
  lemma ResolveOpenAlpha(shader: String, textureType: String, p: IntParams, first: Input)
    requires |first.name| > 0
    ensures TryFigureOutNonStaticMap(shader, textureType, p).None? ==>
      ResolveMappings(shader, textureType, p, [first, Input(A, "")]) == [first]
    ensures TryFigureOutNonStaticMap(shader, textureType, p).Some? ==>
      ResolveMappings(shader, textureType, p, [first, Input(A, "")]) ==
        [first, Input(A, TryFigureOutNonStaticMap(shader, textureType, p).value)]
  {
    var ms := [first, Input(A, "")];
    assert ms[1..][1..] == [];
  }

  /** The table entry of a known shader, looked up by the shader's file name. */
  lemma KnownShaderInputs(tables: Tables, shader: String, textureType: String, p: IntParams, ms: seq<Input>)
    requires '.' !in shader && Paths.Separator !in shader
    requires Mapping(tables, shader, textureType) == Some(ms)
    ensures BasicInputs(tables, shader + ".vfx", textureType, p) == ResolveMappings(shader, textureType, p, ms)
  {
    ExtensionStripped(tables, shader, textureType, p);
    Paths.RemoveExtensionWithoutDot(shader);
  }

  /** A table entry without open channels is passed through unchanged. */
  lemma {:induction false} ResolveFullyNamed(shader: String, textureType: String, p: IntParams, ms: seq<Input>)
    requires forall i :: 0 <= i < |ms| ==> |ms[i].name| > 0
    ensures ResolveMappings(shader, textureType, p, ms) == ms
  {
    if |ms| > 0 {
      ResolveFullyNamed(shader, textureType, p, ms[1..]);
    }
  }

  /** The color entry of vr_complex ends in an open alpha channel. */
  lemma VrComplexOpenColor()
    ensures Mapping(TextureMappings, "vr_complex", "g_tColor") == Some([Input(RGB, "TextureColor"), Input(A, "")])
  {
  }

  /** The color entry of vr_simple ends in an open alpha channel. */
  lemma VrSimpleOpenColor()
    ensures Mapping(TextureMappings, "vr_simple", "g_tColor") == Some([Input(RGB, "TextureColor"), Input(A, "")])
  {
  }

  /** The open alpha of vr_complex's color texture. */
  lemma VrComplexAlpha(p: IntParams)
    ensures TryFigureOutNonStaticMap("vr_complex", "g_tColor", p) ==
      Some(if ParamOrZero(p, "F_TRANSLUCENT") != 0 || ParamOrZero(p, "F_ALPHA_TEST") != 0
           then "TextureTranslucency" else "TextureMetalness")
  {
  }

  /** The open alpha of vr_simple's color texture. */
  lemma VrSimpleAlpha(p: IntParams)
    ensures ParamOrZero(p, "F_METALNESS_TEXTURE") == 0 && ParamOrZero(p, "F_AMBIENT_OCCLUSION_TEXTURE") == 0 ==>
      TryFigureOutNonStaticMap("vr_simple", "g_tColor", p).None?
    ensures ParamOrZero(p, "F_METALNESS_TEXTURE") != 0 ==>
      TryFigureOutNonStaticMap("vr_simple", "g_tColor", p) == Some("TextureMetalness")
  {
  }

  /**
   * A color entry whose alpha is open, looked up by a shader file name:
   * the alpha is resolved from the feature flags or dropped.
   */
  lemma OpenAlphaColor(tables: Tables, shaderFileName: String, shader: String, textureType: String, p: IntParams)
    requires Paths.RemoveExtension(shaderFileName) == shader
    requires Mapping(tables, shader, textureType) == Some([Input(RGB, "TextureColor"), Input(A, "")])
    ensures TryFigureOutNonStaticMap(shader, textureType, p).None? ==>
      BasicInputs(tables, shaderFileName, textureType, p) == [Input(RGB, "TextureColor")]
    ensures TryFigureOutNonStaticMap(shader, textureType, p).Some? ==>
      BasicInputs(tables, shaderFileName, textureType, p) ==
        [Input(RGB, "TextureColor"), Input(A, TryFigureOutNonStaticMap(shader, textureType, p).value)]
  {
    ResolveOpenAlpha(shader, textureType, p, Input(RGB, "TextureColor"));
  }

  /** The file name of a known shader loses its ".vfx" extension. */
  lemma ShaderFileName(shader: String)
    requires '.' !in shader && Paths.Separator !in shader
    ensures Paths.RemoveExtension(shader + ".vfx") == shader
  {
    Paths.RemoveExtensionWithoutDot(shader);
    Paths.RemoveExtensionOf(shader, "vfx");
    assert shader + "." + "vfx" == shader + ".vfx";
  }

  /** vr_complex's color texture always has two inputs; the alpha follows the translucency flags. */
  lemma VrComplexColor(p: IntParams)
    ensures BasicInputs(TextureMappings, "vr_complex.vfx", "g_tColor", p) ==
      [Input(RGB, "TextureColor"),
       Input(A, if ParamOrZero(p, "F_TRANSLUCENT") != 0 || ParamOrZero(p, "F_ALPHA_TEST") != 0
                then "TextureTranslucency" else "TextureMetalness")]
  {
    VrComplexOpenColor();
    VrComplexAlpha(p);
    ShaderFileName("vr_complex");
    assert "vr_complex" + ".vfx" == "vr_complex.vfx";
    OpenAlphaColor(TextureMappings, "vr_complex.vfx", "vr_complex", "g_tColor", p);
  }

  /** vr_simple's color alpha is metalness, else ambient occlusion, else dropped. */
  lemma VrSimpleColor(p: IntParams)
    ensures ParamOrZero(p, "F_METALNESS_TEXTURE") == 0 && ParamOrZero(p, "F_AMBIENT_OCCLUSION_TEXTURE") == 0 ==>
      BasicInputs(TextureMappings, "vr_simple.vfx", "g_tColor", p) == [Input(RGB, "TextureColor")]
    ensures ParamOrZero(p, "F_METALNESS_TEXTURE") != 0 ==>
      BasicInputs(TextureMappings, "vr_simple.vfx", "g_tColor", p) == [Input(RGB, "TextureColor"), Input(A, "TextureMetalness")]
  {
    VrSimpleOpenColor();
    VrSimpleAlpha(p);
    ShaderFileName("vr_simple");
    assert "vr_simple" + ".vfx" == "vr_simple.vfx";
    OpenAlphaColor(TextureMappings, "vr_simple.vfx", "vr_simple", "g_tColor", p);
  }

  /** The index of the first common type that is a case-insensitive prefix of `input`, or -1. */
  function FirstCommonType(input: String, table: seq<(String, String)>): (r: int)
    ensures -1 <= r < |table|
    ensures r >= 0 ==> StartsWithIgnoreCase(input, table[r].0)
    ensures forall j :: 0 <= j < |table| && (r < 0 || j < r) ==> !StartsWithIgnoreCase(input, table[j].0)
  {
    if |table| == 0 then -1
    else if StartsWithIgnoreCase(input, table[0].0) then 0
    else
      var k := FirstCommonType(input, table[1..]);
      if k < 0 then -1 else k + 1
  }

  /** The suffix of the first type in `table` that starts `input`, ignoring case. */
  function SuffixIn(table: seq<(String, String)>, input: String): (r: Option<String>)
    ensures r.Some? <==> exists i :: 0 <= i < |table| && StartsWithIgnoreCase(input, table[i].0)
    ensures r.Some? ==>
      exists i :: 0 <= i < |table| && StartsWithIgnoreCase(input, table[i].0) && r.value == table[i].1 &&
        forall j :: 0 <= j < i ==> !StartsWithIgnoreCase(input, table[j].0)
  {
    var k := FirstCommonType(input, table);
    if k < 0 then None else Some(table[k].1)
  }

  /**
   * BasicShaderDataProvider.GetSuffixForInputTexture: the suffix of the
   * first common type that starts the input name, ignoring case, so that
   * numbered and lettered variants share their base type's suffix.
   */
  function BasicSuffix(inputName: String): Option<String>
  {
    SuffixIn(CommonTextureSuffixes, inputName)
  }

  lemma UpperIdempotent(s: String)
    ensures Upper(Upper(s)) == Upper(s)
  {
    assert forall i :: 0 <= i < |s| ==> UpperChar(UpperChar(s[i])) == UpperChar(s[i]);
  }

  /** The suffix does not depend on the case of the input name. */
  lemma SuffixIgnoresCase(table: seq<(String, String)>, inputName: String)
    ensures SuffixIn(table, Upper(inputName)) == SuffixIn(table, inputName)
  {
    UpperIdempotent(inputName);
    assert forall t :: StartsWithIgnoreCase(Upper(inputName), t) == StartsWithIgnoreCase(inputName, t);
    assert FirstCommonType(Upper(inputName), table) == FirstCommonType(inputName, table);
  }

  /** A name listed in the table has a suffix. */
  lemma ListedTypeHasSuffix(table: seq<(String, String)>, i: nat, input: String)
    requires i < |table| && table[i].0 == input
    ensures SuffixIn(table, input).Some?
  {
    assert StartsWithIgnoreCase(input, table[i].0);
  }

  /** Every name that resolves an open channel has a common suffix. */
  lemma ResolvedNamesHaveSuffix(shader: String, textureType: String, p: IntParams)
    ensures TryFigureOutNonStaticMap(shader, textureType, p).Some? ==>
      BasicSuffix(TryFigureOutNonStaticMap(shader, textureType, p).value).Some?
  {
    var r := TryFigureOutNonStaticMap(shader, textureType, p);
    if r.Some? {
      var t := CommonTextureSuffixes;
      if r.value == "TextureMetalness" {
        ListedTypeHasSuffix(t, 12, r.value);
      } else if r.value == "TextureAmbientOcclusion" {
        ListedTypeHasSuffix(t, 13, r.value);
      } else {
        assert r.value == "TextureTranslucency";
        ListedTypeHasSuffix(t, 15, r.value);
      }
    }
  }

  // The full provider (FullShaderDataProvider)

  /**
   * `own ?? basicProvider?.Get(...)`: the full provider's own answer, else
   * the basic provider's answer when the provider was built to fall back,
   * else nothing.
   */
  function WithFallback<T>(own: Option<T>, fallBackToBasic: bool, basic: Option<T>): (r: Option<T>)
    ensures own.Some? ==> r == own
    ensures r.Some? && r != own ==> fallBackToBasic && r == basic
    ensures r.None? <==> own.None? && (!fallBackToBasic || basic.None?)
  {
    if own.Some? then own else if fallBackToBasic then basic else None
  }

  /**
   * FullShaderDataProvider.GetInputsForTexture; `own` is what the compiled
   * shader yields for the texture, or None when it has no feature file.
   */
  function FullInputs(tables: Tables, own: Option<seq<Input>>, fallBackToBasic: bool,
                      shaderFileName: String, textureType: String, p: IntParams): Option<seq<Input>>
  {
    WithFallback(own, fallBackToBasic, Some(BasicInputs(tables, shaderFileName, textureType, p)))
  }

  /** A provider that falls back always has inputs to offer; one that does not has only its own. */
  lemma FullInputsAvailability(tables: Tables, own: Option<seq<Input>>, fallBackToBasic: bool,
                               shaderFileName: String, textureType: String, p: IntParams)
    ensures fallBackToBasic ==> FullInputs(tables, own, fallBackToBasic, shaderFileName, textureType, p).Some?
    ensures !fallBackToBasic ==> FullInputs(tables, own, fallBackToBasic, shaderFileName, textureType, p) == own
    ensures own.None? && fallBackToBasic ==>
      FullInputs(tables, own, fallBackToBasic, shaderFileName, textureType, p) ==
        Some(BasicInputs(tables, shaderFileName, textureType, p))
  {
  }

  /**
   * A parameter block of a shader file: its name, the suffix its image gets,
   * and the channel blocks (by index) the texture is packed from.
   */
  datatype ParamBlock = ParamBlock(name: String, imageSuffix: String, channelCount: int, channelIndices: seq<int>)

  /** Whether a parameter names `inputName` and carries a suffix. */
  predicate SuffixedParam(param: ParamBlock, inputName: String)
  {
    param.name == inputName && |param.imageSuffix| > 0
  }

  /** The image suffix of the first parameter named `inputName` that has one, behind an underscore. */
  function ParamSuffix(params: seq<ParamBlock>, inputName: String): (r: Option<String>)
    ensures r.Some? <==> exists i :: 0 <= i < |params| && SuffixedParam(params[i], inputName)
    ensures r.Some? ==> exists i :: (0 <= i < |params| && SuffixedParam(params[i], inputName) &&
      r.value == "_" + params[i].imageSuffix &&
      forall j :: 0 <= j < i ==> !SuffixedParam(params[j], inputName))
  {
    if |params| == 0 then None
    else if SuffixedParam(params[0], inputName) then Some("_" + params[0].imageSuffix)
    else
      var r := ParamSuffix(params[1..], inputName);
      assert forall i :: 0 < i < |params| ==> params[i] == params[1..][i - 1];
      r
  }

  /**
   * FullShaderDataProvider.GetSuffixForInputTexture_Internal: nothing when
   * the shader has no feature file, else the suffix its parameters give.
   */
  function OwnSuffix(features: Option<seq<ParamBlock>>, inputName: String): (r: Option<String>)
    ensures features.None? ==> r.None?
    ensures r.Some? ==> |r.value| > 1 && r.value[0] == '_'
  {
    if features.None? then None else ParamSuffix(features.value, inputName)
  }

  /** FullShaderDataProvider.GetSuffixForInputTexture. */
  function FullSuffix(features: Option<seq<ParamBlock>>, fallBackToBasic: bool, inputName: String): Option<String>
  {
    WithFallback(OwnSuffix(features, inputName), fallBackToBasic, BasicSuffix(inputName))
  }

  /** The shader's own suffix wins; without one, the basic provider's suffix is used only when falling back. */
  lemma FullSuffixChoice(features: Option<seq<ParamBlock>>, fallBackToBasic: bool, inputName: String)
    ensures OwnSuffix(features, inputName).Some? ==>
      FullSuffix(features, fallBackToBasic, inputName) == OwnSuffix(features, inputName)
    ensures features.None? ==>
      FullSuffix(features, fallBackToBasic, inputName) == (if fallBackToBasic then BasicSuffix(inputName) else None)
    ensures features.Some? && (forall i :: 0 <= i < |features.value| ==> features.value[i].name != inputName) ==>
      FullSuffix(features, fallBackToBasic, inputName) == (if fallBackToBasic then BasicSuffix(inputName) else None)
  {
  }

  // Static configuration of a shader file (GetInputsForTexture_Internal)

  /** A static combo of a shader file; featureIndex -1 means it is not tied to a feature. */
  datatype Condition = Condition(name: String, featureIndex: int, blockIndex: int)

  /** A feature of the shader's feature file and the values it admits. */
  datatype Feature = Feature(name: String, rangeMin: int, rangeMax: int)

  /** Why the full provider throws: an index outside its array, or a material value a feature does not admit. */
  datatype ShaderError = IndexOutOfRange | FeatureOutOfRange(feature: String) | MissingParameter(name: String)

  /** What one condition does to the configuration. */
  datatype Step = Skip | Set(block: int, value: int) | Fail(error: ShaderError)

  /** The material's value for a feature; only parameters starting with `F_` are feature state. */
  function FeatureValue(p: IntParams, name: String): (r: Option<int>)
    ensures r.Some? <==> StartsWith(name, "F_") && name in p
    ensures r.Some? ==> r.value == p[name]
  {
    if StartsWith(name, "F_") && name in p then Some(p[name]) else None
  }

  /** Static combos switched on regardless of the material: S_MODE_FORWARD, and the forced one. */
  predicate IsForced(c: Condition, forcedStaticName: Option<String>)
  {
    (c.name == "S_MODE_FORWARD" && c.featureIndex == -1) ||
    (forcedStaticName.Some? && c.name == forcedStaticName.value)
  }

  /** The step one condition contributes. */
  function ConditionStep(c: Condition, features: seq<Feature>, p: IntParams, forcedStaticName: Option<String>): (r: Step)
    ensures IsForced(c, forcedStaticName) ==> r == Set(c.blockIndex, 1)
    ensures !IsForced(c, forcedStaticName) && c.featureIndex == -1 ==> r == Skip
    ensures r.Set? ==> r.block == c.blockIndex
    ensures r.Set? && !IsForced(c, forcedStaticName) ==>
      0 <= c.featureIndex < |features| &&
      FeatureValue(p, features[c.featureIndex].name) == Some(r.value) &&
      features[c.featureIndex].rangeMin <= r.value <= features[c.featureIndex].rangeMax
    ensures r.Fail? && r.error.FeatureOutOfRange? ==>
      0 <= c.featureIndex < |features| && r.error.feature == features[c.featureIndex].name &&
      FeatureValue(p, r.error.feature).Some? &&
      !(features[c.featureIndex].rangeMin <= FeatureValue(p, r.error.feature).value <= features[c.featureIndex].rangeMax)
  {
    if IsForced(c, forcedStaticName) then Set(c.blockIndex, 1)
    else if c.featureIndex == -1 then Skip
    else if !(0 <= c.featureIndex < |features|) then Fail(IndexOutOfRange)
    else
      var f := features[c.featureIndex];
      match FeatureValue(p, f.name)
      case None => Skip
      case Some(v) =>
        if v > f.rangeMax || v < f.rangeMin then Fail(FeatureOutOfRange(f.name))
        else Set(c.blockIndex, v)
  }

  /** Whether a step can be applied to a configuration of `n` blocks. */
  predicate StepOk(s: Step, n: nat)
  {
    !s.Fail? && (s.Set? ==> 0 <= s.block < n)
  }

  function ApplyStep(config: seq<int>, s: Step): (r: Result<seq<int>, ShaderError>)
    ensures r.Success? <==> StepOk(s, |config|)
    ensures r.Success? ==> |r.value| == |config|
  {
    match s
    case Skip => Success(config)
    case Set(b, v) => if 0 <= b < |config| then Success(config[b := v]) else Failure(IndexOutOfRange)
    case Fail(e) => Failure(e)
  }

  /** The configuration after the conditions in `conds`, applied in order to `n` zeroed blocks. */
  function ApplyConditions(n: nat, conds: seq<Condition>, features: seq<Feature>, p: IntParams,
                           forcedStaticName: Option<String>): (r: Result<seq<int>, ShaderError>)
    ensures r.Success? ==> |r.value| == n
    decreases |conds|
  {
    if |conds| == 0 then Success(seq(n, _ => 0))
    else
      match ApplyConditions(n, conds[..|conds| - 1], features, p, forcedStaticName)
      case Failure(e) => Failure(e)
      case Success(config) => ApplyStep(config, ConditionStep(conds[|conds| - 1], features, p, forcedStaticName))
  }

  /** The static configuration of a shader file: one block per static combo. */
  function StaticConfiguration(conds: seq<Condition>, features: seq<Feature>, p: IntParams,
                               forcedStaticName: Option<String>): Result<seq<int>, ShaderError>
  {
    ApplyConditions(|conds|, conds, features, p, forcedStaticName)
  }

  /** Reference value of block `b`: what the last condition setting it sets, or 0. */
  function LastWrite(conds: seq<Condition>, b: int, features: seq<Feature>, p: IntParams,
                     forcedStaticName: Option<String>): int
    decreases |conds|
  {
    if |conds| == 0 then 0
    else
      var s := ConditionStep(conds[|conds| - 1], features, p, forcedStaticName);
      if s.Set? && s.block == b then s.value
      else LastWrite(conds[..|conds| - 1], b, features, p, forcedStaticName)
  }

  /** The configuration is built exactly when every condition's step can be applied. */
  lemma {:induction false} ConfigurationSucceedsIff(n: nat, conds: seq<Condition>, features: seq<Feature>,
                                                   p: IntParams, forcedStaticName: Option<String>)
    ensures ApplyConditions(n, conds, features, p, forcedStaticName).Success? <==>
      forall k :: 0 <= k < |conds| ==> StepOk(ConditionStep(conds[k], features, p, forcedStaticName), n)
    decreases |conds|
  {
    if |conds| > 0 {
      var init := conds[..|conds| - 1];
      ConfigurationSucceedsIff(n, init, features, p, forcedStaticName);
      assert forall k :: 0 <= k < |init| ==> init[k] == conds[k];
    }
  }

  /** Each block holds what the last condition that sets it sets, and blocks nothing sets stay 0. */
  lemma {:induction false} ConfigurationLastWriteWins(n: nat, conds: seq<Condition>, features: seq<Feature>,
                                                     p: IntParams, forcedStaticName: Option<String>)
    ensures ApplyConditions(n, conds, features, p, forcedStaticName).Success? ==>
      forall b :: 0 <= b < n ==>
        ApplyConditions(n, conds, features, p, forcedStaticName).value[b] ==
          LastWrite(conds, b, features, p, forcedStaticName)
    decreases |conds|
  {
    if |conds| > 0 {
      ConfigurationLastWriteWins(n, conds[..|conds| - 1], features, p, forcedStaticName);
    }
  }

  /** Whether `v` is a value a configuration block may hold. */
  predicate AllowedValue(v: int, features: seq<Feature>)
  {
    v == 0 || v == 1 || exists i :: 0 <= i < |features| && features[i].rangeMin <= v <= features[i].rangeMax
  }

  lemma {:induction false} LastWriteAllowed(conds: seq<Condition>, b: int, features: seq<Feature>,
                                            p: IntParams, forcedStaticName: Option<String>)
    ensures AllowedValue(LastWrite(conds, b, features, p, forcedStaticName), features)
    decreases |conds|
  {
    if |conds| > 0 {
      var c := conds[|conds| - 1];
      var s := ConditionStep(c, features, p, forcedStaticName);
      if s.Set? && s.block == b {
        if !IsForced(c, forcedStaticName) {
          assert features[c.featureIndex].rangeMin <= s.value <= features[c.featureIndex].rangeMax;
        }
      } else {
        LastWriteAllowed(conds[..|conds| - 1], b, features, p, forcedStaticName);
      }
    }
  }

  /** Every block of a built configuration is off, on, or a value some feature admits. */
  lemma ConfigurationValuesAllowed(conds: seq<Condition>, features: seq<Feature>, p: IntParams,
                                   forcedStaticName: Option<String>)
    ensures StaticConfiguration(conds, features, p, forcedStaticName).Success? ==>
      |StaticConfiguration(conds, features, p, forcedStaticName).value| == |conds| &&
      forall b :: 0 <= b < |conds| ==>
        AllowedValue(StaticConfiguration(conds, features, p, forcedStaticName).value[b], features)
  {
    ConfigurationLastWriteWins(|conds|, conds, features, p, forcedStaticName);
    forall b | 0 <= b < |conds|
      ensures AllowedValue(LastWrite(conds, b, features, p, forcedStaticName), features)
    {
      LastWriteAllowed(conds, b, features, p, forcedStaticName);
    }
  }

  /** A material value outside its feature's range makes the configuration fail. */
  lemma OutOfRangeFeatureRejected(conds: seq<Condition>, features: seq<Feature>, p: IntParams,
                                  forcedStaticName: Option<String>, k: nat)
    requires k < |conds| && !IsForced(conds[k], forcedStaticName)
    requires 0 <= conds[k].featureIndex < |features|
    requires FeatureValue(p, features[conds[k].featureIndex].name).Some?
    requires !(features[conds[k].featureIndex].rangeMin <= FeatureValue(p, features[conds[k].featureIndex].name).value
               <= features[conds[k].featureIndex].rangeMax)
    ensures StaticConfiguration(conds, features, p, forcedStaticName).Failure?
  {
    ConfigurationSucceedsIff(|conds|, conds, features, p, forcedStaticName);
    assert !StepOk(ConditionStep(conds[k], features, p, forcedStaticName), |conds|);
  }

  /** A static combo whose block index lies outside the configuration makes it fail when forced. */
  lemma ForcedBlockOutOfRange(conds: seq<Condition>, features: seq<Feature>, p: IntParams,
                              forcedStaticName: Option<String>, k: nat)
    requires k < |conds| && IsForced(conds[k], forcedStaticName)
    requires !(0 <= conds[k].blockIndex < |conds|)
    ensures StaticConfiguration(conds, features, p, forcedStaticName).Failure?
  {
    ConfigurationSucceedsIff(|conds|, conds, features, p, forcedStaticName);
    assert !StepOk(ConditionStep(conds[k], features, p, forcedStaticName), |conds|);
  }

  /**
   * The zframe used: the one the configuration selects when the shader file
   * has it, else the first zframe, 0.
   */
  function ZframeOrFirst(computed: int, zframes: set<int>): (r: int)
    ensures r == computed || r == 0
    ensures r == computed <==> computed in zframes || computed == 0
    ensures 0 in zframes ==> r in zframes
  {
    if computed in zframes then computed else 0
  }

  // The shader cache (FullShaderDataProvider.Cache)

  /**
   * Cache.GetOrAddShader: the cached shader for `name`, else `load(name)`,
   * which is then stored. The result also says whether the loader ran.
   */
  function GetOrAdd<S>(cache: map<String, S>, name: String, load: String -> S): (r: (S, map<String, S>, bool))
    ensures name in r.1 && r.1[name] == r.0
    ensures r.2 <==> name !in cache
    ensures name in cache ==> r.0 == cache[name]
    ensures r.2 ==> r.0 == load(name)
    ensures forall k :: k in r.1 <==> k in cache || k == name
    ensures r.1.Keys == cache.Keys + {name}
    ensures forall k :: k in cache ==> r.1[k] == cache[k]
  {
    if name in cache then (cache[name], cache, false)
    else (load(name), cache[name := load(name)], true)
  }

  /** A second request for the same shader is served from the cache, whatever the loader. */
  lemma SecondRequestHits<S>(cache: map<String, S>, name: String, load: String -> S, load2: String -> S)
    ensures var r := GetOrAdd(cache, name, load);
      GetOrAdd(r.1, name, load2) == (r.0, r.1, false)
  {
  }

  /** Requests for `names` in order: the cache afterwards and how many loads ran. */
  function GetOrAddAll<S>(cache: map<String, S>, names: seq<String>, load: String -> S): (r: (map<String, S>, nat))
    decreases |names|
  {
    if |names| == 0 then (cache, 0)
    else
      var first := GetOrAdd(cache, names[0], load);
      var rest := GetOrAddAll(first.1, names[1..], load);
      (rest.0, rest.1 + if first.2 then 1 else 0)
  }

  /** After the requests the cache holds the old entries unchanged plus one for every name requested. */
  lemma {:induction false} RequestsFillCache<S>(cache: map<String, S>, names: seq<String>, load: String -> S)
    ensures forall k :: k in GetOrAddAll(cache, names, load).0 <==> k in cache || k in names
    ensures forall k :: k in cache ==> GetOrAddAll(cache, names, load).0[k] == cache[k]
    decreases |names|
  {
    if |names| > 0 {
      var first := GetOrAdd(cache, names[0], load);
      RequestsFillCache(first.1, names[1..], load);
      assert GetOrAddAll(cache, names, load).0 == GetOrAddAll(first.1, names[1..], load).0;
      assert forall k :: k in names <==> k == names[0] || k in names[1..];
    }
  }

  lemma CacheGrows<S>(cache: map<String, S>, names: seq<String>, load: String -> S)
    ensures cache.Keys <= GetOrAddAll(cache, names, load).0.Keys
  {
    RequestsFillCache(cache, names, load);
  }

  /** Every shader is loaded at most once: the loads are exactly the names that were not cached. */
  lemma {:induction false} LoadsOncePerName<S>(cache: map<String, S>, names: seq<String>, load: String -> S)
    ensures GetOrAddAll(cache, names, load).1 == |GetOrAddAll(cache, names, load).0.Keys - cache.Keys|
    decreases |names|
  {
    if |names| > 0 {
      var first := GetOrAdd(cache, names[0], load);
      var r := GetOrAddAll(first.1, names[1..], load);
      LoadsOncePerName(first.1, names[1..], load);
      CacheGrows(first.1, names[1..], load);
      NewKeysCount(cache.Keys, first.1.Keys, r.0.Keys, names[0], first.2);
    }
  }

  /** New keys add up over two steps, the first of which adds at most `name`. */
  lemma NewKeysCount(a: set<String>, b: set<String>, c: set<String>, name: String, added: bool)
    requires a <= b <= c
    requires b == a + {name}
    requires added <==> name !in a
    ensures |c - a| == |c - b| + (if added then 1 else 0)
  {
    assert c - a == (b - a) + (c - b);
    assert (b - a) * (c - b) == {};
    if added {
      assert b - a == {name};
    } else {
      assert b - a == {};
    }
  }

  // Inputs read from the shader file (GetParameterInputs)

  /** A channel block: the channels it fills, its texture processor and the parameters it reads, ended by -1. */
  datatype ChannelBlock = ChannelBlock(channel: Channel, texProcessorName: String, inputTextureIndices: seq<int>)

  /** Processors that pack a normal map: they fill RGB and optionally A, and end the inputs. */
  predicate IsPackedNormal(processor: String)
  {
    processor == "HemiOctIsoRoughness_RG_B" || processor == "AnisoNormal"
  }

  /** The names of the parameters in `indices`, each of which must be a parameter index. */
  function ParamNames(indices: seq<int>, params: seq<ParamBlock>): (r: Result<seq<String>, ShaderError>)
    ensures r.Success? <==> forall k :: 0 <= k < |indices| ==> 0 <= indices[k] < |params|
    ensures r.Success? ==> |r.value| == |indices|
    ensures r.Success? ==> forall k :: 0 <= k < |indices| ==> r.value[k] == params[indices[k]].name
  {
    if |indices| == 0 then Success([])
    else if !(0 <= indices[0] < |params|) then Failure(IndexOutOfRange)
    else
      match ParamNames(indices[1..], params)
      case Failure(e) =>
        assert forall k :: 1 <= k < |indices| ==> indices[k] == indices[1..][k - 1];
        Failure(e)
      case Success(rest) =>
        assert forall k :: 1 <= k < |indices| ==> indices[k] == indices[1..][k - 1];
        Success([params[indices[0]].name] + rest)
  }

  /** The names of a channel's processor inputs: the indices before the first -1; without a -1 the slice throws. */
  function ProcessorInputs(channel: ChannelBlock, params: seq<ParamBlock>): (r: Result<seq<String>, ShaderError>)
    ensures -1 !in channel.inputTextureIndices ==> r.Failure?
    ensures r.Success? ==> exists cutoff :: (0 <= cutoff < |channel.inputTextureIndices| &&
      channel.inputTextureIndices[cutoff] == -1 &&
      (forall k :: 0 <= k < cutoff ==> channel.inputTextureIndices[k] != -1) &&
      |r.value| == cutoff &&
      forall k :: 0 <= k < cutoff ==>
        0 <= channel.inputTextureIndices[k] < |params| && r.value[k] == params[channel.inputTextureIndices[k]].name)
  {
    var indices := channel.inputTextureIndices;
    if -1 !in indices then Failure(IndexOutOfRange)
    else ParamNames(indices[..FirstIndex(indices, -1)], params)
  }

  /** The inputs of channels `i` onward of a parameter; a packed normal yields its inputs and ends them all. */
  function ChannelInputs(param: ParamBlock, i: nat, channels: seq<ChannelBlock>, params: seq<ParamBlock>): (r: Result<seq<Input>, ShaderError>)
    ensures r.Success? && i < param.channelCount ==> 0 < |r.value| <= param.channelCount - i + 1
    ensures r.Success? && i >= param.channelCount ==> r.value == []
    ensures r.Success? ==> forall k :: 0 <= k < |r.value| ==> exists j :: 0 <= j < |params| && params[j].name == r.value[k].name
    decreases param.channelCount - i
  {
    if i >= param.channelCount then Success([])
    else if i >= |param.channelIndices| then Failure(IndexOutOfRange)
    else
      var ci := param.channelIndices[i];
      if !(0 <= ci < |channels|) then Failure(IndexOutOfRange)
      else
        var channel := channels[ci];
        match ProcessorInputs(channel, params)
        case Failure(e) => Failure(e)
        case Success(names) =>
          if |names| == 0 then Failure(IndexOutOfRange)
          else if IsPackedNormal(channel.texProcessorName) then
            Success([Input(RGB, names[0])] + if |names| == 2 then [Input(A, names[1])] else [])
          else
            match ChannelInputs(param, i + 1, channels, params)
            case Failure(e) => Failure(e)
            case Success(rest) => Success([Input(channel.channel, names[0])] + rest)
  }

  /** GetParameterInputs, read eagerly: a thrown exception is a Failure. */
  function ParameterInputs(param: ParamBlock, channels: seq<ChannelBlock>, params: seq<ParamBlock>): Result<seq<Input>, ShaderError>
  {
    ChannelInputs(param, 0, channels, params)
  }

  /** A features file: its parameter blocks and its channel blocks. */
  datatype FeaturesFile = FeaturesFile(params: seq<ParamBlock>, channels: seq<ChannelBlock>)

  /** The parameter blocks named `name`, in order (FindAll). */
  function NamedParams(params: seq<ParamBlock>, name: String): (r: seq<ParamBlock>)
    ensures |r| <= |params|
    ensures forall k :: 0 <= k < |r| ==> r[k].name == name
    ensures |r| == 0 <==> forall k :: 0 <= k < |params| ==> params[k].name != name
  {
    if |params| == 0 then []
    else
      assert forall k :: 1 <= k < |params| ==> params[k] == params[1..][k - 1];
      (if params[0].name == name then [params[0]] else []) + NamedParams(params[1..], name)
  }

  /** A thrown exception stays one; inputs become an answer. */
  function Answer(r: Result<seq<Input>, ShaderError>): Result<Option<seq<Input>>, ShaderError>
  {
    match r
    case Success(v) => Success(Some(v))
    case Failure(e) => Failure(e)
  }

  /**
   * GetInputsForTexture_Internal: no answer without a features file; a
   * features file without a parameter for the texture throws; a single
   * such parameter gives its inputs; several are told apart through the
   * static configuration and the zframe's write sequence, whose outcome
   * `varying` stands for.
   */
  function OwnInputs(features: Option<FeaturesFile>, textureType: String, varying: Result<seq<Input>, ShaderError>):
    (r: Result<Option<seq<Input>>, ShaderError>)
    ensures features.None? ==> r == Success(None)
    ensures features.Some? && (forall k :: 0 <= k < |features.value.params| ==> features.value.params[k].name != textureType) ==>
      r == Failure(MissingParameter(textureType))
    ensures r.Success? && r.value.Some? ==>
      features.Some? && exists k :: 0 <= k < |features.value.params| && features.value.params[k].name == textureType
  {
    match features
    case None => Success(None)
    case Some(f) =>
      var named := NamedParams(f.params, textureType);
      if |named| == 0 then Failure(MissingParameter(textureType))
      else if |named| == 1 then Answer(ParameterInputs(named[0], f.channels, f.params))
      else Answer(varying)
  }

  /** The blocks named `name` are exactly block k when no other block has that name. */
  lemma {:induction false} NamedParamsSingle(params: seq<ParamBlock>, name: String, k: nat)
    requires k < |params| && params[k].name == name
    requires forall j :: 0 <= j < |params| && j != k ==> params[j].name != name
    ensures NamedParams(params, name) == [params[k]]
  {
    assert forall j :: 1 <= j < |params| ==> params[j] == params[1..][j - 1];
    if k == 0 {
      assert NamedParams(params[1..], name) == [];
    } else {
      NamedParamsSingle(params[1..], name, k - 1);
    }
  }

  /** Two blocks with the texture's name leave more than one candidate. */
  lemma {:induction false} NamedParamsTwo(params: seq<ParamBlock>, name: String, j: nat, k: nat)
    requires j < k < |params| && params[j].name == name && params[k].name == name
    ensures |NamedParams(params, name)| >= 2
  {
    assert forall i :: 1 <= i < |params| ==> params[i] == params[1..][i - 1];
    if j == 0 {
      assert params[1..][k - 1].name == name;
      assert |NamedParams(params[1..], name)| > 0;
    } else {
      NamedParamsTwo(params[1..], name, j - 1, k - 1);
    }
  }

  /**
   * The three outcomes of a features file: the one parameter named after
   * the texture gives its own inputs; with two or more, the outcome of the
   * static-configuration search decides.
   */
  lemma OwnInputsChoice(f: FeaturesFile, textureType: String, varying: Result<seq<Input>, ShaderError>, j: nat, k: nat)
    requires k < |f.params| && f.params[k].name == textureType
    ensures (forall i :: 0 <= i < |f.params| && i != k ==> f.params[i].name != textureType) ==>
      OwnInputs(Some(f), textureType, varying) == Answer(ParameterInputs(f.params[k], f.channels, f.params))
    ensures j < k && f.params[j].name == textureType ==>
      OwnInputs(Some(f), textureType, varying) == Answer(varying)
  {
    if forall i :: 0 <= i < |f.params| && i != k ==> f.params[i].name != textureType {
      NamedParamsSingle(f.params, textureType, k);
    }
    if j < k && f.params[j].name == textureType {
      NamedParamsTwo(f.params, textureType, j, k);
    }
  }

  /**
   * The full provider over its own answer: whenever the compiled shader has
   * an answer for the texture, that answer is the full provider's, whether
   * or not it falls back; so the one parameter named after the texture gives
   * its own inputs. Without a features file, a provider that falls back
   * gives the basic inputs.
   */
  lemma FullInputsOfOwn(tables: Tables, features: Option<FeaturesFile>, textureType: String,
                        varying: Result<seq<Input>, ShaderError>, fallBackToBasic: bool,
                        shaderFileName: String, p: IntParams, k: nat)
    ensures OwnInputs(features, textureType, varying).Success? && OwnInputs(features, textureType, varying).value.Some? ==>
      FullInputs(tables, OwnInputs(features, textureType, varying).value, fallBackToBasic, shaderFileName, textureType, p) ==
        OwnInputs(features, textureType, varying).value
    ensures features.None? ==>
      FullInputs(tables, OwnInputs(features, textureType, varying).value, fallBackToBasic, shaderFileName, textureType, p) ==
        (if fallBackToBasic then Some(BasicInputs(tables, shaderFileName, textureType, p)) else None)
    ensures (&& features.Some? && k < |features.value.params| && features.value.params[k].name == textureType
             && (forall i :: 0 <= i < |features.value.params| && i != k ==> features.value.params[i].name != textureType)
             && ParameterInputs(features.value.params[k], features.value.channels, features.value.params).Success?) ==>
        var own := ParameterInputs(features.value.params[k], features.value.channels, features.value.params).value;
        OwnInputs(features, textureType, varying) == Success(Some(own)) &&
        FullInputs(tables, Some(own), fallBackToBasic, shaderFileName, textureType, p) == Some(own)
  {
    if features.Some? && k < |features.value.params| && features.value.params[k].name == textureType {
      OwnInputsChoice(features.value, textureType, varying, 0, k);
    }
  }

  /** Whether channel `k` of the parameter is a valid channel without a packed-normal processor. */
  predicate PlainChannel(param: ParamBlock, k: int, channels: seq<ChannelBlock>)
  {
    0 <= k < |param.channelIndices| && 0 <= param.channelIndices[k] < |channels| &&
    !IsPackedNormal(channels[param.channelIndices[k]].texProcessorName)
  }

  /** Without packed normals every channel yields exactly one input, carrying that channel's mapping. */
  lemma {:induction false} PlainChannelsOneInputEach(param: ParamBlock, i: nat, channels: seq<ChannelBlock>, params: seq<ParamBlock>)
    requires i <= param.channelCount
    requires forall k :: i <= k < param.channelCount ==> PlainChannel(param, k, channels)
    ensures ChannelInputs(param, i, channels, params).Success? ==>
      |ChannelInputs(param, i, channels, params).value| == param.channelCount - i
    ensures ChannelInputs(param, i, channels, params).Success? ==>
      forall k :: 0 <= k < |ChannelInputs(param, i, channels, params).value| && i + k < param.channelCount ==>
        PlainChannel(param, i + k, channels) &&
        ChannelInputs(param, i, channels, params).value[k].channel == channels[param.channelIndices[i + k]].channel
    decreases param.channelCount - i
  {
    var r := ChannelInputs(param, i, channels, params);
    if i < param.channelCount && r.Success? {
      assert PlainChannel(param, i, channels);
      var channel := channels[param.channelIndices[i]];
      var names := ProcessorInputs(channel, params).value;
      PlainChannelsOneInputEach(param, i + 1, channels, params);
      var rest := ChannelInputs(param, i + 1, channels, params).value;
      assert r.value == [Input(channel.channel, names[0])] + rest;
      assert forall k :: 1 <= k < |r.value| ==> r.value[k] == rest[k - 1];
    }
  }

  /** A packed normal in channel `i` ends the inputs: RGB from its first input, A from a second when there are exactly two. */
  lemma PackedNormalEndsInputs(param: ParamBlock, i: nat, channels: seq<ChannelBlock>, params: seq<ParamBlock>)
    requires i < param.channelCount && i < |param.channelIndices|
    requires 0 <= param.channelIndices[i] < |channels| && IsPackedNormal(channels[param.channelIndices[i]].texProcessorName)
    ensures ChannelInputs(param, i, channels, params).Success? ==>
      var names := ProcessorInputs(channels[param.channelIndices[i]], params).value;
      |names| > 0 && ChannelInputs(param, i, channels, params).value[0] == Input(RGB, names[0]) &&
      |ChannelInputs(param, i, channels, params).value| == (if |names| == 2 then 2 else 1)
  {
  }
}

=== FILE: text.dfy ===
/**
 * Strings as sequences of characters, and the handful of .NET string
 * operations the model relies on: ordinal-ignore-case comparison (as an
 * ASCII upper-case fold), prefix and suffix tests, splitting and joining,
 * character replacement, trimming and decimal integer text.
 */
module Text {
  import opened Wrappers

  type String = seq<char>

  /** Upper-case fold of one character (ASCII letters only). */
  function UpperChar(c: char): (r: char)
    ensures 'a' <= c <= 'z' ==> r as int == c as int - 32
    ensures !('a' <= c <= 'z') ==> r == c
  {
    if 'a' <= c <= 'z' then (c as int - 32) as char else c
  }

  function Upper(s: String): (r: String)
    ensures |r| == |s|
    ensures forall i :: 0 <= i < |s| ==> r[i] == UpperChar(s[i])
  {
    if |s| == 0 then [] else [UpperChar(s[0])] + Upper(s[1..])
  }

  lemma UpperAppend(a: String, b: String)
    ensures Upper(a + b) == Upper(a) + Upper(b)
  {
  }

  /** Ordinal comparison ignoring case. */
  predicate EqualsIgnoreCase(a: String, b: String)
  {
    Upper(a) == Upper(b)
  }

  predicate StartsWith(s: String, prefix: String)
  {
    |prefix| <= |s| && s[..|prefix|] == prefix
  }

  predicate EndsWith(s: String, suffix: String)
  {
    |suffix| <= |s| && s[|s| - |suffix|..] == suffix
  }

  predicate StartsWithIgnoreCase(s: String, prefix: String)
  {
    StartsWith(Upper(s), Upper(prefix))
  }

  /** An exact prefix is also a prefix ignoring case. */
  lemma StartsWithIgnoringCase(s: String, prefix: String)
    requires StartsWith(s, prefix)
    ensures StartsWithIgnoreCase(s, prefix)
  {
    assert Upper(s)[..|prefix|] == Upper(s[..|prefix|]);
  }

  /** A prefix that differs from `s` at some position, ignoring case, is not a prefix. */
  lemma NotStartsWithIgnoreCase(s: String, prefix: String, k: nat)
    requires k < |s| && k < |prefix| && UpperChar(s[k]) != UpperChar(prefix[k])
    ensures !StartsWithIgnoreCase(s, prefix)
  {
  }

  predicate EndsWithIgnoreCase(s: String, suffix: String)
  {
    EndsWith(Upper(s), Upper(suffix))
  }

  /** Whether `sub` occurs somewhere in `s`. */
  predicate Contains(s: String, sub: String)
  {
    StartsWith(s, sub) || (|s| > 0 && Contains(s[1..], sub))
  }

  lemma {:induction false} ContainsAt(s: String, sub: String, i: nat)
    requires i + |sub| <= |s| && s[i..i + |sub|] == sub
    ensures Contains(s, sub)
  {
    if i > 0 {
      assert s[1..][i - 1..i - 1 + |sub|] == sub;
      ContainsAt(s[1..], sub, i - 1);
    }
  }

  predicate ContainsIgnoreCase(s: String, sub: String)
  {
    Contains(Upper(s), Upper(sub))
  }

  /** Every occurrence of `from` replaced by `to` (String.Replace(char, char)). */
  function ReplaceChar(s: String, from: char, to: char): (r: String)
    ensures |r| == |s|
    ensures forall i :: 0 <= i < |s| ==> r[i] == (if s[i] == from then to else s[i])
  {
    if |s| == 0 then [] else [if s[0] == from then to else s[0]] + ReplaceChar(s[1..], from, to)
  }

  lemma ReplaceCharAppend(a: String, b: String, from: char, to: char)
    ensures ReplaceChar(a + b, from, to) == ReplaceChar(a, from, to) + ReplaceChar(b, from, to)
  {
  }

  /**
   * String.Replace(string, string): left-to-right replacement of the
   * non-overlapping occurrences of `pat`.
   */
  function ReplaceAll(s: String, pat: String, rep: String): String
    requires |pat| > 0
  {
    if |s| < |pat| then s
    else if StartsWith(s, pat) then rep + ReplaceAll(s[|pat|..], pat, rep)
    else [s[0]] + ReplaceAll(s[1..], pat, rep)
  }

  lemma {:induction false} ReplaceAllAbsent(s: String, pat: String, rep: String)
    requires |pat| > 0 && !Contains(s, pat)
    ensures ReplaceAll(s, pat, rep) == s
  {
    if |s| >= |pat| {
      ReplaceAllAbsent(s[1..], pat, rep);
    }
  }

  /** String.TrimEnd(char): removes every trailing `c`. */
  function TrimEnd(s: String, c: char): (r: String)
    ensures |r| <= |s| && r == s[..|r|]
    ensures |r| == 0 || r[|r| - 1] != c
    ensures forall i :: |r| <= i < |s| ==> s[i] == c
  {
    if |s| > 0 && s[|s| - 1] == c then TrimEnd(s[..|s| - 1], c) else s
  }

  /** String.Split(char): the pieces between separators, empty pieces kept. */
  function Split(s: String, sep: char): (r: seq<String>)
    ensures |r| >= 1
    ensures forall i :: 0 <= i < |r| ==> sep !in r[i]
  {
    if |s| == 0 then [[]]
    else
      var rest := Split(s[1..], sep);
      if s[0] == sep then [[]] + rest else [[s[0]] + rest[0]] + rest[1..]
  }

  /** String.Join(sep, parts). */
  function Join(parts: seq<String>, sep: String): String
  {
    if |parts| == 0 then []
    else if |parts| == 1 then parts[0]
    else parts[0] + sep + Join(parts[1..], sep)
  }

  /** Joining the pieces of a split with the separator gives the input back. */
  lemma {:induction false} JoinSplit(s: String, sep: char)
    ensures Join(Split(s, sep), [sep]) == s
  {
    if |s| > 0 {
      var rest := Split(s[1..], sep);
      JoinSplit(s[1..], sep);
      if s[0] == sep {
        assert Split(s, sep) == [[]] + rest;
        assert ([[]] + rest)[1..] == rest;
        assert s == [sep] + s[1..];
      } else {
        assert Split(s, sep) == [[s[0]] + rest[0]] + rest[1..];
        if |rest| == 1 {
          assert s == [s[0]] + s[1..];
        } else {
          assert ([[s[0]] + rest[0]] + rest[1..])[1..] == rest[1..];
          assert Join(rest, [sep]) == rest[0] + [sep] + Join(rest[1..], [sep]);
          assert s == [s[0]] + s[1..];
        }
      }
    }
  }

  /** A string without the separator splits into itself alone. */
  lemma {:induction false} SplitWithoutSeparator(s: String, sep: char)
    requires sep !in s
    ensures Split(s, sep) == [s]
  {
    if |s| > 0 {
      SplitWithoutSeparator(s[1..], sep);
      assert [s[0]] + s[1..] == s;
    }
  }

  /** The text before the first separator is the first piece. */
  lemma {:induction false} SplitAtSeparator(a: String, b: String, sep: char)
    requires sep !in a
    ensures Split(a + [sep] + b, sep) == [a] + Split(b, sep)
  {
    if |a| > 0 {
      SplitAtSeparator(a[1..], b, sep);
      assert (a + [sep] + b)[1..] == a[1..] + [sep] + b;
      assert [a[0]] + a[1..] == a;
    } else {
      assert (a + [sep] + b)[1..] == b;
    }
  }

  /** Splitting the join of separator-free pieces gives the pieces back. */
  lemma {:induction false} SplitJoin(parts: seq<String>, sep: char)
    requires |parts| >= 1
    requires forall i :: 0 <= i < |parts| ==> sep !in parts[i]
    ensures Split(Join(parts, [sep]), sep) == parts
  {
    if |parts| == 1 {
      SplitWithoutSeparator(parts[0], sep);
    } else {
      SplitJoin(parts[1..], sep);
      SplitAtSeparator(parts[0], Join(parts[1..], [sep]), sep);
      assert [parts[0]] + parts[1..] == parts;
    }
  }

  predicate IsDigit(c: char)
  {
    '0' <= c <= '9'
  }

  /**
   * Char.IsWhiteSpace: the control characters U+0009 to U+000D and U+0085,
   * and the space, line and paragraph separators of Unicode (U+0020,
   * U+00A0, U+1680, U+2000 to U+200A, U+2028, U+2029, U+202F, U+205F,
   * U+3000).
   */
  predicate IsWhiteSpace(c: char)
  {
    || '\t' <= c <= '\r'
    || c == ' ' || c == '\U{0085}' || c == '\U{00A0}' || c == '\U{1680}'
    || '\U{2000}' <= c <= '\U{200A}'
    || c == '\U{2028}' || c == '\U{2029}' || c == '\U{202F}' || c == '\U{205F}' || c == '\U{3000}'
  }

  /** String.IsNullOrWhiteSpace for a non-null string. */
  predicate IsWhiteSpaceOnly(s: String)
  {
    forall i :: 0 <= i < |s| ==> IsWhiteSpace(s[i])
  }

  function DigitChar(d: nat): (c: char)
    requires d < 10
    ensures IsDigit(c) && c as int - '0' as int == d
  {
    ('0' as int + d) as char
  }

  /** Decimal text of a natural number, without leading zeros. */
  function NatToString(n: nat): (r: String)
    ensures |r| >= 1
    ensures forall i :: 0 <= i < |r| ==> IsDigit(r[i])
    ensures |r| > 1 ==> r[0] != '0'
  {
    if n < 10 then [DigitChar(n)] else NatToString(n / 10) + [DigitChar(n % 10)]
  }

  /** Value of a string of decimal digits. */
  function DigitsValue(s: String): nat
    requires forall i :: 0 <= i < |s| ==> IsDigit(s[i])
  {
    if |s| == 0 then 0
    else
      assert IsDigit(s[|s| - 1]);
      DigitsValue(s[..|s| - 1]) * 10 + (s[|s| - 1] as int - '0' as int)
  }

  lemma {:induction false} DigitsOfNat(n: nat)
    ensures DigitsValue(NatToString(n)) == n
  {
    if n >= 10 {
      DigitsOfNat(n / 10);
      var s := NatToString(n);
      assert s[..|s| - 1] == NatToString(n / 10);
    }
  }

  /** Different numbers have different decimal texts. */
  lemma NatToStringInjective(m: nat, n: nat)
    requires NatToString(m) == NatToString(n)
    ensures m == n
  {
    DigitsOfNat(m);
    DigitsOfNat(n);
  }

  /** Int32.ToString(). */
  function IntToString(n: int): String
  {
    if n < 0 then "-" + NatToString(-n) else NatToString(n)
  }

  const Int32Min: int := -0x8000_0000
  const Int32Max: int := 0x7FFF_FFFF

  predicate IsInt32(n: int)
  {
    Int32Min <= n <= Int32Max
  }

  datatype ParseError = FormatError | OverflowError

  /** The text after one leading sign, if there is one. */
  function Unsigned(s: String): (r: String)
    ensures |s| > 0 && (s[0] == '-' || s[0] == '+') ==> r == s[1..]
    ensures |s| == 0 || (s[0] != '-' && s[0] != '+') ==> r == s
  {
    if |s| > 0 && (s[0] == '-' || s[0] == '+') then s[1..] else s
  }

  /**
   * Int32.Parse with the default integer style: an optional sign and at
   * least one decimal digit; text outside the 32-bit range overflows.
   */
  function ParseInt(s: String): (r: Result<int, ParseError>)
    ensures r.Success? ==> IsInt32(r.value)
    ensures |s| == 0 ==> r == Failure(FormatError)
    ensures r != Failure(FormatError) <==>
      |Unsigned(s)| > 0 && forall i :: 0 <= i < |Unsigned(s)| ==> IsDigit(Unsigned(s)[i])
    ensures r.Success? && r.value < 0 ==> s[0] == '-'
    ensures r.Success? && s[0] == '-' ==> r.value <= 0
    ensures r != Failure(FormatError) ==>
      var v := if |s| > 0 && s[0] == '-' then 0 - DigitsValue(Unsigned(s)) else DigitsValue(Unsigned(s));
      (r.Success? <==> IsInt32(v)) && (r.Success? ==> r.value == v)
  {
    var negative := |s| > 0 && s[0] == '-';
    var body := Unsigned(s);
    if |body| == 0 || exists i :: 0 <= i < |body| && !IsDigit(body[i]) then Failure(FormatError)
    else
      var v: int := if negative then 0 - DigitsValue(body) else DigitsValue(body);
      if IsInt32(v) then Success(v) else Failure(OverflowError)
  }

  /** Int32.TryParse: the parsed value, or 0 when parsing fails. */
  function TryParseOrZero(s: String): (r: int)
    ensures ParseInt(s).Success? ==> r == ParseInt(s).value
    ensures ParseInt(s).Failure? ==> r == 0
  {
    match ParseInt(s)
    case Success(v) => v
    case Failure(_) => 0
  }

  /** Parsing the text of any 32-bit integer gives it back. */
  lemma ParseIntToString(n: int)
    requires IsInt32(n)
    ensures ParseInt(IntToString(n)) == Success(n)
  {
    var s := IntToString(n);
    if n < 0 {
      var digits := NatToString(-n);
      DigitsOfNat(-n);
      assert s == "-" + digits;
      assert Unsigned(s) == digits by { assert s[1..] == digits; }
      assert ParseInt(s) != Failure(FormatError);
      assert 0 - DigitsValue(Unsigned(s)) == n;
    } else {
      DigitsOfNat(n);
      assert s[0] != '-' && s[0] != '+';
      assert Unsigned(s) == s;
      assert ParseInt(s) != Failure(FormatError);
      assert DigitsValue(Unsigned(s)) == n;
    }
  }
}

=== FILE: vectors.dfy ===
/** Three-component vectors over the reals (System.Numerics.Vector3 without rounding). */
module Vectors {

  datatype Vec3 = Vec3(x: real, y: real, z: real)

  const Zero: Vec3 := Vec3(0.0, 0.0, 0.0)
  const One: Vec3 := Vec3(1.0, 1.0, 1.0)

  /** Four-component vectors (System.Numerics.Vector4), used for tints. */
  datatype Vec4 = Vec4(x: real, y: real, z: real, w: real)

  const One4: Vec4 := Vec4(1.0, 1.0, 1.0, 1.0)

  function Add(a: Vec3, b: Vec3): Vec3
  {
    Vec3(a.x + b.x, a.y + b.y, a.z + b.z)
  }

  function Sub(a: Vec3, b: Vec3): Vec3
  {
    Vec3(a.x - b.x, a.y - b.y, a.z - b.z)
  }

  function Scale(v: Vec3, k: real): Vec3
  {
    Vec3(v.x * k, v.y * k, v.z * k)
  }

  /** Squared Euclidean length. */
  function LengthSq(v: Vec3): real
  {
    v.x * v.x + v.y * v.y + v.z * v.z
  }

  function Abs(a: real): real
  {
    if a < 0.0 then -a else a
  }

  function Min(a: real, b: real): real
  {
    if a <= b then a else b
  }

  function Max(a: real, b: real): real
  {
    if a <= b then b else a
  }

  lemma LengthSqNonNegative(v: Vec3)
    ensures LengthSq(v) >= 0.0
  {
  }

  lemma LengthSqOfScale(v: Vec3, k: real)
    ensures LengthSq(Scale(v, k)) == k * k * LengthSq(v)
  {
  }

  /** A non-negative real has only one non-negative square root. */
  lemma SquareRootUnique(a: real, b: real)
    requires a >= 0.0 && b >= 0.0 && a * a == b * b
    ensures a == b
  {
    assert (a - b) * (a + b) == a * a - b * b;
    if a + b == 0.0 {
    } else {
      assert a - b == 0.0;
    }
  }
}

=== FILE: world_loader.dfy ===
/**
 * WorldLoader: the lightmap bookkeeping of a world, and the rules that
 * classify the entities of an entity lump — processing order, enabled
 * layers, environment maps and light probes keyed by handshake, the
 * legacy cube-map array indices, camera names, and the holdanimation and
 * body-group properties of model entities.
 */
module WorldLoader {
  import opened Wrappers
  import opened Text
  import Seqs
  import Paths

  /** The lightmap file names (without extension) the renderer binds, and their uniforms. */
  function LightmapUniform(name: String): (r: Option<String>)
  {
    if name == "irradiance" then Some("g_tIrradiance")
    else if name == "directional_irradiance" then Some("g_tDirectionalIrradiance")
    else if name == "direct_light_shadows" then Some("g_tDirectLightShadows")
    else if name == "direct_light_indices" then Some("g_tDirectLightIndices")
    else if name == "direct_light_strengths" then Some("g_tDirectLightStrengths")
    else None
  }

  const LightmapSetV81: seq<String> := ["g_tIrradiance", "g_tDirectionalIrradiance", "g_tDirectLightIndices", "g_tDirectLightStrengths"]
  const LightmapSetV82: seq<String> := ["g_tIrradiance", "g_tDirectionalIrradiance", "g_tDirectLightShadows"]

  /** The uniform a lightmap file is loaded into, by its name without directory and extension. */
  function FileUniform(file: String): Option<String>
  {
    LightmapUniform(Paths.GetFileNameWithoutExtension(file))
  }

  /** The uniform each lightmap file is loaded into, in list order. */
  function FileUniforms(files: seq<String>): (r: seq<Option<String>>)
    ensures |r| == |files|
    ensures forall i :: 0 <= i < |files| ==> r[i] == FileUniform(files[i])
  {
    seq(|files|, i requires 0 <= i < |files| => FileUniform(files[i]))
  }

  /** The position of the last file loaded into uniform `u`, or -1 when no file is. */
  function LastFileFor(uniforms: seq<Option<String>>, u: String): (r: int)
    ensures -1 <= r < |uniforms|
    ensures r >= 0 ==> uniforms[r] == Some(u)
    ensures forall j :: r < j < |uniforms| ==> uniforms[j] != Some(u)
  {
    if |uniforms| == 0 then -1
    else if uniforms[|uniforms| - 1] == Some(u) then |uniforms| - 1
    else
      var init := uniforms[..|uniforms| - 1];
      var r := LastFileFor(init, u);
      assert forall j :: 0 <= j < |init| ==> init[j] == uniforms[j];
      r
  }

  /** The files loaded in order, file i into uniform i when it has one. */
  function LoadUniforms(lightmaps: map<String, nat>, files: seq<String>, uniforms: seq<Option<String>>,
                        loadTexture: String -> nat): (r: map<String, nat>)
    requires |uniforms| == |files|
    ensures forall u :: u in r ==> u in lightmaps || Some(u) in uniforms
    ensures forall u :: u in lightmaps ==> u in r
    ensures forall u :: LastFileFor(uniforms, u) >= 0 ==> u in r && r[u] == loadTexture(files[LastFileFor(uniforms, u)])
    ensures forall u :: u in lightmaps && LastFileFor(uniforms, u) < 0 ==> r[u] == lightmaps[u]
    decreases |files|
  {
    if |files| == 0 then lightmaps
    else
      var init := uniforms[..|uniforms| - 1];
      var before := LoadUniforms(lightmaps, files[..|files| - 1], init, loadTexture);
      var r := match uniforms[|uniforms| - 1]
        case None => before
        case Some(u) => before[u := loadTexture(files[|files| - 1])];
      assert forall i :: 0 <= i < |init| ==> init[i] == uniforms[i];
      r
  }

  /**
   * The lightmaps of the world lighting info: every listed file whose name
   * has a uniform is loaded into that uniform, in list order, so a later
   * file for the same uniform replaces an earlier one.
   */
  function CollectLightmaps(lightmaps: map<String, nat>, files: seq<String>, loadTexture: String -> nat):
    (r: map<String, nat>)
    ensures forall u :: u in r ==> u in lightmaps || Some(u) in FileUniforms(files)
    ensures forall u :: u in lightmaps ==> u in r
    ensures forall u :: LastFileFor(FileUniforms(files), u) >= 0 ==>
      u in r && r[u] == loadTexture(files[LastFileFor(FileUniforms(files), u)])
    ensures forall u :: u in lightmaps && LastFileFor(FileUniforms(files), u) < 0 ==> r[u] == lightmaps[u]
  {
    LoadUniforms(lightmaps, files, FileUniforms(files), loadTexture)
  }

  /** Every file that names a uniform leaves that uniform bound. */
  lemma CollectedUniformsPresent(lightmaps: map<String, nat>, files: seq<String>, loadTexture: String -> nat)
    ensures forall i :: 0 <= i < |files| && FileUniform(files[i]).Some? ==>
      FileUniform(files[i]).value in CollectLightmaps(lightmaps, files, loadTexture)
  {
    var uniforms := FileUniforms(files);
    forall i | 0 <= i < |files| && FileUniform(files[i]).Some?
      ensures FileUniform(files[i]).value in CollectLightmaps(lightmaps, files, loadTexture)
    {
      var u := FileUniform(files[i]).value;
      assert uniforms[i] == Some(u);
      assert LastFileFor(uniforms, u) >= i;
    }
  }

  /** HasValidLightmaps: version (8, 1) needs the four-uniform set, (8, 2) the three-uniform set; any other pair is invalid. */
  function HasValidLightmaps(version: int, gameVersion: int, lightmaps: map<String, nat>): (r: bool)
    ensures r <==>
      (version == 8 && gameVersion == 1 && forall i :: 0 <= i < |LightmapSetV81| ==> LightmapSetV81[i] in lightmaps)
      || (version == 8 && gameVersion == 2 && forall i :: 0 <= i < |LightmapSetV82| ==> LightmapSetV82[i] in lightmaps)
  {
    if version == 6 && gameVersion == 0 then false
    else if version == 8 && gameVersion == 1 then forall i :: 0 <= i < |LightmapSetV81| ==> LightmapSetV81[i] in lightmaps
    else if version == 8 && gameVersion == 2 then forall i :: 0 <= i < |LightmapSetV82| ==> LightmapSetV82[i] in lightmaps
    else false
  }

  datatype WorldLightingInfo = WorldLightingInfo(versionNumber: int, gameVersionNumber: int, lightMaps: seq<String>)

  datatype Lighting = Lighting(versionNumber: int, gameVersionNumber: int, lightmaps: map<String, nat>, hasValidLightmaps: bool)

  /**
   * LoadWorldLightingInfo: nothing happens without lighting info; the game
   * version is read only for lightmap version 8.
   */
  function LoadLighting(l: Lighting, info: Option<WorldLightingInfo>, loadTexture: String -> nat): (r: Lighting)
    ensures info.None? ==> r == l
    ensures info.Some? ==> r.versionNumber == info.value.versionNumber
    ensures info.Some? ==>
      r.gameVersionNumber == (if info.value.versionNumber == 8 then info.value.gameVersionNumber else l.gameVersionNumber)
    ensures info.Some? ==> r.hasValidLightmaps == HasValidLightmaps(r.versionNumber, r.gameVersionNumber, r.lightmaps)
  {
    match info
    case None => l
    case Some(w) =>
      var game := if w.versionNumber == 8 then w.gameVersionNumber else l.gameVersionNumber;
      var lightmaps := CollectLightmaps(l.lightmaps, w.lightMaps, loadTexture);
      Lighting(w.versionNumber, game, lightmaps, HasValidLightmaps(w.versionNumber, game, lightmaps))
  }

  /** Every uniform the two valid lightmap sets require is the uniform of some lightmap file name. */
  lemma LightmapSetsReachable()
    ensures forall i :: 0 <= i < |LightmapSetV81| ==> exists n :: LightmapUniform(n) == Some(LightmapSetV81[i])
    ensures forall i :: 0 <= i < |LightmapSetV82| ==> exists n :: LightmapUniform(n) == Some(LightmapSetV82[i])
  {
    assert LightmapUniform("irradiance") == Some(LightmapSetV81[0]);
    assert LightmapUniform("directional_irradiance") == Some(LightmapSetV81[1]);
    assert LightmapUniform("direct_light_indices") == Some(LightmapSetV81[2]);
    assert LightmapUniform("direct_light_strengths") == Some(LightmapSetV81[3]);
    assert LightmapUniform("direct_light_shadows") == Some(LightmapSetV82[2]);
  }

  /**
   * An entity property value, by its boxed runtime type. The numeric types
   * are kept apart because each switch of the loader accepts only one of
   * them: `int` (Int32), `uint` (UInt32) or `ulong` (UInt64); any other
   * number (Int64, a float, ...) is `OtherNumber`. A colour is a byte array
   * and a vector a Vector3; their contents are not modelled.
   */
  datatype PropValue =
    | Int32Value(i: int)
    | UInt32Value(u: nat)
    | UInt64Value(u: nat)
    | OtherNumber
    | StringValue(s: String)
    | BoolValue(b: bool)
    | BytesValue
    | VectorValue
    | OtherValue

  datatype Entity = Entity(properties: map<String, PropValue>, transformIsDefault: bool)

  function StringProperty(e: Entity, key: String): Option<String>
  {
    if key in e.properties && e.properties[key].StringValue? then Some(e.properties[key].s) else None
  }

  function Classname(e: Entity): Option<String>
  {
    StringProperty(e, "classname")
  }

  predicate IsCubemapOrProbe(cls: Option<String>)
  {
    cls == Some("env_combined_light_probe_volume") || cls == Some("env_light_probe_volume")
    || cls == Some("env_cubemap_box") || cls == Some("env_cubemap")
  }

  /**
   * The processing order: cube maps and light probes first, everything
   * else after; a stable ordering, so each part keeps its relative order.
   */
  function Reorder(es: seq<Entity>): (r: seq<Entity>)
    ensures r == Seqs.Filter((e: Entity) => IsCubemapOrProbe(Classname(e)), es)
      + Seqs.Filter((e: Entity) => !IsCubemapOrProbe(Classname(e)), es)
  {
    Seqs.Filter((e: Entity) => IsCubemapOrProbe(Classname(e)), es)
      + Seqs.Filter((e: Entity) => !IsCubemapOrProbe(Classname(e)), es)
  }

  /** Splitting a sequence by a predicate and its negation loses and duplicates nothing. */
  lemma {:induction false} PartitionPermutes<T>(p: T -> bool, q: T -> bool, s: seq<T>)
    requires forall x :: q(x) == !p(x)
    ensures multiset(Seqs.Filter(p, s)) + multiset(Seqs.Filter(q, s)) == multiset(s)
  {
    if |s| > 0 {
      PartitionPermutes(p, q, s[1..]);
      assert s == [s[0]] + s[1..];
      Seqs.FilterAppend(p, [s[0]], s[1..]);
      Seqs.FilterAppend(q, [s[0]], s[1..]);
    }
  }

  /** The processing order is a permutation of the lump's entities with every cube map or probe first. */
  lemma ReorderPermutes(es: seq<Entity>)
    ensures multiset(Reorder(es)) == multiset(es)
    ensures forall i, j :: 0 <= i < j < |Reorder(es)| && IsCubemapOrProbe(Classname(Reorder(es)[j])) ==>
      IsCubemapOrProbe(Classname(Reorder(es)[i]))
  {
    var p := (e: Entity) => IsCubemapOrProbe(Classname(e));
    var q := (e: Entity) => !IsCubemapOrProbe(Classname(e));
    PartitionPermutes(p, q, es);
    var first := Seqs.Filter(p, es);
    var second := Seqs.Filter(q, es);
    var r := Reorder(es);
    assert r == first + second;
    forall i, j | 0 <= i < j < |r| && IsCubemapOrProbe(Classname(r[j]))
      ensures IsCubemapOrProbe(Classname(r[i]))
    {
      assert r[i] == first[i];
      assert p(first[i]);
    }
  }

  datatype TextureTarget = TextureCubeMapArray | TextureCubeMap | OtherTarget

  /** A texture as the material loader returns it: its target and handle. */
  datatype Texture = Texture(target: TextureTarget, handle: nat)

  datatype EnvMap = EnvMap(layerName: Option<String>, handShake: int, arrayIndex: int, indoorOutdoorLevel: int, projectionMode: nat, texture: Texture)

  datatype LightProbe = LightProbe(layerName: Option<String>, handShake: int, irradiance: Texture)

  /** The loader's results so far; `legacyCubemapIndex` counts the legacy cube maps of the current lump. */
  datatype State = State(
    enabledLayers: set<String>,
    lightmaps: map<String, nat>,
    environmentType: int,
    envMaps: map<int, EnvMap>,
    lightProbes: map<int, LightProbe>,
    cameras: map<String, Entity>,
    legacyCubemapIndex: nat)

  datatype WorldError =
    | EnvMapIndexTooLarge(index: int)
    | DuplicateHandShake(handShake: int)
    | BadNumber(error: ParseError)
    | UnsupportedHoldAnimation
    | MissingProperty(key: String)
    | UnsupportedLightColor
    | NotConvertibleToSingle

  /** The parts of the environment the entity rules read. */
  datatype Context = Context(
    maxEnvMaps: int,
    getTexture: Option<String> -> Texture,
    modelLoads: String -> bool,
    parsesAsSingle: String -> bool)

  /** Int32.TryParse of a possibly missing string; failure gives 0. */
  function HandShake(e: Entity): (r: int)
    ensures StringProperty(e, "handshake").None? ==> r == 0
    ensures StringProperty(e, "handshake").Some? ==> r == TryParseOrZero(StringProperty(e, "handshake").value)
  {
    match StringProperty(e, "handshake")
    case None => 0
    case Some(s) => TryParseOrZero(s)
  }

  /**
   * An int-valued property: a boxed Int32 as it is, a string parsed (which
   * may throw), and a missing property or any other type, including the
   * other integer widths, 0.
   */
  function IntProperty(e: Entity, key: String): (r: Result<int, WorldError>)
    ensures key !in e.properties ==> r == Success(0)
    ensures key in e.properties && e.properties[key].Int32Value? ==> r == Success(e.properties[key].i)
    ensures key in e.properties && e.properties[key].StringValue? ==>
      (r.Success? <==> ParseInt(e.properties[key].s).Success?)
      && (r.Success? ==> r.value == ParseInt(e.properties[key].s).value)
    ensures key in e.properties && !e.properties[key].Int32Value? && !e.properties[key].StringValue? ==>
      r == Success(0)
  {
    if key !in e.properties then Success(0)
    else match e.properties[key]
      case Int32Value(i) => Success(i)
      case StringValue(s) => (match ParseInt(s) case Success(v) => Success(v) case Failure(err) => Failure(BadNumber(err)))
      case _ => Success(0)
  }

  /**
   * GetProperty<uint>: a boxed UInt32 as it is; a missing property, or one
   * of another type, reads as the default 0.
   */
  function UIntProperty(e: Entity, key: String): (r: nat)
    ensures key in e.properties && e.properties[key].UInt32Value? ==> r == e.properties[key].u
    ensures key !in e.properties || !e.properties[key].UInt32Value? ==> r == 0
  {
    if key in e.properties && e.properties[key].UInt32Value? then e.properties[key].u else 0
  }

  /** The environment-type render attribute for a cube map texture's target. */
  function EnvironmentType(t: TextureTarget): int
  {
    match t
    case TextureCubeMapArray => 2
    case TextureCubeMap => 1
    case OtherTarget => 0
  }

  /** Dictionary.TryAdd: the first value stored under a key stays. */
  function TryAdd<K, V>(m: map<K, V>, k: K, v: V): (r: map<K, V>)
    ensures k in r && r.Keys == m.Keys + {k}
    ensures k in m ==> r == m
    ensures k !in m ==> r[k] == v && forall j :: j in m ==> r[j] == m[j]
  {
    if k in m then m else m[k := v]
  }

  /**
   * The environment map of a cube map entity that is not a plain light
   * probe volume. A legacy cube-map texture takes the next legacy index and
   * its own lightmap slot; other textures share the single slot and use
   * array_index. The index must stay below the maximum, and a positive
   * handshake registers the map, which throws for a handshake already used.
   */
  function AddEnvMap(c: Context, st: State, e: Entity, layerName: Option<String>): (r: Result<State, WorldError>)
    ensures r.Success? ==>
      r.value.enabledLayers == st.enabledLayers && r.value.cameras == st.cameras && r.value.lightProbes == st.lightProbes
    ensures r.Success? ==> KeepsLightmaps(st, r.value)
    ensures var tex := c.getTexture(StringProperty(e, "cubemaptexture"));
      tex.target == TextureCubeMap ==>
        (r.Success? ==>
           && r.value.legacyCubemapIndex == st.legacyCubemapIndex + 1 && st.legacyCubemapIndex < c.maxEnvMaps
           && ("g_tEnvironmentMap[" + IntToString(st.legacyCubemapIndex) + "]") in r.value.lightmaps)
        && (st.legacyCubemapIndex >= c.maxEnvMaps ==> r.Failure?)
    ensures var tex := c.getTexture(StringProperty(e, "cubemaptexture"));
      tex.target != TextureCubeMap && r.Success? ==> r.value.legacyCubemapIndex == st.legacyCubemapIndex
    ensures r.Success? && HandShake(e) <= 0 ==> r.value.envMaps == st.envMaps
    ensures r.Success? && HandShake(e) > 0 ==>
      && HandShake(e) !in st.envMaps && HandShake(e) in r.value.envMaps
      && r.value.envMaps == st.envMaps[HandShake(e) := r.value.envMaps[HandShake(e)]]
      && r.value.envMaps[HandShake(e)].handShake == HandShake(e)
    ensures HandShake(e) > 0 && HandShake(e) in st.envMaps ==> r.Failure?
  {
    var tex := c.getTexture(StringProperty(e, "cubemaptexture"));
    var st1 := st.(environmentType := EnvironmentType(tex.target));
    match IntProperty(e, "array_index")
    case Failure(err) => Failure(err)
    case Success(declared) =>
      var legacy := tex.target == TextureCubeMap;
      var arrayIndex := if legacy then st.legacyCubemapIndex else declared;
      var st2 := if legacy then
          st1.(legacyCubemapIndex := st.legacyCubemapIndex + 1,
               lightmaps := TryAdd(st1.lightmaps, "g_tEnvironmentMap[" + IntToString(arrayIndex) + "]", tex.handle))
        else st1.(lightmaps := TryAdd(st1.lightmaps, "g_tEnvironmentMap", tex.handle));
      if arrayIndex >= c.maxEnvMaps then Failure(EnvMapIndexTooLarge(arrayIndex))
      else
        match IntProperty(e, "indoor_outdoor_level")
        case Failure(err) => Failure(err)
        case Success(level) =>
          var hs := HandShake(e);
          var mode := if Classname(e) == Some("env_cubemap") then 0 else 1;
          var envMap := EnvMap(layerName, hs, arrayIndex, level, mode, tex);
          if hs > 0 then
            if hs in st2.envMaps then Failure(DuplicateHandShake(hs))
            else Success(st2.(envMaps := st2.envMaps[hs := envMap]))
          else Success(st2)
  }

  /** The light probe of a probe volume: registered under a positive handshake, which must be new. */
  function AddLightProbe(c: Context, st: State, e: Entity, layerName: Option<String>): (r: Result<State, WorldError>)
    ensures HandShake(e) <= 0 ==> r == Success(st)
    ensures HandShake(e) > 0 ==> (r.Failure? <==> HandShake(e) in st.lightProbes)
    ensures r.Success? && HandShake(e) > 0 ==>
      && HandShake(e) in r.value.lightProbes
      && r.value == st.(lightProbes := st.lightProbes[HandShake(e) := r.value.lightProbes[HandShake(e)]])
  {
    var hs := HandShake(e);
    var probe := LightProbe(layerName, hs, c.getTexture(StringProperty(e, "lightprobetexture")));
    if hs > 0 then
      if hs in st.lightProbes then Failure(DuplicateHandShake(hs))
      else Success(st.(lightProbes := st.lightProbes[hs := probe]))
    else Success(st)
  }

  predicate IsCamera(cls: Option<String>)
  {
    cls == Some("sky_camera") || cls == Some("point_devshot_camera")
    || cls == Some("point_camera_vertical_fov") || cls == Some("point_camera")
  }

  /** The camera name: the targetname when it is non-empty, else the class name. */
  function CameraName(e: Entity, classname: String): (r: String)
    ensures StringProperty(e, "targetname").Some? && |StringProperty(e, "targetname").value| > 0 ==>
      r == StringProperty(e, "targetname").value
    ensures StringProperty(e, "targetname").None? || |StringProperty(e, "targetname").value| == 0 ==> r == classname
  {
    var name := StringProperty(e, "targetname").GetOr("");
    if |name| == 0 then classname else name
  }

  /** holdanimation: a bool as it is, the strings "0" and "1" as false and true; anything else throws. */
  function HoldAnimation(v: PropValue): (r: Result<bool, WorldError>)
    ensures r.Success? <==> v.BoolValue? || v == StringValue("0") || v == StringValue("1")
    ensures v.BoolValue? ==> r == Success(v.b)
    ensures r.Success? && v.StringValue? ==> (r.value <==> v.s == "1")
  {
    match v
    case BoolValue(b) => Success(b)
    case StringValue(s) =>
      if s == "0" then Success(false) else if s == "1" then Success(true) else Failure(UnsupportedHoldAnimation)
    case _ => Failure(UnsupportedHoldAnimation)
  }

  /** The unchecked (int) cast of a 64-bit unsigned value: its low 32 bits as a signed number. */
  function UInt64ToInt32(v: nat): (r: int)
    requires v < 0x1_0000_0000_0000_0000
    ensures IsInt32(r) && (r - v) % 0x1_0000_0000 == 0
  {
    var low := v % 0x1_0000_0000;
    if low <= Int32Max then low else low - 0x1_0000_0000
  }

  /**
   * The body property of a model entity: a boxed UInt64 cast to int, a
   * parsable string, and -1 for anything else, including the other integer
   * widths.
   */
  function BodyGroup(body: PropValue): (r: int)
    ensures body.UInt64Value? && body.u < 0x1_0000_0000_0000_0000 ==> r == UInt64ToInt32(body.u)
    ensures body.StringValue? && ParseInt(body.s).Success? ==> r == ParseInt(body.s).value
    ensures body.StringValue? && ParseInt(body.s).Failure? ==> r == -1
    ensures !body.UInt64Value? && !body.StringValue? ==> r == -1
  {
    match body
    case UInt64Value(u) => if u < 0x1_0000_0000_0000_0000 then UInt64ToInt32(u) else -1
    case StringValue(s) => (match ParseInt(s) case Success(v) => v case Failure(_) => -1)
    case _ => -1
  }

  /** Skip(bodyGroup).Take(1): the mesh group at that position, none past the end, the first one for a negative position. */
  function BodyGroupSelection(groups: seq<String>, bodyGroup: int): (r: seq<String>)
    ensures |r| <= 1
    ensures 0 <= bodyGroup < |groups| ==> r == [groups[bodyGroup]]
    ensures bodyGroup < 0 && |groups| > 0 ==> r == [groups[0]]
    ensures bodyGroup >= |groups| ==> r == []
  {
    var skip := if bodyGroup < 0 then 0 else bodyGroup;
    if skip < |groups| then [groups[skip]] else []
  }

  /** Every environment map of `a` is still in `b`, unchanged. */
  predicate KeepsEnvMaps(a: State, b: State)
  {
    forall k :: k in a.envMaps ==> k in b.envMaps && b.envMaps[k] == a.envMaps[k]
  }

  /** Every lightmap of `a` is still bound, to the same texture, in `b`: the entities only TryAdd lightmaps. */
  predicate KeepsLightmaps(a: State, b: State)
  {
    forall u :: u in a.lightmaps ==> u in b.lightmaps && b.lightmaps[u] == a.lightmaps[u]
  }

  /**
   * The rules one entity goes through, in the source's order. Worldspawn is
   * skipped. A visible info_world_layer enables its layer. Cube maps and
   * probes register their maps. Entities with a default transform stop
   * there; cameras are recorded under their name, the first one winning;
   * a model entity whose model loads has its holdanimation checked.
   */
  function ProcessEntity(c: Context, st: State, e: Entity, layerName: Option<String>): (r: Result<State, WorldError>)
    ensures Classname(e) == Some("worldspawn") ==> r == Success(st)
    ensures r.Success? ==> KeepsEnvMaps(st, r.value)
    ensures r.Success? ==> KeepsLightmaps(st, r.value)
    ensures r.Success? ==>
      r.value.legacyCubemapIndex == st.legacyCubemapIndex + (if IsLegacyCubemap(c, e) then 1 else 0)
    ensures r.Success? && IsLegacyCubemap(c, e) ==> st.legacyCubemapIndex < c.maxEnvMaps
    ensures r.Success? && Classname(e) == Some("info_world_layer") ==>
      r.value.enabledLayers == st.enabledLayers +
        (if UIntProperty(e, "spawnflags") % 2 == 1 && StringProperty(e, "layername").Some?
         then {StringProperty(e, "layername").value} else {})
    ensures r.Success? && Classname(e) != Some("info_world_layer") ==> r.value.enabledLayers == st.enabledLayers
    ensures r.Success? && !IsCubemapOrProbe(Classname(e)) ==>
      r.value.envMaps == st.envMaps && r.value.lightProbes == st.lightProbes
    ensures r.Success? ==> forall k :: k in st.cameras ==> k in r.value.cameras && r.value.cameras[k] == st.cameras[k]
    ensures r.Success? && IsCamera(Classname(e)) && !e.transformIsDefault ==>
      CameraName(e, Classname(e).value) in r.value.cameras
    ensures r.Success? && (!IsCamera(Classname(e)) || e.transformIsDefault) ==> r.value.cameras == st.cameras
  {
    var cls := Classname(e);
    if cls == Some("worldspawn") then Success(st)
    else
      match ApplyClass(c, st, e, layerName)
      case Failure(err) => Failure(err)
      case Success(s) => PlaceEntity(c, s, e)
  }

  predicate IsGlobalLight(cls: Option<String>)
  {
    cls == Some("env_global_light") || cls == Some("light_environment")
  }

  /** Convert.ToSingle of a boxed value: numbers and booleans convert, a string must parse. */
  predicate ConvertsToSingle(c: Context, v: PropValue)
  {
    match v
    case Int32Value(_) => true
    case UInt32Value(_) => true
    case UInt64Value(_) => true
    case OtherNumber => true
    case BoolValue(_) => true
    case StringValue(t) => c.parsesAsSingle(t)
    case _ => false
  }

  /**
   * The sun light of a global light: its colour must be a byte array or a
   * vector, and a light_environment's brightness must convert to a float;
   * a missing property throws as well. The colour and brightness values
   * themselves are not modelled.
   */
  function CheckGlobalLight(c: Context, e: Entity): (r: Result<(), WorldError>)
    ensures r.Success? <==>
      && "color" in e.properties && (e.properties["color"].BytesValue? || e.properties["color"].VectorValue?)
      && (Classname(e) == Some("light_environment") ==>
            "brightness" in e.properties && ConvertsToSingle(c, e.properties["brightness"]))
  {
    if "color" !in e.properties then Failure(MissingProperty("color"))
    else if !(e.properties["color"].BytesValue? || e.properties["color"].VectorValue?) then Failure(UnsupportedLightColor)
    else if Classname(e) != Some("light_environment") then Success(())
    else if "brightness" !in e.properties then Failure(MissingProperty("brightness"))
    else if !ConvertsToSingle(c, e.properties["brightness"]) then Failure(NotConvertibleToSingle)
    else Success(())
  }

  /**
   * The part of an entity that needs its transform: a camera is recorded
   * under its name (the first one wins), a global light's colour and
   * brightness are read, and a model's hold animation is checked. An
   * entity with the default transform is skipped.
   */
  function PlaceEntity(c: Context, s: State, e: Entity): (r: Result<State, WorldError>)
    ensures r.Success? ==> r.value == s.(cameras := r.value.cameras)
    ensures !e.transformIsDefault && !IsCamera(Classname(e)) && IsGlobalLight(Classname(e)) ==>
      (r.Success? ==> CheckGlobalLight(c, e).Success?) && (CheckGlobalLight(c, e).Failure? ==> r.Failure?)
    ensures r.Success? ==> forall k :: k in s.cameras ==> k in r.value.cameras && r.value.cameras[k] == s.cameras[k]
    ensures r.Success? && IsCamera(Classname(e)) && !e.transformIsDefault ==>
      CameraName(e, Classname(e).value) in r.value.cameras
    ensures r.Success? && (!IsCamera(Classname(e)) || e.transformIsDefault) ==> r.value.cameras == s.cameras
  {
    var cls := Classname(e);
    if e.transformIsDefault then Success(s)
    else
      var s' := if IsCamera(cls) then s.(cameras := TryAdd(s.cameras, CameraName(e, cls.value), e)) else s;
      var model := StringProperty(e, "model");
      if !IsCamera(cls) && IsGlobalLight(cls) && CheckGlobalLight(c, e).Failure? then
        Failure(CheckGlobalLight(c, e).error)
      else if model.Some? && c.modelLoads(model.value) && "holdanimation" in e.properties then
        match HoldAnimation(e.properties["holdanimation"])
        case Failure(err) => Failure(err)
        case Success(_) => Success(s')
      else Success(s')
  }

  /** The class-specific part of an entity: a world layer, or a cube map or light probe. */
  function ApplyClass(c: Context, st: State, e: Entity, layerName: Option<String>): (r: Result<State, WorldError>)
    ensures Classname(e) == Some("info_world_layer") ==> r.Success?
    ensures r.Success? ==> KeepsEnvMaps(st, r.value) && r.value.cameras == st.cameras
    ensures r.Success? ==> KeepsLightmaps(st, r.value)
    ensures r.Success? ==>
      r.value.legacyCubemapIndex == st.legacyCubemapIndex + (if IsLegacyCubemap(c, e) then 1 else 0)
    ensures r.Success? && IsLegacyCubemap(c, e) ==> st.legacyCubemapIndex < c.maxEnvMaps
    ensures r.Success? && Classname(e) == Some("info_world_layer") ==>
      r.value.enabledLayers == st.enabledLayers +
        (if UIntProperty(e, "spawnflags") % 2 == 1 && StringProperty(e, "layername").Some?
         then {StringProperty(e, "layername").value} else {})
    ensures r.Success? && Classname(e) != Some("info_world_layer") ==> r.value.enabledLayers == st.enabledLayers
    ensures r.Success? && !IsCubemapOrProbe(Classname(e)) ==>
      r.value.envMaps == st.envMaps && r.value.lightProbes == st.lightProbes
  {
    var cls := Classname(e);
    if cls == Some("info_world_layer") then
      var flags := UIntProperty(e, "spawnflags");
      var layer := StringProperty(e, "layername");
      Success(if flags % 2 == 1 && layer.Some? then st.(enabledLayers := st.enabledLayers + {layer.value}) else st)
    else if IsCubemapOrProbe(cls) then
      var withEnv := if cls != Some("env_light_probe_volume") then AddEnvMap(c, st, e, layerName) else Success(st);
      match withEnv
      case Failure(err) => Failure(err)
      case Success(s) =>
        if cls == Some("env_combined_light_probe_volume") || cls == Some("env_light_probe_volume")
        then AddLightProbe(c, s, e, layerName)
        else Success(s)
    else Success(st)
  }

  /** The entities of one lump in the given order. */
  function ProcessAll(c: Context, st: State, es: seq<Entity>, layerName: Option<String>): (r: Result<State, WorldError>)
    ensures r.Success? ==> st.enabledLayers <= r.value.enabledLayers
    ensures r.Success? ==> KeepsEnvMaps(st, r.value)
    ensures r.Success? ==> KeepsLightmaps(st, r.value)
    decreases |es|
  {
    if |es| == 0 then Success(st)
    else
      match ProcessEntity(c, st, es[0], layerName)
      case Failure(err) => Failure(err)
      case Success(s) => ProcessAll(c, s, es[1..], layerName)
  }

  /** Whether an entity is a legacy cube map: an environment map whose texture is a plain cube map. */
  predicate IsLegacyCubemap(c: Context, e: Entity)
  {
    IsCubemapOrProbe(Classname(e)) && Classname(e) != Some("env_light_probe_volume")
    && c.getTexture(StringProperty(e, "cubemaptexture")).target == TextureCubeMap
  }

  function LegacyCount(c: Context, es: seq<Entity>): nat
  {
    if |es| == 0 then 0 else (if IsLegacyCubemap(c, es[0]) then 1 else 0) + LegacyCount(c, es[1..])
  }

  /**
   * Legacy cube maps take consecutive indices: after a successful pass the
   * counter has advanced by exactly the number of legacy cube maps, and no
   * index reached the maximum.
   */
  lemma {:induction false} LegacyIndicesConsecutive(c: Context, st: State, es: seq<Entity>, layerName: Option<String>)
    requires ProcessAll(c, st, es, layerName).Success?
    decreases |es|
    ensures ProcessAll(c, st, es, layerName).value.legacyCubemapIndex == st.legacyCubemapIndex + LegacyCount(c, es)
    ensures LegacyCount(c, es) > 0 ==> st.legacyCubemapIndex + LegacyCount(c, es) <= c.maxEnvMaps
  {
    if |es| > 0 {
      var s := ProcessEntity(c, st, es[0], layerName).value;
      LegacyIndicesConsecutive(c, s, es[1..], layerName);
    }
  }

  /** An entity lump with its child lumps already loaded; a child that failed to load is absent. */
  datatype Lump = Lump(name: Option<String>, children: seq<Lump>, entities: seq<Entity>)

  /**
   * LoadEntitiesFromLump: the child lumps first, each under its own name
   * as layer, then this lump's entities in processing order, with the
   * legacy cube-map counter starting from zero for this lump.
   */
  function LoadLump(c: Context, st: State, lump: Lump, layerName: Option<String>): (r: Result<State, WorldError>)
    decreases lump, 1
    ensures r.Success? ==> st.enabledLayers <= r.value.enabledLayers
    ensures r.Success? ==> KeepsLightmaps(st, r.value)
  {
    match LoadChildren(c, st, lump.children, 0)
    case Failure(err) => Failure(err)
    case Success(s) => ProcessAll(c, s.(legacyCubemapIndex := 0), Reorder(lump.entities), layerName)
  }

  function LoadChildren(c: Context, st: State, children: seq<Lump>, i: nat): (r: Result<State, WorldError>)
    requires i <= |children|
    decreases children, |children| - i
    ensures r.Success? ==> st.enabledLayers <= r.value.enabledLayers
    ensures r.Success? ==> KeepsLightmaps(st, r.value)
  {
    if i == |children| then Success(st)
    else
      match LoadLump(c, st, children[i], children[i].name)
      case Failure(err) => Failure(err)
      case Success(s) => LoadChildren(c, s, children, i + 1)
  }

  /** The state the loader starts from: only the Entities layer is enabled. */
  const Initial: State := State({"Entities"}, map[], 0, map[], map[], map[], 0)

  /** The layer name the loader gives every top-level entity lump. */
  const BaseLayer: String := "world_layer_base"

  /** The world's entity lumps in order, each under the base layer; a lump that failed to load is absent. */
  function LoadLumps(c: Context, st: State, lumps: seq<Lump>): (r: Result<State, WorldError>)
    ensures r.Success? ==> st.enabledLayers <= r.value.enabledLayers
    ensures r.Success? ==> KeepsLightmaps(st, r.value)
    ensures |lumps| == 0 ==> r == Success(st)
    decreases |lumps|
  {
    if |lumps| == 0 then Success(st)
    else
      match LoadLump(c, st, lumps[0], Some(BaseLayer))
      case Failure(err) => Failure(err)
      case Success(s) => LoadLumps(c, s, lumps[1..])
  }

  /** The scene after Load: its lighting info, holding the final lightmaps, and the loader's state. */
  datatype Loaded = Loaded(lighting: Lighting, state: State)

  /** The BRDF lookup table's uniform, set after the world lighting info when the table loads. */
  const BrdfLookup: String := "g_tBRDFLookup"

  /**
   * The state the lumps start from: the Initial state holding the lightmaps
   * of the world lighting info, with the BRDF lookup table stored over any
   * earlier entry of that name.
   */
  function LitState(scene: Lighting, info: Option<WorldLightingInfo>, loadTexture: String -> nat, brdf: Option<nat>):
    (r: State)
    ensures r.(lightmaps := Initial.lightmaps) == Initial
    ensures brdf.Some? ==> BrdfLookup in r.lightmaps && r.lightmaps[BrdfLookup] == brdf.value
    ensures forall u :: u in LoadLighting(scene, info, loadTexture).lightmaps && (brdf.None? || u != BrdfLookup) ==>
      u in r.lightmaps && r.lightmaps[u] == LoadLighting(scene, info, loadTexture).lightmaps[u]
    ensures forall u :: u in r.lightmaps ==> u in LoadLighting(scene, info, loadTexture).lightmaps || u == BrdfLookup
  {
    var lit := LoadLighting(scene, info, loadTexture).lightmaps;
    Initial.(lightmaps := if brdf.Some? then lit[BrdfLookup := brdf.value] else lit)
  }

  /**
   * Load: the Entities layer, the world lighting info (LoadWorldLightingInfo),
   * the BRDF lookup table when it loads, then every entity lump of the world
   * under world_layer_base. `scene` is the scene's lighting info before the
   * load, and `brdf` the texture the BRDF table loads to, if any.
   */
  function Load(c: Context, scene: Lighting, info: Option<WorldLightingInfo>, loadTexture: String -> nat,
                brdf: Option<nat>, lumps: seq<Lump>): (r: Result<Loaded, WorldError>)
    ensures r.Success? ==> "Entities" in r.value.state.enabledLayers
    ensures r.Success? ==> r.value.lighting.lightmaps == r.value.state.lightmaps
    ensures r.Success? ==> r.value.lighting == LoadLighting(scene, info, loadTexture).(lightmaps := r.value.lighting.lightmaps)
    ensures r.Success? && brdf.Some? ==>
      BrdfLookup in r.value.lighting.lightmaps && r.value.lighting.lightmaps[BrdfLookup] == brdf.value
    ensures r.Success? ==>
      forall u :: u in LoadLighting(scene, info, loadTexture).lightmaps && (brdf.None? || u != BrdfLookup) ==>
        u in r.value.lighting.lightmaps && r.value.lighting.lightmaps[u] == LoadLighting(scene, info, loadTexture).lightmaps[u]
    ensures |lumps| == 0 ==> r.Success? && r.value.state == LitState(scene, info, loadTexture, brdf)
    ensures |lumps| > 0 && LoadLump(c, LitState(scene, info, loadTexture, brdf), lumps[0], Some(BaseLayer)).Failure? ==>
      r == Failure(LoadLump(c, LitState(scene, info, loadTexture, brdf), lumps[0], Some(BaseLayer)).error)
  {
    var start := LitState(scene, info, loadTexture, brdf);
    match LoadLumps(c, start, lumps)
    case Failure(err) => Failure(err)
    case Success(st) => Success(Loaded(LoadLighting(scene, info, loadTexture).(lightmaps := st.lightmaps), st))
  }

  /** The Entities layer stays enabled whatever the lumps contain. */
  lemma EntitiesLayerAlwaysEnabled(c: Context, scene: Lighting, info: Option<WorldLightingInfo>, loadTexture: String -> nat,
                                   brdf: Option<nat>, lumps: seq<Lump>)
    requires Load(c, scene, info, loadTexture, brdf, lumps).Success?
    ensures "Entities" in Load(c, scene, info, loadTexture, brdf, lumps).value.state.enabledLayers
  {
  }
}

=== FILE: wrappers.dfy ===
/** Option, Result and byte types shared by the whole model. */
module Wrappers {

  datatype Option<T> = None | Some(value: T)
  {
    function GetOr(default: T): T
    {
      match this
      case None => default
      case Some(v) => v
    }
  }

  /** The outcome of an operation that the source may abort by throwing. */
  datatype Result<T, E> = Success(value: T) | Failure(error: E)
  {
    predicate IsFailure() { Failure? }
  }

  /** An unsigned 8-bit value. */
  newtype Byte = x: int | 0 <= x < 256
}
